=== FILE: README.md ===
# erldb driver and server core, modelled in Dafny

erldb is a distributed SQLite service. Clients reach it through a JDBC driver written in Kotlin (package `com.erldb`). The driver talks JSON over HTTP to a cluster of nodes. Each node runs SQLite behind a Rust NIF (`rusqlite_async`). This project models the parts of that system that decide what the data looks like and what a client sees:

- **value codec.** The five SQLite storage classes are written as `[tag, payload]` pairs by the driver (`SQLiteValue`), by the admin service's DTO (`SQLiteValueDTO`) and by the NIF's encoder and decoder. Blob payloads are in base64: standard padded in Kotlin, URL-safe unpadded in Rust. Modules: `SQLiteValue`, `SQLiteValueDTO`, `NifCodec`, `Base64`, `Json`.
- **column indices.** The checked one-based and zero-based index wrappers, with their 64-bit arithmetic. Module: `ColumnIndex`.
- **transport.** The node list of an `HttpAccess`, failover to another node, the retry loop with its doubling back-off, and the `{"ok": …}` / `{"error": …}` reply envelope. Modules: `HttpAccess` and `Remote`.
- **server as seen by the driver.** The server is a queue of replies that are consumed in order. Every request is appended to a log, so "which SQL did this operation send" is a contract about the log. Statement handles are either real (`StatementAccess`) or the placeholder `NotReadyStatementAccess`. Module: `Remote`.
- **connection.** URL parsing (`JdbcUrl`), the driver's URL check (`Driver`), configuration and savepoints (`Config`), and the connection state machine (`Connection`). The state machine covers auto-commit, rollback, savepoints, read-only rules, isolation, the statement registry and closing.
- **statement.** The FIFO row buffer refilled by `stepBy(100)`, `execute`, updates, limits and closing (`Statement`). Reading every row over a server scripted to answer given batches and then the end of the rows (`StatementWalk`) shows that the rows come back in order, none lost or repeated. Then the prepared statement: dense parameter arrays, setters, and the three execution paths (`PreparedStatement`).
- **cursors.** The forward-only cursor with `maxRows`, `lastCol` and `wasNull` (`ResultSet`). The list-backed result set behind `getGeneratedKeys` (`ListResultSet`).
- **the Rust statement task.** The request/reply protocol of a statement task: batching rows into non-empty batches of at most n, bind and clear rules, and cloning. Also the consistency checks on handles and the client calls `step_by` and `step_all` (`StatementTask`). Finally the way database and bucket names become file names and are listed back (`ServerFiles`).

Every JDBC call that can throw returns a `Result` whose error is an `Exception` value (module `Errors`). Kotlin's `TODO()` raises an `Error`, which no `catch (e: Exception)` intercepts; the model keeps that distinction. Integer widths are explicit: Kotlin `Int` and `Long` values and their wrap-arounds and narrowing conversions go through the truncations in `Ints`. Decimal text is parsed by `Decimal`, which reads the decimal digits of every script as `Character.digit` does, doubles are kept as their bit patterns in `Doubles`, and case-insensitive name matching is in `Chars`. Where the code does something its authors evidently did not intend, the model keeps both versions: the member named as in the source models the code as written, and a `…Fixed` or `…Corrected` member models the evident intent. The "## Findings" section lists each such pair.

The repository's own documentation says the driver's explicit `BEGIN;`/`COMMIT;` pair follows a mutating execution in auto-commit mode. In the code, `ErldbStatement.execute` calls `ensureAutoCommit` with the statement's own `autoCommit` field, which is always true, after every execution that returns a row, whatever the connection's mode. The model follows the code (`Statement.Deliver`, `Remote.EnsureAutoCommit`).

## Model

| member | source | states |
|---|---|---|
| SQLiteValue.ToAny | server/driver/src/main/kotlin/com/erldb/SQLiteValue.kt:42-48 | the host value handed out is null exactly for a null cell |
| SQLiteValue.From | server/driver/src/main/kotlin/com/erldb/SQLiteValue.kt:108-123 | a host value is stored exactly when it is one of the accepted kinds; a boolean becomes 1 or 0 and a date-time its ISO text; any other value fails with "Unsupported type: " and its class name |
| SQLiteValue.Into | server/driver/src/main/kotlin/com/erldb/SQLiteValue.kt:58-98 | a null cell reads as null for every type; any other cell fails exactly when the type asked for is not one its storage class can be read as, or when a text cell is asked for as `Array<Char>`; the first failure is "Unsupported type" naming the type by its boxed JVM class, since the type argument is reified (`java.lang.Integer` for `Int`); the second is the class-cast failure of casting a `char[]` to `Character[]` |
| SQLiteValue.IntoTextAsInt | server/driver/src/main/kotlin/com/erldb/SQLiteValue.kt:80-86 | reading a text cell as `Int` fails with "Unsupported type: java.lang.Integer" |
| SQLiteValue.IntoTextAsBoxedChars | server/driver/src/main/kotlin/com/erldb/SQLiteValue.kt:83-86 | every text cell read as `Array<Char>` throws a class-cast failure, while read as `CharArray` it gives its characters |
| SQLiteValue.IntoIntTruncates | server/driver/src/main/kotlin/com/erldb/SQLiteValue.kt:67 | reading an integer cell as an Int always succeeds, agrees with the cell modulo 2^32, and equals it when it fits in 32 bits |
| SQLiteValue.FromToAny | server/driver/src/main/kotlin/com/erldb/SQLiteValue.kt:108-123 | storing back what toAny handed out gives the same cell, for every cell |
| SQLiteValue.ToAnyFrom | server/driver/src/main/kotlin/com/erldb/SQLiteValue.kt:42-48 | toAny undoes from exactly on the host values toAny can produce |
| SQLiteValue.IntoNaturalType | server/driver/src/main/kotlin/com/erldb/SQLiteValue.kt:58-98 | a non-null cell read as its own storage class's type gives the same value as toAny |
| SQLiteValue.BlobRoundTrip | server/driver/src/main/kotlin/com/erldb/SQLiteValue.kt:140 | each base64 codec reads back every blob it writes |
| SQLiteValue.ToJson | server/driver/src/main/kotlin/com/erldb/SQLiteValue.kt:153-182 | writing fails exactly for a NaN or infinite real; otherwise the array has two elements, the first being the cell's tag; a null is written as [0, "null"] |
| SQLiteValue.FromJson | server/driver/src/main/kotlin/com/erldb/SQLiteValue.kt:132-146 | a cell is read only when element 0 reads as its tag; a readable tag outside 0..4 fails with "Unknown type for SQLiteValue" |
| SQLiteValue.JsonRoundTrip | server/driver/src/main/kotlin/com/erldb/SQLiteValue.kt:132-182 | every cell the writer accepts is read back unchanged, with either codec |
| SQLiteValue.NullPayloadIgnored | server/driver/src/main/kotlin/com/erldb/SQLiteValue.kt:135 | tag 0 reads as null whatever follows it |
| SQLiteValueDTO.AsArray | server/spring/src/main/kotlin/it/unipi/dsmt/microservices/erldbadmin/dto/erldb/SQLiteValueDTO.kt:46-54 | the array has two elements and the first is the boxed Int tag |
| SQLiteValueDTO.FromArray | server/spring/src/main/kotlin/it/unipi/dsmt/microservices/erldbadmin/dto/erldb/SQLiteValueDTO.kt:110-125 | a cell is read only when element 0 is the boxed Int of its tag; an integer cell is read only from a boxed Int payload |
| SQLiteValueDTO.FromArrayCorrected | server/spring/src/main/kotlin/it/unipi/dsmt/microservices/erldbadmin/dto/erldb/SQLiteValueDTO.kt:110-125 | a cell is read only when element 0 is the boxed Int of its tag |
| SQLiteValueDTO.ArrayRoundTrip | server/spring/src/main/kotlin/it/unipi/dsmt/microservices/erldbadmin/dto/erldb/SQLiteValueDTO.kt:46-125 | the corrected reader reads back every cell JSON can carry, after the writer and the JSON trip |
| SQLiteValueDTO.WideIntegerRejected | server/spring/src/main/kotlin/it/unipi/dsmt/microservices/erldbadmin/dto/erldb/SQLiteValueDTO.kt:113 | as written, an integer outside the 32-bit range is refused after the JSON trip |
| SQLiteValueDTO.CorrectedAgrees | server/spring/src/main/kotlin/it/unipi/dsmt/microservices/erldbadmin/dto/erldb/SQLiteValueDTO.kt:110-125 | the corrected reader differs from the original only on an integer tag with a Long payload |
| SQLiteValueDTO.ConvertViaJson | server/spring/src/main/kotlin/it/unipi/dsmt/microservices/erldbadmin/controller/LoggedController.kt:18-25 | converting between the two classes gives back the same cell, and succeeds exactly when the cell can travel as JSON |
| NifCodec.Encode | cluster/my_nif/native/my_nif/rusqlite_async/src/lib.rs:21-48 | a cell becomes a pair whose first element is its tag; a null's payload is the binary "null" and a blob's its URL-safe unpadded base64 text |
| NifCodec.Decode | cluster/my_nif/native/my_nif/rusqlite_async/src/lib.rs:50-80 | a term is read only as a pair whose first element is the tag of what it yields; a term that is not a pair with a 32-bit first element is a badarg; a tag outside 0..4 is refused as an invalid type value |
| NifCodec.DecodeEncode | cluster/my_nif/native/my_nif/rusqlite_async/src/lib.rs:21-80 | every cell is read back from its own encoding |
| NifCodec.EncodeDecode | cluster/my_nif/native/my_nif/rusqlite_async/src/lib.rs:50-80 | the encoding is canonical: every accepted term other than a null is exactly the encoding of what it yields |
| NifCodec.ErrorText | cluster/my_nif/native/my_nif/rusqlite_async/src/lib.rs:82-108 | the text of an error starts with the prefix of its origin, and the rest is its display text |
| NifCodec.ErrorTextParses | cluster/my_nif/native/my_nif/rusqlite_async/src/lib.rs:82-108 | the prefixes are unambiguous: every error text is read back as its origin and its detail |
| NifCodec.InternalErrorsIndistinguishable | cluster/my_nif/native/my_nif/rusqlite_async/src/lib.rs:91-99 | a channel failure and a custom error with the same message give the same text |
| NifCodec.DriverBlobRejected | server/driver/src/main/kotlin/com/erldb/SQLiteValue.kt:176-179 | as written, a blob whose length is not a multiple of three is written padded by the driver, and the server refuses it as invalid base64 |
| NifCodec.DriverBlobRejectedExample | server/driver/src/main/kotlin/com/erldb/SQLiteValue.kt:176-179 | as written, the one-byte blob 0 is written as "AA==" and refused by the server |
| NifCodec.ServerBlobRejectedByDriver | server/driver/src/main/kotlin/com/erldb/SQLiteValue.kt:139-142 | as written, the server's text "-w" for the byte 0xFB is refused by the driver's decoder |
| NifCodec.CrossRoundTrip | cluster/my_nif/native/my_nif/rusqlite_async/src/lib.rs:21-80 | with the URL-safe unpadded codec on both sides, every cell the driver writes reaches the server intact, and every cell the server writes reaches the driver intact |
| ColumnIndex.NewOne | server/driver/src/main/kotlin/com/erldb/OneColumnIndex.kt:16-33 | a one-based index is made exactly from a value of at least 1, and holds that value; below 1 the constructor fails with "column index must be >= 1" |
| ColumnIndex.NewZero | server/driver/src/main/kotlin/com/erldb/ZeroColumnIndex.kt:12-24 | a zero-based index is made exactly from a value of at least 0, and holds that value; below 0 the constructor fails with "column index must be >= 0" |
| ColumnIndex.ToZero | server/driver/src/main/kotlin/com/erldb/OneColumnIndex.kt:39-41 | converting a one-based index down never fails, since the index is at least 1 |
| ColumnIndex.FromZero | server/driver/src/main/kotlin/com/erldb/OneColumnIndex.kt:49-51 | converting up succeeds exactly below the largest Long, and adds one |
| ColumnIndex.ZeroFromOne | server/driver/src/main/kotlin/com/erldb/ZeroColumnIndex.kt:41-43 | the companion conversion gives the same index as toZeroColumnIndex |
| ColumnIndex.OneRoundTrip | server/driver/src/main/kotlin/com/erldb/ZeroColumnIndex.kt:30-32 | going down and back up gives the same one-based index |
| ColumnIndex.ZeroRoundTrip | server/driver/src/main/kotlin/com/erldb/ZeroColumnIndex.kt:30-43 | going up and back down gives the same zero-based index whenever going up succeeds |
| ColumnIndex.LargestZeroHasNoOne | server/driver/src/main/kotlin/com/erldb/ZeroColumnIndex.kt:30-32 | the zero-based index Long.MAX_VALUE has no one-based counterpart |
| ColumnIndex.FromRaw | server/driver/src/main/kotlin/com/erldb/ZeroColumnIndex.kt:50-52 | as written, a raw index is accepted exactly when it is at least 1 or is the smallest Long; a positive one gives one less |
| ColumnIndex.FromRawWraps | server/driver/src/main/kotlin/com/erldb/ZeroColumnIndex.kt:50-52 | as written, the smallest Long is accepted and gives the index Long.MAX_VALUE |
| ColumnIndex.FromRawChecked | server/driver/src/main/kotlin/com/erldb/ZeroColumnIndex.kt:50-52 | with the wrap-around excluded, a raw index is accepted exactly when it is at least 1 |
| ColumnIndex.FromRawCheckedInvertsFromZero | server/driver/src/main/kotlin/com/erldb/ZeroColumnIndex.kt:50-52 | the checked reader gives a zero-based index exactly when converting that index up gives the raw value |
| ColumnIndex.Plus | server/driver/src/main/kotlin/com/erldb/ZeroColumnIndex.kt:63-65 | a sum succeeds exactly when it lies between 0 and the largest Long, and is then the exact sum |
| ColumnIndex.Minus | server/driver/src/main/kotlin/com/erldb/ZeroColumnIndex.kt:66 | a difference succeeds exactly when the subtrahend is not larger, and then adding it back gives the minuend |
| ColumnIndex.Times | server/driver/src/main/kotlin/com/erldb/ZeroColumnIndex.kt:67 | a product that fits in a Long is exact; any accepted product agrees with the true one modulo 2^64 |
| ColumnIndex.Div | server/driver/src/main/kotlin/com/erldb/ZeroColumnIndex.kt:68 | a quotient fails exactly on a zero divisor, with division by zero, and is never larger than the dividend |
| ColumnIndex.Rem | server/driver/src/main/kotlin/com/erldb/ZeroColumnIndex.kt:69 | a remainder fails exactly on a zero divisor and is smaller than the divisor |
| ColumnIndex.DivRem | server/driver/src/main/kotlin/com/erldb/ZeroColumnIndex.kt:68-69 | quotient times divisor plus remainder is the dividend |
| ColumnIndex.Negate | server/driver/src/main/kotlin/com/erldb/ZeroColumnIndex.kt:70 | negation succeeds only on zero, and gives zero |
| ColumnIndex.Inc | server/driver/src/main/kotlin/com/erldb/ZeroColumnIndex.kt:71 | incrementing succeeds exactly below the largest Long, and adds one |
| ColumnIndex.Dec | server/driver/src/main/kotlin/com/erldb/ZeroColumnIndex.kt:72 | decrementing succeeds exactly on a positive index, and subtracts one |
| ColumnIndex.IncDec | server/driver/src/main/kotlin/com/erldb/ZeroColumnIndex.kt:71-72 | dec undoes inc, and inc undoes dec, wherever they succeed |
| ColumnIndex.PlusOneIsInc | server/driver/src/main/kotlin/com/erldb/ZeroColumnIndex.kt:64-71 | adding one is incrementing |
| Config.Initial | server/driver/src/main/kotlin/com/erldb/ErldbConnection.kt:38-40 | a new connection starts deferred, in auto-commit, not read-only, opened read-write, with the default date format |
| Config.BusyTimeout | server/driver/src/main/kotlin/com/erldb/ErldbConfig.kt:16 | the busy timeout is 0 whatever the configuration |
| Config.DateMultiplier | server/driver/src/main/kotlin/com/erldb/ErldbConfig.kt:19-22 | the date multiplier is 1 whatever the configuration |
| Config.TransactionIsolation | server/driver/src/main/kotlin/com/erldb/ErldbConfig.kt:25 | the isolation level is serializable whatever the configuration |
| Config.TransactionPrefix | server/driver/src/main/kotlin/com/erldb/ErldbConfig.kt:28-33 | every prefix is a "begin" statement ending in ';', and it is the bare "begin;" exactly in deferred mode |
| Config.PrefixDeterminesMode | server/driver/src/main/kotlin/com/erldb/ErldbConfig.kt:28-33 | the transaction mode can be read back from its prefix |
| Config.PrefixInjective | server/driver/src/main/kotlin/com/erldb/ErldbConfig.kt:28-33 | two modes share a prefix only when they are the same mode |
| Config.SavepointId | server/driver/src/main/kotlin/com/erldb/ErldbSavepoint.kt:23-25 | the id reported is the one the savepoint was made with |
| Config.SavepointName | server/driver/src/main/kotlin/com/erldb/ErldbSavepoint.kt:28-30 | a named savepoint reports its name; an unnamed one reports "SQLITE_SAVEPOINT_" followed by text from which its id reads back |
| Config.DefaultNamesDistinct | server/driver/src/main/kotlin/com/erldb/ErldbSavepoint.kt:28-30 | unnamed savepoints with different ids have different names |
| Driver.AcceptsByCharacters | server/driver/src/main/kotlin/com/erldb/ErldbDriver.kt:25 | a URL is accepted exactly when each of its first eleven characters is the prefix's character or that character's capital |
| Driver.AcceptsIgnoresCase | server/driver/src/main/kotlin/com/erldb/ErldbDriver.kt:25 | a URL is accepted exactly when its lowered form is |
| Driver.PrefixAccepted | server/driver/src/main/kotlin/com/erldb/ErldbDriver.kt:10-25 | a URL that starts with "jdbc:erldb:" is accepted |
| Driver.Trim | server/driver/src/main/kotlin/com/erldb/ErldbDriver.kt:23 | the trimmed text neither starts nor ends with whitespace and is no longer than the original |
| Driver.TrimPadded | server/driver/src/main/kotlin/com/erldb/ErldbDriver.kt:23 | trimming text that neither starts nor ends with whitespace, surrounded by whitespace, gives exactly that text |
| Driver.TrimIdempotent | server/driver/src/main/kotlin/com/erldb/ErldbDriver.kt:23 | trimming twice gives what trimming once gives |
| Driver.AcceptedTrimsOnlyTheEnd | server/driver/src/main/kotlin/com/erldb/ErldbDriver.kt:19-25 | an accepted URL loses whitespace only at its end when it is trimmed |
| Driver.Connect | server/driver/src/main/kotlin/com/erldb/ErldbDriver.kt:19-24 | a URL the driver does not accept gives null and sends nothing; an accepted URL that does not parse fails with the parser's error and sends nothing; one that parses asks the cluster for exactly its bucket and file; a connection returned is open, has no statements and uses the parsed nodes |
| Driver.ConnectWellFormed | server/driver/src/main/kotlin/com/erldb/ErldbDriver.kt:19-25 | a well-formed URL followed by any whitespace is accepted, trims to itself, parses back to its nodes, bucket and file, and the connection asks for that bucket and file |
| JdbcUrl.MatchScheme | server/driver/src/main/kotlin/com/erldb/ErldbConnection.kt:42 | a match of `jdbc:(.+?)://` found from a start position is followed by "://" and closes the host list with '/' before the bucket and file groups |
| JdbcUrl.MatchHosts | server/driver/src/main/kotlin/com/erldb/ErldbConnection.kt:42 | the host-list group `(?:.+?:\d+,)*.+?:\d+` ends at a '/' that leaves room for the bucket and file groups |
| JdbcUrl.MatchBucket | server/driver/src/main/kotlin/com/erldb/ErldbConnection.kt:42 | the bucket group `(.*?)` closes at a '/' after which the file group reaches a position where `$` holds |
| JdbcUrl.MatchEnd | server/driver/src/main/kotlin/com/erldb/ErldbConnection.kt:42 | the lazy file group stops at the first position where `$` holds, at the end or before a final line terminator |
| JdbcUrl.SplitOn | server/driver/src/main/kotlin/com/erldb/ErldbConnection.kt:48 | `split(",")` yields at least one piece and no piece contains the separator |
| JdbcUrl.SplitJoin | server/driver/src/main/kotlin/com/erldb/ErldbConnection.kt:48-51 | splitting pieces joined by a separator they do not contain gives back exactly those pieces |
| JdbcUrl.JoinSplit | server/driver/src/main/kotlin/com/erldb/ErldbConnection.kt:48-51 | joining the pieces of a split with the separator gives back the text |
| JdbcUrl.PortOf | server/driver/src/main/kotlin/com/erldb/ErldbConnection.kt:51 | an entry's port is the `Int` value of its second ':'-separated piece, the text between the first ':' and the next one or the end; an entry with no ':' fails with an index error, one whose port does not parse as `Int` with "invalid port number"; digits of any script count, so an ARABIC-INDIC port is read as its value |
| JdbcUrl.PortsOf | server/driver/src/main/kotlin/com/erldb/ErldbConnection.kt:51 | ports are read for every entry, in order; a failure is the failure of some entry |
| JdbcUrl.ParseUrl | server/driver/src/main/kotlin/com/erldb/ErldbConnection.kt:42-56 | "invalid url" exactly when the pattern finds no match; otherwise one node per comma-separated entry, each with the host before its first ':' and its port, plus the bucket and file groups; no other error can arise |
| JdbcUrl.UrlRoundTrip | server/driver/src/main/kotlin/com/erldb/ErldbConnection.kt:42-56 | a URL built from a sub-protocol, well-formed nodes, a bucket and a file is read back as exactly those nodes, bucket and file |
| JdbcUrl.EntryOf | server/driver/src/main/kotlin/com/erldb/ErldbConnection.kt:50-51 | one `host:port` entry reads back as its host and port |
| JdbcUrl.EntriesOf | server/driver/src/main/kotlin/com/erldb/ErldbConnection.kt:48 | a host list splits on ',' into one entry per node |
| JdbcUrl.NoSchemeRefused | server/driver/src/main/kotlin/com/erldb/ErldbConnection.kt:43-45 | text that nowhere contains "jdbc:" is refused as an invalid URL |
| HttpAccess.Init | server/driver/src/main/kotlin/com/erldb/HttpAccess.kt:18-39 | construction fails exactly on an empty node list; otherwise the transport is open, keeps the nodes, and its current node is one of them |
| HttpAccess.CheckOpen | server/driver/src/main/kotlin/com/erldb/HttpAccess.kt:25-29 | succeeds exactly when the transport is open, else fails with "Not open" |
| HttpAccess.ChangeNode | server/driver/src/main/kotlin/com/erldb/HttpAccess.kt:96-113 | a single node is an immediate "No more nodes to try"; otherwise at most eleven draws are used, a success moves to the first drawn node that differs from the current one, and a failure means all eleven draws named the current node |
| HttpAccess.ChangeNodeMoves | server/driver/src/main/kotlin/com/erldb/HttpAccess.kt:96-113 | a successful failover keeps the node list, keeps the current node among them, and moves to a different node |
| HttpAccess.CustomPost | server/driver/src/main/kotlin/com/erldb/HttpAccess.kt:116-131 | at most ten tries, the first against the current node and each later one against a different node; the k-th failure sleeps 16·2^(k+1) ms; the answer is the first answered try's body; the error is the failover's own or, after ten failures, "Failed to connect to any node"; a first-try answer changes nothing |
| HttpAccess.ParseResponse | server/driver/src/main/kotlin/com/erldb/HttpAccess.kt:140-148 | a missing body reads as the empty object; a body is accepted exactly when it is a JSON object, and then as that object's fields |
| HttpAccess.ReadOk | server/driver/src/main/kotlin/com/erldb/HttpAccess.kt:76-84 | reading `ok` succeeds only when the field is present, the wanted type is not `Unit`, and the value fits that type |
| HttpAccess.DoRequest | server/driver/src/main/kotlin/com/erldb/HttpAccess.kt:67-94 | `{"ok":null}` is `Unit` for a `Unit` caller and `null` for a nullable one; any other envelope succeeds exactly when `ok` reads as the wanted type; a failure carries the `error` string or "unexpected error" |
| HttpAccess.OkReplyRoundTrip | server/driver/src/main/kotlin/com/erldb/HttpAccess.kt:67-94 | every payload written by the server as `{"ok": …}` is read back as itself by a caller expecting its type |
| HttpAccess.NullRefused | server/driver/src/main/kotlin/com/erldb/HttpAccess.kt:70-75 | `{"ok":null}` for a non-`Unit`, non-nullable caller fails with "unexpected error" |
| HttpAccess.ErrorReplyReported | server/driver/src/main/kotlin/com/erldb/HttpAccess.kt:86-89 | an error envelope surfaces as the server's message whatever type was wanted |
| HttpAccess.EmptyReplyUnexpected | server/driver/src/main/kotlin/com/erldb/HttpAccess.kt:86-92 | a reply without a body is neither `ok` nor `error` and fails with "unexpected error" |
| Remote.Request | server/driver/src/main/kotlin/com/erldb/HttpAccess.kt:67-94 | every call is posted and logged; a transport failure is thrown as itself; a result that succeeds fits the wanted type |
| Remote.RequestOk | server/driver/src/main/kotlin/com/erldb/HttpAccess.kt:67-94 | the server's `ok` reply is read back as the value it wrote, whichever call was posted |
| Remote.RequestError | server/driver/src/main/kotlin/com/erldb/HttpAccess.kt:86-89 | the server's error reply comes back as a failed result carrying its message, for any call and any wanted type |
| Remote.NewNotReady | server/driver/src/main/kotlin/com/erldb/NotReadyStatementAccess.kt:6-14 | a new placeholder handle gets a fresh identity, posts nothing and leaves every existing handle as it was |
| Remote.CloseHandle | server/driver/src/main/kotlin/com/erldb/StatementAccess.kt:28-35 | the placeholder closes silently; a closed remote handle throws "Not open"; an open one posts `finalize` for its statement and ends closed whatever the server answers; no other handle changes |
| Remote.Target | server/driver/src/main/kotlin/com/erldb/NotReadyStatementAccess.kt:16-54 | an operation may go ahead exactly when the handle is an open remote statement; the placeholder throws "not ready yet" and a closed handle "Not open" |
| Remote.DecodeRow | server/driver/src/main/kotlin/com/erldb/StatementAccess.kt:78-85 | a decoded row has one value per cell, each cell being a JSON array that `fromJSON` reads as that value |
| Remote.DecodeRows | server/driver/src/main/kotlin/com/erldb/StatementAccess.kt:74-87 | a decoded batch has one row per element, each element being a JSON array whose cells decode to that row |
| Remote.DecodeEncodeRow | server/driver/src/main/kotlin/com/erldb/StatementAccess.kt:78-85 | every row the server writes with the same blob codec is read back unchanged |
| Remote.DecodeEncodeRows | server/driver/src/main/kotlin/com/erldb/StatementAccess.kt:74-87 | every batch the server writes with the same blob codec is read back unchanged |
| Remote.StepByHandle | server/driver/src/main/kotlin/com/erldb/StatementAccess.kt:67-90 | a checked handle posts `step_by` with its statement and count; `{"ok":null}` means the statement is done; no handle changes |
| Remote.StepByReadsBatch | server/driver/src/main/kotlin/com/erldb/StatementAccess.kt:67-90 | a batch the server writes reaches the caller of `stepBy` as exactly those rows |
| Remote.StepByReadsReply | server/driver/src/main/kotlin/com/erldb/StatementAccess.kt:67-90 | whenever the next reply is an `ok` answer holding rows that decode, `stepBy` answers exactly those rows |
| Remote.BatchInWritten | server/driver/src/main/kotlin/com/erldb/StatementAccess.kt:67-90 | a batch the server writes as an `ok` answer is read back from that reply as the same rows |
| Remote.ScanFinds | server/driver/src/main/kotlin/com/erldb/ErldbStatement.kt:287-303 | what the refill loop meets on a queue of replies: when it finds rows, every reply it passed over held an empty batch and the last one holds exactly those rows; when it finds the end, the replies passed over held empty batches, then came `null`, then the change count it reports |
| Remote.ScanScript | server/driver/src/main/kotlin/com/erldb/ErldbStatement.kt:287-303 | over a server that answers the batches B1..Bm, then `null`, then the change count n: when no batch has rows the loop reaches the end with n after m+2 replies; otherwise it stops at the first batch with rows, those rows followed by the rows of the batches after it are all the rows, and what is left of the queue is the same script for the batches after it |
| Remote.ResetHandle | server/driver/src/main/kotlin/com/erldb/StatementAccess.kt:96-102 | after the handle check, exactly one `reset` for the handle's statement is posted |
| Remote.BindHandle | server/driver/src/main/kotlin/com/erldb/StatementAccess.kt:42-47 | after the handle check, a non-finite real throws with nothing posted; otherwise exactly one `bind` carrying the position and the value's JSON form is posted |
| Remote.ColumnNamesHandle | server/driver/src/main/kotlin/com/erldb/StatementAccess.kt:53-59 | after the handle check, exactly one `column_names` for the handle's statement is posted |
| Remote.ColumnNamesRead | server/driver/src/main/kotlin/com/erldb/StatementAccess.kt:53-59 | the names the server lists are the names the caller gets, in order |
| Remote.BindParameterCountHandle | server/driver/src/main/kotlin/com/erldb/StatementAccess.kt:108-114 | after the handle check, exactly one `bind_parameter_count` for the handle's statement is posted |
| Remote.ColumnCountHandle | server/driver/src/main/kotlin/com/erldb/StatementAccess.kt:132-138 | after the handle check, exactly one `column_count` for the handle's statement is posted |
| Remote.ColumnNameHandle | server/driver/src/main/kotlin/com/erldb/StatementAccess.kt:161-167 | after the handle check, exactly one `column_name` with the handle's statement and the zero-based index is posted |
| Remote.ClearBindingsHandle | server/driver/src/main/kotlin/com/erldb/NotReadyStatementAccess.kt:28-30 | the placeholder fails as not implemented, a closed handle throws "Not open", and an open one posts exactly one `clear_bindings` |
| Remote.DbOf | server/driver/src/main/kotlin/com/erldb/StatementAccess.kt:173 | `db()` succeeds exactly when the handle is an open remote statement |
| Remote.DbPrepare | server/driver/src/main/kotlin/com/erldb/DatabaseAccess.kt:26-33 | exactly one `prepare` is posted; a success adds exactly one new open handle with a fresh identity, and anything else adds none |
| Remote.DbPrepareOk | server/driver/src/main/kotlin/com/erldb/DatabaseAccess.kt:26-33 | the statement id the server returns becomes a new open handle for that statement |
| Remote.DbExecute | server/driver/src/main/kotlin/com/erldb/DatabaseAccess.kt:23-24 | exactly one `execute` with the SQL is posted and no handle changes |
| Remote.DbChanges | server/driver/src/main/kotlin/com/erldb/DatabaseAccess.kt:39 | exactly one `changes` request is posted, no handle changes, and exactly one reply is consumed |
| Remote.DbChangesOk | server/driver/src/main/kotlin/com/erldb/DatabaseAccess.kt:39 | the count the server returns is the count the caller gets |
| Remote.DbClose | server/driver/src/main/kotlin/com/erldb/DatabaseAccess.kt:17 | exactly one `close` request is posted and no handle changes |
| Remote.EnsureAutoCommit | server/driver/src/main/kotlin/com/erldb/IStatementAccess.kt:96-102 | outside auto-commit nothing is posted; in auto-commit "BEGIN;" then "COMMIT;" are posted, their failed results are ignored, and only a throw stops the second |
| Connection.WithGuard | server/driver/src/main/kotlin/com/erldb/ErldbConnection.kt:61-64 | every guarded operation may go ahead exactly when the connection is open, else "statement is not executing" |
| Connection.PrepareAndStep | server/driver/src/main/kotlin/com/erldb/ErldbConnection.kt:369-376 | on an open connection exactly the given text is prepared; a success prepares, steps once, runs the auto-commit round when asked and finalizes, in that order; every handle it creates ends closed; the rest of the connection is untouched |
| Connection.StepAndClose | server/driver/src/main/kotlin/com/erldb/ErldbConnection.kt:370-375 | the statement prepared by `prepareAndStep` ends closed whatever the step and the auto-commit round do, and nothing else is prepared |
| Connection.SetAutoCommit | server/driver/src/main/kotlin/com/erldb/ErldbConnection.kt:138-149 | the same flag changes nothing; otherwise the flag takes the new value first, then switching on commits and resets the transaction mode to deferred on success, and switching off begins a transaction with the configured mode |
| Connection.GetAutoCommit | server/driver/src/main/kotlin/com/erldb/ErldbConnection.kt:151-153 | fails exactly on a closed connection, and otherwise reports the configured flag |
| Connection.Rollback | server/driver/src/main/kotlin/com/erldb/ErldbConnection.kt:163-170 | refused in auto-commit mode; otherwise sends "rollback;" then the transaction prefix, and only a full success forgets that a statement was executed; nothing else in the connection changes |
| Connection.RollbackTo | server/driver/src/main/kotlin/com/erldb/ErldbConnection.kt:178-185 | refused in auto-commit mode; otherwise sends exactly "ROLLBACK TO SAVEPOINT" with the savepoint's name |
| Connection.ReleaseSavepoint | server/driver/src/main/kotlin/com/erldb/ErldbConnection.kt:284-291 | refused in auto-commit mode; otherwise sends exactly "RELEASE SAVEPOINT" with the savepoint's name |
| Connection.NextSavepointId | server/driver/src/main/kotlin/com/erldb/ErldbConnection.kt:266 | the savepoint counter moves up by one and wraps from `Int.MAX_VALUE` to `Int.MIN_VALUE` |
| Connection.SetSavepoint | server/driver/src/main/kotlin/com/erldb/ErldbConnection.kt:258-282 | on an open connection auto-commit ends off, the counter moves on even when the declaration fails, exactly one "SAVEPOINT" with the new savepoint's name is sent, and a success returns that savepoint |
| Connection.SavepointThen | server/driver/src/main/kotlin/com/erldb/ErldbConnection.kt:178-291 | `setSavepoint` followed by `rollback(savepoint)` or `releaseSavepoint(savepoint)` on the savepoint it returned: auto-commit is off afterwards and the counter moved on once, and exactly two statements are sent, the declaration and the rollback or release, both naming the savepoint returned; a failed declaration is passed on and nothing further is sent |
| Connection.IsReadOnly | server/driver/src/main/kotlin/com/erldb/ErldbConnection.kt:213-215 | read-only exactly when explicitly set read-only or opened in read-only mode |
| Connection.SetReadOnly | server/driver/src/main/kotlin/com/erldb/ErldbConnection.kt:199-210 | with an explicit setting the flag may change only before any statement has run; without one it may only be set to what `isReadOnly` already reports; a refusal leaves the connection as it was, and a success changes only the flag |
| Connection.SetThenIsReadOnly | server/driver/src/main/kotlin/com/erldb/ErldbConnection.kt:199-215 | with an explicit setting, a value that was set is what `isReadOnly` then reports, unless the open mode is read-only anyway |
| Connection.ImplicitReadOnlyUnchanged | server/driver/src/main/kotlin/com/erldb/ErldbConnection.kt:204-209 | without an explicit setting, `setReadOnly` never changes what `isReadOnly` reports |
| Connection.InitialIsWritable | server/driver/src/main/kotlin/com/erldb/ErldbConnection.kt:37-40 | a connection with the initial configuration is writable, refuses to be declared read-only, and accepts being declared writable |
| Connection.SetTransactionIsolation | server/driver/src/main/kotlin/com/erldb/ErldbConnection.kt:223-237 | the four standard levels send exactly one pragma, turning `read_uncommitted` on for read-uncommitted and off for the other three; any other level is refused with the level in the message and nothing is sent |
| Connection.GetTransactionIsolation | server/driver/src/main/kotlin/com/erldb/ErldbConnection.kt:239 | whatever level was set, an open connection reports serializable |
| Connection.SetHoldability | server/driver/src/main/kotlin/com/erldb/ErldbConnection.kt:248-252 | accepted exactly when the connection is open and the holdability is "close cursors at commit" |
| Connection.GetHoldability | server/driver/src/main/kotlin/com/erldb/ErldbConnection.kt:254-256 | the holdability reported is one `setHoldability` accepts |
| Connection.CheckCursor | server/driver/src/main/kotlin/com/erldb/ErldbConnection.kt:88-92 | accepted exactly for forward-only, read-only cursors closed at commit on an open connection; the first mismatching argument decides the message |
| Connection.CursorCheckMatchesHoldability | server/driver/src/main/kotlin/com/erldb/ErldbConnection.kt:88-92 | for a forward-only, read-only cursor, the cursor check accepts a holdability exactly when `setHoldability` does, and it accepts the holdability `getHoldability` reports |
| Connection.Close | server/driver/src/main/kotlin/com/erldb/ErldbConnection.kt:335-344 | as written: a connection that ends closed holds no handles and every handle it held is closed; but when one of its handles had been closed before, the exception is swallowed and the connection stays open with all its handles |
| Connection.CloseFixed | server/driver/src/main/kotlin/com/erldb/ErldbConnection.kt:335-344 | as intended: afterwards the connection is closed, holds no handles, and every handle it held is closed; closing a closed connection changes nothing |
| Connection.PrepareFor | server/driver/src/main/kotlin/com/erldb/ErldbConnection.kt:386-392 | exactly one `prepare` is posted; the handle the statement holds now is registered unless it already was, which fails with "Already added pointer to statements set"; a success returns a new open handle that is not registered |
| Connection.Open | server/driver/src/main/kotlin/com/erldb/ErldbConnection.kt:37-59 | a URL that does not parse fails with the parser's error and posts nothing; otherwise exactly one `create_connection` for the URL's bucket and file is posted, and a new connection is open, in auto-commit mode, with the initial configuration, no handles, and the URL's nodes |
| Statement.NewStatement | server/driver/src/main/kotlin/com/erldb/ErldbStatement.kt:28-39 | a new statement is open, not exhausted, with no buffered rows, the given text, a fresh result set, zero timeout, update count and row limit, and a new placeholder handle; the server is not contacted |
| Statement.NewStatementBounded | server/driver/src/main/kotlin/com/erldb/ErldbStatement.kt:28-39 | a new statement starts within its bounds: neither the row limit nor the timeout is negative |
| Statement.Guard | server/driver/src/main/kotlin/com/erldb/ErldbStatement.kt:54-57 | an operation may go ahead exactly when the statement is open, else "statement is not executing" |
| Statement.Shut | server/driver/src/main/kotlin/com/erldb/ErldbStatement.kt:264-280 | the handle always ends closed; a success leaves the statement closed, without a result set and holding a placeholder; a throw leaves it as it was, and a handle closed before always throws "Not open" |
| Statement.Close | server/driver/src/main/kotlin/com/erldb/ErldbStatement.kt:271-281 | closing a closed statement does nothing; otherwise the success and failure cases of the shared closing body, so an open statement whose handle was already closed stays open and throws |
| Statement.CloseNoResultSet | server/driver/src/main/kotlin/com/erldb/ErldbStatement.kt:264-269 | a closed statement refuses; a success leaves the statement closed without a result set and its handles closed; a throw leaves it as it was |
| Statement.CloseNoStatement | server/driver/src/main/kotlin/com/erldb/ErldbResultSet.kt:100-110 | the result set ends closed, before its first row, with no columns, no current row and no column read |
| Statement.CloseResultSet | server/driver/src/main/kotlin/com/erldb/ErldbResultSet.kt:112-121 | a closed result set throws "ResultSet closed"; otherwise it is reset and closed, and the statement is closed too exactly when it closes on completion |
| Statement.Refill | server/driver/src/main/kotlin/com/erldb/ErldbStatement.kt:287-303 | polls until a batch brings rows or the rows run out: only the fetch state changes; rows found put the first row at the head of the buffer with the update count 0; the end leaves the buffer empty with `stepReturnedNull` set; the requests are polls of the statement's server statement and, at the end, one change count. On the server's replies: when the loop meets a batch with rows after empty ones, that batch becomes the buffer and exactly the replies up to it are consumed; when it meets `null` and a count, the answer is null with that count as the update count |
| Statement.Step | server/driver/src/main/kotlin/com/erldb/ErldbStatement.kt:284-306 | a closed statement or unusable handle refuses; a buffered row is returned without contacting the server; otherwise the refill's guarantees, and a row returned is the head of the buffer: the first row of the first batch with rows, the whole batch then being the buffer, or null with the server's change count at the end of the rows |
| Statement.ConsumeRow | server/driver/src/main/kotlin/com/erldb/ErldbStatement.kt:42-51 | a buffered row is taken off the head of the buffer and nothing else changes; on an empty buffer the refill runs first: the first row of the first batch with rows is answered and the rest of that batch stays buffered, and at the end of the rows the results are marked exhausted with the server's change count |
| StatementWalk.ConsumeScripted | server/driver/src/main/kotlin/com/erldb/ErldbStatement.kt:42-51 | one `consumeRow()` over a server scripted as batches, `null` and a count: with nothing buffered and no rows left it answers null, exhausts the results with that count and uses up the script; otherwise it answers a row, and that row, the new buffer and the rows of the batches still scripted are, in order, the old buffer followed by the scripted rows |
| StatementWalk.ConsumeAll | server/driver/src/main/kotlin/com/erldb/ErldbStatement.kt:42-51 | calling `consumeRow()` until it answers null, over a server that answers the batches B1..Bm, then `null`, then the count n, returns the buffered rows followed by the rows of B1..Bm, in order, none lost or repeated; the results end exhausted, with update count n and exactly the scripted replies used up |
| Statement.ReleaseResultSet | server/driver/src/main/kotlin/com/erldb/ErldbStatement.kt:81 | as written: a result set the caller already closed makes `execute` throw "ResultSet closed"; otherwise a result set that does not close its statement only resets itself |
| Statement.ReleaseResultSetFixed | server/driver/src/main/kotlin/com/erldb/ErldbStatement.kt:81 | as intended: an already closed result set is skipped, so only closing the statement on completion can fail |
| Statement.Restart | server/driver/src/main/kotlin/com/erldb/ErldbStatement.kt:82-85 | the old handle ends closed, posting exactly one `finalize` when it was open; a handle closed before makes it throw "Not open" with the statement unchanged; a success takes the new text and a fresh result set |
| Statement.Prepared | server/driver/src/main/kotlin/com/erldb/ErldbStatement.kt:86 | as written: exactly the statement's text is prepared; a success registers the handle the statement held, returns a new open unregistered handle and marks a statement as executed; a throw leaves the statement holding its old, closed handle |
| Statement.PreparedFixed | server/driver/src/main/kotlin/com/erldb/ErldbStatement.kt:86 | as intended: when the prepare throws, the statement holds a new placeholder instead of its old handle |
| Statement.Deliver | server/driver/src/main/kotlin/com/erldb/ErldbStatement.kt:102-104 | the first row becomes the result set's current row, the results are not exhausted, and a success sends exactly the auto-commit round |
| Statement.Finish | server/driver/src/main/kotlin/com/erldb/ErldbStatement.kt:96-105 | after stepping, the answer is whether a row came back; no row means the results are exhausted, the buffer is empty and the last request was the change count; a row becomes the current row of the result set; a row already buffered is answered from the buffer without asking the server |
| Statement.Clear | server/driver/src/main/kotlin/com/erldb/ErldbStatement.kt:80-85 | as written: a closed result set throws first; otherwise the old handle is closed with one `finalize` when open and a throw "Not open" when it had been closed before; buffered rows are kept |
| Statement.Setup | server/driver/src/main/kotlin/com/erldb/ErldbStatement.kt:80-95 | as written: on success the new handle is open and unregistered while the connection registers the old handle, now closed; a prepare that throws leaves the statement open on its old, closed handle |
| Statement.Execute | server/driver/src/main/kotlin/com/erldb/ErldbStatement.kt:80-106 | as written: on success the statement is open with the new text and the answer says whether a first row came; no row ends the results with the change count; a row still buffered from the previous query is answered as the first row |
| Statement.ClearFixed | server/driver/src/main/kotlin/com/erldb/ErldbStatement.kt:80-85 | as intended: a closed result set is skipped and the previous query's rows are discarded |
| Statement.SetupFixed | server/driver/src/main/kotlin/com/erldb/ErldbStatement.kt:80-95 | as intended: the buffer starts empty, a placeholder handle leads to a prepare of the new text, and a failed prepare leaves a placeholder |
| Statement.ExecuteFixed | server/driver/src/main/kotlin/com/erldb/ErldbStatement.kt:80-106 | as intended: a first row always comes from a poll of the new server statement |
| Statement.ExecuteLargeUpdate | server/driver/src/main/kotlin/com/erldb/ErldbStatement.kt:130-137 | a query that yields a row is refused; otherwise the answer is the update count, just taken from the server's change count, and the results are exhausted |
| Statement.GetResultSet | server/driver/src/main/kotlin/com/erldb/ErldbStatement.kt:167-191 | exhausted results give `null`; a result set already handed out throws "ResultSet already requested"; an empty buffer exhausts the results and gives `null`; otherwise the statement's result set, marked past its last row when the rows ran out, with column names fetched only when it had none |
| Statement.ExecuteQuery | server/driver/src/main/kotlin/com/erldb/ErldbStatement.kt:112-120 | a result set is handed out only when the query yields a row and the statement still has its result set; otherwise `null` |
| Statement.SetLargeMaxRows | server/driver/src/main/kotlin/com/erldb/ErldbStatement.kt:124-127 | a negative row limit is refused, and a non-negative one is accepted on an open statement |
| Statement.MaxRowsRoundTrip | server/driver/src/main/kotlin/com/erldb/ErldbStatement.kt:122-127 | an accepted row limit is the one read back, nothing else about the statement changes, and the bounds are kept |
| Statement.SetQueryTimeout | server/driver/src/main/kotlin/com/erldb/ErldbStatement.kt:197-202 | a negative timeout is refused, and a non-negative one is accepted on an open statement |
| Statement.QueryTimeoutRoundTrip | server/driver/src/main/kotlin/com/erldb/ErldbStatement.kt:195-202 | an accepted timeout is the one read back, nothing else changes, and the bounds are kept |
| Statement.CloseOnCompletion | server/driver/src/main/kotlin/com/erldb/ErldbStatement.kt:257-259 | on an open statement only the close-on-completion flag changes, and it is set |
| Statement.GetMoreResults | server/driver/src/main/kotlin/com/erldb/ErldbStatement.kt:205-228 | only closing the current result is understood: the result set is let go, the update count becomes -1, the results are exhausted and the answer is `false`; keeping results or closing all is unsupported; any other argument is invalid |
| StatementWalk.MoreResultsThen | server/driver/src/main/kotlin/com/erldb/ErldbStatement.kt:165-219 | after `getMoreResults(CLOSE_CURRENT_RESULT)` succeeds, `getResultSet()` answers null and a second `getMoreResults(CLOSE_CURRENT_RESULT)` answers false, neither changing anything; it succeeds on an open statement whose result set is absent or open without close-on-completion; when closing the result set closed the statement, both later calls throw "statement is not executing" |
| Statement.GetLargeUpdateCount | server/driver/src/main/kotlin/com/erldb/ErldbStatement.kt:246-251 | as written: the answer is the column count the server reports, because the value computed in `onSuccess` is discarded |
| Statement.UpdateCountOf | server/driver/src/main/kotlin/com/erldb/ErldbStatement.kt:247-248 | the evidently meant answer is the update count only while the handle is open, no result set is open, a row is waiting and the query has no columns, and otherwise -1 |
| Statement.GetLargeUpdateCountFixed | server/driver/src/main/kotlin/com/erldb/ErldbStatement.kt:246-251 | as intended: the answer is the update count computed from the column count |
| Statement.Batch | server/driver/src/main/kotlin/com/erldb/ErldbStatement.kt:140-165 | batches are refused: not implemented on an open statement, not executing on a closed one |
| PreparedStatement.Put | server/driver/src/main/kotlin/com/erldb/ErldbPreparedStatement.kt:131 | storing into the ordered parameter map keeps it ordered and leaves a non-empty map |
| PreparedStatement.PutAt | server/driver/src/main/kotlin/com/erldb/ErldbPreparedStatement.kt:131 | after storing `v` at `k`, position `k` holds `v` and every other position what it held |
| PreparedStatement.Find | server/driver/src/main/kotlin/com/erldb/ErldbPreparedStatement.kt:24 | a position is found exactly when the map has an entry for it, and then with that entry's value |
| PreparedStatement.GetParams | server/driver/src/main/kotlin/com/erldb/ErldbPreparedStatement.kt:67-80 | a closed statement refuses; an empty map gives an empty array; the map is refused exactly when it holds a position below one, with a negative-size or an index error; the array is never longer than `Int.MAX_VALUE` |
| PreparedStatement.GetParamsPlaces | server/driver/src/main/kotlin/com/erldb/ErldbPreparedStatement.kt:67-80 | a successful `getParams()` puts every parameter at its position less one, `Null` in every gap, and is exactly as long as the largest position |
| PreparedStatement.PutAllRoundTrip | server/driver/src/main/kotlin/com/erldb/ErldbPreparedStatement.kt:67-80 | setting positions one to n in turn and reading the parameters back gives the values set, in order |
| PreparedStatement.Set | server/driver/src/main/kotlin/com/erldb/ErldbPreparedStatement.kt:130-171 | a guarded setter succeeds exactly on an open statement; it stores the value at its position, changes no other position and nothing else in the statement |
| PreparedStatement.SetThenGetParams | server/driver/src/main/kotlin/com/erldb/ErldbPreparedStatement.kt:67-171 | a value set at a positive position is the value the execution binds there |
| PreparedStatement.SetBoolean | server/driver/src/main/kotlin/com/erldb/ErldbPreparedStatement.kt:134-136 | `true` and `false` are stored as the integers the value conversion gives them, on an open statement only |
| PreparedStatement.SetLong | server/driver/src/main/kotlin/com/erldb/ErldbPreparedStatement.kt:150-152 | as written: the value is stored at its position and nothing else changes, whether or not the statement is open |
| PreparedStatement.SetLongIgnoresClose | server/driver/src/main/kotlin/com/erldb/ErldbPreparedStatement.kt:146-152 | on a closed statement `setLong` still stores its value where `setInt` and the other guarded setters refuse |
| PreparedStatement.SetLongFixed | server/driver/src/main/kotlin/com/erldb/ErldbPreparedStatement.kt:150-152 | as intended: refused on a closed statement like its sibling setters; otherwise stores the value and changes no other position |
| PreparedStatement.SetObject | server/driver/src/main/kotlin/com/erldb/ErldbPreparedStatement.kt:266-290 | a closed statement refuses; a character array and a `LocalDateTime` are refused as unsupported; a success changes only the parameters |
| PreparedStatement.SetObjectAgreesWithFrom | server/driver/src/main/kotlin/com/erldb/ErldbPreparedStatement.kt:266-290 | `setObject` stores exactly what the value conversion gives, and refuses exactly what it refuses |
| PreparedStatement.ReadBytes | server/driver/src/main/kotlin/com/erldb/ErldbPreparedStatement.kt:204-225 | a negative length is refused; a read succeeds exactly when the stream holds at least `length` bytes, and gives the first `length` of them whatever sizes the reads deliver; a short stream is a stream error |
| PreparedStatement.SetBinaryStream | server/driver/src/main/kotlin/com/erldb/ErldbPreparedStatement.kt:243-248 | as written: the bytes read are stored as a blob, so a length of zero stores an empty blob rather than `null` |
| PreparedStatement.SetBinaryStreamFixed | server/driver/src/main/kotlin/com/erldb/ErldbPreparedStatement.kt:243-248 | as intended: a length of zero leaves `null` stored and a positive one stores the bytes read |
| PreparedStatement.SetUnicodeStream | server/driver/src/main/kotlin/com/erldb/ErldbPreparedStatement.kt:227-241 | as written: the bytes read are decoded and stored as text, so a length of zero stores the decoding of nothing rather than `null` |
| PreparedStatement.SetUnicodeStreamFixed | server/driver/src/main/kotlin/com/erldb/ErldbPreparedStatement.kt:227-241 | as intended: a length of zero leaves `null` stored |
| PreparedStatement.BindAll | server/driver/src/main/kotlin/com/erldb/ErldbPreparedStatement.kt:91-93 | with no parameters nothing is sent; a closed handle throws; a success sends exactly one bind per value, in order, the k-th at position k+1 |
| PreparedStatement.Rewind | server/driver/src/main/kotlin/com/erldb/ErldbPreparedStatement.kt:86-93 | the shared start of an execution sends exactly a reset then one bind per parameter, in order, and keeps the statement, its handle and its text |
| PreparedStatement.Abandon | server/driver/src/main/kotlin/com/erldb/ErldbPreparedStatement.kt:32-35 | an exception closes the statement and is thrown again, unless closing throws first; an error that is not an exception passes untouched |
| PreparedStatement.Describe | server/driver/src/main/kotlin/com/erldb/ErldbPreparedStatement.kt:30-31 | on success exactly `column_names` then `bind_parameter_count` are sent for the new handle; a failure closes the statement |
| PreparedStatement.PrepareHandle | server/driver/src/main/kotlin/com/erldb/ErldbPreparedStatement.kt:29 | the first request is the prepare of the text; on success the new open handle replaces the placeholder; a failure closes the statement |
| PreparedStatement.Create | server/driver/src/main/kotlin/com/erldb/ErldbPreparedStatement.kt:26-36 | the constructor sends exactly prepare, `column_names` and `bind_parameter_count`; a new statement starts open, with no parameters, holding the new handle; any failure leaves the statement closed |
| PreparedStatement.PrepareStatement | server/driver/src/main/kotlin/com/erldb/ErldbConnection.kt:118-121 | a refused cursor combination changes nothing; otherwise the constructor runs, and a statement is returned only when it completes |
| PreparedStatement.CountChanges | server/driver/src/main/kotlin/com/erldb/ErldbPreparedStatement.kt:94-102 | a buffered row is refused as a query; otherwise the results end exhausted, the buffer empty, and the last request is the change count |
| PreparedStatement.ExecuteLargeUpdate | server/driver/src/main/kotlin/com/erldb/ErldbPreparedStatement.kt:82-107 | a closed statement, or one whose text has result columns, refuses before anything is sent; a success starts with the reset, ends with the change count and leaves the results exhausted; an exception inside closes the statement or its handle |
| PreparedStatement.ExecuteUpdate | server/driver/src/main/kotlin/com/erldb/ErldbPreparedStatement.kt:63-65 | the refusals of `executeLargeUpdate()`, and a success ends with the change count |
| PreparedStatement.ExecuteQuery | server/driver/src/main/kotlin/com/erldb/ErldbPreparedStatement.kt:38-60 | as written: a result set is handed out only with a row waiting; any exception inside the block is swallowed; a row left over from an earlier execution is answered again |
| PreparedStatement.ExecuteQueryFixed | server/driver/src/main/kotlin/com/erldb/ErldbPreparedStatement.kt:38-60 | as intended: a row answered comes from the poll sent right after the reset and the binds |
| PreparedStatement.ExecTail | server/driver/src/main/kotlin/com/erldb/ErldbPreparedStatement.kt:117-126 | no row exhausts the results and answers `false`; a row becomes the current row of a new result set and the auto-commit round is sent |
| PreparedStatement.Execute | server/driver/src/main/kotlin/com/erldb/ErldbPreparedStatement.kt:109-127 | as written: the exhausted flag is never cleared, so an execution that finds a row after one that found none leaves the results exhausted; leftover rows are answered again |
| PreparedStatement.ExecuteFixed | server/driver/src/main/kotlin/com/erldb/ErldbPreparedStatement.kt:109-127 | as intended: the answer is `true` exactly when results remain to read, and a row answered comes from the poll after the binds |
| PreparedStatement.ExecuteThenGetResultSet | server/driver/src/main/kotlin/com/erldb/ErldbPreparedStatement.kt:109-127 | as written: on exhausted results `getResultSet()` gives `null` even right after `execute()` answered `true` |
| PreparedStatement.ExecuteFixedThenGetResultSet | server/driver/src/main/kotlin/com/erldb/ErldbPreparedStatement.kt:109-127 | with the corrected `execute()`, `getResultSet()` hands out a result set exactly when `execute()` said there is one |
| PreparedStatement.Cleared | server/driver/src/main/kotlin/com/erldb/ErldbPreparedStatement.kt:253-255 | the parameters may be cleared exactly when `clearBindings()` succeeded with `true`; otherwise the throw or the failure is passed on |
| PreparedStatement.ClearParameters | server/driver/src/main/kotlin/com/erldb/ErldbPreparedStatement.kt:250-260 | a closed statement refuses; the parameters are emptied when the server cleared its bindings, otherwise the statement is closed and the exception swallowed; first a `clear_bindings` is sent for an open handle |
| ResultSet.CheckOpen | server/driver/src/main/kotlin/com/erldb/ErldbResultSet.kt:92-94 | a result set can be used exactly when it is open; a closed one throws "ResultSet closed" |
| ResultSet.CheckCol | server/driver/src/main/kotlin/com/erldb/ErldbResultSet.kt:64-75 | an index passes exactly when the result set is open, knows its columns and the index lies in [1, n]; it then names the zero-based column one lower; a closed set, an empty column list ("inconsistent internal state") and an index out of range each give their own error |
| ResultSet.MarkCol | server/driver/src/main/kotlin/com/erldb/ErldbResultSet.kt:82-86 | the index is remembered as the last column read exactly when it passes the column check, and nothing changes when it fails |
| ResultSet.Cell | server/driver/src/main/kotlin/com/erldb/ErldbResultSet.kt:162-167 | reading column k of a row succeeds exactly when the row has more than k cells and gives that cell; a short row throws an index error |
| ResultSet.Column | server/driver/src/main/kotlin/com/erldb/ErldbResultSet.kt:162-167 | without a current row a column reads as null; with one it reads the cell one below the one-based index |
| ResultSet.Retrieve | server/driver/src/main/kotlin/com/erldb/ErldbResultSet.kt:181-183 | reading an index succeeds exactly when the set is open, the index is a column of it and the current row, if any, holds it; once the index passes the open and column checks it is the last column read, even when the current row is too short and the read throws an index error; before that the cursor is unchanged; the value is that cell of the current row, or null off a row; a closed set and an index below 1 throw |
| ResultSet.LastColumn | server/driver/src/main/kotlin/com/erldb/ErldbResultSet.kt:152-155 | the last column read is null without a remembered column or a current row, and otherwise that column of the current row |
| ResultSet.WasNull | server/driver/src/main/kotlin/com/erldb/ErldbResultSet.kt:185-188 | a closed set throws, and so does one with no column read on a current row ("No column selected"); otherwise the answer is whether the last cell read is SQL NULL |
| ResultSet.WasNullAfterRetrieve | server/driver/src/main/kotlin/com/erldb/ErldbResultSet.kt:181-188 | reading a cell and then asking wasNull answers whether that cell was NULL; off a row wasNull throws |
| ResultSet.WasNullAfterMark | server/driver/src/main/kotlin/com/erldb/ErldbResultSet.kt:152-188 | after any read whose index passed the column check, however the read ended, wasNull answers whether that cell is NULL; off a row it throws "No column selected", and on a row too short for the index it throws the index error |
| ResultSet.WasNullAfterFailedGetInt | server/driver/src/main/kotlin/com/erldb/ErldbResultSet.kt:185-200 | on the row ['a', NULL], getString(2) then getInt(1): getInt throws "Unsupported type: java.lang.Integer", and wasNull then answers false, about column 1 |
| ResultSet.WasNullAfterNullGetInt | server/driver/src/main/kotlin/com/erldb/ErldbResultSet.kt:185-200 | getInt on a NULL cell throws "Unexpected value type", and wasNull then answers true |
| ResultSet.Get | server/driver/src/main/kotlin/com/erldb/ErldbResultSet.kt:190-221 | the nullable getters leave the cursor as the read leaves it, whether or not the conversion then fails; they fail exactly as the read fails; without a current row they give null; on a row their outcome is the cell converted to the asked type (a NULL cell to null), including the conversion's exception |
| ResultSet.Require | server/driver/src/main/kotlin/com/erldb/ErldbResultSet.kt:199-209 | the primitive getters leave the cursor as the read leaves it; they succeed exactly when the nullable read gives a value; a NULL cell or no current row throws "Unexpected value type" after the column is marked; any other failure is the nullable read's |
| ResultSet.GetIntOfInteger | server/driver/src/main/kotlin/com/erldb/ErldbResultSet.kt:199-200 | getInt of an INTEGER cell is its value cut to 32 bits, and a cell of another storage class is refused |
| ResultSet.GetBoolean | server/driver/src/main/kotlin/com/erldb/ErldbResultSet.kt:193 | getBoolean leaves the cursor as getInt does, succeeds exactly when getInt does, fails with getInt's exception, and answers whether that int is non-zero |
| ResultSet.GetObject | server/driver/src/main/kotlin/com/erldb/ErldbResultSet.kt:380 | getObject leaves the cursor as the read does, succeeds exactly when the read does, fails with its exception, and gives the JVM value of the cell's storage class, null for NULL |
| ResultSet.FirstMatch | server/driver/src/main/kotlin/com/erldb/ErldbResultSet.kt:403-408 | under the JDK's case tables, the position found names a column equal to the name ignoring case (each character pair equal as is, once upper-cased, or once upper- then lower-cased) with no earlier such column; no position means no column matches |
| ResultSet.FindColumn | server/driver/src/main/kotlin/com/erldb/ErldbResultSet.kt:403-408 | a closed set throws; a name matching no column throws "Column <name> not found"; otherwise the one-based index of the first column matching ignoring case |
| ResultSet.FindOwnColumn | server/driver/src/main/kotlin/com/erldb/ErldbResultSet.kt:403-408 | a column is found by its own name at its own one-based index, unless an earlier column has the same name ignoring case |
| ResultSet.GetByLabel | server/driver/src/main/kotlin/com/erldb/AbstractErldbResultSet.kt:513-518 | a label getter that findColumn refuses fails with findColumn's exception and leaves the cursor unchanged; otherwise it is the index getter on the column found |
| ResultSet.ByLabelReadsColumn | server/driver/src/main/kotlin/com/erldb/AbstractErldbResultSet.kt:513-518 | reading by a column's own name marks that column as the last one read, whether or not the conversion succeeds, and its outcome is that cell converted to the asked type |
| ResultSet.IsBeforeFirst | server/driver/src/main/kotlin/com/erldb/ErldbResultSet.kt:413 | answers only on an open set, and then whether no row has been reached yet |
| ResultSet.IsAfterLast | server/driver/src/main/kotlin/com/erldb/ErldbResultSet.kt:415 | answers only on an open set, and then whether the cursor ran past the last row |
| ResultSet.IsFirst | server/driver/src/main/kotlin/com/erldb/ErldbResultSet.kt:417 | answers only on an open set, and then whether the cursor is on the first row |
| ResultSet.GetRow | server/driver/src/main/kotlin/com/erldb/ErldbResultSet.kt:419 | answers only on an open set, and then the row number when it fits an Int |
| ResultSet.IsClosed | server/driver/src/main/kotlin/com/erldb/ErldbResultSet.kt:433 | a set reports closed exactly when the open check refuses it |
| ResultSet.Advance | server/driver/src/main/kotlin/com/erldb/ErldbResultSet.kt:137-145 | the cursor moves one row on, to the next buffered row when there is one, or ends past the last row answering false; it stays within the row limit when it started within it and below it |
| ResultSet.Forward | server/driver/src/main/kotlin/com/erldb/ErldbResultSet.kt:127-145 | from an open cursor not past the end, reaching the row limit answers false without moving; otherwise it advances; the row limit is kept |
| ResultSet.Next | server/driver/src/main/kotlin/com/erldb/ErldbResultSet.kt:123-146 | a closed cursor throws; a cursor past the end answers false and nothing changes; a cursor at the row limit answers false; true means the cursor moved one row on, with no column read; the row limit is kept |
| ResultSet.LimitStops | server/driver/src/main/kotlin/com/erldb/ErldbResultSet.kt:133-135 | a cursor on the limit row cannot move one further and stay within the limit, so next answers true at most maxRows times |
| ResultSet.Reposition | server/driver/src/main/kotlin/com/erldb/AbstractErldbResultSet.kt:19-45 | every move other than next is refused with "ResultSet is TYPE_FORWARD_ONLY", whatever the move |
| ResultSet.IsLast | server/driver/src/main/kotlin/com/erldb/AbstractErldbResultSet.kt:15-17 | isLast is refused as not supported by SQLite on every result set |
| ResultSet.UpdateCall | server/driver/src/main/kotlin/com/erldb/AbstractErldbResultSet.kt:251-265 | the update calls, updateRow, deleteRow, refreshRow and cancelRowUpdates are refused as not implemented on every result set |
| ResultSet.SetFetchDirection | server/driver/src/main/kotlin/com/erldb/AbstractErldbResultSet.kt:557-561 | setting the fetch direction succeeds exactly for forward fetching; any other direction throws "only FETCH_FORWARD direction supported" |
| ResultSet.GetFetchDirection | server/driver/src/main/kotlin/com/erldb/AbstractErldbResultSet.kt:563 | the direction reported is one setFetchDirection accepts |
| ResultSet.FetchDirectionRoundTrip | server/driver/src/main/kotlin/com/erldb/AbstractErldbResultSet.kt:557-563 | a direction can be set exactly when it is the one read back |
| ResultSet.FetchSize | server/driver/src/main/kotlin/com/erldb/AbstractErldbResultSet.kt:565-570 | setting or reading the fetch size is refused as not implemented |
| ListResultSet.Next | server/driver/src/main/kotlin/com/erldb/ListBasedResultSet.kt:31-37 | next keeps the cursor valid and the rows and names unchanged; true means the cursor moved to the following row, which exists; false means nothing changed |
| ListResultSet.WalkVisitsEveryRow | server/driver/src/main/kotlin/com/erldb/ListBasedResultSet.kt:31-37 | from a valid cursor with m rows still ahead, k calls of next answer true exactly the first m times and false after that, and leave the cursor min(k, m) rows further on |
| ListResultSet.FreshWalk | server/driver/src/main/kotlin/com/erldb/ListBasedResultSet.kt:20-37 | on a fresh result set over n rows the i-th call of next answers true exactly when i < n, and the cursor ends on the last row reached |
| ListResultSet.Cell | server/driver/src/main/kotlin/com/erldb/ListBasedResultSet.kt:64-75 | a cell is read exactly when the cursor is on a row that has a column at the one-based index; an empty row gives "Invalid column index" and any other miss an index error |
| ListResultSet.Handle | server/driver/src/main/kotlin/com/erldb/ListBasedResultSet.kt:56-76 | each handler gives a value of its getter's type; a failure is "Invalid column type" or a class cast that only happens when the cell is not of the class the handler was chosen for |
| ListResultSet.HandleOwnClass | server/driver/src/main/kotlin/com/erldb/ListBasedResultSet.kt:83-179 | read by its own class, getString reads text and NULL as null, getLong integers and NULL as 0, getDouble integers, reals and NULL as 0.0, getBytes blobs; every other class is "Invalid column type" |
| ListResultSet.GetGeneric | server/driver/src/main/kotlin/com/erldb/ListBasedResultSet.kt:56-76 | reading fails as the cell lookup fails, and otherwise fails only with "Invalid column type" or with a class cast when the row's first cell has another class than the cell read |
| ListResultSet.GetGenericFixed | server/driver/src/main/kotlin/com/erldb/ListBasedResultSet.kt:56-76 | with the handler chosen by the cell read, reading fails as the lookup fails and never with a class cast |
| ListResultSet.AgreesOnSameClass | server/driver/src/main/kotlin/com/erldb/ListBasedResultSet.kt:56-76 | the as-written and the corrected dispatch give the same answer whenever the row's first cell has the class of the cell read, and always on the first column |
| ListResultSet.MixedRowMisread | server/driver/src/main/kotlin/com/erldb/ListBasedResultSet.kt:56-76 | on the row [1, "a"], getString of the text column is refused as the wrong column type and getLong of it throws a class cast, where the corrected dispatch reads "a" and refuses the long |
| ListResultSet.GetString | server/driver/src/main/kotlin/com/erldb/ListBasedResultSet.kt:83-90 | the handler is chosen by the row's first cell: a NULL first cell gives null whatever the column holds; a text first cell gives a text cell's text and a class cast for any other cell; any other first cell is "Invalid column type"; a lookup miss is passed on |
| ListResultSet.GetLong | server/driver/src/main/kotlin/com/erldb/ListBasedResultSet.kt:129-134 | a NULL first cell gives 0 whatever the column holds; an integer first cell gives an integer cell's value and a class cast for any other cell; any other first cell is "Invalid column type" |
| ListResultSet.GetInt | server/driver/src/main/kotlin/com/erldb/ListBasedResultSet.kt:80 | getInt succeeds exactly when getLong does, fails with getLong's exception, and gives that long cut to 32 bits: equal modulo 2^32, and equal outright when it fits |
| ListResultSet.GetBoolean | server/driver/src/main/kotlin/com/erldb/ListBasedResultSet.kt:115 | getBoolean succeeds exactly when getLong does, fails with getLong's exception, and answers whether the low 32 bits of that long are non-zero |
| ListResultSet.GetDouble | server/driver/src/main/kotlin/com/erldb/ListBasedResultSet.kt:149-154 | a NULL first cell gives 0.0; an integer first cell gives an integer cell widened to double, a real first cell a real cell as it is, and either gives a class cast for a cell of another class; a text or blob first cell is "Invalid column type" |
| ListResultSet.GetBytes | server/driver/src/main/kotlin/com/erldb/ListBasedResultSet.kt:174-179 | a blob first cell gives a blob cell's bytes and a class cast for any other cell; any other first cell, NULL included, is "Invalid column type" |
| ListResultSet.GetStringFixed | server/driver/src/main/kotlin/com/erldb/ListBasedResultSet.kt:83-90 | with the handler chosen by the cell read, getString gives a string exactly for a text cell, and then its text; null exactly for NULL; "Invalid column type" for the other classes |
| ListResultSet.GetLongFixed | server/driver/src/main/kotlin/com/erldb/ListBasedResultSet.kt:129-134 | with the handler chosen by the cell read, getLong succeeds exactly for an integer cell, giving its value, and for NULL, giving 0; other classes are "Invalid column type" |
| ListResultSet.GetIntFixed | server/driver/src/main/kotlin/com/erldb/ListBasedResultSet.kt:80 | the corrected getInt succeeds exactly when the corrected getLong does and gives that long cut to 32 bits |
| ListResultSet.GetBooleanFixed | server/driver/src/main/kotlin/com/erldb/ListBasedResultSet.kt:115 | the corrected getBoolean succeeds exactly when the corrected getLong does and answers whether its low 32 bits are non-zero |
| ListResultSet.GetDoubleFixed | server/driver/src/main/kotlin/com/erldb/ListBasedResultSet.kt:149-154 | with the handler chosen by the cell read, getDouble gives a real cell as it is, an integer widened to double and 0.0 for NULL; text and blobs are "Invalid column type" |
| ListResultSet.GetBytesFixed | server/driver/src/main/kotlin/com/erldb/ListBasedResultSet.kt:174-179 | with the handler chosen by the cell read, getBytes succeeds exactly for a blob cell and gives its bytes; every other class, NULL included, is "Invalid column type" |
| ListResultSet.GettersAgreeOnSameClass | server/driver/src/main/kotlin/com/erldb/ListBasedResultSet.kt:56-179 | every getter as written gives the corrected getter's answer whenever the row's first cell has the class of the cell read, and always on the first column |
| ListResultSet.NullFirstMisread | server/driver/src/main/kotlin/com/erldb/ListBasedResultSet.kt:56-76 | on the row [NULL, 5], getLong(2) gives 0 and getString(2) null, where the corrected getters give 5 and "Invalid column type" |
| ListResultSet.FindColumn | server/driver/src/main/kotlin/com/erldb/ListBasedResultSet.kt:398-407 | the answer is -1 exactly for a null label or one no column has; otherwise it is the one-based position of the first column named exactly the label |
| ListResultSet.FindOwnName | server/driver/src/main/kotlin/com/erldb/ListBasedResultSet.kt:398-407 | a column's own name finds its position when no earlier column shares it, and the metadata gives that name back at the position found |
| ListResultSet.ColumnName | server/driver/src/main/kotlin/com/erldb/ListBasedResultSet.kt:306-308 | the name at position i exists exactly for 1 <= i <= the number of columns, and looking it up finds a column no later than i |
| ListResultSet.ColumnType | server/driver/src/main/kotlin/com/erldb/ListBasedResultSet.kt:332-340 | with no rows the type is NULL; otherwise it exists exactly for a column of the first row, and names exactly that cell's storage class (VARCHAR for text) |
| ListResultSet.ReportedTypeIsReadable | server/driver/src/main/kotlin/com/erldb/ListBasedResultSet.kt:332-340 | on the first row, a column reported VARCHAR is read by getString as a string exactly when the row's first cell is text; one reported INTEGER is read by getLong exactly when the first cell is an integer or NULL, and as its own value when it is an integer; one reported BLOB is read by getBytes exactly when the first cell is a blob |
| ListResultSet.ReportedTypeIsReadableFixed | server/driver/src/main/kotlin/com/erldb/ListBasedResultSet.kt:332-340 | with the corrected getters, a column reported VARCHAR is always read by getString as a string, one reported INTEGER by getLong, one reported BLOB by getBytes |
| ListResultSet.GeneratedKeys | server/driver/src/main/kotlin/com/erldb/ErldbStatement.kt:152-161 | the generated-keys result set is a valid cursor before its only row |
| ListResultSet.GeneratedKeyReadsBack | server/driver/src/main/kotlin/com/erldb/ErldbStatement.kt:152-161 | one next reaches the key row, getLong(1) and getLong at findColumn("key") give the last inserted row id, and a second next answers false |
| ServerFiles.MangleBucket | cluster/my_nif/native/my_nif/rusqlite_async/src/connection.rs:727-730 | a bucket's directory name uses only the URL-safe base64 alphabet |
| ServerFiles.MangleFilename | cluster/my_nif/native/my_nif/rusqlite_async/src/connection.rs:732-735 | a database's file name ends in ".db" and everything before that suffix uses only the URL-safe base64 alphabet |
| ServerFiles.FileStem | cluster/my_nif/native/my_nif/rusqlite_async/src/connection.rs:810-813 | the stem is a prefix of the entry's name; when shorter, it stops at the name's last dot, which is not its first character; a name without a dot is its own stem |
| ServerFiles.GetFilename | cluster/my_nif/native/my_nif/rusqlite_async/src/connection.rs:810-823 | an entry is listed only when its stem is in the URL-safe base64 alphabet, as the name that stem decodes to |
| ServerFiles.FilenameRoundTrip | cluster/my_nif/native/my_nif/rusqlite_async/src/connection.rs:810-823 | every non-empty database name is listed back as itself from its file, and every non-empty bucket name from its directory |
| ServerFiles.EmptyFilenameNotListed | cluster/my_nif/native/my_nif/rusqlite_async/src/connection.rs:732-735 | the empty database name is stored as ".db", whose stem is ".db" itself and not base64, so it is never listed |
| ServerFiles.GetFilenameFixed | cluster/my_nif/native/my_nif/rusqlite_async/src/connection.rs:1083-1088 | a name is read back only from an entry that ends in ".db" |
| ServerFiles.FixedFilenameRoundTrip | cluster/my_nif/native/my_nif/rusqlite_async/src/connection.rs:1083-1088 | dropping the ".db" suffix instead of taking the stem makes listing the exact inverse of naming: every name, the empty one included, comes back as itself, and an entry listed under a name is that name's file |
| StatementTask.Advance | cluster/my_nif/native/my_nif/rusqlite_async/src/connection.rs:410-486 | a step of n rows from row pos hands out the next rows of the query, at least one and at most n, fewer only at the end, and the statement task stays inside the step after them; with no row left it answers the end and the statement task is idle again |
| StatementTask.Describe | cluster/my_nif/native/my_nif/rusqlite_async/src/connection.rs:272-353 | a column-name request answers the name at that position, and the empty name past the last column |
| StatementTask.CloneOf | cluster/my_nif/native/my_nif/rusqlite_async/src/connection.rs:296-322 | a clone is a new idle task on the same query, bound to the values the statement task recorded |
| StatementTask.StepIdle | cluster/my_nif/native/my_nif/rusqlite_async/src/connection.rs:496-562 | out of a step: a step of 0 ends the statement task with an error; a step of n restarts the query and advances; a bind to a parameter the statement has is recorded, one outside ends the statement task; clearing unbinds but keeps the record; close ends the statement task; an error reply always ends the statement task; the query and column names never change |
| StatementTask.StepInside | cluster/my_nif/native/my_nif/rusqlite_async/src/connection.rs:370-408 | inside a step: a step of 0 ends the statement task with an error; a step of n hands out the next batch; a bind is refused with "Cannot bind when stepping" and clearing answers false, both leaving the statement task where it was; close ends it |
| StatementTask.Step | cluster/my_nif/native/my_nif/rusqlite_async/src/connection.rs:496-574 | a task that ended answers every request as a closed channel; a live task answers a step of n by advancing from where it stands, a fresh start when idle; an error reply ends the statement task; the query never changes |
| StatementTask.Feed | cluster/my_nif/native/my_nif/rusqlite_async/src/connection.rs:496-562 | a run of requests gets one reply per request, keeps the statement task valid and leaves its query unchanged |
| StatementTask.Batches | cluster/my_nif/native/my_nif/rusqlite_async/src/connection.rs:410-486 | one reply per step request asked for |
| StatementTask.FeedIsBatches | cluster/my_nif/native/my_nif/rusqlite_async/src/connection.rs:410-562 | a live task fed positive step requests replies exactly with the batches of its query from the row it starts at |
| StatementTask.BatchesFrom | cluster/my_nif/native/my_nif/rusqlite_async/src/connection.rs:410-486 | the rows handed out before the end by positive step requests from row s are the query's rows from s on, as many as were asked for in all or all that remain |
| StatementTask.BatchesConcatenate | cluster/my_nif/native/my_nif/rusqlite_async/src/connection.rs:410-562 | whatever positive batch sizes a client asks for, the rows handed out before the end are the query's rows from where the statement task stood, in order, with none lost or repeated |
| StatementTask.FeedStepBys | cluster/my_nif/native/my_nif/rusqlite_async/src/connection.rs:496-562 | the first step request of a run is answered by one advance, and the rest of the run goes on from the statement task it leaves |
| StatementTask.FailureLooksLikeEnd | cluster/my_nif/native/my_nif/rusqlite_async/src/connection.rs:452-465 | a query whose stepping fails after its rows gets exactly the replies of the same rows followed by a normal end, whatever steps are asked for |
| StatementTask.ClearedValueComesBack | cluster/my_nif/native/my_nif/rusqlite_async/src/connection.rs:545-548 | a value bound and then cleared is no longer bound in the statement, yet a clone made afterwards binds it again |
| StatementTask.StepRecordsBindings | cluster/my_nif/native/my_nif/rusqlite_async/src/connection.rs:545-548 | with clearing corrected, any one request keeps the recorded values equal to the bound ones, and a clone binds exactly what the statement binds |
| StatementTask.FeedRecordsBindings | cluster/my_nif/native/my_nif/rusqlite_async/src/connection.rs:496-562 | with clearing corrected, the recorded values stay equal to the bound ones through any run of requests, and every clone handed out binds exactly what its statement bound |
| StatementTask.CheckConnection | cluster/my_nif/native/my_nif/rusqlite_async/src/connection.rs:699-706 | a connection passes exactly when it was made in the context used, and otherwise "Connection's context isn't consistent" |
| StatementTask.CheckStatement | cluster/my_nif/native/my_nif/rusqlite_async/src/connection.rs:708-725 | a statement passes exactly when its connection belongs to the context and the statement to both; the first mismatch, connection context, then statement connection, then statement context, is the one reported |
| StatementTask.IssuedHandlesAgree | cluster/my_nif/native/my_nif/rusqlite_async/src/connection.rs:870-888 | a statement handle made by prepare or clone_and_reset passes the check with its own connection and context, and with another pair exactly when they are the same connection and context |
| StatementTask.Exchange | cluster/my_nif/native/my_nif/rusqlite_async/src/connection.rs:936-952 | a refused check sends nothing and reports the check's error; otherwise the statement task takes the request, and a reply that comes back is the statement task's reply and never an error reply |
| StatementTask.StepByClient | cluster/my_nif/native/my_nif/rusqlite_async/src/connection.rs:1049-1060 | step_by reports the check's error or a closed channel without moving the statement task; a step of 0 ends the statement task; otherwise it gives the next rows, at least one and at most n, fewer only at the end, while rows remain, and then the end with the statement task idle |
| StatementTask.StepAll | cluster/my_nif/native/my_nif/rusqlite_async/src/connection.rs:1095-1112 | step_all reports the check's error or a closed channel; otherwise it leaves the statement task idle and returns every remaining row of the query in order, or nothing when none remain |
| Base64.EncodePadded | server/driver/src/main/kotlin/com/erldb/SQLiteValue.kt:178 | the driver's encoding of n bytes is 4 * ceil(n / 3) characters long, padding included |
| Base64.EncodeUrlNoPad | cluster/my_nif/native/my_nif/rusqlite_async/src/lib.rs:43 | the server's encoding of n bytes is ceil(4n / 3) characters long and uses only the URL-safe alphabet |
| Base64.JavaRoundTrip | server/driver/src/main/kotlin/com/erldb/SQLiteValue.kt:140-178 | the driver's decoder reads back every byte string its encoder wrote |
| Base64.UrlNoPadBijection | cluster/my_nif/native/my_nif/rusqlite_async/src/lib.rs:43-71 | the server's decoder accepts a text as a byte string exactly when the encoder writes that byte string as that text |
| Base64.PaddedRejectedByUrlNoPad | server/driver/src/main/kotlin/com/erldb/SQLiteValue.kt:178 | the server refuses the driver's encoding of every byte string whose length is not a multiple of three |
| Chars.EqualsIgnoreCaseFolded | server/driver/src/main/kotlin/com/erldb/ErldbResultSet.kt:405 | for any case tables, two names are equal ignoring case exactly when their forms lower-cased after upper-casing are equal, so the comparison is an equivalence |
| Decimal.Parse | server/driver/src/main/kotlin/com/erldb/ErldbConnection.kt:51 | the grammar of `toIntOrNull`, `parseInt` and `parseLong`: text is read exactly when it is non-empty, everything after the first character is decimal digits, and the first character is a digit or a sign followed by at least one digit |
| Decimal.ShowInt | server/driver/src/main/kotlin/com/erldb/ErldbResultSet.kt:71 | the decimal text of an integer in an error message reads back as that integer |
| Json.AsInt | server/driver/src/main/kotlin/com/erldb/SQLiteValue.kt:133 | `getInt` on a number is its `intValue()`, cut to 32 bits; a string is read exactly when it is decimal text within `Int` range, and then as its value; any success is a 32-bit value |
| Json.AsLong | server/driver/src/main/kotlin/com/erldb/SQLiteValue.kt:136 | `getLong` on a number is its `longValue()`; a string is read exactly when it is decimal text within `Long` range, and then as its value; any success is a 64-bit value |
| JdbcUrl.ToIntOrNull | server/driver/src/main/kotlin/com/erldb/ErldbConnection.kt:51 | a port is read exactly when the text is a sign and decimal digits of any script, within Int range,, and then as that value |
| Decimal.DigitValue | server/driver/src/main/kotlin/com/erldb/ErldbConnection.kt:51 | `Character.digit(ch, 10)`, on which `toIntOrNull`, `parseInt` and `parseLong` rest: a value below ten, and for '0' to '9' the ASCII offset |
| Decimal.DigitInMeans | server/driver/src/main/kotlin/com/erldb/ErldbConnection.kt:51 | a character is a digit exactly when a run of ten of the table holds it, and its value is its offset in such a run |
| Decimal.DigitValueInRun | server/driver/src/main/kotlin/com/erldb/ErldbConnection.kt:51 | every character of a run of the Unicode decimal-digit table is a digit worth its offset from that run's zero |
| Decimal.BeyondBmpIsNotDigit | server/driver/src/main/kotlin/com/erldb/ErldbConnection.kt:51 | a character beyond U+FFFF, two UTF-16 units to the JDK, is not a digit |
| Decimal.ParseArabicIndic | server/driver/src/main/kotlin/com/erldb/ErldbConnection.kt:51 | ARABIC-INDIC DIGIT ONE alone reads as 1 |
| Decimal.ParseDevanagari | server/driver/src/main/kotlin/com/erldb/SQLiteValue.kt:133-136 | a '-' followed by two Devanagari digits reads as the negative two-digit value |
| Decimal.ParseBeyondBmp | server/driver/src/main/kotlin/com/erldb/ErldbConnection.kt:51 | MATHEMATICAL BOLD DIGIT ONE is not read as a number |
| JdbcUrl.PortOfOtherScript | server/driver/src/main/kotlin/com/erldb/ErldbConnection.kt:51 | the entry "h:١:80" has port 1: the second piece is read in ARABIC-INDIC digits and the third is ignored |
| Json.AsIntOtherScript | server/driver/src/main/kotlin/com/erldb/SQLiteValue.kt:133-136 | `getInt` and `getLong` read a JSON string of ARABIC-INDIC digits as its value |
| Connection.OutsideAutoCommit | server/driver/src/main/kotlin/com/erldb/ErldbConnection.kt:178-185 | a closed connection throws and one in auto-commit mode refuses; otherwise exactly the given SQL is sent, and success means it was prepared and stepped |
| Connection.SetReadUncommitted | server/driver/src/main/kotlin/com/erldb/ErldbConnection.kt:224-231 | exactly one SQL statement is sent: the read_uncommitted pragma with the requested setting |
| Connection.CloseEach | server/driver/src/main/kotlin/com/erldb/ErldbConnection.kt:337-339 | as written, the loop never prepares anything; success means every handle is closed; a handle that was closed before makes it throw |
| Connection.CloseEachFixed | server/driver/src/main/kotlin/com/erldb/ErldbConnection.kt:337-339 | as intended, every handle ends closed and nothing is prepared |
| Statement.GetLargeMaxRows | server/driver/src/main/kotlin/com/erldb/ErldbStatement.kt:122 | the row limit can be read exactly on an open statement, and otherwise "statement is not executing" |
| Statement.GetQueryTimeout | server/driver/src/main/kotlin/com/erldb/ErldbStatement.kt:195 | the timeout can be read exactly on an open statement, and otherwise "statement is not executing" |
| Statement.CloseAndThrow | server/driver/src/main/kotlin/com/erldb/ErldbStatement.kt:288-289 | a failure the server reported always ends in a throw; when the statement could be closed it is closed without a result set and the failure is what is thrown; otherwise it is unchanged |
| Statement.Drained | server/driver/src/main/kotlin/com/erldb/ErldbStatement.kt:295-300 | at the end of the rows the step gives null, records that the step found nothing, and sends exactly one request, the change count; nothing else changes; a count the server sends becomes the update count and uses up one reply |
| Statement.Poll | server/driver/src/main/kotlin/com/erldb/ErldbStatement.kt:287-302 | one round of the refill loop sends one batch request; a batch becomes the buffer and clears the end marker and update count; the end of rows also asks for the change count and records it. A reply holding a batch makes exactly that batch the buffer; replies `null` then a count end the rows with that count, using up both |
| Statement.Unfetched | server/driver/src/main/kotlin/com/erldb/ErldbStatement.kt:288-302 | the rest of a round whose batch request brought no rows: success only at the end of the rows, after exactly the batch request and the change count; a `null` answer followed by a count records that count |
| Statement.Settle | server/driver/src/main/kotlin/com/erldb/ErldbStatement.kt:288-302 | a batch request that brought no rows succeeds only at the end of the rows, where it records the end and the change count; a `null` answer followed by a count the server sends records exactly that count |
| PreparedStatement.Initial | server/driver/src/main/kotlin/com/erldb/ErldbPreparedStatement.kt:26-31 | a prepared statement starts with no parameters set, no results waiting, and the column names and parameter count it was given |
| PreparedStatement.GetOrAbandon | server/driver/src/main/kotlin/com/erldb/ErldbPreparedStatement.kt:28-35 | a value read in the constructor is passed on exactly when it came back successfully; a failure the statement catches closes it when it was open, and is thrown |
| PreparedStatement.GetParamsIsDense | server/driver/src/main/kotlin/com/erldb/ErldbPreparedStatement.kt:67-80 | a non-empty parameter map starts at position 1 or more, and getParams gives the dense array up to the largest position, null in the gaps |
| PreparedStatement.BindParams | server/driver/src/main/kotlin/com/erldb/ErldbPreparedStatement.kt:44-46 | binding succeeds only when getParams does, with every value encodable; no parameters send nothing; otherwise exactly one bind per value is sent, in order, at positions 1 to n |
| PreparedStatement.ResetOpen | server/driver/src/main/kotlin/com/erldb/ErldbPreparedStatement.kt:41-42 | a successful reset sends exactly one reset request to the statement's open handle and clears the exhausted flag when asked; a failure leaves the statement as it was |
| PreparedStatement.ReleaseAndReset | server/driver/src/main/kotlin/com/erldb/ErldbPreparedStatement.kt:40-42 | releasing the result set and then resetting sends exactly one reset request when it succeeds, leaving the rest of the statement as it was |
| PreparedStatement.Fetch | server/driver/src/main/kotlin/com/erldb/ErldbStatement.kt:284-306 | with rows buffered the first is answered and nothing is sent; an answered row is the first buffered one; null means the buffer is empty and the end was recorded; an empty buffer starts with a poll of the statement's handle |
| PreparedStatement.ChangeCount | server/driver/src/main/kotlin/com/erldb/ErldbPreparedStatement.kt:101 | reading the change count sends exactly one request, the change count, and leaves the statement as it was |
| PreparedStatement.UpdateRun | server/driver/src/main/kotlin/com/erldb/ErldbPreparedStatement.kt:86-102 | a successful update run leaves the statement open on the same handle with its results exhausted, starts with the reset and ends with the change count |
| PreparedStatement.QueryRun | server/driver/src/main/kotlin/com/erldb/ErldbPreparedStatement.kt:39-56 | answering a row means results are waiting, not exhausted, with a result set and a row buffered; as written, rows left over from before stay buffered; with them dropped, the request right after the reset and the binds is the poll |
| PreparedStatement.ExecRun | server/driver/src/main/kotlin/com/erldb/ErldbPreparedStatement.kt:110-126 | true means a row is buffered and the result set stands on it; false means the results are exhausted and nothing is buffered; as written, a row left over from before makes the answer true with that row; with it dropped, the request right after the reset and the binds is the poll |
| PreparedStatement.CloseQuietly | server/driver/src/main/kotlin/com/erldb/ErldbPreparedStatement.kt:57-58 | an exception closes the statement and is swallowed, unless closing throws; an error that is not an exception escapes untouched |
| PreparedStatement.ClearOrClose | server/driver/src/main/kotlin/com/erldb/ErldbPreparedStatement.kt:252-259 | on an open handle the clear request is sent first; true leaves the statement as it was; false means an exception closed it; a statement with a placeholder handle refuses |

## Left out

- Concurrency: `Guard` and the `synchronized` blocks serialise calls on one connection; the model is sequential, one call after another.
- AbstractErldbPreparedStatement.kt is not part of this model. Its `abstractExec` and the setters defined there are covered only where `ErldbPreparedStatement` overrides them.
- `resultsWaiting` in `ErldbStatement` is written but never read, so it has no counterpart.
- `setBigDecimal`, the date, time and timestamp setters and getters, `getFloat` (float rounding) and `getLong(String)` (a `TODO()`) are not modelled. Each needs floating-point or calendar arithmetic, or has no behaviour to model.
- The metadata classes (`ErldbDatabaseMetaData`, `ErldbResultSetMetadata`) are not modelled; they are tables of constants.
- Network I/O, `Thread.sleep` and the clock are not modelled. The server is a queue of replies, and the random choice of a failover node is a parameter (a sequence of draws).
- Real numbers are kept as their 64-bit patterns. No floating-point arithmetic is modelled, and neither is the decimal text a JSON writer produces for a double.
- Non-finite reals on the NIF side are not modelled: Rust's `f64` is carried as an opaque `EFloat`.
- The `autoCommit` that `ErldbPreparedStatement.execute` passes on is not declared in ErldbPreparedStatement.kt. It is taken as `true`, the value the statement's own field always holds (ErldbStatement.kt:20).
- In the statement task, a query's rows do not depend on the values bound to it. Column names that SQLite refreshes after the first step are not modelled.
- File and bucket names are kept as bytes. `from_utf8_lossy` is the identity on the names the server itself writes, so it is not modelled; neither are invalid UTF-8 entries.
- The Erlang side of the NIF is not modelled: conversion between Erlang terms and the NIF's Rust values is taken as exact.
- The following are not modelled:
  - `ContextAccess`, `libVersion` and `withConnectionTimeout`;
  - `createStatement` overloads that only forward, `nativeSQL`, and `commit` (it is empty);
  - `isValid`, `executeUpdate(sql, columns)` and `setBusyTimeout`;
  - the interrupt and limit requests of the NIF.

  Each either forwards to a modelled operation or has no observable effect on the state modelled here.
- `list_buckets`, the `delete_*` functions and `create_connection` are modelled only through their naming: their effects on the file system are not modelled.
- Json.AsDouble: a string payload is refused, whereas org.json's `getDouble` parses it with `Double.parseDouble`. Parsing decimal text into a double needs floating-point rounding, which is not modelled. `Json.AsInt` and `Json.AsLong` do accept decimal integer text, which needs no rounding. The server sends reals as JSON numbers, so the driver's reads do not meet this case.
- SQLiteValue.Into: `into<Float>` keeps the cell's double as it is, without the rounding to single precision that `toFloat()` applies, because floating-point rounding is not modelled. The class-cast failure for `Array<Char>` carries the target class's name rather than the JDK's full message. Failures of `into` are no longer promised to all be "Unsupported type", because the `Array<Char>` cast does not fail that way.
- Decimal.DigitValue: the digit table is the one of Unicode 15.0, which JDK 21 carries. A JDK built on an older Unicode version lacks the runs added since, such as the Myanmar Tai Laing digits at U+A9F0 added in Unicode 7.0, and the JDK version is not fixed here.
- Chars.CaseMap: the JDK's `Character.toUpperCase` and `Character.toLowerCase` tables are a parameter, so ResultSet.FindColumn, ResultSet.FirstMatch, ResultSet.FindOwnColumn, ResultSet.GetByLabel and ResultSet.ByLabelReadsColumn hold for whatever tables the JDK has but do not name their contents. Strings are sequences of Unicode scalar values: Java counts length in UTF-16 units and the model in code points, which can differ only for a name holding characters outside the Basic Multilingual Plane.
- SQLiteValue.FromJson, SQLiteValueDTO.FromArray: a blob payload the JDK's base64 decoder rejects fails with an `IllegalArgumentException`, but with one fixed message; the JDK's message names the offending character or the malformed final unit, and that wording is not reproduced.
- ResultSet.GetRow: the row number is stated only when it fits in an `Int`; its 32-bit truncation beyond that is not stated.

## Findings

| source | as written | input that shows it | evidently intended | confidence | as-written member | corrected member |
|---|---|---|---|---|---|---|
| server/driver/src/main/kotlin/com/erldb/SQLiteValue.kt:176-179 | a blob is sent in padded standard base64, which the server's URL-safe unpadded decoder refuses | the blob [0], sent as "AA==" | the driver writes the alphabet the server reads | not executed | NifCodec.DriverBlobRejected | NifCodec.CrossRoundTrip |
| server/driver/src/main/kotlin/com/erldb/ErldbStatement.kt:80-81 | `execute(sql)` closes the previous result set, and closing one the caller has already closed throws "ResultSet closed" | `executeQuery`, `rs.close()`, then `execute` again on the statement | a result set already closed is skipped | not executed | Statement.ReleaseResultSet | Statement.ReleaseResultSetFixed |
| server/driver/src/main/kotlin/com/erldb/ErldbConnection.kt:335-344 | `close()` swallows any exception from a registered statement, so the connection stays open with its handles still registered | `execute(sql)` twice on one statement, then `close()` on the connection: the handle the second `execute` finalized is still registered, and closing it again throws "Not open" | the connection ends closed, with every handle closed | not executed | Connection.Close | Connection.CloseFixed |
| server/driver/src/main/kotlin/com/erldb/ListBasedResultSet.kt:56-76 | a getter dispatches on the class of the first cell of the row, not of the column read | the row [1, "a"] read with `getString(2)` | dispatch on the cell being read | not executed | ListResultSet.MixedRowMisread | ListResultSet.GetGenericFixed |
| cluster/my_nif/native/my_nif/rusqlite_async/src/connection.rs:732-735 | the empty database name is stored as ".db", whose stem is not base64, so it is never listed | the database name "" | listing gives back every stored name | not executed | ServerFiles.EmptyFilenameNotListed | ServerFiles.GetFilenameFixed |
| server/spring/src/main/kotlin/it/unipi/dsmt/microservices/erldbadmin/dto/erldb/SQLiteValueDTO.kt:113 | `fromArray` casts an integer payload to `Int`, so a 64-bit value fails | Integer(2147483648) | read the payload as a `Long` | not executed | SQLiteValueDTO.WideIntegerRejected | SQLiteValueDTO.FromArrayCorrected |
| server/driver/src/main/kotlin/com/erldb/ZeroColumnIndex.kt:50-52 | `fromRawOneColumnIndex` subtracts one without an overflow check | Long.MIN_VALUE, read as index Long.MAX_VALUE | every raw index below one is refused | not executed | ColumnIndex.FromRawWraps | ColumnIndex.FromRawChecked |
| server/driver/src/main/kotlin/com/erldb/ErldbStatement.kt:86 | when `conn.prepare` throws, the statement keeps the handle `execute` has just closed | a prepare that fails on the server | the statement gets a placeholder handle | not executed | Statement.Prepared | Statement.PreparedFixed |
| server/driver/src/main/kotlin/com/erldb/ErldbStatement.kt:80-106 | rows still buffered from the previous query are not discarded; the first of them is answered as the new query's first row | `executeQuery` whose first 100 rows are not all read, then `execute` | the first row comes from the new query | not executed | Statement.Execute | Statement.ExecuteFixed |
| server/driver/src/main/kotlin/com/erldb/ErldbPreparedStatement.kt:38-60 | `executeQuery()` also keeps the rows buffered by an earlier execution and answers them again | two `executeQuery()` calls, the first not read to the end | each execution answers its own rows | not executed | PreparedStatement.ExecuteQuery | PreparedStatement.ExecuteQueryFixed |
| server/driver/src/main/kotlin/com/erldb/ErldbStatement.kt:246-251 | the value computed in `onSuccess` is discarded, so the column count is returned | an update after which the server reports 0 columns: 0 instead of the update count | the computed update count, or -1 | not executed | Statement.GetLargeUpdateCount | Statement.GetLargeUpdateCountFixed |
| server/driver/src/main/kotlin/com/erldb/ErldbPreparedStatement.kt:243-248 | with length 0, `null` is stored and then replaced by the empty blob read | `setBinaryStream(1, s, 0)` | a length of zero leaves `null` | not executed | PreparedStatement.SetBinaryStream | PreparedStatement.SetBinaryStreamFixed |
| server/driver/src/main/kotlin/com/erldb/ErldbPreparedStatement.kt:227-241 | with length 0, `null` is stored and then replaced by the empty text decoded | `setUnicodeStream(1, s, 0)` | a length of zero leaves `null` | not executed | PreparedStatement.SetUnicodeStream | PreparedStatement.SetUnicodeStreamFixed |
| server/driver/src/main/kotlin/com/erldb/ErldbPreparedStatement.kt:109-127 | `execute()` never clears `exhausted`, so after one exhausted execution `getResultSet()` gives `null` even when `execute()` answered true | an `execute()` that finds no row, then an `execute()` that finds one, then `getResultSet()` | `getResultSet()` gives a result set exactly when `execute()` answered true | not executed | PreparedStatement.ExecuteThenGetResultSet | PreparedStatement.ExecuteFixedThenGetResultSet |
| server/driver/src/main/kotlin/com/erldb/ErldbPreparedStatement.kt:150-152 | `setLong` has no open check, so it stores its value on a closed statement | `setLong(1, 5)` after `close()` | it throws like every other setter | not executed | PreparedStatement.SetLongIgnoresClose | PreparedStatement.SetLongFixed |
| cluster/my_nif/native/my_nif/rusqlite_async/src/connection.rs:545-548 | clearing the bindings does not clear the record used for clones, so a clone binds the cleared value again | bind 1 to v, clear the bindings, clone | a clone binds only what the statement binds | not executed | StatementTask.ClearedValueComesBack | StatementTask.FeedRecordsBindings |
| cluster/my_nif/native/my_nif/rusqlite_async/src/connection.rs:452-465 | a failed step is answered as the end of the rows | a query whose next step fails | the failure is reported to the client | not executed | StatementTask.FailureLooksLikeEnd | StatementTask.StepAll |

=== FILE: base64.dfy ===
/**
 * Base64 as the two sides of the system use it.  The Kotlin driver encodes
 * blobs with Java's basic encoder (the alphabet of section 4 of RFC 4648,
 * with padding) and decodes them with Java's basic decoder, which accepts a
 * missing padding and ignores the unused bits of the last symbol.  The Rust
 * side uses the URL- and filename-safe alphabet of section 5 of RFC 4648
 * without padding, and its decoder rejects '=' and non-zero unused bits.
 */
module Base64 {
  import opened Errors

  type byte = b: int | 0 <= b < 0x100
  type sextet = c: int | 0 <= c < 64

  datatype Alphabet = Standard | UrlSafe

  /** The symbol encoding a 6-bit value (table 1 or table 2 of RFC 4648). */
  function Symbol(a: Alphabet, v: sextet): char
  {
    if v < 26 then ('A' as int + v) as char
    else if v < 52 then ('a' as int + (v - 26)) as char
    else if v < 62 then ('0' as int + (v - 52)) as char
    else if v == 62 then (if a.Standard? then '+' else '-')
    else (if a.Standard? then '/' else '_')
  }

  /** The 6-bit value of a symbol, or None for a character outside the alphabet. */
  function Value(a: Alphabet, c: char): Option<sextet>
  {
    if 'A' <= c <= 'Z' then Some(c as int - 'A' as int)
    else if 'a' <= c <= 'z' then Some(c as int - 'a' as int + 26)
    else if '0' <= c <= '9' then Some(c as int - '0' as int + 52)
    else if c == (if a.Standard? then '+' else '-') then Some(62)
    else if c == (if a.Standard? then '/' else '_') then Some(63)
    else None
  }

  predicate InAlphabet(a: Alphabet, c: char) { Value(a, c).Some? }

  predicate AllInAlphabet(a: Alphabet, s: string)
  {
    forall i | 0 <= i < |s| :: InAlphabet(a, s[i])
  }

  lemma ValueOfSymbol(a: Alphabet, v: sextet)
    ensures Value(a, Symbol(a, v)) == Some(v)
  {
  }

  lemma SymbolOfValue(a: Alphabet, c: char)
    requires InAlphabet(a, c)
    ensures Symbol(a, Value(a, c).value) == c
  {
  }

  /** The four 6-bit values that carry three bytes, most significant first. */
  function Split(b0: byte, b1: byte, b2: byte): (v: (sextet, sextet, sextet, sextet))
  {
    (b0 / 4, (b0 % 4) * 16 + b1 / 16, (b1 % 16) * 4 + b2 / 64, b2 % 64)
  }

  /** The three bytes carried by four 6-bit values. */
  function Join(v0: sextet, v1: sextet, v2: sextet, v3: sextet): (b: (byte, byte, byte))
  {
    (v0 * 4 + v1 / 16, (v1 % 16) * 16 + v2 / 4, (v2 % 4) * 64 + v3)
  }

  lemma Pack(hi: int, lo: int, m: int)
    requires m == 4 || m == 16 || m == 64
    requires 0 <= lo < m
    ensures (hi * m + lo) / m == hi && (hi * m + lo) % m == lo
  {
  }

  lemma JoinSplit(b0: byte, b1: byte, b2: byte)
    ensures var v := Split(b0, b1, b2); Join(v.0, v.1, v.2, v.3) == (b0, b1, b2)
  {
    Pack(b0 % 4, b1 / 16, 16);
    Pack(b1 % 16, b2 / 64, 4);
  }

  lemma SplitJoin(v0: sextet, v1: sextet, v2: sextet, v3: sextet)
    ensures var b := Join(v0, v1, v2, v3); Split(b.0, b.1, b.2) == (v0, v1, v2, v3)
  {
    Pack(v0, v1 / 16, 4);
    Pack(v1 % 16, v2 / 4, 16);
    Pack(v2 % 4, v3, 64);
  }

  /** Three bytes as four symbols. */
  function EncodeGroup(a: Alphabet, b0: byte, b1: byte, b2: byte): (s: string)
    ensures |s| == 4 && AllInAlphabet(a, s)
  {
    var v := Split(b0, b1, b2);
    ValueOfSymbol(a, v.0);
    ValueOfSymbol(a, v.1);
    ValueOfSymbol(a, v.2);
    ValueOfSymbol(a, v.3);
    [Symbol(a, v.0), Symbol(a, v.1), Symbol(a, v.2), Symbol(a, v.3)]
  }

  /**
   * The symbols for a byte string, without padding: a final group of one
   * byte gives two symbols and one of two bytes gives three, the unused low
   * bits of the last symbol being zero.
   */
  function EncodeBits(a: Alphabet, b: seq<byte>): (s: string)
    decreases |b|
    ensures |s| == (4 * |b| + 2) / 3
    ensures AllInAlphabet(a, s)
  {
    if |b| == 0 then ""
    else if |b| == 1 then
      var v := Split(b[0], 0, 0);
      ValueOfSymbol(a, v.0);
      ValueOfSymbol(a, v.1);
      [Symbol(a, v.0), Symbol(a, v.1)]
    else if |b| == 2 then
      var v := Split(b[0], b[1], 0);
      ValueOfSymbol(a, v.0);
      ValueOfSymbol(a, v.1);
      ValueOfSymbol(a, v.2);
      [Symbol(a, v.0), Symbol(a, v.1), Symbol(a, v.2)]
    else
      EncodeGroup(a, b[0], b[1], b[2]) + EncodeBits(a, b[3..])
  }

  /** The padding that completes the last 4-symbol unit. */
  function Padding(n: nat): string
  {
    if n % 3 == 1 then "==" else if n % 3 == 2 then "=" else ""
  }

  /** Java `Base64.getEncoder().encodeToString`. */
  function EncodePadded(b: seq<byte>): (s: string)
    ensures |s| == 4 * ((|b| + 2) / 3)
  {
    PaddedLength(|b|);
    EncodeBits(Standard, b) + Padding(|b|)
  }

  lemma PaddedLength(n: nat)
    ensures (4 * n + 2) / 3 + |Padding(n)| == 4 * ((n + 2) / 3)
  {
    var q, r := n / 3, n % 3;
    assert n == 3 * q + r;
    assert (4 * n + 2) / 3 == 4 * q + (4 * r + 2) / 3;
    assert (n + 2) / 3 == q + (r + 2) / 3;
  }

  /** Rust `URL_SAFE_NO_PAD.encode`. */
  function EncodeUrlNoPad(b: seq<byte>): (s: string)
    ensures |s| == (4 * |b| + 2) / 3
    ensures AllInAlphabet(UrlSafe, s)
  {
    EncodeBits(UrlSafe, b)
  }

  /** Four symbols as three bytes. */
  function DecodeGroup(a: Alphabet, c0: char, c1: char, c2: char, c3: char): Option<seq<byte>>
  {
    match (Value(a, c0), Value(a, c1), Value(a, c2), Value(a, c3))
    case (Some(v0), Some(v1), Some(v2), Some(v3)) =>
      var b := Join(v0, v1, v2, v3);
      Some([b.0, b.1, b.2])
    case _ => None
  }

  /**
   * Decodes unpadded symbols.  A final unit of one symbol is rejected; when
   * `strict`, so is a last symbol whose unused low bits are not zero.
   */
  function DecodeBits(a: Alphabet, s: string, strict: bool): Option<seq<byte>>
    decreases |s|
  {
    if |s| == 0 then Some([])
    else if |s| == 1 then None
    else if |s| == 2 then
      match (Value(a, s[0]), Value(a, s[1]))
      case (Some(v0), Some(v1)) =>
        if strict && v1 % 16 != 0 then None else Some([Join(v0, v1, 0, 0).0])
      case _ => None
    else if |s| == 3 then
      match (Value(a, s[0]), Value(a, s[1]), Value(a, s[2]))
      case (Some(v0), Some(v1), Some(v2)) =>
        if strict && v2 % 4 != 0 then None
        else var j := Join(v0, v1, v2, 0); Some([j.0, j.1])
      case _ => None
    else
      match DecodeGroup(a, s[0], s[1], s[2], s[3])
      case None => None
      case Some(g) =>
        match DecodeBits(a, s[4..], strict)
        case None => None
        case Some(rest) => Some(g + rest)
  }

  /**
   * Java `Base64.getDecoder().decode(String)`: the input is symbols of the
   * standard alphabet, optionally followed by the padding that completes the
   * last unit ("==" after two symbols, "=" after three); anything else,
   * including text after the padding, is rejected.
   */
  function DecodeJava(s: string): Option<seq<byte>>
  {
    if |s| >= 2 && s[|s| - 2] == '=' && s[|s| - 1] == '=' then
      if |s| % 4 == 0 then DecodeBits(Standard, s[..|s| - 2], false) else None
    else if |s| >= 1 && s[|s| - 1] == '=' then
      if |s| % 4 == 0 then DecodeBits(Standard, s[..|s| - 1], false) else None
    else
      DecodeBits(Standard, s, false)
  }

  /** Rust `URL_SAFE_NO_PAD.decode`. */
  function DecodeUrlNoPad(s: string): Option<seq<byte>>
  {
    DecodeBits(UrlSafe, s, true)
  }

  lemma DecodeEncodeGroup(a: Alphabet, b0: byte, b1: byte, b2: byte)
    ensures var s := EncodeGroup(a, b0, b1, b2);
            DecodeGroup(a, s[0], s[1], s[2], s[3]) == Some([b0, b1, b2])
  {
    var v := Split(b0, b1, b2);
    ValueOfSymbol(a, v.0);
    ValueOfSymbol(a, v.1);
    ValueOfSymbol(a, v.2);
    ValueOfSymbol(a, v.3);
    JoinSplit(b0, b1, b2);
  }

  lemma DecodeEncodeOne(a: Alphabet, b0: byte, strict: bool)
    ensures DecodeBits(a, EncodeBits(a, [b0]), strict) == Some([b0])
  {
    var v := Split(b0, 0, 0);
    ValueOfSymbol(a, v.0);
    ValueOfSymbol(a, v.1);
    JoinSplit(b0, 0, 0);
    Pack(b0 % 4, 0, 16);
    var s := EncodeBits(a, [b0]);
    assert s == [Symbol(a, v.0), Symbol(a, v.1)];
  }

  lemma DecodeEncodeTwo(a: Alphabet, b0: byte, b1: byte, strict: bool)
    ensures DecodeBits(a, EncodeBits(a, [b0, b1]), strict) == Some([b0, b1])
  {
    var v := Split(b0, b1, 0);
    ValueOfSymbol(a, v.0);
    ValueOfSymbol(a, v.1);
    ValueOfSymbol(a, v.2);
    JoinSplit(b0, b1, 0);
    Pack(b1 % 16, 0, 4);
    var s := EncodeBits(a, [b0, b1]);
    assert s == [Symbol(a, v.0), Symbol(a, v.1), Symbol(a, v.2)];
  }

  /** Decoding undoes encoding, under either decoder discipline. */
  lemma {:induction false} DecodeEncodeBits(a: Alphabet, b: seq<byte>, strict: bool)
    ensures DecodeBits(a, EncodeBits(a, b), strict) == Some(b)
    decreases |b|
  {
    if |b| == 1 {
      DecodeEncodeOne(a, b[0], strict);
      assert b == [b[0]];
    } else if |b| == 2 {
      DecodeEncodeTwo(a, b[0], b[1], strict);
      assert b == [b[0], b[1]];
    } else if |b| >= 3 {
      DecodeEncodeBits(a, b[3..], strict);
      DecodeEncodeCons(a, b, strict);
    }
  }

  /** One step of `DecodeEncodeBits`: a leading group decodes, then the rest as before. */
  lemma DecodeEncodeCons(a: Alphabet, b: seq<byte>, strict: bool)
    requires |b| >= 3
    requires DecodeBits(a, EncodeBits(a, b[3..]), strict) == Some(b[3..])
    ensures DecodeBits(a, EncodeBits(a, b), strict) == Some(b)
  {
    var g := EncodeGroup(a, b[0], b[1], b[2]);
    var t := EncodeBits(a, b[3..]);
    var s := g + t;
    assert EncodeBits(a, b) == s;
    assert s[..4] == g && s[4..] == t;
    DecodeEncodeGroup(a, b[0], b[1], b[2]);
    assert DecodeGroup(a, s[0], s[1], s[2], s[3]) == Some([b[0], b[1], b[2]]);
    assert b == [b[0], b[1], b[2]] + b[3..];
  }

  lemma EncodeDecodeGroup(a: Alphabet, c0: char, c1: char, c2: char, c3: char)
    requires DecodeGroup(a, c0, c1, c2, c3).Some?
    ensures var g := DecodeGroup(a, c0, c1, c2, c3).value;
            EncodeGroup(a, g[0], g[1], g[2]) == [c0, c1, c2, c3]
  {
    SymbolOfValue(a, c0);
    SymbolOfValue(a, c1);
    SymbolOfValue(a, c2);
    SymbolOfValue(a, c3);
    SplitJoin(Value(a, c0).value, Value(a, c1).value, Value(a, c2).value, Value(a, c3).value);
  }

  /** The strict decoder accepts only canonical encodings. */
  lemma {:induction false} EncodeDecodeBits(a: Alphabet, s: string)
    requires DecodeBits(a, s, true).Some?
    ensures EncodeBits(a, DecodeBits(a, s, true).value) == s
    decreases |s|
  {
    if |s| == 2 {
      SymbolOfValue(a, s[0]);
      SymbolOfValue(a, s[1]);
      var v0, v1 := Value(a, s[0]).value, Value(a, s[1]).value;
      SplitJoin(v0, v1, 0, 0);
      var j := Join(v0, v1, 0, 0);
      assert j.1 == 0 && j.2 == 0;
      assert DecodeBits(a, s, true).value == [j.0];
    } else if |s| == 3 {
      SymbolOfValue(a, s[0]);
      SymbolOfValue(a, s[1]);
      SymbolOfValue(a, s[2]);
      var v0, v1, v2 := Value(a, s[0]).value, Value(a, s[1]).value, Value(a, s[2]).value;
      SplitJoin(v0, v1, v2, 0);
      var j := Join(v0, v1, v2, 0);
      assert j.2 == 0;
      assert DecodeBits(a, s, true).value == [j.0, j.1];
    } else if |s| >= 4 {
      var g := DecodeGroup(a, s[0], s[1], s[2], s[3]).value;
      var rest := DecodeBits(a, s[4..], true).value;
      EncodeDecodeGroup(a, s[0], s[1], s[2], s[3]);
      EncodeDecodeBits(a, s[4..]);
      assert (g + rest)[3..] == rest;
      assert s == s[..4] + s[4..];
    }
  }

  /** The Rust codec is a bijection between byte strings and the strings it accepts. */
  lemma UrlNoPadBijection(b: seq<byte>, s: string)
    ensures DecodeUrlNoPad(s) == Some(b) <==> EncodeUrlNoPad(b) == s
  {
    if EncodeUrlNoPad(b) == s {
      DecodeEncodeBits(UrlSafe, b, true);
    }
    if DecodeUrlNoPad(s) == Some(b) {
      EncodeDecodeBits(UrlSafe, s);
    }
  }

  /** Java's decoder reads back what Java's encoder wrote. */
  lemma JavaRoundTrip(b: seq<byte>)
    ensures DecodeJava(EncodePadded(b)) == Some(b)
  {
    var bits := EncodeBits(Standard, b);
    DecodeEncodeBits(Standard, b, false);
    JavaStripsPadding(bits, |b|);
  }

  lemma JavaStripsPadding(bits: string, n: nat)
    requires |bits| == (4 * n + 2) / 3
    requires AllInAlphabet(Standard, bits)
    ensures DecodeJava(bits + Padding(n)) == DecodeBits(Standard, bits, false)
  {
    PaddedLength(n);
    if n % 3 == 1 {
      JavaPadded(bits, "==");
    } else if n % 3 == 2 {
      JavaPadded(bits, "=");
    } else {
      assert bits + Padding(n) == bits;
      JavaUnpadded(bits);
    }
  }

  lemma JavaUnpadded(bits: string)
    requires |bits| > 0 ==> InAlphabet(Standard, bits[|bits| - 1])
    ensures DecodeJava(bits) == DecodeBits(Standard, bits, false)
  {
  }

  lemma JavaPadded(bits: string, pad: string)
    requires pad == "==" || pad == "="
    requires (|bits| + |pad|) % 4 == 0
    requires |bits| > 0 && InAlphabet(Standard, bits[|bits| - 1])
    ensures DecodeJava(bits + pad) == DecodeBits(Standard, bits, false)
  {
    var s := bits + pad;
    if pad == "==" {
      assert s[..|s| - 2] == bits;
    } else {
      assert s[|s| - 2] == bits[|bits| - 1];
      assert s[..|s| - 1] == bits;
    }
  }

  /** Java's encoding of the single byte 0. */
  lemma PaddedZero()
    ensures EncodePadded([0]) == "AA=="
  {
    assert Split(0, 0, 0) == (0, 0, 0, 0);
    assert EncodeBits(Standard, [0]) == "AA";
  }

  /**
   * The Rust codec refuses what the Java encoder writes for a byte string
   * whose length is not a multiple of three: it ends in '='.
   */
  lemma PaddedRejectedByUrlNoPad(b: seq<byte>)
    requires |b| % 3 != 0
    ensures DecodeUrlNoPad(EncodePadded(b)) == None
  {
    var s := EncodePadded(b);
    assert !InAlphabet(UrlSafe, s[|s| - 1]);
    if DecodeUrlNoPad(s).Some? {
      DecodedInAlphabet(UrlSafe, s, true);
      assert false;
    }
  }

  /** Whatever either decoder accepts consists of symbols of its alphabet. */
  lemma {:induction false} DecodedInAlphabet(a: Alphabet, s: string, strict: bool)
    requires DecodeBits(a, s, strict).Some?
    ensures AllInAlphabet(a, s)
    decreases |s|
  {
    if |s| >= 4 {
      DecodedInAlphabet(a, s[4..], strict);
      assert forall i | 4 <= i < |s| :: s[i] == s[4..][i - 4];
    }
  }
}

=== FILE: chars.dfy ===
/**
 * Character case, in the two ways the driver compares it.  The URL check
 * lowers the URL and compares it with a lower-case ASCII prefix, for which
 * folding the ASCII capitals is all that matters.  Column labels are
 * compared by `String.equalsIgnoreCase`, which consults the JDK's Unicode
 * case tables one character at a time; the model takes those tables as a
 * parameter.
 */
module Chars {
  /**
   * `Char.lowercaseChar()` restricted to ASCII: only the capitals
   * A to Z are folded.
   */
  function Lower(c: char): (d: char)
    ensures 'A' <= c <= 'Z' ==> d as int == c as int + 32
    ensures !('A' <= c <= 'Z') ==> d == c
    ensures !('A' <= d <= 'Z')
  {
    if 'A' <= c <= 'Z' then (c as int + 32) as char else c
  }

  /** `String.lowercase()`, character by character, on ASCII capitals. */
  function LowerAll(s: string): (t: string)
    ensures |t| == |s|
    ensures forall i | 0 <= i < |s| :: t[i] == Lower(s[i])
  {
    seq(|s|, i requires 0 <= i < |s| => Lower(s[i]))
  }

  /**
   * The JDK's one-character case mappings, `Character.toUpperCase` and
   * `Character.toLowerCase`: Unicode data the model does not reproduce.
   */
  datatype CaseMap = CaseMap(upper: char -> char, lower: char -> char)

  /**
   * How `String.equalsIgnoreCase` compares one pair of characters: equal
   * as they are, or equal once upper-cased, or equal once the upper-case
   * forms are lower-cased.
   */
  predicate CharsMatch(m: CaseMap, a: char, b: char)
  {
    a == b || m.upper(a) == m.upper(b) || m.lower(m.upper(a)) == m.lower(m.upper(b))
  }

  /** `String.equals(other, ignoreCase = true)`: the same length, and each pair of characters matching. */
  predicate EqualsIgnoreCase(m: CaseMap, a: string, b: string)
  {
    |a| == |b| && forall i | 0 <= i < |a| :: CharsMatch(m, a[i], b[i])
  }

  /** A string with every character lower-cased after being upper-cased. */
  function FoldAll(m: CaseMap, s: string): (t: string)
    ensures |t| == |s|
    ensures forall i | 0 <= i < |s| :: t[i] == m.lower(m.upper(s[i]))
  {
    seq(|s|, i requires 0 <= i < |s| => m.lower(m.upper(s[i])))
  }

  /**
   * Whatever the tables say, two strings are equal ignoring case exactly
   * when their folded forms are equal; so ignoring case is an equivalence,
   * and in particular every name matches itself.
   */
  lemma EqualsIgnoreCaseFolded(m: CaseMap, a: string, b: string)
    ensures EqualsIgnoreCase(m, a, b) <==> FoldAll(m, a) == FoldAll(m, b)
  {
    if FoldAll(m, a) == FoldAll(m, b) {
      assert forall i | 0 <= i < |a| :: FoldAll(m, a)[i] == FoldAll(m, b)[i];
    }
  }
}

=== FILE: column_index.dfy ===
/**
 * Checked column indices: a one-based index (as JDBC numbers columns) and a
 * zero-based one (as rows are stored), each a `Long` whose constructor
 * rejects out-of-range values.  Arithmetic is 64-bit and wraps before the
 * check, as Kotlin's `Long` does.
 */
module ColumnIndex {
  import opened Errors
  import opened Ints

  type positive64 = n: int | 1 <= n < 0x8000_0000_0000_0000 witness 1
  type natural64 = n: int | 0 <= n < 0x8000_0000_0000_0000

  datatype One = One(value: positive64)
  datatype Zero = Zero(value: natural64)

  const OneTooSmall := IllegalArgument("column index must be >= 1")
  const ZeroTooSmall := IllegalArgument("column index must be >= 0")
  const DivisionByZero := Arithmetic("/ by zero")

  /** `OneColumnIndex(value)`, from a `Long` or a widened `Int`. */
  function NewOne(value: int64): (r: Result<One>)
    ensures r.Ok? <==> value >= 1
    ensures r.Ok? ==> r.value.value == value
    ensures r.Err? ==> r.exc == OneTooSmall
  {
    if value < 1 then Err(OneTooSmall) else Ok(One(value))
  }

  /** `ZeroColumnIndex(value)`, from a `Long` or a widened `Int`. */
  function NewZero(value: int64): (r: Result<Zero>)
    ensures r.Ok? <==> value >= 0
    ensures r.Ok? ==> r.value.value == value
    ensures r.Err? ==> r.exc == ZeroTooSmall
  {
    if value < 0 then Err(ZeroTooSmall) else Ok(Zero(value))
  }

  /** `toZeroColumnIndex()`: never fails, since a one-based index is at least 1. */
  function ToZero(o: One): (z: Zero)
    ensures NewZero(o.value - 1) == Ok(z)
  {
    Zero(o.value - 1)
  }

  /** `fromZeroColumnIndex(z)`, which is also `z.toOneColumnIndex()`. */
  function FromZero(z: Zero): (r: Result<One>)
    ensures r.Ok? <==> z.value < LONG_MAX
    ensures r.Ok? ==> r.value.value == z.value + 1
  {
    NewOne(ToLong(z.value + 1))
  }

  /** `ZeroColumnIndex.fromOneColumnIndex(o)`: the same arithmetic as `toZeroColumnIndex`. */
  function ZeroFromOne(o: One): (r: Result<Zero>)
    ensures r == Ok(ToZero(o))
  {
    NewZero(o.value - 1)
  }

  /** Going down and back up gives the same one-based index. */
  lemma OneRoundTrip(o: One)
    ensures FromZero(ToZero(o)) == Ok(o)
  {
  }

  /** Going up and back down gives the same zero-based index, whenever going up succeeds. */
  lemma ZeroRoundTrip(z: Zero)
    requires z.value < LONG_MAX
    ensures ZeroFromOne(FromZero(z).value) == Ok(z)
  {
  }

  /** The one zero-based index without a one-based counterpart. */
  lemma LargestZeroHasNoOne()
    ensures FromZero(Zero(LONG_MAX)) == Err(OneTooSmall)
  {
  }

  /**
   * `fromRawOneColumnIndex(n)`, as written: `n - 1` in 64-bit arithmetic.
   * For `Long.MIN_VALUE` the subtraction wraps around to `Long.MAX_VALUE`
   * and the check passes.
   */
  function FromRaw(n: int64): (r: Result<Zero>)
    ensures r.Ok? <==> n >= 1 || n == LONG_MIN
    ensures r.Ok? && n >= 1 ==> r.value.value == n - 1
    ensures r.Err? ==> r.exc == ZeroTooSmall
  {
    NewZero(ToLong(n - 1))
  }

  /** The smallest `Long` is accepted as a raw one-based index. */
  lemma FromRawWraps()
    ensures FromRaw(LONG_MIN) == Ok(Zero(LONG_MAX))
  {
  }

  /** `fromRawOneColumnIndex` with the wrap-around excluded. */
  function FromRawChecked(n: int64): (r: Result<Zero>)
    ensures r.Ok? <==> n >= 1
    ensures r.Err? ==> r.exc == ZeroTooSmall
  {
    if n < 1 then Err(ZeroTooSmall) else NewZero(n - 1)
  }

  /** The checked reader is the inverse of `FromZero` on every input. */
  lemma FromRawCheckedInvertsFromZero(n: int64, z: Zero)
    ensures FromRawChecked(n) == Ok(z) <==> FromZero(z).Ok? && FromZero(z).value.value == n
  {
  }

  /** `plus` with an index, a `Long` or a widened `Int`: the 64-bit sum, checked. */
  function Plus(a: Zero, other: int64): (r: Result<Zero>)
    ensures r.Ok? <==> 0 <= a.value + other <= LONG_MAX
    ensures r.Ok? ==> r.value.value == a.value + other
  {
    NewZero(ToLong(a.value + other))
  }

  /** `minus`: never overflows, so it fails exactly when the result would be negative. */
  function Minus(a: Zero, b: Zero): (r: Result<Zero>)
    ensures r.Ok? <==> b.value <= a.value
    ensures r.Ok? ==> r.value.value + b.value == a.value
  {
    NewZero(a.value - b.value)
  }

  /** A result of 64-bit arithmetic wrapped and then checked, as every operation here ends. */
  function Wrapped(x: int): (r: Result<Zero>)
    ensures 0 <= x <= LONG_MAX ==> r == Ok(Zero(x))
    ensures r.Ok? ==> (r.value.value - x) % 0x1_0000_0000_0000_0000 == 0
  {
    NewZero(ToLong(x))
  }

  /** `times`: the wrapped 64-bit product, checked; exact when the product fits. */
  function Times(a: Zero, b: Zero): (r: Result<Zero>)
    ensures a.value * b.value <= LONG_MAX ==> r == Ok(Zero(a.value * b.value))
    ensures r.Ok? ==> (r.value.value - a.value * b.value) % 0x1_0000_0000_0000_0000 == 0
  {
    var p := a.value * b.value;
    NonNegativeProduct(a.value, b.value);
    Wrapped(p)
  }

  lemma NonNegativeProduct(x: nat, y: nat)
    ensures x * y >= 0
  {
  }

  /** `div`: the quotient, or division by zero. */
  function Div(a: Zero, b: Zero): (r: Result<Zero>)
    ensures r.Err? <==> b.value == 0
    ensures r.Err? ==> r.exc == DivisionByZero
    ensures r.Ok? ==> r.value.value <= a.value
  {
    if b.value == 0 then Err(DivisionByZero)
    else
      QuotientBound(a.value, b.value);
      NewZero(a.value / b.value)
  }

  lemma QuotientBound(a: nat, b: nat)
    requires b >= 1
    ensures 0 <= a / b <= a
  {
    var q, m := a / b, a % b;
    assert q * b + m == a && 0 <= m < b;
    if q < 0 {
      ProductSign(q + 1, b);
      assert false;
    }
    ProductGrows(q, b);
  }

  lemma ProductSign(x: int, y: int)
    requires y >= 1 && x <= 0
    ensures x * y <= 0
  {
  }

  lemma ProductGrows(x: int, y: int)
    requires x >= 0 && y >= 1
    ensures x <= x * y
  {
  }

  /** `rem`: the remainder, or division by zero. */
  function Rem(a: Zero, b: Zero): (r: Result<Zero>)
    ensures r.Err? <==> b.value == 0
    ensures r.Ok? ==> r.value.value < b.value
  {
    if b.value == 0 then Err(DivisionByZero) else NewZero(a.value % b.value)
  }

  /** Quotient and remainder together recover the dividend. */
  lemma DivRem(a: Zero, b: Zero)
    requires b.value != 0
    ensures Div(a, b).value.value * b.value + Rem(a, b).value.value == a.value
  {
  }

  /** `unaryMinus`: only zero survives negation. */
  function Negate(a: Zero): (r: Result<Zero>)
    ensures r.Ok? <==> a.value == 0
    ensures r.Ok? ==> r.value == a
  {
    NewZero(-(a.value as int))
  }

  /** `inc`: fails only at the largest `Long`, where the sum wraps to a negative value. */
  function Inc(a: Zero): (r: Result<Zero>)
    ensures r.Ok? <==> a.value < LONG_MAX
    ensures r.Ok? ==> r.value.value == a.value + 1
  {
    NewZero(ToLong(a.value + 1))
  }

  /** `dec`: fails exactly on zero. */
  function Dec(a: Zero): (r: Result<Zero>)
    ensures r.Ok? <==> a.value >= 1
    ensures r.Ok? ==> r.value.value == a.value - 1
  {
    NewZero(a.value - 1)
  }

  /** `dec` undoes `inc`, and `inc` undoes `dec`, wherever they succeed. */
  lemma IncDec(a: Zero)
    ensures Inc(a).Ok? ==> Dec(Inc(a).value) == Ok(a)
    ensures Dec(a).Ok? ==> Inc(Dec(a).value) == Ok(a)
  {
  }

  /** Adding one is incrementing. */
  lemma PlusOneIsInc(a: Zero)
    ensures Plus(a, 1) == Inc(a)
  {
  }
}

=== FILE: config.dfy ===
/**
 * The connection's configuration (`ErldbConfig`), the transaction modes,
 * savepoints (`ErldbSavepoint`) and the JDBC constants the connection
 * checks its arguments against.
 */
module Config {
  import opened Errors
  import opened Ints
  import Decimal

  /** `TransactionMode`: how a transaction begins. */
  datatype TransactionMode = Deferred | Immediate | Exclusive

  /** The `java.sql.Connection` isolation levels. */
  const TRANSACTION_NONE: int32 := 0
  const TRANSACTION_READ_UNCOMMITTED: int32 := 1
  const TRANSACTION_READ_COMMITTED: int32 := 2
  const TRANSACTION_REPEATABLE_READ: int32 := 4
  const TRANSACTION_SERIALIZABLE: int32 := 8

  /** The `java.sql.ResultSet` cursor constants. */
  const HOLD_CURSORS_OVER_COMMIT: int32 := 1
  const CLOSE_CURSORS_AT_COMMIT: int32 := 2
  const TYPE_FORWARD_ONLY: int32 := 1003
  const CONCUR_READ_ONLY: int32 := 1007

  /** The `SQLiteOpenMode` flags the connection looks at. */
  const OPEN_READONLY: int32 := 0x0000_0001
  const OPEN_READWRITE: int32 := 0x0000_0002

  const DEFAULT_DATE_STRING_FORMAT := "yyyy-MM-dd HH:mm:ss"

  /**
   * `ErldbConfig`: the mutable fields; `busyTimeout`, the date multiplier
   * and the isolation level are constants of the class.
   */
  datatype Config = Config(
    transactionMode: TransactionMode,
    autoCommit: bool,
    readOnly: bool,
    explicitReadOnly: bool,
    openModeFlags: int32,
    dateStringFormat: string)

  /** The configuration a new connection starts with. */
  function Initial(): (c: Config)
    ensures c.transactionMode == Deferred && c.autoCommit
    ensures !c.readOnly && !c.explicitReadOnly
    ensures !OpensReadOnly(c) && c.openModeFlags == OPEN_READWRITE
    ensures c.dateStringFormat == DEFAULT_DATE_STRING_FORMAT
  {
    Config(Deferred, true, false, false, OPEN_READWRITE, DEFAULT_DATE_STRING_FORMAT)
  }

  /** `(openModeFlags and READONLY.flag) != 0`: the lowest bit of the two's complement flags. */
  predicate OpensReadOnly(c: Config)
  {
    c.openModeFlags % 2 == 1
  }

  /** `busyTimeout`: always zero. */
  function BusyTimeout(c: Config): (t: int32)
    ensures t == 0
  {
    0
  }

  /** `getDateMultiplier()`: always one. */
  function DateMultiplier(c: Config): (m: int64)
    ensures m == 1
  {
    1
  }

  /** `transactionIsolation`: always serializable. */
  function TransactionIsolation(c: Config): (level: int32)
    ensures level == TRANSACTION_SERIALIZABLE
  {
    8
  }

  /** `transactionPrefix`: the statement that opens a transaction in the configured mode. */
  function TransactionPrefix(mode: TransactionMode): (s: string)
    ensures |s| >= 6 && s[..5] == "begin" && s[|s| - 1] == ';'
    ensures mode == Deferred <==> s == "begin;"
  {
    match mode
    case Deferred => "begin;"
    case Immediate => "begin immediate;"
    case Exclusive => "begin exclusive;"
  }

  /** The mode a prefix opens, read back from the statement text. */
  function ModeOfPrefix(s: string): (m: Option<TransactionMode>)
  {
    if s == "begin;" then Some(Deferred)
    else if s == "begin immediate;" then Some(Immediate)
    else if s == "begin exclusive;" then Some(Exclusive)
    else None
  }

  /** Each mode has its own prefix: the mode can be read back from it. */
  lemma PrefixDeterminesMode(mode: TransactionMode)
    ensures ModeOfPrefix(TransactionPrefix(mode)) == Some(mode)
  {
  }

  /** No two modes share a prefix. */
  lemma PrefixInjective(a: TransactionMode, b: TransactionMode)
    ensures TransactionPrefix(a) == TransactionPrefix(b) <==> a == b
  {
    PrefixDeterminesMode(a);
    PrefixDeterminesMode(b);
  }

  /** `ErldbSavepoint`: an id and an optional name. */
  datatype Savepoint = Savepoint(id: int32, name: Option<string>)

  const DEFAULT_SAVEPOINT_PREFIX := "SQLITE_SAVEPOINT_"

  /** `getSavepointId()`. */
  function SavepointId(sp: Savepoint): (id: int32)
    ensures id == sp.id
  {
    sp.id
  }

  /**
   * `getSavepointName()`: the given name, or a name made from the id from
   * which the id can be read back.
   */
  function SavepointName(sp: Savepoint): (n: string)
    ensures sp.name.Some? ==> n == sp.name.value
    ensures sp.name.None? ==>
              |n| > |DEFAULT_SAVEPOINT_PREFIX|
              && n[..|DEFAULT_SAVEPOINT_PREFIX|] == DEFAULT_SAVEPOINT_PREFIX
              && Decimal.Parse(n[|DEFAULT_SAVEPOINT_PREFIX|..]) == Some(sp.id)
  {
    match sp.name
    case Some(given) => given
    case None =>
      var digits := Decimal.ShowInt(sp.id);
      assert (DEFAULT_SAVEPOINT_PREFIX + digits)[|DEFAULT_SAVEPOINT_PREFIX|..] == digits;
      DEFAULT_SAVEPOINT_PREFIX + digits
  }

  /** Unnamed savepoints with different ids have different names. */
  lemma DefaultNamesDistinct(a: Savepoint, b: Savepoint)
    requires a.name.None? && b.name.None? && a.id != b.id
    ensures SavepointName(a) != SavepointName(b)
  {
  }
}

=== FILE: connection.dfy ===
/**
 * `ErldbConnection`: one connection to a database file on the cluster.
 * Every transaction-control operation sends plain SQL through
 * `prepareAndStep` (prepare, step once, finalize), so what an operation
 * does is stated as the SQL text it prepares, read off the request log.
 *
 * The connection keeps the statement handles registered by `prepare(stmt)`
 * in `stmts`, each at most once.  The source keeps them in a hash set, so
 * the order in which `close()` visits them is unspecified; the model fixes
 * it as registration order.
 */
module Connection {
  import opened Errors
  import opened Ints
  import opened Remote
  import opened Config
  import opened HttpAccess
  import Decimal
  import JdbcUrl

  datatype Conn = Conn(
    session: Session,
    config: Config,
    open: bool,
    stmts: seq<nat>,
    firstStatementExecuted: bool,
    savePoint: int32,
    thisReadOnly: bool,
    nodes: seq<Node>)

  /** A connection after an operation, and the operation's outcome. */
  datatype Outcome<T> = Outcome(conn: Conn, r: Result<T>)

  const NotExecuting := SqlException("statement is not executing")
  const AutoCommitMode := SqlException("database in auto-commit mode")
  const AlreadyAdded := IllegalState("Already added pointer to statements set")
  const ChangedAfterStatements := SqlException("Cannot change read-only flag after executing statements")
  const ImplicitReadOnly := SqlException("Cannot change read-only flag for implicit read-only connection")
  const ForwardOnlyOnly := SqlException("SQLite only supports TYPE_FORWARD_ONLY cursors")
  const ReadOnlyOnly := SqlException("SQLite only supports CONCUR_READ_ONLY cursors")
  const CloseAtCommitOnly := SqlException("SQLite only supports closing cursors at commit")
  const HoldabilityUnsupported := SqlException("SQLite only supports CLOSE_CURSORS_AT_COMMIT")

  predicate Distinct(hs: seq<nat>)
  {
    forall i, j | 0 <= i < j < |hs| :: hs[i] != hs[j]
  }

  /** Every handle listed exists in the session. */
  predicate Within(ss: Session, hs: seq<nat>)
  {
    forall j | 0 <= j < |hs| :: hs[j] < |ss.handles|
  }

  /**
   * What every connection satisfies: registered handles exist and are
   * registered once, and a closed connection has none.
   */
  predicate Valid(c: Conn)
  {
    && Within(c.session, c.stmts)
    && Distinct(c.stmts)
    && (!c.open ==> c.stmts == [])
  }

  /** The requests posted between two points of a session. */
  function Issued(before: Session, after: Session): (calls: seq<Call>)
    requires Later(before, after)
    ensures before.server.log + calls == after.server.log
  {
    after.server.log[|before.server.log|..]
  }

  /** The SQL text of every statement prepared by these requests, in order. */
  function Sql(calls: seq<Call>): (texts: seq<string>)
    ensures |texts| <= |calls|
  {
    if |calls| == 0 then []
    else (if calls[0].Prepare? then [calls[0].sql] else []) + Sql(calls[1..])
  }

  lemma {:induction false} SqlAppend(a: seq<Call>, b: seq<Call>)
    ensures Sql(a + b) == Sql(a) + Sql(b)
  {
    if |a| == 0 {
      assert a + b == b;
    } else {
      assert (a + b)[0] == a[0];
      assert (a + b)[1..] == a[1..] + b;
      SqlAppend(a[1..], b);
    }
  }

  /** Requests that prepare nothing. */
  predicate NoPrepare(calls: seq<Call>)
  {
    forall i | 0 <= i < |calls| :: !calls[i].Prepare?
  }

  lemma {:induction false} SqlNoPrepare(calls: seq<Call>)
    requires NoPrepare(calls)
    ensures Sql(calls) == []
  {
    if |calls| > 0 {
      SqlNoPrepare(calls[1..]);
    }
  }

  /** The requests of two consecutive stretches of a session add up. */
  lemma IssuedJoin(a: Session, b: Session, c: Session)
    requires Later(a, b) && Later(b, c)
    ensures Later(a, c)
    ensures Issued(a, c) == Issued(a, b) + Issued(b, c)
  {
    LaterTransitive(a, b, c);
  }

  /** The requests of two consecutive stretches of a session, and their SQL, add up. */
  lemma IssuedChain(a: Session, b: Session, c: Session)
    requires Later(a, b) && Later(b, c)
    ensures Later(a, c)
    ensures Issued(a, c) == Issued(a, b) + Issued(b, c)
    ensures Sql(Issued(a, c)) == Sql(Issued(a, b)) + Sql(Issued(b, c))
  {
    LaterTransitive(a, b, c);
    SqlAppend(Issued(a, b), Issued(b, c));
  }

  /** A session is later than itself. */
  lemma LaterRefl(s: Session)
    ensures Later(s, s)
  {
    assert s.server.log[..|s.server.log|] == s.server.log;
  }

  /** A closed handle stays closed in every later session. */
  lemma StaysClosed(a: Session, b: Session, h: nat)
    requires Later(a, b) && ValidHandle(a, h) && IsClosed(a, h)
    ensures ValidHandle(b, h) && IsClosed(b, h)
  {
    assert Successor(a.handles[h], b.handles[h]);
  }

  /** Only the session of the connection differs. */
  predicate SameBut(c: Conn, d: Conn)
  {
    d == c.(session := d.session)
  }

  /** A connection differs from itself in nothing. */
  lemma SameButRefl(c: Conn)
    ensures SameBut(c, c)
  {
  }

  /** `withGuard()`: the open check every operation starts with. */
  function WithGuard(c: Conn): (r: Result<()>)
    ensures r.Ok? <==> c.open
    ensures r.Err? ==> r.exc == NotExecuting
  {
    if c.open then Ok(()) else Err(NotExecuting)
  }

  /**
   * The requests of one successful `prepareAndStep`: prepare the text,
   * step it once, the auto-commit pair when asked, and finalize it.
   */
  predicate Exchange(calls: seq<Call>, sql: string, autoCommit: bool)
  {
    && |calls| == (if autoCommit then 5 else 3)
    && calls[0] == Prepare(sql)
    && calls[1].StepBy? && calls[1].n == 1
    && (autoCommit ==> calls[2] == Execute("BEGIN;") && calls[3] == Execute("COMMIT;"))
    && calls[|calls| - 1] == Finalize(calls[1].stmt)
  }

  /**
   * `prepareAndStep(sql, autoCommit)`: prepare the text, step it once
   * (ignoring the step's `Result`), run `ensureAutoCommit`, and close the
   * statement whatever happened; a throw from the block wins over one
   * from the close.
   */
  method PrepareAndStep(c: Conn, sql: string, autoCommit: bool) returns (o: Outcome<()>)
    requires Valid(c)
    ensures Valid(o.conn) && SameBut(c, o.conn) && Later(c.session, o.conn.session)
    ensures !c.open ==> o == Outcome(c, Err(NotExecuting))
    ensures c.open ==> Sql(Issued(c.session, o.conn.session)) == [sql]
    ensures c.open && o.r.Ok? ==> Exchange(Issued(c.session, o.conn.session), sql, autoCommit)
    ensures forall k | |c.session.handles| <= k < |o.conn.session.handles| :: IsClosed(o.conn.session, k)
  {
    if !c.open {
      return Outcome(c, Err(NotExecuting));
    }
    var p := DbPrepare(c.session, sql);
    if p.r.Err? || p.r.value.Err? {
      PrepareFailedLog(c.session, p.session, sql);
      ValidGrows(c, p.session);
      return Outcome(c.(session := p.session), Err(if p.r.Err? then p.r.exc else p.r.value.exc));
    }
    var h := p.r.value.value;
    var after, r := StepAndClose(p.session, h, autoCommit);
    PreparedLog(c.session, p.session, after, sql, h, autoCommit, r.Ok?);
    ValidGrows(c, after);
    OnlyNewClosed(c.session, after, h);
    o := Outcome(c.(session := after), r);
  }

  /** More handles keep a connection valid. */
  lemma ValidGrows(c: Conn, ss: Session)
    requires Valid(c) && |c.session.handles| <= |ss.handles|
    ensures Valid(c.(session := ss))
  {
  }

  /** When the one handle added is closed, every handle added is. */
  lemma OnlyNewClosed(s0: Session, ss: Session, h: nat)
    requires |ss.handles| == |s0.handles| + 1 && h == |s0.handles| && ValidHandle(ss, h) && IsClosed(ss, h)
    ensures forall k | |s0.handles| <= k < |ss.handles| :: IsClosed(ss, k)
  {
  }

  lemma PrepareFailedLog(s0: Session, s1: Session, sql: string)
    requires Later(s0, s1) && s1.server.log == s0.server.log + [Prepare(sql)]
    ensures Sql(Issued(s0, s1)) == [sql]
  {
    assert Issued(s0, s1) == [Prepare(sql)];
    SqlAppend([Prepare(sql)], []);
  }

  /** The requests of `prepareAndStep` once the prepare succeeded. */
  lemma PreparedLog(s0: Session, s1: Session, s2: Session, sql: string, h: nat, autoCommit: bool, ok: bool)
    requires Later(s0, s1) && s1.server.log == s0.server.log + [Prepare(sql)]
    requires ValidHandle(s1, h) && s1.handles[h].LiveHandle? && s1.handles[h].open
    requires Later(s1, s2) && NoPrepare(Issued(s1, s2))
    requires ok ==> Issued(s1, s2) == Stepped(s1.handles[h].stmt, autoCommit)
    ensures Later(s0, s2)
    ensures Sql(Issued(s0, s2)) == [sql]
    ensures ok ==> Exchange(Issued(s0, s2), sql, autoCommit)
  {
    IssuedChain(s0, s1, s2);
    assert Issued(s0, s1) == [Prepare(sql)];
    SqlAppend([Prepare(sql)], []);
    SqlNoPrepare(Issued(s1, s2));
  }

  /** The requests the block of `prepareAndStep` and the close after it post on success. */
  function Stepped(id: int, autoCommit: bool): (calls: seq<Call>)
    ensures NoPrepare(calls)
  {
    [StepBy(id, 1)] + (if autoCommit then [Execute("BEGIN;"), Execute("COMMIT;")] else []) + [Finalize(id)]
  }

  /** Requests without a prepare, one stretch after another. */
  lemma NoPrepareJoin(a: seq<Call>, b: seq<Call>)
    requires NoPrepare(a) && NoPrepare(b)
    ensures NoPrepare(a + b)
  {
    assert forall i | 0 <= i < |a + b| :: (a + b)[i] == if i < |a| then a[i] else b[i - |a|];
  }

  /** The auto-commit round sends no prepare, whatever it answers. */
  lemma AutoCommitNoPrepare(ss: Session, autoCommit: bool)
    ensures Later(ss, EnsureAutoCommit(ss, autoCommit).0)
    ensures NoPrepare(Issued(ss, EnsureAutoCommit(ss, autoCommit).0))
  {
    var e := EnsureAutoCommit(ss, autoCommit);
    var calls := Issued(ss, e.0);
    assert calls == [] || calls == [Execute("BEGIN;")] || calls == [Execute("BEGIN;"), Execute("COMMIT;")];
  }

  /**
   * The `try` block of `prepareAndStep` on a prepared handle: one step,
   * then the auto-commit round if the step did not throw.
   */
  method StepBlock(ss: Session, h: nat, autoCommit: bool) returns (mid: Session, block: Result<()>)
    requires ValidHandle(ss, h) && ss.handles[h].LiveHandle? && ss.handles[h].open
    ensures Later(ss, mid) && mid.handles == ss.handles
    ensures NoPrepare(Issued(ss, mid))
    ensures block.Ok? ==>
              Issued(ss, mid) == [StepBy(ss.handles[h].stmt, 1)] + (if autoCommit then [Execute("BEGIN;"), Execute("COMMIT;")] else [])
  {
    var st := StepByHandle(ss, h, 1);
    assert Issued(ss, st.session) == [StepBy(ss.handles[h].stmt, 1)];
    if st.r.Err? {
      return st.session, Err(st.r.exc);
    }
    var e := EnsureAutoCommit(st.session, autoCommit);
    AutoCommitNoPrepare(st.session, autoCommit);
    IssuedJoin(ss, st.session, e.0);
    NoPrepareJoin(Issued(ss, st.session), Issued(st.session, e.0));
    mid, block := e.0, e.1;
  }

  /**
   * The block of `prepareAndStep` on a prepared handle and the close after
   * it: the handle ends closed whatever happens.
   */
  method StepAndClose(ss: Session, h: nat, autoCommit: bool) returns (after: Session, r: Result<()>)
    requires ValidHandle(ss, h) && ss.handles[h].LiveHandle? && ss.handles[h].open
    ensures Later(ss, after) && |after.handles| == |ss.handles| && IsClosed(after, h)
    ensures NoPrepare(Issued(ss, after))
    ensures r.Ok? ==> Issued(ss, after) == Stepped(ss.handles[h].stmt, autoCommit)
  {
    var id := ss.handles[h].stmt;
    var mid, block := StepBlock(ss, h, autoCommit);
    var x := CloseHandle(mid, h);
    assert Issued(mid, x.session) == [Finalize(id)];
    IssuedJoin(ss, mid, x.session);
    NoPrepareJoin(Issued(ss, mid), Issued(mid, x.session));
    after := x.session;
    r := if block.Err? then block else if x.r.Err? then Err(x.r.exc) else Ok(());
  }

  /**
   * `setAutoCommit(ac)`: nothing happens when the flag already has that
   * value; otherwise the flag is set first, then turning it on commits
   * and resets the mode to deferred, and turning it off begins a
   * transaction in the configured mode.
   */
  method SetAutoCommit(c: Conn, ac: bool) returns (o: Outcome<()>)
    requires Valid(c)
    ensures Valid(o.conn) && Later(c.session, o.conn.session)
    ensures o.conn.open == c.open && o.conn.stmts == c.stmts && o.conn.savePoint == c.savePoint
    ensures o.conn.firstStatementExecuted == c.firstStatementExecuted && o.conn.thisReadOnly == c.thisReadOnly
    ensures !c.open ==> o == Outcome(c, Err(NotExecuting))
    ensures c.open ==> o.conn.config.autoCommit == ac
    ensures c.open && c.config.autoCommit == ac ==> o == Outcome(c, Ok(()))
    ensures c.open && c.config.autoCommit != ac && ac ==>
              Sql(Issued(c.session, o.conn.session)) == ["commit;"]
              && o.conn.config.transactionMode == (if o.r.Ok? then Deferred else c.config.transactionMode)
    ensures c.open && c.config.autoCommit != ac && !ac ==>
              Sql(Issued(c.session, o.conn.session)) == [TransactionPrefix(c.config.transactionMode)]
              && o.conn.config.transactionMode == c.config.transactionMode
  {
    if !c.open {
      return Outcome(c, Err(NotExecuting));
    }
    if c.config.autoCommit == ac {
      return Outcome(c, Ok(()));
    }
    var c1 := c.(config := c.config.(autoCommit := ac));
    if ac {
      o := PrepareAndStep(c1, "commit;", ac);
      if o.r.Ok? {
        o := Outcome(o.conn.(config := o.conn.config.(transactionMode := Deferred)), Ok(()));
      }
    } else {
      o := PrepareAndStep(c1, TransactionPrefix(c1.config.transactionMode), ac);
    }
  }

  /** `getAutoCommit()`. */
  function GetAutoCommit(c: Conn): (r: Result<bool>)
    ensures r.Err? <==> !c.open
    ensures r.Ok? ==> r.value == c.config.autoCommit
  {
    if !c.open then Err(NotExecuting) else Ok(c.config.autoCommit)
  }

  /**
   * `rollback()`: refused in auto-commit mode; otherwise rolls back, begins
   * a new transaction in the configured mode, and forgets that a
   * statement was executed.  The savepoint counter is not reset.
   */
  method Rollback(c: Conn) returns (o: Outcome<()>)
    requires Valid(c)
    ensures Valid(o.conn) && Later(c.session, o.conn.session)
    ensures o.conn.open == c.open && o.conn.stmts == c.stmts && o.conn.config == c.config
    ensures o.conn.savePoint == c.savePoint && o.conn.thisReadOnly == c.thisReadOnly
    ensures !c.open ==> o == Outcome(c, Err(NotExecuting))
    ensures c.open && c.config.autoCommit ==> o == Outcome(c, Err(AutoCommitMode))
    ensures c.open && !c.config.autoCommit ==>
              || Sql(Issued(c.session, o.conn.session)) == ["rollback;"]
              || Sql(Issued(c.session, o.conn.session)) == ["rollback;", TransactionPrefix(c.config.transactionMode)]
    ensures o.r.Ok? ==>
              && Sql(Issued(c.session, o.conn.session)) == ["rollback;", TransactionPrefix(c.config.transactionMode)]
              && !o.conn.firstStatementExecuted
    ensures o.r.Err? ==> o.conn.firstStatementExecuted == c.firstStatementExecuted
  {
    if !c.open {
      return Outcome(c, Err(NotExecuting));
    }
    if c.config.autoCommit {
      return Outcome(c, Err(AutoCommitMode));
    }
    var x := PrepareAndStep(c, "rollback;", false);
    if x.r.Err? {
      return x;
    }
    var y := PrepareAndStep(x.conn, TransactionPrefix(x.conn.config.transactionMode), false);
    IssuedChain(c.session, x.conn.session, y.conn.session);
    if y.r.Err? {
      return y;
    }
    o := Outcome(y.conn.(firstStatementExecuted := false), Ok(()));
  }

  /**
   * A statement that only auto-commit mode refuses: sent with
   * `prepareAndStep`, auto-commit being off.
   */
  method OutsideAutoCommit(c: Conn, sql: string) returns (o: Outcome<()>)
    requires Valid(c)
    ensures Valid(o.conn) && SameBut(c, o.conn) && Later(c.session, o.conn.session)
    ensures !c.open ==> o == Outcome(c, Err(NotExecuting))
    ensures c.open && c.config.autoCommit ==> o == Outcome(c, Err(AutoCommitMode))
    ensures c.open && !c.config.autoCommit ==> Sql(Issued(c.session, o.conn.session)) == [sql]
    ensures o.r.Ok? ==> Exchange(Issued(c.session, o.conn.session), sql, false)
  {
    if !c.open {
      return Outcome(c, Err(NotExecuting));
    }
    if c.config.autoCommit {
      return Outcome(c, Err(AutoCommitMode));
    }
    o := PrepareAndStep(c, sql, false);
  }

  /** `rollback(savepoint)`: back to the savepoint, by its name. */
  method RollbackTo(c: Conn, sp: Savepoint) returns (o: Outcome<()>)
    requires Valid(c)
    ensures Valid(o.conn) && SameBut(c, o.conn) && Later(c.session, o.conn.session)
    ensures !c.open ==> o == Outcome(c, Err(NotExecuting))
    ensures c.open && c.config.autoCommit ==> o == Outcome(c, Err(AutoCommitMode))
    ensures c.open && !c.config.autoCommit ==>
              Sql(Issued(c.session, o.conn.session)) == ["ROLLBACK TO SAVEPOINT " + SavepointName(sp)]
  {
    o := OutsideAutoCommit(c, "ROLLBACK TO SAVEPOINT " + SavepointName(sp));
  }

  /** `releaseSavepoint(savepoint)`. */
  method ReleaseSavepoint(c: Conn, sp: Savepoint) returns (o: Outcome<()>)
    requires Valid(c)
    ensures Valid(o.conn) && SameBut(c, o.conn) && Later(c.session, o.conn.session)
    ensures !c.open ==> o == Outcome(c, Err(NotExecuting))
    ensures c.open && c.config.autoCommit ==> o == Outcome(c, Err(AutoCommitMode))
    ensures c.open && !c.config.autoCommit ==>
              Sql(Issued(c.session, o.conn.session)) == ["RELEASE SAVEPOINT " + SavepointName(sp)]
  {
    o := OutsideAutoCommit(c, "RELEASE SAVEPOINT " + SavepointName(sp));
  }

  /** `savePoint.incrementAndGet()`: one more, wrapping from `Int.MAX_VALUE` to `Int.MIN_VALUE`. */
  function NextSavepointId(n: int32): (m: int32)
    ensures n < INT_MAX ==> m == n + 1
    ensures n == INT_MAX ==> m == INT_MIN
  {
    ToInt(n + 1)
  }

  /**
   * `setSavepoint()` and `setSavepoint(name)`: auto-commit is switched off,
   * the counter is incremented, and the savepoint is declared under its
   * name.  The counter moves even when the declaration fails.
   */
  method SetSavepoint(c: Conn, name: Option<string>) returns (o: Outcome<Savepoint>)
    requires Valid(c)
    ensures Valid(o.conn) && Later(c.session, o.conn.session)
    ensures o.conn.open == c.open && o.conn.stmts == c.stmts && o.conn.thisReadOnly == c.thisReadOnly
    ensures o.conn.firstStatementExecuted == c.firstStatementExecuted
    ensures !c.open ==> o == Outcome(c, Err(NotExecuting))
    ensures c.open ==>
              && o.conn.config == c.config.(autoCommit := false)
              && o.conn.savePoint == NextSavepointId(c.savePoint)
              && Sql(Issued(c.session, o.conn.session)) == ["SAVEPOINT " + SavepointName(Savepoint(o.conn.savePoint, name))]
    ensures o.r.Ok? ==> o.r.value == Savepoint(o.conn.savePoint, name)
  {
    if !c.open {
      return Outcome(c, Err(NotExecuting));
    }
    var c1 := c.(config := c.config.(autoCommit := false), savePoint := NextSavepointId(c.savePoint));
    var sp := Savepoint(c1.savePoint, name);
    var x := PrepareAndStep(c1, "SAVEPOINT " + SavepointName(sp), false);
    o := Outcome(x.conn, if x.r.Err? then Err(x.r.exc) else Ok(sp));
  }

  /**
   * A savepoint set and then rolled back to (or released): setting it
   * switched auto-commit off, so the second statement is always sent, and
   * it names the very savepoint the first declared.
   */
  method SavepointThen(c: Conn, name: Option<string>, release: bool) returns (sp: Outcome<Savepoint>, o: Outcome<()>)
    requires Valid(c)
    ensures Valid(o.conn) && Later(c.session, o.conn.session)
    ensures !c.open ==> sp.r == Err(NotExecuting) && o.conn == c
    ensures sp.r.Err? ==> o == Outcome(sp.conn, Err(sp.r.exc))
    ensures c.open && sp.r.Ok? ==>
              && o.conn.savePoint == NextSavepointId(c.savePoint)
              && !o.conn.config.autoCommit
              && Sql(Issued(c.session, o.conn.session)) ==
                 ["SAVEPOINT " + SavepointName(sp.r.value),
                  (if release then "RELEASE SAVEPOINT " else "ROLLBACK TO SAVEPOINT ") + SavepointName(sp.r.value)]
  {
    sp := SetSavepoint(c, name);
    if sp.r.Err? {
      return sp, Outcome(sp.conn, Err(sp.r.exc));
    }
    if release {
      o := ReleaseSavepoint(sp.conn, sp.r.value);
    } else {
      o := RollbackTo(sp.conn, sp.r.value);
    }
    IssuedChain(c.session, sp.conn.session, o.conn.session);
  }

  /** `isReadOnly()`: explicitly set read-only, or opened read-only. */
  function IsReadOnly(c: Conn): (r: Result<bool>)
    ensures r.Err? <==> !c.open
    ensures r.Ok? ==> (r.value <==> (c.config.explicitReadOnly && c.thisReadOnly) || OpensReadOnly(c.config))
  {
    if !c.open then Err(NotExecuting)
    else Ok((c.config.explicitReadOnly && c.thisReadOnly) || OpensReadOnly(c.config))
  }

  /**
   * `setReadOnly(ro)`: with an explicit read-only setting the flag may not
   * change once a statement has run; otherwise it may not differ from what
   * the open mode implies.
   */
  function SetReadOnly(c: Conn, ro: bool): (o: Outcome<()>)
    ensures o.r.Ok? <==>
              c.open
              && (if c.config.explicitReadOnly then ro == c.thisReadOnly || !c.firstStatementExecuted
                  else ro == OpensReadOnly(c.config))
    ensures o.r.Ok? ==> o.conn == c.(thisReadOnly := ro)
    ensures o.r.Err? ==> o.conn == c
    ensures c.open && c.config.explicitReadOnly && o.r.Err? ==> o.r.exc == ChangedAfterStatements
    ensures c.open && !c.config.explicitReadOnly && o.r.Err? ==> o.r.exc == ImplicitReadOnly
  {
    if !c.open then Outcome(c, Err(NotExecuting))
    else if c.config.explicitReadOnly then
      if ro != c.thisReadOnly && c.firstStatementExecuted then Outcome(c, Err(ChangedAfterStatements))
      else Outcome(c.(thisReadOnly := ro), Ok(()))
    else if ro != IsReadOnly(c).value then Outcome(c, Err(ImplicitReadOnly))
    else Outcome(c.(thisReadOnly := ro), Ok(()))
  }

  /** With an explicit setting, what was set is what `isReadOnly` reports, unless the open mode is read-only. */
  lemma SetThenIsReadOnly(c: Conn, ro: bool)
    requires c.config.explicitReadOnly && SetReadOnly(c, ro).r.Ok?
    ensures IsReadOnly(SetReadOnly(c, ro).conn) == Ok(ro || OpensReadOnly(c.config))
  {
  }

  /** Without an explicit setting, `setReadOnly` never changes what `isReadOnly` reports. */
  lemma ImplicitReadOnlyUnchanged(c: Conn, ro: bool)
    requires !c.config.explicitReadOnly
    ensures IsReadOnly(SetReadOnly(c, ro).conn) == IsReadOnly(c)
  {
  }

  /** A connection with the initial configuration is writable, and can only be declared so. */
  lemma InitialIsWritable(c: Conn)
    requires c.open && c.config == Initial()
    ensures IsReadOnly(c) == Ok(false)
    ensures SetReadOnly(c, true) == Outcome(c, Err(ImplicitReadOnly))
    ensures SetReadOnly(c, false).r.Ok?
  {
  }

  /** The message for an isolation level the driver does not know. */
  function UnsupportedIsolation(level: int32): string
  {
    "Unsupported transaction isolation level: " + Decimal.ShowInt(level)
    + ". Must be one of TRANSACTION_READ_UNCOMMITTED, TRANSACTION_READ_COMMITTED, "
    + "TRANSACTION_REPEATABLE_READ, or TRANSACTION_SERIALIZABLE in java.sql.Connection"
  }

  /** The four isolation levels of `java.sql.Connection` other than none. */
  predicate KnownLevel(level: int32)
  {
    level == TRANSACTION_READ_UNCOMMITTED || level == TRANSACTION_READ_COMMITTED
    || level == TRANSACTION_REPEATABLE_READ || level == TRANSACTION_SERIALIZABLE
  }

  /** The pragma that turns SQLite's `read_uncommitted` on or off. */
  function ReadUncommitted(on: bool): string
  {
    if on then "PRAGMA read_uncommitted = true;" else "PRAGMA read_uncommitted = false;"
  }

  /**
   * `setTransactionIsolation(level)`: the four standard levels turn
   * SQLite's `read_uncommitted` pragma on (read uncommitted) or off (the
   * others); any other level is refused without a request.
   */
  method SetTransactionIsolation(c: Conn, level: int32) returns (o: Outcome<()>)
    requires Valid(c)
    ensures Valid(o.conn) && SameBut(c, o.conn) && Later(c.session, o.conn.session)
    ensures !c.open ==> o == Outcome(c, Err(NotExecuting))
    ensures c.open && !KnownLevel(level) ==> o == Outcome(c, Err(SqlException(UnsupportedIsolation(level))))
    ensures c.open && KnownLevel(level) ==>
              Sql(Issued(c.session, o.conn.session)) == [ReadUncommitted(level == TRANSACTION_READ_UNCOMMITTED)]
  {
    LaterRefl(c.session);
    SameButRefl(c);
    if !c.open {
      return Outcome(c, Err(NotExecuting));
    }
    if !KnownLevel(level) {
      return Outcome(c, Err(SqlException(UnsupportedIsolation(level))));
    }
    o := SetReadUncommitted(c, level == TRANSACTION_READ_UNCOMMITTED);
  }

  /** The pragma's round on an open connection. */
  method SetReadUncommitted(c: Conn, on: bool) returns (o: Outcome<()>)
    requires Valid(c) && c.open
    ensures Valid(o.conn) && SameBut(c, o.conn) && Later(c.session, o.conn.session)
    ensures Sql(Issued(c.session, o.conn.session)) == [ReadUncommitted(on)]
  {
    o := PrepareAndStep(c, ReadUncommitted(on), c.config.autoCommit);
  }

  /** `getTransactionIsolation()`: whatever was set, the configuration answers serializable. */
  function GetTransactionIsolation(c: Conn): (r: Result<int32>)
    ensures r.Err? <==> !c.open
    ensures r.Ok? ==> r.value == TRANSACTION_SERIALIZABLE
  {
    if !c.open then Err(NotExecuting) else Ok(TransactionIsolation(c.config))
  }

  /** `setHoldability(h)`: only closing cursors at commit is accepted. */
  function SetHoldability(c: Conn, h: int32): (r: Result<()>)
    ensures r.Ok? <==> c.open && h == CLOSE_CURSORS_AT_COMMIT
    ensures c.open && r.Err? ==> r.exc == HoldabilityUnsupported
  {
    if !c.open then Err(NotExecuting)
    else if h != CLOSE_CURSORS_AT_COMMIT then Err(HoldabilityUnsupported)
    else Ok(())
  }

  /** `getHoldability()`. */
  function GetHoldability(c: Conn): (r: Result<int32>)
    ensures r.Err? <==> !c.open
    ensures r.Ok? ==> SetHoldability(c, r.value).Ok?
  {
    if !c.open then Err(NotExecuting) else Ok(CLOSE_CURSORS_AT_COMMIT)
  }

  /**
   * `checkCursor(rst, rsc, rsh)`: the one combination SQLite supports is
   * forward-only, read-only, closed at commit; the first mismatch is reported.
   */
  function CheckCursor(c: Conn, rst: int32, rsc: int32, rsh: int32): (r: Result<()>)
    ensures r.Ok? <==> c.open && rst == TYPE_FORWARD_ONLY && rsc == CONCUR_READ_ONLY && rsh == CLOSE_CURSORS_AT_COMMIT
    ensures c.open && rst != TYPE_FORWARD_ONLY ==> r == Err(ForwardOnlyOnly)
    ensures c.open && rst == TYPE_FORWARD_ONLY && rsc != CONCUR_READ_ONLY ==> r == Err(ReadOnlyOnly)
    ensures c.open && rst == TYPE_FORWARD_ONLY && rsc == CONCUR_READ_ONLY && rsh != CLOSE_CURSORS_AT_COMMIT ==>
              r == Err(CloseAtCommitOnly)
  {
    if !c.open then Err(NotExecuting)
    else if rst != TYPE_FORWARD_ONLY then Err(ForwardOnlyOnly)
    else if rsc != CONCUR_READ_ONLY then Err(ReadOnlyOnly)
    else if rsh != CLOSE_CURSORS_AT_COMMIT then Err(CloseAtCommitOnly)
    else Ok(())
  }

  /**
   * The cursor check and the holdability setter agree on holdability, and
   * the holdability the connection reports passes the check.
   */
  lemma CursorCheckMatchesHoldability(c: Conn, h: int32)
    ensures CheckCursor(c, TYPE_FORWARD_ONLY, CONCUR_READ_ONLY, h).Ok? <==> SetHoldability(c, h).Ok?
    ensures c.open ==> CheckCursor(c, TYPE_FORWARD_ONLY, CONCUR_READ_ONLY, GetHoldability(c).value).Ok?
  {
  }

  /** A remote handle that has been closed: closing it again throws. */
  predicate Stale(ss: Session, h: nat)
    requires ValidHandle(ss, h)
  {
    ss.handles[h].LiveHandle? && !ss.handles[h].open
  }

  /** A stale handle stays stale. */
  lemma StaysStale(a: Session, b: Session, h: nat)
    requires Later(a, b) && ValidHandle(a, h) && Stale(a, h)
    ensures ValidHandle(b, h) && Stale(b, h)
  {
    assert Successor(a.handles[h], b.handles[h]);
  }

  /** Closing a handle prepares nothing, and the requests so far stay free of prepares. */
  lemma CloseHandleLog(s0: Session, ss: Session, h: nat)
    requires Later(s0, ss) && NoPrepare(Issued(s0, ss)) && ValidHandle(ss, h)
    ensures Later(s0, CloseHandle(ss, h).session)
    ensures NoPrepare(Issued(s0, CloseHandle(ss, h).session))
  {
    var s1 := CloseHandle(ss, h).session;
    var t := Issued(ss, s1);
    assert t == [] || t == [Finalize(ss.handles[h].stmt)];
    IssuedChain(s0, ss, s1);
  }

  /**
   * The loop of `close()` as written: each handle is closed in turn, a
   * failed `Result` is ignored, and the first throw ends the loop; a
   * handle closed before always throws.
   */
  method CloseEach(ss: Session, hs: seq<nat>) returns (after: Session, r: Result<()>)
    requires Within(ss, hs)
    ensures Later(ss, after) && |after.handles| == |ss.handles|
    ensures r.Ok? ==> forall j | 0 <= j < |hs| :: IsClosed(after, hs[j])
    ensures (exists j | 0 <= j < |hs| :: Stale(ss, hs[j])) ==> r.Err?
    ensures NoPrepare(Issued(ss, after))
  {
    after, r := ss, Ok(());
    var i := 0;
    while i < |hs|
      invariant 0 <= i <= |hs|
      invariant Later(ss, after) && |after.handles| == |ss.handles|
      invariant NoPrepare(Issued(ss, after))
      invariant forall j | 0 <= j < i :: IsClosed(after, hs[j])
      invariant forall j | 0 <= j < i :: !Stale(ss, hs[j])
    {
      assert hs[i] in hs;
      if Stale(ss, hs[i]) {
        StaysStale(ss, after, hs[i]);
      }
      var x := CloseHandle(after, hs[i]);
      CloseHandleLog(ss, after, hs[i]);
      if x.r.Err? {
        return x.session, Err(x.r.exc);
      }
      after := x.session;
      i := i + 1;
    }
  }

  /**
   * `close()` as written: on an open connection, close every registered
   * handle, forget them, mark the connection closed and close it on the
   * server; any exception is swallowed, so a throw from a handle leaves the
   * connection open with its handles still registered, and closing it
   * again throws again.
   */
  method Close(c: Conn) returns (d: Conn)
    requires Valid(c)
    ensures Valid(d) && Later(c.session, d.session)
    ensures !c.open ==> d == c
    ensures d.open ==> d == c.(session := d.session)
    ensures !d.open ==> d.stmts == [] && forall j | 0 <= j < |c.stmts| :: IsClosed(d.session, c.stmts[j])
    ensures c.open && (exists j | 0 <= j < |c.stmts| :: Stale(c.session, c.stmts[j])) ==>
              d.open && d.stmts == c.stmts && exists j | 0 <= j < |d.stmts| :: Stale(d.session, d.stmts[j])
  {
    if !c.open {
      return c;
    }
    var s, r := CloseEach(c.session, c.stmts);
    if r.Err? {
      d := c.(session := s);
      if j :| 0 <= j < |c.stmts| && Stale(c.session, c.stmts[j]) {
        assert c.stmts[j] in c.stmts;
        StaysStale(c.session, s, c.stmts[j]);
      }
      return;
    }
    var y := DbClose(s);
    LaterTransitive(c.session, s, y.session);
    d := c.(session := y.session, stmts := [], open := false);
  }

  /**
   * The loop of `close()` as intended: every handle is closed, and a throw
   * from one does not stop the others.
   */
  method CloseEachFixed(ss: Session, hs: seq<nat>) returns (after: Session)
    requires Within(ss, hs)
    ensures Later(ss, after) && |after.handles| == |ss.handles|
    ensures forall j | 0 <= j < |hs| :: IsClosed(after, hs[j])
    ensures NoPrepare(Issued(ss, after))
  {
    after := ss;
    var i := 0;
    while i < |hs|
      invariant 0 <= i <= |hs|
      invariant Later(ss, after) && |after.handles| == |ss.handles|
      invariant NoPrepare(Issued(ss, after))
      invariant forall j | 0 <= j < i :: IsClosed(after, hs[j])
    {
      assert hs[i] in hs;
      var x := CloseHandle(after, hs[i]);
      CloseHandleLog(ss, after, hs[i]);
      after := x.session;
      i := i + 1;
    }
  }

  /**
   * `close()` as intended: it never throws, and afterwards the connection
   * is closed, holds no handles, and every handle it held is closed;
   * closing a closed connection changes nothing.
   */
  method CloseFixed(c: Conn) returns (d: Conn)
    requires Valid(c)
    ensures Valid(d) && Later(c.session, d.session)
    ensures !d.open && d.stmts == []
    ensures forall j | 0 <= j < |c.stmts| :: IsClosed(d.session, c.stmts[j])
    ensures !c.open ==> d == c
  {
    if !c.open {
      return c;
    }
    var s := CloseEachFixed(c.session, c.stmts);
    var y := DbClose(s);
    LaterTransitive(c.session, s, y.session);
    d := c.(session := y.session, stmts := [], open := false);
  }

  /**
   * `prepare(stmt)`: prepare the statement's text on the server, then
   * register the handle the statement holds now (not the new one); a
   * handle registered before makes it throw, after the server call.
   */
  method PrepareFor(c: Conn, current: nat, sql: string) returns (o: Outcome<nat>)
    requires Valid(c) && ValidHandle(c.session, current)
    ensures Valid(o.conn) && Later(c.session, o.conn.session)
    ensures o.conn == c.(session := o.conn.session, stmts := o.conn.stmts)
    ensures !c.open ==> o == Outcome(c, Err(NotExecuting))
    ensures c.open ==> Issued(c.session, o.conn.session) == [Prepare(sql)]
    ensures o.conn.stmts == c.stmts || (c.open && current !in c.stmts && o.conn.stmts == c.stmts + [current])
    ensures c.open && current in c.stmts ==> o.r.Err? && o.conn.stmts == c.stmts
    ensures o.r.Ok? ==>
              && o.conn.stmts == c.stmts + [current]
              && o.r.value == Fresh(c.session) && ValidHandle(o.conn.session, o.r.value)
              && !IsClosed(o.conn.session, o.r.value) && o.r.value !in o.conn.stmts
  {
    if !c.open {
      return Outcome(c, Err(NotExecuting));
    }
    var p := DbPrepare(c.session, sql);
    assert Issued(c.session, p.session) == [Prepare(sql)];
    if p.r.Err? {
      return Outcome(c.(session := p.session), Err(p.r.exc));
    }
    if current in c.stmts {
      return Outcome(c.(session := p.session), Err(AlreadyAdded));
    }
    var c1 := c.(session := p.session, stmts := c.stmts + [current]);
    assert forall h | h in c1.stmts :: h in c.stmts || h == current;
    if p.r.value.Err? {
      return Outcome(c1, Err(p.r.value.exc));
    }
    assert c.stmts[..] == c.stmts;
    o := Outcome(c1, Ok(p.r.value.value));
  }

  /**
   * `ErldbConnection(url, prop)`: read the URL, then ask the cluster for a
   * connection to the bucket's file; the new connection starts open, in
   * auto-commit mode, with no registered handles.
   */
  function Open(url: string, ss: Session): (a: (Session, Result<Conn>))
    ensures Later(ss, a.0)
    ensures JdbcUrl.ParseUrl(url).Err? ==> a == (ss, Err(JdbcUrl.ParseUrl(url).exc))
    ensures JdbcUrl.ParseUrl(url).Ok? ==>
              var t := JdbcUrl.ParseUrl(url).value;
              Issued(ss, a.0) == [CreateConnection(t.bucket, t.file)]
    ensures a.1.Ok? ==>
              && a.1.value.session == a.0 && Valid(a.1.value)
              && a.1.value.open && a.1.value.config == Initial() && a.1.value.stmts == []
              && a.1.value.savePoint == 0 && !a.1.value.firstStatementExecuted
              && a.1.value.nodes == JdbcUrl.ParseUrl(url).value.nodes
  {
    match JdbcUrl.ParseUrl(url)
    case Err(e) => (ss, Err(e))
    case Ok(t) =>
      var x := RequestLong(ss, CreateConnection(t.bucket, t.file));
      match x.r
      case Err(e) => (x.session, Err(e))
      case Ok(Err(e)) => (x.session, Err(e))
      case Ok(Ok(_)) => (x.session, Ok(Conn(x.session, Initial(), true, [], false, 0, false, t.nodes)))
  }
}

=== FILE: decimal.dfy ===
/**
 * Decimal integer text, as `Integer.parseInt`, `Long.parseLong` and Kotlin's
 * `toIntOrNull` read it: an optional '+' or '-' followed by at least one
 * decimal digit.  A digit is whatever `Character.digit(ch, 10)` accepts,
 * which is every decimal digit of Unicode (general category Nd) that fits
 * in one UTF-16 unit, not only '0' to '9'.  `IsDigit` is the ASCII class
 * `\d` of the JDK's regular expressions; `IsDecimal` is the wider one.
 * Range checks are left to the caller.
 */
module Decimal {
  import opened Errors

  /** The regular-expression class `\d`: the ASCII digits only. */
  predicate IsDigit(c: char) { '0' <= c <= '9' }

  predicate AllDigits(s: string)
  {
    forall i | 0 <= i < |s| :: IsDigit(s[i])
  }

  /**
   * The code point of the zero of every run of ten decimal digits (general
   * category Nd) below U+10000, in the Unicode 15.0 tables; each run holds
   * the digits zero to nine in order.
   */
  const DIGIT_ZEROS: seq<int> :=
    [0x0030, 0x0660, 0x06F0, 0x07C0, 0x0966, 0x09E6, 0x0A66, 0x0AE6, 0x0B66, 0x0BE6,
     0x0C66, 0x0CE6, 0x0D66, 0x0DE6, 0x0E50, 0x0ED0, 0x0F20, 0x1040, 0x1090, 0x17E0,
     0x1810, 0x1946, 0x19D0, 0x1A80, 0x1A90, 0x1B50, 0x1BB0, 0x1C40, 0x1C50, 0xA620,
     0xA8D0, 0xA900, 0xA9D0, 0xA9F0, 0xAA50, 0xABF0, 0xFF10]

  /** The value of `c` as a digit of the first run in `zeros` that holds it. */
  function DigitIn(c: int, zeros: seq<int>): (r: Option<nat>)
    ensures r.Some? ==> r.value < 10
  {
    if zeros == [] then None
    else if zeros[0] <= c < zeros[0] + 10 then Some(c - zeros[0])
    else DigitIn(c, zeros[1..])
  }

  /** A value is found exactly when some run holds `c`, and it is the offset in such a run. */
  lemma {:induction false} DigitInMeans(c: int, zeros: seq<int>)
    ensures DigitIn(c, zeros).Some? <==> exists i | 0 <= i < |zeros| :: zeros[i] <= c < zeros[i] + 10
    ensures DigitIn(c, zeros).Some? ==> exists i | 0 <= i < |zeros| :: c == zeros[i] + DigitIn(c, zeros).value
  {
    if zeros != [] && !(zeros[0] <= c < zeros[0] + 10) {
      DigitInMeans(c, zeros[1..]);
      assert forall i | 1 <= i < |zeros| :: zeros[i] == zeros[1..][i - 1];
    }
  }

  /**
   * `Character.digit(ch, 10)`: the value of a decimal digit of any script,
   * or none.  A character beyond U+FFFF is two UTF-16 units in the source,
   * neither of which is a digit.
   */
  function DigitValue(c: char): (r: Option<nat>)
    ensures r.Some? ==> r.value < 10
    ensures IsDigit(c) ==> r == Some(c as int - '0' as int)
  {
    DigitIn(c as int, DIGIT_ZEROS)
  }

  /** Each run of ten starts after the one before it ends. */
  predicate Ascending(zeros: seq<int>)
  {
    forall i | 0 < i < |zeros| :: zeros[i - 1] + 10 <= zeros[i]
  }

  lemma {:induction false} AscendingFromFirst(zeros: seq<int>, i: nat)
    requires Ascending(zeros) && 0 < i < |zeros|
    ensures zeros[0] + 10 <= zeros[i]
  {
    if i > 1 {
      AscendingFromFirst(zeros, i - 1);
    }
  }

  /** A character of the `i`-th run has its offset in that run as its value. */
  lemma {:induction false} DigitInRun(c: int, zeros: seq<int>, i: nat)
    requires Ascending(zeros) && i < |zeros| && zeros[i] <= c < zeros[i] + 10
    ensures DigitIn(c, zeros) == Some(c - zeros[i])
  {
    if i > 0 {
      AscendingFromFirst(zeros, i);
      assert zeros[1..][i - 1] == zeros[i];
      DigitInRun(c, zeros[1..], i - 1);
    }
  }

  /** A character past the last run is no digit. */
  lemma {:induction false} DigitInPast(c: int, zeros: seq<int>)
    requires Ascending(zeros) && zeros != [] && zeros[|zeros| - 1] + 10 <= c
    ensures DigitIn(c, zeros) == None
  {
    if |zeros| > 1 {
      AscendingFromFirst(zeros, |zeros| - 1);
      assert zeros[1..][|zeros| - 2] == zeros[|zeros| - 1];
      assert Ascending(zeros[1..]) by {
        forall i | 0 < i < |zeros| - 1
          ensures zeros[1..][i - 1] + 10 <= zeros[1..][i]
        {
          assert zeros[1..][i - 1] == zeros[i] && zeros[1..][i] == zeros[i + 1];
        }
      }
      DigitInPast(c, zeros[1..]);
    }
  }

  /** The digit of a run of the table has its offset in that run as its value. */
  lemma DigitValueInRun(c: char, i: nat)
    requires i < |DIGIT_ZEROS| && DIGIT_ZEROS[i] <= c as int < DIGIT_ZEROS[i] + 10
    ensures DigitValue(c) == Some(c as int - DIGIT_ZEROS[i])
  {
    assert Ascending(DIGIT_ZEROS);
    DigitInRun(c as int, DIGIT_ZEROS, i);
  }

  /** Nothing beyond U+FFFF is a digit of the table. */
  lemma BeyondBmpIsNotDigit(c: char)
    requires c as int > 0xFFFF
    ensures DigitValue(c) == None
  {
    assert Ascending(DIGIT_ZEROS);
    DigitInPast(c as int, DIGIT_ZEROS);
  }

  predicate IsDecimal(c: char) { DigitValue(c).Some? }

  predicate AllDecimal(s: string)
  {
    forall i | 0 <= i < |s| :: IsDecimal(s[i])
  }

  /** ASCII digits are decimal digits. */
  lemma DigitsAreDecimal(s: string)
    requires AllDigits(s)
    ensures AllDecimal(s)
  {
    forall i | 0 <= i < |s|
      ensures IsDecimal(s[i])
    {
      assert IsDigit(s[i]);
    }
  }

  /** The value of a string of decimal digits, most significant first. */
  function DigitsValue(s: string): (n: nat)
    requires AllDecimal(s)
  {
    if |s| == 0 then 0
    else 10 * DigitsValue(s[..|s| - 1]) + DigitValue(s[|s| - 1]).value
  }

  /** The signed value of decimal text, or None when the text is not one. */
  function Parse(s: string): (r: Option<int>)
    ensures r.Some? <==> (|s| > 0 && AllDecimal(s[1..]) && (IsDecimal(s[0]) || ((s[0] == '+' || s[0] == '-') && |s| > 1)))
  {
    if |s| == 0 then None
    else if (s[0] == '+' || s[0] == '-') && |s| > 1 && AllDecimal(s[1..]) then
      var v: int := DigitsValue(s[1..]);
      Some(if s[0] == '-' then -v else v)
    else if AllDecimal(s) then Some(DigitsValue(s))
    else None
  }

  /** ARABIC-INDIC DIGIT ONE reads as 1. */
  lemma ParseArabicIndic()
    ensures Parse("\U{0661}") == Some(1)
  {
    var s := "\U{0661}";
    DigitValueInRun(s[0], 1);
    assert AllDecimal(s);
    assert s[..0] == [];
    assert DigitsValue(s) == 1;
  }

  /** Devanagari digits after a sign read as their values. */
  lemma ParseDevanagari()
    ensures Parse("-\U{096A}\U{0968}") == Some(-42)
  {
    var s := "-\U{096A}\U{0968}";
    var d := s[1..];
    DigitValueInRun(d[0], 4);
    DigitValueInRun(d[1], 4);
    assert AllDecimal(d);
    assert d[..1][..0] == [];
    assert DigitsValue(d[..1]) == 4;
    assert d[..|d| - 1] == d[..1];
    assert DigitsValue(d) == 42;
  }

  /** MATHEMATICAL BOLD DIGIT ONE, two UTF-16 units in the source, is not a digit. */
  lemma ParseBeyondBmp()
    ensures Parse("\U{1D7CF}") == None
  {
    var s := "\U{1D7CF}";
    BeyondBmpIsNotDigit(s[0]);
  }

  /** The shortest decimal text of a natural number. */
  function Show(n: nat): (s: string)
    ensures |s| > 0 && AllDigits(s)
  {
    if n < 10 then [('0' as int + n) as char]
    else Show(n / 10) + [('0' as int + n % 10) as char]
  }

  lemma {:induction false} DigitsValueShow(n: nat)
    ensures AllDecimal(Show(n))
    ensures DigitsValue(Show(n)) == n
  {
    DigitsAreDecimal(Show(n));
    if n >= 10 {
      var s := Show(n);
      assert s[..|s| - 1] == Show(n / 10);
      DigitsValueShow(n / 10);
    }
  }

  /** Reading back the text of a natural number gives the number. */
  lemma ParseShow(n: nat)
    ensures Parse(Show(n)) == Some(n)
  {
    DigitsValueShow(n);
    DigitsAreDecimal(Show(n)[1..]);
  }

  /** Kotlin's `Int.toString()` and `Long.toString()`: a '-' before the digits of a negative number. */
  function ShowInt(n: int): (s: string)
    ensures Parse(s) == Some(n)
  {
    if n < 0 then
      var t := Show(-n);
      ParseShow(-n);
      assert ("-" + t)[1..] == t;
      "-" + t
    else
      ParseShow(n);
      Show(n)
  }
}

=== FILE: doubles.dfy ===
/**
 * IEEE 754 binary64 values, kept as their 64-bit patterns.  No floating
 * arithmetic is modelled: only the conversions the driver performs between
 * doubles and integers, and the finiteness test of the JSON writer.
 */
module Doubles {

  /** A Java `double`, as the bit pattern `Double.doubleToRawLongBits` returns. */
  datatype Double = Double(bits: int)

  function Pow2(k: nat): (r: int)
    ensures r >= 1
  {
    if k == 0 then 1 else 2 * Pow2(k - 1)
  }

  /** floor(log2 a). */
  function Log2(a: int): (e: nat)
    requires a >= 1
    ensures Pow2(e) <= a < 2 * Pow2(e)
  {
    if a == 1 then 0 else 1 + Log2(a / 2)
  }

  predicate WellFormed(d: Double) { 0 <= d.bits < Pow2(64) }

  function Sign(d: Double): int { (d.bits / Pow2(63)) % 2 }
  function ExponentField(d: Double): int { (d.bits / Pow2(52)) % Pow2(11) }
  function FractionField(d: Double): int { d.bits % Pow2(52) }

  /** NaN and the infinities are the patterns with an all-ones exponent. */
  predicate IsFinite(d: Double) { ExponentField(d) != Pow2(11) - 1 }

  predicate IsNaN(d: Double) { !IsFinite(d) && FractionField(d) != 0 }

  /**
   * `(long) n` widened to `double`: round to nearest, ties to even, and an
   * infinity when the magnitude exceeds the largest finite double.
   */
  function IntToDouble(n: int): Double
  {
    if n == 0 then Double(0)
    else
      var sign := if n < 0 then Pow2(63) else 0;
      var a := if n < 0 then -n else n;
      var e := Log2(a);
      var (exp, m) :=
        if e <= 52 then (e, a * Pow2(52 - e))
        else
          var shift := e - 52;
          var q := a / Pow2(shift);
          var r := a % Pow2(shift);
          var h := Pow2(shift - 1);
          var q' := if r > h || (r == h && q % 2 == 1) then q + 1 else q;
          if q' == Pow2(53) then (e + 1, Pow2(52)) else (e, q');
      if exp + 1023 >= 2047 then Double(sign + 2047 * Pow2(52))
      else Double(sign + (exp + 1023) * Pow2(52) + (m - Pow2(52)))
  }

  /** The integer part of a finite double, rounded toward zero. */
  function Truncate(d: Double): int
    requires IsFinite(d)
  {
    var exp := ExponentField(d);
    var mag := if exp == 0 then FractionField(d) else Pow2(52) + FractionField(d);
    var scale := if exp == 0 then -1074 else exp - 1075;
    var t := if scale >= 0 then mag * Pow2(scale) else mag / Pow2(-scale);
    if Sign(d) == 1 then -t else t
  }

  /**
   * A JVM narrowing conversion from `double` to an integral type whose range
   * is [lo, hi]: NaN gives 0, anything else is truncated and saturated.
   */
  function ToIntegral(d: Double, lo: int, hi: int): (r: int)
    requires lo <= 0 <= hi
    ensures lo <= r <= hi
  {
    if IsNaN(d) then 0
    else if !IsFinite(d) then (if Sign(d) == 1 then lo else hi)
    else
      var t := Truncate(d);
      if t < lo then lo else if t > hi then hi else t
  }
}

=== FILE: driver.dfy ===
/**
 * `ErldbDriver`: the entry point `DriverManager` asks whether it accepts a
 * URL and, if so, to open a connection for it.  A URL is accepted when it
 * starts with `jdbc:erldb:`, ignoring case; the connection is opened on
 * the URL with surrounding whitespace removed.
 */
module Driver {
  import opened Errors
  import opened Remote
  import opened HttpAccess
  import Connection
  import JdbcUrl
  import opened Chars

  const PREFIX := "jdbc:erldb:"

  /**
   * `acceptsURL(url)`: the lowered URL starts with the prefix.  No
   * character outside ASCII lowercases to one of the prefix's characters,
   * so folding ASCII capitals only decides the test exactly.
   */
  predicate AcceptsUrl(url: string)
  {
    var low := LowerAll(url);
    |low| >= |PREFIX| && low[..|PREFIX|] == PREFIX
  }

  /** The capital form of a prefix character, where it has one. */
  function Upper(c: char): char
  {
    if 'a' <= c <= 'z' then (c as int - 32) as char else c
  }

  /**
   * A URL is accepted exactly when each of its first eleven characters is
   * the prefix's character or that character's capital.
   */
  lemma AcceptsByCharacters(url: string)
    ensures AcceptsUrl(url) <==>
              |url| >= |PREFIX| && forall i | 0 <= i < |PREFIX| :: url[i] == PREFIX[i] || url[i] == Upper(PREFIX[i])
  {
    var low := LowerAll(url);
    if |url| >= |PREFIX| {
      if AcceptsUrl(url) {
        forall i | 0 <= i < |PREFIX|
          ensures url[i] == PREFIX[i] || url[i] == Upper(PREFIX[i])
        {
          assert low[..|PREFIX|][i] == PREFIX[i];
        }
      }
      if forall i | 0 <= i < |PREFIX| :: url[i] == PREFIX[i] || url[i] == Upper(PREFIX[i]) {
        assert forall i | 0 <= i < |PREFIX| :: low[..|PREFIX|][i] == Lower(url[i]);
      }
    }
  }

  /** Acceptance ignores case: a URL is accepted exactly when its lowered form is. */
  lemma AcceptsIgnoresCase(url: string)
    ensures AcceptsUrl(LowerAll(url)) <==> AcceptsUrl(url)
  {
    assert LowerAll(LowerAll(url)) == LowerAll(url);
  }

  /**
   * `Char.isWhitespace()`: Java's whitespace or space characters — the
   * controls tab to carriage return and the four separators U+001C to
   * U+001F, every space separator including the non-breaking ones, and
   * the line and paragraph separators (but not U+0085).
   */
  predicate IsWhitespace(c: char)
  {
    || '\t' <= c <= '\r'
    || '\U{001C}' <= c <= ' '
    || c == '\U{00A0}' || c == '\U{1680}'
    || '\U{2000}' <= c <= '\U{200A}'
    || c == '\U{2028}' || c == '\U{2029}' || c == '\U{202F}' || c == '\U{205F}' || c == '\U{3000}'
  }

  predicate AllWhitespace(s: string)
  {
    forall i | 0 <= i < |s| :: IsWhitespace(s[i])
  }

  /** Text that `trim()` leaves as it is: empty, or not starting or ending with whitespace. */
  predicate Trimmed(s: string)
  {
    |s| == 0 || (!IsWhitespace(s[0]) && !IsWhitespace(s[|s| - 1]))
  }

  /** The whitespace at the start of `s`, dropped. */
  function TrimStart(s: string): (r: string)
    ensures |r| <= |s| && r == s[|s| - |r|..]
    ensures AllWhitespace(s[..|s| - |r|])
    ensures |r| == 0 || !IsWhitespace(r[0])
  {
    if |s| > 0 && IsWhitespace(s[0]) then
      var r := TrimStart(s[1..]);
      assert s[..|s| - |r|] == [s[0]] + s[1..][..|s| - 1 - |r|];
      r
    else s
  }

  /** The whitespace at the end of `s`, dropped. */
  function TrimEnd(s: string): (r: string)
    ensures |r| <= |s| && r == s[..|r|]
    ensures AllWhitespace(s[|r|..])
    ensures |r| == 0 || !IsWhitespace(r[|r| - 1])
  {
    if |s| > 0 && IsWhitespace(s[|s| - 1]) then
      var r := TrimEnd(s[..|s| - 1]);
      assert s[|r|..] == s[..|s| - 1][|r|..] + [s[|s| - 1]];
      r
    else s
  }

  /** `String.trim()`: whitespace dropped at both ends. */
  function Trim(s: string): (r: string)
    ensures Trimmed(r)
    ensures |r| <= |s|
  {
    var t := TrimStart(s);
    var r := TrimEnd(t);
    assert |r| > 0 ==> r[0] == t[0];
    r
  }

  /**
   * The reference for `trim()`: whitespace around text that starts and
   * ends with something else is exactly what is removed.
   */
  lemma {:induction false} TrimPadded(lead: string, t: string, trail: string)
    requires AllWhitespace(lead) && AllWhitespace(trail) && Trimmed(t)
    ensures Trim(lead + t + trail) == t
  {
    assert lead + t + trail == lead + (t + trail);
    if |t| == 0 {
      assert t + trail == trail;
      assert AllWhitespace(lead + trail);
      StartOfPadded(lead + trail, []);
      assert lead + trail + [] == lead + trail;
    } else {
      StartOfPadded(lead, t + trail);
      EndOfPadded(t, trail);
    }
  }

  lemma {:induction false} StartOfPadded(lead: string, u: string)
    requires AllWhitespace(lead) && (|u| == 0 || !IsWhitespace(u[0]))
    ensures TrimStart(lead + u) == u
    decreases |lead|
  {
    if |lead| > 0 {
      assert (lead + u)[1..] == lead[1..] + u;
      StartOfPadded(lead[1..], u);
    } else {
      assert lead + u == u;
    }
  }

  lemma {:induction false} EndOfPadded(t: string, trail: string)
    requires AllWhitespace(trail) && (|t| == 0 || !IsWhitespace(t[|t| - 1]))
    ensures TrimEnd(t + trail) == t
    decreases |trail|
  {
    if |trail| > 0 {
      assert (t + trail)[..|t + trail| - 1] == t + trail[..|trail| - 1];
      EndOfPadded(t, trail[..|trail| - 1]);
    } else {
      assert t + trail == t;
    }
  }

  /** Trimming twice trims no more than once. */
  lemma TrimIdempotent(s: string)
    ensures Trim(Trim(s)) == Trim(s)
  {
    TrimPadded([], Trim(s), []);
    assert [] + Trim(s) + [] == Trim(s);
  }

  /**
   * On an accepted URL, `trim()` can only drop whitespace at the end: the
   * URL starts with 'j' or 'J'.
   */
  lemma AcceptedTrimsOnlyTheEnd(url: string)
    requires AcceptsUrl(url)
    ensures Trim(url) == TrimEnd(url)
  {
    assert LowerAll(url)[..|PREFIX|][0] == 'j';
    assert !IsWhitespace(url[0]);
  }

  /** A URL that starts with the prefix itself is accepted. */
  lemma PrefixAccepted(u: string)
    requires |u| >= |PREFIX| && u[..|PREFIX|] == PREFIX
    ensures AcceptsUrl(u)
  {
    assert forall i | 0 <= i < |PREFIX| :: Lower(PREFIX[i]) == PREFIX[i];
    assert LowerAll(u)[..|PREFIX|] == PREFIX;
  }

  /**
   * `connect(url, info)`: a URL the driver does not accept gives `null`
   * without a request; otherwise the connection is opened on the trimmed
   * URL, and its errors are thrown.
   */
  function Connect(url: string, ss: Session): (a: (Session, Result<Option<Connection.Conn>>))
    ensures Later(ss, a.0)
    ensures !AcceptsUrl(url) ==> a == (ss, Ok(None))
    ensures AcceptsUrl(url) && JdbcUrl.ParseUrl(Trim(url)).Err? ==> a == (ss, Err(JdbcUrl.ParseUrl(Trim(url)).exc))
    ensures AcceptsUrl(url) && JdbcUrl.ParseUrl(Trim(url)).Ok? ==>
              var t := JdbcUrl.ParseUrl(Trim(url)).value;
              Connection.Issued(ss, a.0) == [CreateConnection(t.bucket, t.file)]
    ensures a.1.Ok? && a.1.value.Some? ==>
              var c := a.1.value.value;
              && Connection.Valid(c) && c.open && c.stmts == [] && c.session == a.0
              && c.nodes == JdbcUrl.ParseUrl(Trim(url)).value.nodes
  {
    if !AcceptsUrl(url) then
      assert ss.server.log[..|ss.server.log|] == ss.server.log;
      (ss, Ok(None))
    else
      var x := Connection.Open(Trim(url), ss);
      (x.0, if x.1.Err? then Err(x.1.exc) else Ok(Some(x.1.value)))
  }

  /**
   * A well-formed `jdbc:erldb:` URL, with any whitespace after it, is
   * accepted, read back as the nodes, bucket and file it names, and asks
   * the cluster for that bucket's file.
   */
  lemma ConnectWellFormed(ns: seq<Node>, bucket: string, file: string, trail: string, ss: Session)
    requires JdbcUrl.WellFormed("erldb", ns, bucket, file)
    requires |file| == 0 || !IsWhitespace(file[|file| - 1])
    requires AllWhitespace(trail)
    ensures var u := JdbcUrl.Build("erldb", ns, bucket, file);
            && AcceptsUrl(u + trail)
            && Trim(u + trail) == u
            && JdbcUrl.ParseUrl(Trim(u + trail)) == Ok(JdbcUrl.Target(ns, bucket, file))
            && Connection.Issued(ss, Connect(u + trail, ss).0) == [CreateConnection(bucket, file)]
  {
    var u := JdbcUrl.Build("erldb", ns, bucket, file);
    var rest := JdbcUrl.NodesText(ns) + JdbcUrl.Tail(bucket, file);
    assert u == PREFIX + ("//" + rest);
    assert (u + trail)[..|PREFIX|] == PREFIX;
    PrefixAccepted(u + trail);
    assert u[|u| - 1] == (if |file| == 0 then '/' else file[|file| - 1]);
    TrimPadded([], u, trail);
    assert [] + u + trail == u + trail;
    JdbcUrl.UrlRoundTrip("erldb", ns, bucket, file);
  }
}

=== FILE: errors.dfy ===
/**
 * The exceptions the driver raises and the result type every modelled
 * operation returns.  A Kotlin `throw` becomes an `Err`, a normal return
 * an `Ok`.
 */
module Errors {

  /** The exception classes raised by the driver, each with its message. */
  datatype Exception =
    | SqlException(msg: string)
    | FeatureNotSupported(msg: string)
    | IllegalArgument(msg: string)
    | IllegalState(msg: string)
    | Runtime(msg: string)
    | JsonException(msg: string)
    | ClassCast(msg: string)
      /** `ErldbException`: an error message reported by the server. */
    | ServerError(msg: string)
    | Arithmetic(msg: string)
    | IndexOutOfBounds
      /** An array allocated with a negative size. */
    | NegativeArraySize
      /** A cast of `null` to a non-null type. */
    | NullPointer
    | NoSuchElement
      /** Kotlin's `TODO()`. */
    | NotImplemented

  /**
   * Whether a `catch (e: Exception)` handler intercepts the throwable:
   * Kotlin's `TODO()` raises an `Error`, which passes through.
   */
  predicate Catchable(e: Exception)
  {
    !e.NotImplemented?
  }

  datatype Option<T> = None | Some(value: T)

  datatype Result<T> = Ok(value: T) | Err(exc: Exception)
  {
    predicate IsFailure() { Err? }

    function PropagateFailure<U>(): Result<U>
      requires Err?
    {
      Err(exc)
    }

    function Extract(): T
      requires Ok?
    {
      value
    }
  }
}

=== FILE: http_access.dfy ===
/**
 * `HttpAccess`: the driver's transport.  It keeps a list of cluster nodes
 * and a current node, posts each request to the current node, and on an
 * I/O failure backs off and fails over to a randomly drawn different node.
 * The server's JSON reply is an envelope `{"ok": …}` or `{"error": …}`.
 *
 * The network and the random draws are parameters: an `Attempt` per try
 * says whether the node answered, and each failover receives the sequence
 * of node positions the random generator would return.
 */
module HttpAccess {
  import opened Errors
  import opened Ints
  import opened Doubles
  import opened Json
  import Decimal

  /** A cluster node: host name and port. */
  datatype Node = Node(host: string, port: int32)

  /** The transport: the configured nodes, the node in use, and the open flag. */
  datatype Access = Access(nodes: seq<Node>, current: Node, open: bool)

  /** What every reachable transport satisfies: some nodes, and the current one among them. */
  predicate Valid(a: Access)
  {
    |a.nodes| > 0 && a.current in a.nodes
  }

  const NotOpen := Runtime("Not open")
  const NoMoreNodes := Runtime("No more nodes to try")
  const ConnectFailed := Runtime("Failed to connect to any node")
  /** `List.first()` on an empty list. */
  const EmptyList := NoSuchElement

  /** Construction: the first node is the current one; no nodes at all is an error. */
  function Init(nodes: seq<Node>): (r: Result<Access>)
    ensures r.Err? <==> |nodes| == 0
    ensures r.Err? ==> r.exc == EmptyList
    ensures r.Ok? ==> Valid(r.value) && r.value.open && r.value.nodes == nodes
                      && r.value.current == nodes[0]
  {
    if |nodes| == 0 then Err(EmptyList) else Ok(Access(nodes, nodes[0], true))
  }

  /** `checkOpen()`. */
  function CheckOpen(a: Access): (r: Result<()>)
    ensures r.Ok? <==> a.open
    ensures r.Err? ==> r.exc == NotOpen
  {
    if a.open then Ok(()) else Err(NotOpen)
  }

  /** The URL a request for `target` is posted to. */
  function Url(n: Node, target: string): string
  {
    "http://" + n.host + ":" + Decimal.ShowInt(n.port) + "/?target=" + target
  }

  /** Random draws usable against a node list: enough of them, each a valid position. */
  predicate DrawsFit(nodes: seq<Node>, draws: seq<nat>)
  {
    |draws| >= 11 && forall i | 0 <= i < |draws| :: draws[i] < |nodes|
  }

  /**
   * `changeNode()`: with a single node there is nothing to switch to;
   * otherwise draw nodes until one differs from the current node, giving up
   * after eleven draws that all hit it.  `used` is the number of draws
   * consumed.
   */
  method ChangeNode(a: Access, draws: seq<nat>) returns (r: Result<Access>, used: nat)
    requires Valid(a)
    requires DrawsFit(a.nodes, draws)
    ensures used <= 11
    ensures |a.nodes| == 1 ==> r == Err(NoMoreNodes) && used == 0
    ensures r.Err? ==> r.exc == NoMoreNodes
    ensures r.Err? && |a.nodes| > 1 ==>
              used == 11 && forall i | 0 <= i < 11 :: a.nodes[draws[i]] == a.current
    ensures r.Ok? ==> 1 <= used && a.nodes[draws[used - 1]] != a.current
                      && r.value == a.(current := a.nodes[draws[used - 1]])
    ensures r.Ok? ==> forall i | 0 <= i < used - 1 :: a.nodes[draws[i]] == a.current
  {
    if |a.nodes| == 1 {
      return Err(NoMoreNodes), 0;
    }
    var i := 0;
    while true
      invariant 0 <= i <= 10
      invariant forall k | 0 <= k < i :: a.nodes[draws[k]] == a.current
      decreases 10 - i
    {
      var node := a.nodes[draws[i]];
      if node != a.current {
        return Ok(a.(current := node)), i + 1;
      }
      if i >= 10 {
        return Err(NoMoreNodes), i + 1;
      }
      i := i + 1;
    }
  }

  /** A successful failover keeps the transport valid and moves to a different node. */
  lemma ChangeNodeMoves(a: Access, draws: seq<nat>, r: Result<Access>, used: nat)
    requires Valid(a) && DrawsFit(a.nodes, draws)
    requires r.Ok? && 1 <= used <= |draws|
    requires a.nodes[draws[used - 1]] != a.current
    requires r.value == a.(current := a.nodes[draws[used - 1]])
    ensures Valid(r.value) && r.value.current != a.current && r.value.nodes == a.nodes
  {
  }

  /** What one try of a request meets: an answer (possibly without a body), or an I/O failure. */
  datatype Attempt = Answered(body: Option<string>) | IoFailure

  /** The pause before the retry that follows the k-th failure (counting from 0), in milliseconds. */
  function Backoff(k: nat): int
  {
    32 * Pow2(k)
  }

  /**
   * `customPost()`: at most ten tries.  After the k-th failed try the
   * driver sleeps 16·2^(k+1) ms and fails over; the failover's own error
   * ends the request.  The first answer is returned.  `contacted` lists the
   * node of each try, `sleeps` each pause.
   */
  method CustomPost(a: Access, attempts: seq<Attempt>, draws: seq<seq<nat>>)
    returns (r: Result<Option<string>>, a': Access, contacted: seq<Node>, sleeps: seq<int>)
    requires Valid(a)
    requires |attempts| >= 10 && |draws| >= 10
    requires forall k | 0 <= k < |draws| :: DrawsFit(a.nodes, draws[k])
    ensures Valid(a') && a'.nodes == a.nodes && a'.open == a.open
    ensures 1 <= |contacted| <= 10 && contacted[0] == a.current
    ensures forall k | 0 < k < |contacted| :: contacted[k] != contacted[k - 1]
    ensures |sleeps| <= 10
    ensures forall k | 0 <= k < |sleeps| :: sleeps[k] == Backoff(k) && attempts[k].IoFailure?
    ensures r.Ok? ==> |contacted| == |sleeps| + 1 && attempts[|sleeps|] == Answered(r.value)
                      && a'.current == contacted[|sleeps|]
    ensures r.Err? ==> |contacted| == |sleeps| && 1 <= |sleeps|
    ensures r.Err? ==> r.exc == ConnectFailed || r.exc == NoMoreNodes
    ensures r == Err(ConnectFailed) ==> |sleeps| == 10
    ensures attempts[0].Answered? ==> r == Ok(attempts[0].body) && a' == a && sleeps == []
    ensures |a.nodes| == 1 && attempts[0].IoFailure? ==> r == Err(NoMoreNodes) && sleeps == [32]
  {
    var cur := a;
    var t := 16;
    contacted := [];
    sleeps := [];
    for i := 0 to 10
      invariant Valid(cur) && cur.nodes == a.nodes && cur.open == a.open
      invariant |contacted| == i && |sleeps| == i
      invariant i == 0 ==> cur == a
      invariant |a.nodes| == 1 ==> i == 0
      invariant 0 < i ==> cur.current != contacted[i - 1]
      invariant 0 < i ==> contacted[0] == a.current
      invariant forall k | 0 < k < i :: contacted[k] != contacted[k - 1]
      invariant forall k | 0 <= k < i :: sleeps[k] == Backoff(k) && attempts[k].IoFailure?
      invariant t == 16 * Pow2(i)
    {
      contacted := contacted + [cur.current];
      match attempts[i]
      case Answered(body) =>
        return Ok(body), cur, contacted, sleeps;
      case IoFailure =>
        t := t * 2;
        sleeps := sleeps + [t];
        var next, _ := ChangeNode(cur, draws[i]);
        if next.Err? {
          return Err(next.exc), cur, contacted, sleeps;
        }
        cur := next.value;
    }
    return Err(ConnectFailed), cur, contacted, sleeps;
  }

  /**
   * `doPost()`'s reading of the answer: no body reads as `{}`; anything
   * but an object is refused by the JSON reader.
   */
  function ParseResponse(body: Option<Json>): (r: Result<map<string, Json>>)
    ensures body.None? ==> r == Ok(map[])
    ensures r.Ok? && body.Some? ==> body.value == JObject(r.value)
    ensures r.Err? <==> body.Some? && !body.value.JObject?
  {
    match body
    case None => Ok(map[])
    case Some(JObject(fields)) => Ok(fields)
    case Some(_) => Err(JsonException("A JSONObject text must begin with '{'"))
  }

  /** The result type a `doRequest<R>` call is instantiated with (nullability aside). */
  datatype Want = WantUnit | WantInt | WantLong | WantString | WantDouble
                | WantBoolean | WantArray | WantObject

  /** A decoded `ok` payload. */
  datatype Payload =
    | PUnit
    | PNull
    | PInt(i: int32)
    | PLong(l: int64)
    | PString(s: string)
    | PDouble(d: Double)
    | PBool(b: bool)
    | PArray(items: seq<Json>)
    | PObject(fields: map<string, Json>)

  /** Whether a payload has the wanted type (or is `null` where that is allowed). */
  predicate Fits(want: Want, nullable: bool, p: Payload)
  {
    (nullable && p.PNull?) ||
    match want
    case WantUnit => p.PUnit?
    case WantInt => p.PInt?
    case WantLong => p.PLong?
    case WantString => p.PString?
    case WantDouble => p.PDouble?
    case WantBoolean => p.PBool?
    case WantArray => p.PArray?
    case WantObject => p.PObject?
  }

  /** Kotlin's `Result<R>` as `doRequest` returns it. */
  datatype Envelope = Success(payload: Payload) | Failure(error: Exception)

  /** The one reply body whose text is `{"ok":null}`. */
  const OkNull := map["ok" := JNull]

  /**
   * Reading `ok` as the wanted type.  A `Boolean` or `Unit` is read with
   * `get` and a cast, which fails for anything but a JSON boolean, and
   * always for `Unit`.
   */
  function ReadOk(want: Want, fields: map<string, Json>): (r: Result<Payload>)
    ensures r.Ok? ==> "ok" in fields && want != WantUnit && Fits(want, false, r.value)
  {
    var ok :- Field(fields, "ok");
    match want
    case WantUnit => Err(ClassCast("kotlin.Unit"))
    case WantInt => var n :- AsInt(ok); Ok(PInt(n))
    case WantLong => var n :- AsLong(ok); Ok(PLong(n))
    case WantString => var s :- AsString(ok); Ok(PString(s))
    case WantDouble => var d :- AsDouble(ok); Ok(PDouble(d))
    case WantBoolean => if ok.JBool? then Ok(PBool(ok.b)) else Err(ClassCast("java.lang.Boolean"))
    case WantArray => var items :- AsArray(ok); Ok(PArray(items))
    case WantObject => var f :- AsObject(ok); Ok(PObject(f))
  }

  /** The message of an error reply, when `error` holds a string. */
  function ErrorMessage(fields: map<string, Json>): string
  {
    if "error" in fields && fields["error"].JString? then fields["error"].s else "unexpected error"
  }

  /**
   * `doRequest<R>()` once the body is parsed.  `{"ok":null}` is `Unit`, or
   * `null` when `R` is nullable; the cast of `null` to a non-nullable `R`
   * fails inside the same `try` as a bad payload.  Otherwise `ok` is read
   * as `R`.  A failure becomes the server's `error` text, or "unexpected
   * error" when there is none.
   */
  function DoRequest(want: Want, nullable: bool, fields: map<string, Json>): (r: Envelope)
    ensures r == Success(PUnit) <==> fields == OkNull && want == WantUnit
    ensures r == Success(PNull) <==> fields == OkNull && want != WantUnit && nullable
    ensures fields == OkNull && want != WantUnit && !nullable ==>
              r == Failure(ServerError("unexpected error"))
    ensures r.Success? && fields != OkNull ==> ReadOk(want, fields) == Ok(r.payload)
    ensures fields != OkNull ==> (r.Failure? <==> ReadOk(want, fields).Err?)
    ensures r.Failure? ==> r.error == ServerError(ErrorMessage(fields))
    ensures r.Success? ==> Fits(want, nullable, r.payload)
  {
    if fields == OkNull then
      if want == WantUnit then Success(PUnit)
      else if nullable then Success(PNull)
      else Failure(ServerError(ErrorMessage(fields)))
    else
      match ReadOk(want, fields)
      case Ok(p) => Success(p)
      case Err(_) => Failure(ServerError(ErrorMessage(fields)))
  }

  /** The server's reply to a call that succeeded with a JSON value. */
  function OkReply(j: Json): map<string, Json>
  {
    map["ok" := j]
  }

  /** The server's reply to a call that failed. */
  function ErrorReply(msg: string): map<string, Json>
  {
    map["error" := JString(msg)]
  }

  /** What the server writes for a payload. */
  function Written(p: Payload): Json
  {
    match p
    case PUnit => JNull
    case PNull => JNull
    case PInt(i) => JNumber(i)
    case PLong(l) => JNumber(l)
    case PString(s) => JString(s)
    case PDouble(d) => JDouble(d)
    case PBool(b) => JBool(b)
    case PArray(items) => JArray(items)
    case PObject(f) => JObject(f)
  }

  /** The type a caller reads a payload back as. */
  function WantOf(p: Payload): Want
  {
    match p
    case PUnit => WantUnit
    case PNull => WantObject
    case PInt(_) => WantInt
    case PLong(_) => WantLong
    case PString(_) => WantString
    case PDouble(_) => WantDouble
    case PBool(_) => WantBoolean
    case PArray(_) => WantArray
    case PObject(_) => WantObject
  }

  /** Every payload the server writes is read back by a caller expecting its type. */
  lemma OkReplyRoundTrip(p: Payload, nullable: bool)
    requires p.PNull? ==> nullable
    ensures DoRequest(WantOf(p), nullable, OkReply(Written(p))) == Success(p)
  {
    var f := OkReply(Written(p));
    if !p.PUnit? && !p.PNull? {
      assert f != OkNull by { assert f["ok"] != JNull; }
    }
  }

  /** A null result for a caller whose type is not nullable is reported as an unexpected error. */
  lemma NullRefused(want: Want)
    requires want != WantUnit
    ensures DoRequest(want, false, OkReply(JNull)) == Failure(ServerError("unexpected error"))
  {
  }

  /** An error reply surfaces as the server's message, whatever type was wanted. */
  lemma ErrorReplyReported(want: Want, nullable: bool, msg: string)
    ensures DoRequest(want, nullable, ErrorReply(msg)) == Failure(ServerError(msg))
  {
    assert ErrorReply(msg) != OkNull by { assert "ok" !in ErrorReply(msg); }
  }

  /** A reply without a body is neither `ok` nor `error`: always "unexpected error". */
  lemma EmptyReplyUnexpected(want: Want, nullable: bool)
    ensures DoRequest(want, nullable, ParseResponse(None).value) == Failure(ServerError("unexpected error"))
  {
    var empty: map<string, Json> := map[];
    assert empty != OkNull by { assert "ok" !in empty; }
  }
}

=== FILE: ints.dfy ===
/**
 * Fixed-width JVM integers.  Dafny's `int` is unbounded, so every place the
 * driver relies on a Kotlin `Int` or `Long` wrapping around, or on a
 * narrowing conversion such as `toByte()`, goes through one of the
 * truncations below: the value of the same residue class that lies in the
 * signed range of the narrower type.
 */
module Ints {

  const INT_MIN: int := -0x8000_0000
  const INT_MAX: int := 0x7fff_ffff
  const LONG_MIN: int := -0x8000_0000_0000_0000
  const LONG_MAX: int := 0x7fff_ffff_ffff_ffff

  predicate IsInt(x: int) { INT_MIN <= x <= INT_MAX }
  predicate IsLong(x: int) { LONG_MIN <= x <= LONG_MAX }

  /** Kotlin `Byte`, `Short`, `Int` and `Long`. */
  type int8 = x: int | -0x80 <= x < 0x80
  type int16 = x: int | -0x8000 <= x < 0x8000
  type int32 = x: int | -0x8000_0000 <= x < 0x8000_0000
  type int64 = x: int | -0x8000_0000_0000_0000 <= x < 0x8000_0000_0000_0000

  /** Kotlin `Long.toByte()`. */
  function ToByte(x: int): (r: int)
    ensures -0x80 <= r < 0x80
    ensures (x - r) % 0x100 == 0
    ensures -0x80 <= x < 0x80 ==> r == x
  {
    var u := x % 0x100;
    if u >= 0x80 then u - 0x100 else u
  }

  /** Kotlin `Long.toShort()`. */
  function ToShort(x: int): (r: int)
    ensures -0x8000 <= r < 0x8000
    ensures (x - r) % 0x1_0000 == 0
    ensures -0x8000 <= x < 0x8000 ==> r == x
  {
    var u := x % 0x1_0000;
    if u >= 0x8000 then u - 0x1_0000 else u
  }

  /** Kotlin `Long.toInt()`, and the overflow of 32-bit `Int` arithmetic. */
  function ToInt(x: int): (r: int)
    ensures IsInt(r)
    ensures (x - r) % 0x1_0000_0000 == 0
    ensures IsInt(x) ==> r == x
  {
    var u := x % 0x1_0000_0000;
    if u >= 0x8000_0000 then u - 0x1_0000_0000 else u
  }

  /** The overflow of 64-bit `Long` arithmetic. */
  function ToLong(x: int): (r: int)
    ensures IsLong(r)
    ensures (x - r) % 0x1_0000_0000_0000_0000 == 0
    ensures IsLong(x) ==> r == x
    ensures IsLong(x - 0x1_0000_0000_0000_0000) ==> r == x - 0x1_0000_0000_0000_0000
    ensures IsLong(x + 0x1_0000_0000_0000_0000) ==> r == x + 0x1_0000_0000_0000_0000
  {
    var u := x % 0x1_0000_0000_0000_0000;
    if u >= 0x8000_0000_0000_0000 then u - 0x1_0000_0000_0000_0000 else u
  }
}

=== FILE: jdbc_url.dfy ===
/**
 * The connection URL `jdbc:<sub>://<host>:<port>,...,<host>:<port>/<bucket>/<file>`
 * as `ErldbConnection`'s constructor reads it: the regular expression
 *
 *   jdbc:(.+?)://((?:.+?:\d+,)* .+?:\d+)/(.*?)/(.*?)$   (without the space)
 *
 * searched for with `find`, then the host list split on ',' and each entry
 * on ':'.  The search is modelled as Java's backtracking matcher runs it:
 * start positions left to right, a lazy group tries the shortest text
 * first, the greedy repetition tries one more entry before stopping, `.`
 * matches anything but a line terminator, and `$` also matches before a
 * final line terminator.
 */
module JdbcUrl {
  import opened Errors
  import opened Ints
  import opened HttpAccess
  import Decimal

  const InvalidUrl := SqlException("invalid url")
  const InvalidPort := SqlException("invalid port number")

  /** Java's line terminators; `.` matches none of them. */
  predicate IsBreak(c: char)
  {
    c == '\n' || c == '\r' || c == '\U{0085}' || c == '\U{2028}' || c == '\U{2029}'
  }

  predicate NoBreak(s: string)
  {
    forall i | 0 <= i < |s| :: !IsBreak(s[i])
  }

  /** `$` outside multi-line mode: at the end, before a final terminator, or before a final "\r\n". */
  predicate Dollar(u: string, i: nat)
    requires i <= |u|
  {
    if i + 2 < |u| then false
    else if i + 2 == |u| then u[i] == '\r' && u[i + 1] == '\n'
    else if i + 1 == |u| then
      (u[i] == '\n' && !(i > 0 && u[i - 1] == '\r'))
      || u[i] == '\r' || u[i] == '\U{0085}' || u[i] == '\U{2028}' || u[i] == '\U{2029}'
    else true
  }

  /** `(.*?)$` from `r`: the first position at which `$` holds, without crossing a line terminator. */
  function MatchEnd(u: string, r: nat): (e: Option<nat>)
    requires r <= |u|
    ensures e.Some? ==> r <= e.value <= |u| && Dollar(u, e.value)
    decreases |u| - r
  {
    if Dollar(u, r) then Some(r)
    else if r == |u| || IsBreak(u[r]) then None
    else MatchEnd(u, r + 1)
  }

  /**
   * `(.*?)/(.*?)$` scanning from `m`: the first '/' after which the rest
   * matches; the result is that '/' and the end of the file name.
   */
  function MatchBucket(u: string, m: nat): (r: Option<(nat, nat)>)
    requires m <= |u|
    ensures r.Some? ==> m <= r.value.0 < r.value.1 <= |u| && u[r.value.0] == '/'
                        && MatchEnd(u, r.value.0 + 1) == Some(r.value.1)
    decreases |u| - m
  {
    if m == |u| then None
    else if u[m] == '/' && MatchEnd(u, m + 1).Some? then Some((m, MatchEnd(u, m + 1).value))
    else if IsBreak(u[m]) then None
    else MatchBucket(u, m + 1)
  }

  /** The end of the run of ASCII digits that starts at `i`. */
  function DigitRun(u: string, i: nat): (k: nat)
    requires i <= |u|
    ensures i <= k <= |u|
    ensures k < |u| ==> !Decimal.IsDigit(u[k])
    decreases |u| - i
  {
    if i < |u| && Decimal.IsDigit(u[i]) then DigitRun(u, i + 1) else i
  }

  /** Whether ':' at `j`, one or more digits, then `sep` follow; greedy `\d+` only succeeds on the whole run. */
  predicate PortThen(u: string, j: nat, sep: char)
    requires j < |u|
  {
    u[j] == ':' && DigitRun(u, j + 1) > j + 1 && DigitRun(u, j + 1) < |u| && u[DigitRun(u, j + 1)] == sep
  }

  /**
   * The last entry `.+?:\d+` then `/`, bucket and file, with `u[p..j]`
   * already consumed by the lazy `.+?`.  The result is the '/' closing the
   * host list, the '/' after the bucket, and the end of the file name.
   */
  function MatchLast(u: string, p: nat, j: nat): (r: Option<(nat, nat, nat)>)
    requires p < j <= |u|
    ensures r.Some? ==> j < r.value.0 < r.value.1 < |u| && r.value.1 + 1 <= r.value.2 <= |u| && u[r.value.0] == '/'
    decreases |u| - j
  {
    if j == |u| || IsBreak(u[j - 1]) then None
    else if PortThen(u, j, '/') && MatchBucket(u, DigitRun(u, j + 1) + 1).Some? then
      var k := DigitRun(u, j + 1);
      var b := MatchBucket(u, k + 1).value;
      Some((k, b.0, b.1))
    else MatchLast(u, p, j + 1)
  }

  /**
   * The host list from `p`: the greedy repetition first tries one more
   * entry `.+?:\d+,` (with its lazy scan), and only when no entry leads to
   * a match does it stop and read the last entry.
   */
  function MatchHosts(u: string, p: nat): (r: Option<(nat, nat, nat)>)
    requires p <= |u|
    ensures r.Some? ==> p < r.value.0 < r.value.1 < |u| && r.value.1 + 1 <= r.value.2 <= |u| && u[r.value.0] == '/'
    decreases |u| - p, 1
  {
    if p == |u| then None
    else
      match MoreHosts(u, p, p + 1)
      case Some(r) => Some(r)
      case None => MatchLast(u, p, p + 1)
  }

  /** One more entry of the repetition, with `u[p..j]` consumed by its lazy `.+?`. */
  function MoreHosts(u: string, p: nat, j: nat): (r: Option<(nat, nat, nat)>)
    requires p < j <= |u|
    ensures r.Some? ==> j < r.value.0 < r.value.1 < |u| && r.value.1 + 1 <= r.value.2 <= |u| && u[r.value.0] == '/'
    decreases |u| - p, 0, |u| - j
  {
    if j == |u| || IsBreak(u[j - 1]) then None
    else if PortThen(u, j, ',') && MatchHosts(u, DigitRun(u, j + 1) + 1).Some? then
      MatchHosts(u, DigitRun(u, j + 1) + 1)
    else MoreHosts(u, p, j + 1)
  }

  /** `jdbc:(.+?)://` with the match started at `s` and `u[s + 5..i]` consumed by the lazy group. */
  function MatchScheme(u: string, s: nat, i: nat): (r: Option<(nat, nat, nat, nat)>)
    requires s + 5 < i <= |u|
    ensures r.Some? ==> i <= r.value.0 && r.value.0 + 3 < r.value.1 < r.value.2 < |u|
                        && r.value.2 + 1 <= r.value.3 <= |u| && u[r.value.0..r.value.0 + 3] == "://"
    decreases |u| - i
  {
    if IsBreak(u[i - 1]) then None
    else if i + 3 <= |u| && u[i..i + 3] == "://" && MatchHosts(u, i + 3).Some? then
      var h := MatchHosts(u, i + 3).value;
      Some((i, h.0, h.1, h.2))
    else if i == |u| then None
    else MatchScheme(u, s, i + 1)
  }

  /** The four groups of a match. */
  datatype Groups = Groups(sub: string, hosts: string, bucket: string, file: string)

  /** `find()`: the first start position from which the whole pattern matches. */
  function Find(u: string, s: nat): (g: Option<Groups>)
    requires s <= |u|
    decreases |u| - s
  {
    if s + 6 <= |u| && u[s..s + 5] == "jdbc:" && MatchScheme(u, s, s + 6).Some? then
      var m := MatchScheme(u, s, s + 6).value;
      Some(Groups(u[s + 5..m.0], u[m.0 + 3..m.1], u[m.1 + 1..m.2], u[m.2 + 1..m.3]))
    else if s == |u| then None
    else Find(u, s + 1)
  }

  /** The position of the first `c` in `s`. */
  function IndexOf(s: string, c: char): (r: Option<nat>)
    ensures r.Some? ==> r.value < |s| && s[r.value] == c && c !in s[..r.value]
    ensures r.None? ==> c !in s
  {
    if |s| == 0 then None
    else if s[0] == c then
      assert s[..0] == [];
      Some(0)
    else
      match IndexOf(s[1..], c)
      case None =>
        assert s == [s[0]] + s[1..];
        None
      case Some(i) =>
        assert s[..i + 1] == [s[0]] + s[1..][..i];
        Some(i + 1)
  }

  /** The separator is found right after a piece that does not contain it. */
  lemma IndexAfter(a: string, c: char, b: string)
    requires c !in a
    ensures IndexOf(a + [c] + b, c) == Some(|a|)
    decreases |a|
  {
    if |a| > 0 {
      assert (a + [c] + b)[1..] == a[1..] + [c] + b;
      IndexAfter(a[1..], c, b);
    }
  }

  /** Kotlin's `split(c)`: the pieces between occurrences of `c`, empty ones included. */
  function SplitOn(s: string, c: char): (r: seq<string>)
    ensures |r| >= 1
    ensures forall i | 0 <= i < |r| :: c !in r[i]
    decreases |s|
  {
    match IndexOf(s, c)
    case None => [s]
    case Some(i) => [s[..i]] + SplitOn(s[i + 1..], c)
  }

  /** The pieces joined with `c` between them: the inverse of `SplitOn`. */
  function JoinWith(xs: seq<string>, c: char): string
    requires |xs| >= 1
  {
    if |xs| == 1 then xs[0] else xs[0] + [c] + JoinWith(xs[1..], c)
  }

  /** Splitting text that was joined recovers the pieces, when none contains the separator. */
  lemma {:induction false} SplitJoin(xs: seq<string>, c: char)
    requires |xs| >= 1
    requires forall i | 0 <= i < |xs| :: c !in xs[i]
    ensures SplitOn(JoinWith(xs, c), c) == xs
    decreases |xs|
  {
    if |xs| > 1 {
      var t := JoinWith(xs[1..], c);
      var s := xs[0] + [c] + t;
      assert JoinWith(xs, c) == s;
      IndexAfter(xs[0], c, t);
      assert s[..|xs[0]|] == xs[0];
      assert s[|xs[0]| + 1..] == t;
      SplitJoin(xs[1..], c);
      assert SplitOn(s, c) == [xs[0]] + xs[1..];
    }
  }

  /** Joining the pieces of a split gives the text back. */
  lemma {:induction false} JoinSplit(s: string, c: char)
    ensures JoinWith(SplitOn(s, c), c) == s
    decreases |s|
  {
    match IndexOf(s, c)
    case None =>
      assert SplitOn(s, c) == [s];
    case Some(i) =>
      JoinSplit(s[i + 1..], c);
      JoinSplitStep(s, c, i);
  }

  lemma JoinSplitStep(s: string, c: char, i: nat)
    requires IndexOf(s, c) == Some(i)
    requires JoinWith(SplitOn(s[i + 1..], c), c) == s[i + 1..]
    ensures JoinWith(SplitOn(s, c), c) == s
  {
    var t := s[i + 1..];
    assert SplitOn(s, c) == [s[..i]] + SplitOn(t, c);
    JoinStep(s[..i], SplitOn(t, c), c);
    assert s == s[..i] + [c] + t;
  }

  lemma JoinStep(x: string, rest: seq<string>, c: char)
    requires |rest| >= 1
    ensures JoinWith([x] + rest, c) == x + [c] + JoinWith(rest, c)
  {
    assert ([x] + rest)[1..] == rest;
  }

  /** Kotlin's `toIntOrNull()`: decimal text with an optional sign, within `Int` range. */
  function ToIntOrNull(s: string): (r: Option<int32>)
    ensures r.Some? <==> Decimal.Parse(s).Some? && IsInt(Decimal.Parse(s).value)
    ensures r.Some? ==> Decimal.Parse(s) == Some(r.value as int)
  {
    match Decimal.Parse(s)
    case None => None
    case Some(n) => if IsInt(n) then Some(n) else None
  }

  /** `split(":").first()`. */
  function HostOf(entry: string): string
  {
    SplitOn(entry, ':')[0]
  }

  /** `split(":")[1].toIntOrNull() ?: throw`: an entry without ':' has no index 1. */
  function PortOf(entry: string): (r: Result<int32>)
    ensures r.Ok? ==> |SplitOn(entry, ':')| >= 2 && ToIntOrNull(SplitOn(entry, ':')[1]) == Some(r.value)
    ensures |SplitOn(entry, ':')| < 2 ==> r == Err(IndexOutOfBounds)
    ensures |SplitOn(entry, ':')| >= 2 && ToIntOrNull(SplitOn(entry, ':')[1]).None? ==> r == Err(InvalidPort)
  {
    var parts := SplitOn(entry, ':');
    if |parts| < 2 then Err(IndexOutOfBounds)
    else
      match ToIntOrNull(parts[1])
      case None => Err(InvalidPort)
      case Some(p) => Ok(p)
  }

  /**
   * A port written in ARABIC-INDIC digits is read as its value, as
   * `toIntOrNull` reads it, and the text after it is ignored.
   */
  lemma PortOfOtherScript()
    ensures PortOf("h:\U{0661}:80") == Ok(1)
  {
    var xs := ["h", "\U{0661}", "80"];
    assert JoinWith(xs, ':') == "h:\U{0661}:80";
    SplitJoin(xs, ':');
    Decimal.ParseArabicIndic();
  }

  /** The ports of all entries, in order; the first entry that fails decides the error. */
  function PortsOf(entries: seq<string>): (r: Result<seq<int32>>)
    ensures r.Ok? ==> |r.value| == |entries|
                      && forall i | 0 <= i < |entries| :: PortOf(entries[i]) == Ok(r.value[i])
    ensures r.Err? ==> exists i | 0 <= i < |entries| :: PortOf(entries[i]) == Err(r.exc)
  {
    if |entries| == 0 then Ok([])
    else
      var p :- PortOf(entries[0]);
      var rest :- PortsOf(entries[1..]);
      Ok([p] + rest)
  }

  /** What a URL names: the cluster nodes in order, the bucket and the file. */
  datatype Target = Target(nodes: seq<Node>, bucket: string, file: string)

  /** The URL part of `ErldbConnection`'s constructor. */
  function ParseUrl(u: string): (r: Result<Target>)
    ensures r == Err(InvalidUrl) <==> Find(u, 0).None?
    ensures r.Ok? ==> |r.value.nodes| >= 1
    ensures r.Ok? ==> var g := Find(u, 0).value;
                      var entries := SplitOn(g.hosts, ',');
                      && r.value.bucket == g.bucket && r.value.file == g.file
                      && |r.value.nodes| == |entries|
                      && forall i | 0 <= i < |entries| ::
                           r.value.nodes[i].host == HostOf(entries[i])
                           && PortOf(entries[i]) == Ok(r.value.nodes[i].port)
    ensures r.Err? ==> r.exc in {InvalidUrl, InvalidPort, IndexOutOfBounds}
  {
    match Find(u, 0)
    case None => Err(InvalidUrl)
    case Some(g) =>
      var entries := SplitOn(g.hosts, ',');
      var ports :- PortsOf(entries);
      Ok(Target(seq(|entries|, i requires 0 <= i < |entries| => Node(HostOf(entries[i]), ports[i])),
                g.bucket, g.file))
  }

  // ---------------------------------------------------------------------
  // Well-formed URLs

  /** A host the URL grammar and the splitting both read back: non-empty, no ':' or ',' or line break. */
  predicate GoodHost(h: string)
  {
    |h| > 0 && ':' !in h && ',' !in h && NoBreak(h)
  }

  predicate GoodNode(n: Node)
  {
    GoodHost(n.host) && n.port >= 0
  }

  predicate GoodNodes(ns: seq<Node>)
  {
    |ns| >= 1 && forall i | 0 <= i < |ns| :: GoodNode(ns[i])
  }

  function NodeText(n: Node): string
    requires GoodNode(n)
  {
    n.host + ":" + Decimal.Show(n.port)
  }

  function NodesText(ns: seq<Node>): string
    requires GoodNodes(ns)
    decreases |ns|
  {
    if |ns| == 1 then NodeText(ns[0]) else NodeText(ns[0]) + "," + NodesText(ns[1..])
  }

  /** What follows the host list: the bucket and the file, each after a '/'. */
  function Tail(bucket: string, file: string): string
  {
    "/" + bucket + "/" + file
  }

  /** A URL in the driver's syntax. */
  function Build(sub: string, ns: seq<Node>, bucket: string, file: string): string
    requires GoodNodes(ns)
  {
    "jdbc:" + sub + "://" + NodesText(ns) + Tail(bucket, file)
  }

  predicate GoodTail(bucket: string, file: string)
  {
    '/' !in bucket && ':' !in bucket && NoBreak(bucket) && ':' !in file && NoBreak(file)
  }

  /**
   * The URLs the round trip covers: a sub-protocol without ':', hosts as
   * above, a bucket without '/', and no ':' or line break after the hosts.
   */
  predicate WellFormed(sub: string, ns: seq<Node>, bucket: string, file: string)
  {
    |sub| > 0 && ':' !in sub && NoBreak(sub) && GoodNodes(ns) && GoodTail(bucket, file)
  }

  /** A well-formed URL is read back as the nodes, bucket and file it was built from. */
  lemma UrlRoundTrip(sub: string, ns: seq<Node>, bucket: string, file: string)
    requires WellFormed(sub, ns, bucket, file)
    ensures ParseUrl(Build(sub, ns, bucket, file)) == Ok(Target(ns, bucket, file))
  {
    var u := Build(sub, ns, bucket, file);
    var hosts := NodesText(ns);
    var c: nat := 5 + |sub|;
    var k: nat := c + 3 + |hosts|;
    UrlLayout(u, sub, hosts + Tail(bucket, file));
    HostsMatch(u, c + 3, ns, bucket, file, k, k + 1 + |bucket|);
    FindUrl(u, sub, hosts, bucket, file, c, k, k + 1 + |bucket|);
    ParseFound(u, Groups(sub, NodesText(ns), bucket, file), ns);
  }

  /** Once the pattern has matched, the host list of well-formed nodes gives those nodes. */
  lemma ParseFound(u: string, g: Groups, ns: seq<Node>)
    requires Find(u, 0) == Some(g) && GoodNodes(ns) && g.hosts == NodesText(ns)
    ensures ParseUrl(u) == Ok(Target(ns, g.bucket, g.file))
  {
    var entries := SplitOn(g.hosts, ',');
    ReadNodes(g.hosts, ns);
    var ports := seq(|ns|, i requires 0 <= i < |ns| => ns[i].port);
    assert seq(|entries|, i requires 0 <= i < |entries| => Node(HostOf(entries[i]), ports[i])) == ns;
  }

  /** The host list of well-formed nodes reads back as those nodes. */
  lemma ReadNodes(hosts: string, ns: seq<Node>)
    requires GoodNodes(ns) && hosts == NodesText(ns)
    ensures var entries := SplitOn(hosts, ',');
            && |entries| == |ns|
            && PortsOf(entries) == Ok(seq(|ns|, i requires 0 <= i < |ns| => ns[i].port))
            && forall i | 0 <= i < |ns| :: HostOf(entries[i]) == ns[i].host
  {
    var entries := SplitOn(hosts, ',');
    EntriesOf(ns);
    forall i | 0 <= i < |ns|
      ensures HostOf(entries[i]) == ns[i].host && PortOf(entries[i]) == Ok(ns[i].port)
    {
      EntryOf(ns[i]);
    }
    PortsOfEntries(entries, ns);
  }

  lemma {:induction false} PortsOfEntries(entries: seq<string>, ns: seq<Node>)
    requires |entries| == |ns|
    requires forall i | 0 <= i < |ns| :: PortOf(entries[i]) == Ok(ns[i].port)
    ensures PortsOf(entries) == Ok(seq(|ns|, i requires 0 <= i < |ns| => ns[i].port))
    decreases |ns|
  {
    if |ns| > 0 {
      PortsOfEntries(entries[1..], ns[1..]);
      assert PortOf(entries[0]) == Ok(ns[0].port);
      assert PortsOf(entries) == Ok([ns[0].port] + PortsOf(entries[1..]).value);
      assert [ns[0].port] + seq(|ns| - 1, i requires 0 <= i < |ns| - 1 => ns[1..][i].port)
          == seq(|ns|, i requires 0 <= i < |ns| => ns[i].port);
    } else {
      assert seq(|ns|, i requires 0 <= i < |ns| => ns[i].port) == [];
    }
  }

  /** The host list splits on ',' into one entry per node. */
  lemma EntriesOf(ns: seq<Node>)
    requires GoodNodes(ns)
    ensures SplitOn(NodesText(ns), ',') == seq(|ns|, i requires 0 <= i < |ns| => NodeText(ns[i]))
  {
    var xs := seq(|ns|, i requires 0 <= i < |ns| => NodeText(ns[i]));
    forall i | 0 <= i < |ns|
      ensures ',' !in xs[i]
    {
      NotInDigits(Decimal.Show(ns[i].port), ',');
    }
    NodesTextJoins(ns);
    SplitJoin(xs, ',');
  }

  lemma {:induction false} NodesTextJoins(ns: seq<Node>)
    requires GoodNodes(ns)
    ensures NodesText(ns) == JoinWith(seq(|ns|, i requires 0 <= i < |ns| => NodeText(ns[i])), ',')
    decreases |ns|
  {
    if |ns| > 1 {
      NodesTextJoins(ns[1..]);
      var xs := seq(|ns|, i requires 0 <= i < |ns| => NodeText(ns[i]));
      assert xs[1..] == seq(|ns| - 1, i requires 0 <= i < |ns| - 1 => NodeText(ns[1..][i]));
    }
  }

  /** One entry reads back as its host and port. */
  lemma EntryOf(n: Node)
    requires GoodNode(n)
    ensures HostOf(NodeText(n)) == n.host && PortOf(NodeText(n)) == Ok(n.port)
  {
    var d := Decimal.Show(n.port);
    NotInDigits(d, ':');
    SplitJoin([n.host, d], ':');
    assert JoinWith([n.host, d], ':') == NodeText(n);
    Decimal.ParseShow(n.port);
  }

  lemma NotInDigits(d: string, c: char)
    requires Decimal.AllDigits(d) && !Decimal.IsDigit(c)
    ensures c !in d
  {
    assert forall i | 0 <= i < |d| :: d[i] != c;
  }

  // The matcher on a well-formed URL, step by step.

  /** Whether the lazy scans step over position `t`: the text before it is matched by `.`, and `t` holds no ':'. */
  predicate Plain(u: string, t: int)
  {
    0 < t < |u| && !IsBreak(u[t - 1]) && u[t] != ':'
  }

  /** Every position strictly inside a run without ':' or line breaks is stepped over. */
  lemma PlainRun(u: string, a: nat, b: nat)
    requires a <= b <= |u| && ':' !in u[a..b] && NoBreak(u[a..b])
    ensures forall t | a < t < b :: Plain(u, t)
  {
    forall t | a < t < b
      ensures Plain(u, t)
    {
      assert u[t] == u[a..b][t - a];
      assert u[t - 1] == u[a..b][t - 1 - a];
    }
  }

  /** The last character of a run without line breaks is matched by `.`. */
  lemma LastNoBreak(u: string, a: nat, b: nat)
    requires a < b <= |u| && NoBreak(u[a..b])
    ensures !IsBreak(u[b - 1])
  {
    assert u[b - 1] == u[a..b][b - 1 - a];
  }

  /** Once the host list and what follows it have matched, the whole search succeeds at the start. */
  lemma FindUrl(u: string, sub: string, hosts: string, bucket: string, file: string, c: nat, k: nat, m: nat)
    requires |sub| > 0 && ':' !in sub && NoBreak(sub)
    requires c == 5 + |sub| && k == c + 3 + |hosts| && m == k + 1 + |bucket|
    requires c + 3 <= |u| && u[..5] == "jdbc:" && u[5..c] == sub && u[c..c + 3] == "://"
    requires u[c + 3..] == hosts + Tail(bucket, file)
    requires MatchHosts(u, c + 3) == Some((k, m, |u| as nat))
    ensures Find(u, 0) == Some(Groups(sub, hosts, bucket, file))
  {
    Pieces(u, c + 3, hosts, bucket, file);
    Clean(u, 5, c);
    SchemeFound(u, c, (k, m, |u|), Groups(sub, hosts, bucket, file));
  }

  /** The fixed parts of a URL around the sub-protocol. */
  lemma UrlLayout(u: string, sub: string, rest: string)
    requires u == "jdbc:" + sub + "://" + rest
    ensures var c := 5 + |sub|;
            c + 3 <= |u| && u[..5] == "jdbc:" && u[5..c] == sub && u[c..c + 3] == "://" && u[c + 3..] == rest
  {
    var c := 5 + |sub|;
    assert u[0..] == "jdbc:" + (sub + ("://" + rest));
    Split(u, 0, "jdbc:", sub + ("://" + rest));
    Split(u, 5, sub, "://" + rest);
    Split(u, c, "://", rest);
    assert u[..5] == u[0..5];
  }

  /** The groups a match on the host list and tail reads out of the text. */
  lemma Pieces(u: string, p: nat, hosts: string, bucket: string, file: string)
    requires p <= |u| && u[p..] == hosts + Tail(bucket, file)
    ensures var k := p + |hosts|; var m := k + 1 + |bucket|;
            m < |u| && u[p..k] == hosts && u[k + 1..m] == bucket && u[m + 1..|u|] == file
  {
    var k := p + |hosts|;
    var m := k + 1 + |bucket|;
    Split(u, p, hosts, "/" + (bucket + ("/" + file)));
    Split(u, k, "/", bucket + ("/" + file));
    Split(u, k + 1, bucket, "/" + file);
    Split(u, m, "/", file);
    assert u[m + 1..|u|] == u[m + 1..];
  }

  /** With the sub-protocol stepped over and "://" at `c`, the match starts at 0. */
  lemma SchemeFound(u: string, c: nat, h: (nat, nat, nat), g: Groups)
    requires 6 <= c && c + 3 < |u| && u[..5] == "jdbc:" && u[c..c + 3] == "://"
    requires (forall t | 5 < t < c :: Plain(u, t)) && !IsBreak(u[c - 1])
    requires MatchHosts(u, c + 3) == Some(h)
    requires g == Groups(u[5..c], u[c + 3..h.0], u[h.0 + 1..h.1], u[h.1 + 1..h.2])
    ensures Find(u, 0) == Some(g)
  {
    SkipScheme(u, 0, 6, c);
    assert MatchScheme(u, 0, 6) == Some((c, h.0, h.1, h.2));
    assert u[0..5] == u[..5];
  }

  lemma {:induction false} SkipScheme(u: string, s: nat, i: nat, c: nat)
    requires s + 5 < i <= c < |u|
    requires forall t | s + 5 < t < c :: Plain(u, t)
    ensures MatchScheme(u, s, i) == MatchScheme(u, s, c)
    decreases c - i
  {
    if i < c {
      assert Plain(u, i);
      assert !(i + 3 <= |u| && u[i..i + 3] == "://") by {
        if i + 3 <= |u| { assert u[i..i + 3][0] == u[i]; }
      }
      SkipScheme(u, s, i + 1, c);
    }
  }

  /** The layout of one entry followed by the rest of the text. */
  lemma Layout(u: string, p: nat, h: string, d: string, rest: string)
    requires p <= |u| && u[p..] == h + ":" + d + rest
    ensures var j := p + |h|; var k := j + 1 + |d|;
            k + |rest| == |u| && u[p..j] == h && u[j] == ':' && u[j + 1..k] == d && u[k..] == rest
  {
    var v := u[p..];
    assert v[..|h|] == h;
    assert v[|h|] == ':';
    assert v[|h| + 1..|h| + 1 + |d|] == d;
    assert v[|h| + 1 + |d|..] == rest;
  }

  /** A text that starts with `x` has `x` as its first slice and the rest after it. */
  lemma Split(u: string, q: nat, x: string, rest: string)
    requires q <= |u| && u[q..] == x + rest
    ensures q + |x| + |rest| == |u| && u[q..q + |x|] == x && u[q + |x|..] == rest
  {
    assert u[q..][..|x|] == x;
    assert u[q..][|x|..] == rest;
  }

  /** A run without ':' or line breaks: the lazy scans step over it. */
  lemma Clean(u: string, a: nat, b: nat)
    requires a < b <= |u| && ':' !in u[a..b] && NoBreak(u[a..b])
    ensures forall t | a < t < b :: Plain(u, t)
    ensures !IsBreak(u[b - 1])
  {
    PlainRun(u, a, b);
    LastNoBreak(u, a, b);
  }

  /** From the start of the host list, the repetition and the last entry find the intended ends. */
  lemma {:induction false} HostsMatch(u: string, p: nat, ns: seq<Node>, bucket: string, file: string, k: nat, m: nat)
    requires p <= |u| && GoodNodes(ns) && GoodTail(bucket, file)
    requires k == p + |NodesText(ns)| && m == k + 1 + |bucket|
    requires u[p..] == NodesText(ns) + Tail(bucket, file)
    ensures MatchHosts(u, p) == Some((k, m, |u| as nat))
    decreases |ns|, 1
  {
    var n := ns[0];
    var d := Decimal.Show(n.port);
    var j: nat := p + |n.host|;
    if |ns| == 1 {
      assert u[p..] == n.host + (":" + d + Tail(bucket, file));
      OneEntry(u, p, n.host, d, bucket, file, j, k, m);
    } else {
      var rest := NodesText(ns[1..]) + Tail(bucket, file);
      assert u[p..] == n.host + (":" + d + ("," + rest));
      HostsMore(u, p, ns, bucket, file, j, j + 1 + |d|, k, m);
    }
  }

  lemma {:induction false} HostsMore(u: string, p: nat, ns: seq<Node>, bucket: string, file: string,
                                     j: nat, e: nat, k: nat, m: nat)
    requires p <= |u| && GoodNodes(ns) && |ns| > 1 && GoodTail(bucket, file)
    requires j == p + |ns[0].host| && e == j + 1 + |Decimal.Show(ns[0].port)|
    requires k == e + 1 + |NodesText(ns[1..])| && m == k + 1 + |bucket|
    requires u[p..] == ns[0].host + (":" + Decimal.Show(ns[0].port) + ("," + (NodesText(ns[1..]) + Tail(bucket, file))))
    ensures MatchHosts(u, p) == Some((k, m, |u| as nat))
    decreases |ns|, 0
  {
    var rest := NodesText(ns[1..]) + Tail(bucket, file);
    MoreLayout(u, p, ns[0].host, Decimal.Show(ns[0].port), rest, j, e);
    HostsMatch(u, e + 1, ns[1..], bucket, file, k, m);
    MoreEntry(u, p, ns[0].host, Decimal.Show(ns[0].port), rest, j, e);
  }

  lemma MoreLayout(u: string, p: nat, h: string, d: string, rest: string, j: nat, e: nat)
    requires p <= |u| && j == p + |h| && e == j + 1 + |d|
    requires u[p..] == h + (":" + d + ("," + rest))
    ensures e < |u| && u[e + 1..] == rest
  {
    EntrySlices(u, p, h, d, "," + rest, j, e);
    Split(u, e, ",", rest);
  }

  /** An entry followed by ',' and a host list that matches: the repetition takes the entry. */
  lemma MoreEntry(u: string, p: nat, h: string, d: string, rest: string, j: nat, e: nat)
    requires p <= |u| && |h| > 0 && ':' !in h && NoBreak(h) && |d| > 0 && Decimal.AllDigits(d)
    requires j == p + |h| && e == j + 1 + |d|
    requires u[p..] == h + (":" + d + ("," + rest))
    requires e + 1 <= |u| && MatchHosts(u, e + 1).Some?
    ensures MatchHosts(u, p) == MatchHosts(u, e + 1)
  {
    EntryLayout(u, p, h, d, "," + rest, j, e);
    assert u[e] == u[e..][0];
    MoreHost(u, p, j, e);
  }

  /** The last entry, followed by the bucket and the file. */
  lemma OneEntry(u: string, p: nat, h: string, d: string, bucket: string, file: string, j: nat, k: nat, m: nat)
    requires p <= |u| && |h| > 0 && ':' !in h && NoBreak(h) && |d| > 0 && Decimal.AllDigits(d)
    requires GoodTail(bucket, file)
    requires j == p + |h| && k == j + 1 + |d| && m == k + 1 + |bucket|
    requires u[p..] == h + (":" + d + Tail(bucket, file))
    ensures MatchHosts(u, p) == Some((k, m, |u| as nat))
  {
    EntryLayout(u, p, h, d, Tail(bucket, file), j, k);
    TailLayout(u, j, k, m, d, bucket, file);
    LastHost(u, p, j, k, m);
  }

  /** After the last port: the bucket and file match, and no ':' is left. */
  lemma TailLayout(u: string, j: nat, k: nat, m: nat, d: string, bucket: string, file: string)
    requires j + 1 + |d| == k < |u| && m == k + 1 + |bucket| && Decimal.AllDigits(d) && GoodTail(bucket, file)
    requires u[j + 1..] == d + Tail(bucket, file)
    ensures MatchBucket(u, k + 1) == Some((m, |u| as nat))
    ensures ':' !in u[j + 1..]
  {
    NotInDigits(d, ':');
    TailSlices(u, j, k, d, bucket, file);
    BucketMatch(u, k + 1, m, bucket, file);
  }

  lemma TailSlices(u: string, j: nat, k: nat, d: string, bucket: string, file: string)
    requires j + 1 + |d| == k && k <= |u|
    requires u[j + 1..] == d + Tail(bucket, file)
    ensures u[k + 1..] == bucket + "/" + file
  {
    Split(u, j + 1, d, Tail(bucket, file));
    Split(u, k, "/", bucket + "/" + file);
  }

  /** One entry `host:digits` at `p`, followed by `rest`, as index facts. */
  lemma EntryLayout(u: string, p: nat, h: string, d: string, rest: string, j: nat, k: nat)
    requires p <= |u| && |h| > 0 && ':' !in h && NoBreak(h)
    requires |d| > 0 && Decimal.AllDigits(d) && |rest| > 0 && !Decimal.IsDigit(rest[0])
    requires j == p + |h| && k == j + 1 + |d|
    requires u[p..] == h + (":" + d + rest)
    ensures k < |u| && u[k..] == rest && u[j] == ':' && u[j + 1..] == d + rest
    ensures DigitRun(u, j + 1) == k && k > j + 1
    ensures (forall t | p < t < j :: Plain(u, t)) && !IsBreak(u[j - 1])
  {
    EntrySlices(u, p, h, d, rest, j, k);
    EntryScan(u, p, j, k, d);
  }

  lemma EntrySlices(u: string, p: nat, h: string, d: string, rest: string, j: nat, k: nat)
    requires p <= |u| && u[p..] == h + (":" + d + rest) && |rest| > 0
    requires j == p + |h| && k == j + 1 + |d|
    ensures k < |u| && u[p..j] == h && u[j] == ':' && u[j + 1..k] == d && u[k..] == rest && u[k] == rest[0]
    ensures u[j + 1..] == d + rest
  {
    Split(u, p, h, ":" + d + rest);
    assert u[j..] == ":" + (d + rest);
    Split(u, j + 1, d, rest);
    assert u[j] == u[j..][0];
    assert u[k] == u[k..][0];
  }

  lemma EntryScan(u: string, p: nat, j: nat, k: nat, d: string)
    requires p < j && j + 1 + |d| == k < |u| && |d| > 0
    requires ':' !in u[p..j] && NoBreak(u[p..j])
    requires u[j + 1..k] == d && Decimal.AllDigits(d) && !Decimal.IsDigit(u[k])
    ensures DigitRun(u, j + 1) == k
    ensures (forall t | p < t < j :: Plain(u, t)) && !IsBreak(u[j - 1])
  {
    Clean(u, p, j);
    DigitRunOf(u, j + 1, d);
  }

  /** An entry followed by ',' and a matching host list is taken by the repetition. */
  lemma MoreHost(u: string, p: nat, j: nat, k: nat)
    requires p < j < k < |u|
    requires (forall t | p < t < j :: Plain(u, t)) && !IsBreak(u[j - 1])
    requires u[j] == ':' && DigitRun(u, j + 1) == k && k > j + 1
    requires u[k] == ',' && MatchHosts(u, k + 1).Some?
    ensures MatchHosts(u, p) == MatchHosts(u, k + 1)
  {
    SkipMore(u, p, p + 1, j);
    assert PortThen(u, j, ',');
  }

  /** The last entry: the repetition takes nothing more, and the entry, bucket and file match. */
  lemma LastHost(u: string, p: nat, j: nat, k: nat, m: nat)
    requires p < j < k < |u|
    requires (forall t | p < t < j :: Plain(u, t)) && !IsBreak(u[j - 1])
    requires u[j] == ':' && DigitRun(u, j + 1) == k && k > j + 1
    requires u[k] == '/' && MatchBucket(u, k + 1) == Some((m, |u| as nat))
    requires ':' !in u[j + 1..]
    ensures MatchHosts(u, p) == Some((k, m, |u|))
  {
    SkipLast(u, p, p + 1, j);
    assert MatchLast(u, p, j) == Some((k, m, |u|));
    NoMoreHosts(u, p, j + 1);
    assert !PortThen(u, j, ',');
    SkipMore(u, p, p + 1, j);
  }

  lemma {:induction false} SkipLast(u: string, p: nat, j: nat, c: nat)
    requires p < j <= c < |u|
    requires forall t | j <= t < c :: Plain(u, t)
    ensures MatchLast(u, p, j) == MatchLast(u, p, c)
    decreases c - j
  {
    if j < c {
      assert Plain(u, j);
      SkipLast(u, p, j + 1, c);
    }
  }

  lemma {:induction false} SkipMore(u: string, p: nat, j: nat, c: nat)
    requires p < j <= c < |u|
    requires forall t | j <= t < c :: Plain(u, t)
    ensures MoreHosts(u, p, j) == MoreHosts(u, p, c)
    decreases c - j
  {
    if j < c {
      assert Plain(u, j);
      SkipMore(u, p, j + 1, c);
    }
  }

  /** With no ':' left, the repetition cannot take another entry. */
  lemma {:induction false} NoMoreHosts(u: string, p: nat, j: nat)
    requires p < j <= |u|
    requires ':' !in u[j..]
    ensures MoreHosts(u, p, j) == None
    decreases |u| - j
  {
    if j < |u| && !IsBreak(u[j - 1]) {
      assert u[j] == u[j..][0];
      assert u[j + 1..] == u[j..][1..];
      NoMoreHosts(u, p, j + 1);
    }
  }

  lemma {:induction false} DigitRunOf(u: string, i: nat, d: string)
    requires i + |d| < |u| && u[i..i + |d|] == d && Decimal.AllDigits(d)
    requires !Decimal.IsDigit(u[i + |d|])
    ensures DigitRun(u, i) == i + |d|
    decreases |d|
  {
    if |d| > 0 {
      assert u[i] == d[0];
      assert u[i + 1..i + 1 + |d[1..]|] == d[1..];
      DigitRunOf(u, i + 1, d[1..]);
    }
  }

  /** After the host list's '/', the bucket ends at the next '/' and the file runs to the end. */
  lemma BucketMatch(u: string, q: nat, m: nat, bucket: string, file: string)
    requires q <= |u| && m == q + |bucket|
    requires GoodTail(bucket, file)
    requires u[q..] == bucket + "/" + file
    ensures MatchBucket(u, q) == Some((m, |u| as nat))
  {
    Split(u, q, bucket, "/" + file);
    Split(u, m, "/", file);
    assert u[m] == u[m..m + 1][0];
    forall t | q <= t < m
      ensures u[t] != '/' && !IsBreak(u[t])
    {
      assert u[t] == u[q..m][t - q];
    }
    BucketAt(u, q, m);
  }

  lemma BucketAt(u: string, q: nat, m: nat)
    requires q <= m < |u| && u[m] == '/' && NoBreak(u[m + 1..])
    requires forall t | q <= t < m :: u[t] != '/' && !IsBreak(u[t])
    ensures MatchBucket(u, q) == Some((m, |u| as nat))
  {
    EndMatch(u, m + 1);
    SkipBucket(u, q, m);
  }

  lemma {:induction false} SkipBucket(u: string, q: nat, m: nat)
    requires q <= m < |u|
    requires forall t | q <= t < m :: u[t] != '/' && !IsBreak(u[t])
    ensures MatchBucket(u, q) == MatchBucket(u, m)
    decreases m - q
  {
    if q < m {
      SkipBucket(u, q + 1, m);
    }
  }

  /** A file name without line breaks runs to the end. */
  lemma {:induction false} EndMatch(u: string, r: nat)
    requires r <= |u| && NoBreak(u[r..])
    ensures MatchEnd(u, r) == Some(|u|)
    decreases |u| - r
  {
    if r < |u| {
      assert u[r] == u[r..][0];
      assert !Dollar(u, r);
      assert u[r + 1..] == u[r..][1..];
      EndMatch(u, r + 1);
    }
  }

  /** Whether "jdbc:" occurs at `t`. */
  predicate SchemeAt(u: string, t: nat)
  {
    t + 5 <= |u| && u[t..t + 5] == "jdbc:"
  }

  /** Text that does not contain "jdbc:" is not a connection URL. */
  lemma {:induction false} NoSchemeInvalid(u: string, s: nat)
    requires s <= |u|
    requires forall t: nat | s <= t :: !SchemeAt(u, t)
    ensures Find(u, s) == None
    decreases |u| - s
  {
    if s < |u| {
      assert !SchemeAt(u, s);
      NoSchemeInvalid(u, s + 1);
    }
  }

  /** A URL that does not contain "jdbc:" is refused as an invalid URL. */
  lemma NoSchemeRefused(u: string)
    requires forall t: nat :: !SchemeAt(u, t)
    ensures ParseUrl(u) == Err(InvalidUrl)
  {
    NoSchemeInvalid(u, 0);
  }
}

=== FILE: json.dfy ===
/**
 * The in-memory values of the org.json library the driver parses server
 * replies into, and the typed accessors of `JSONArray` and `JSONObject` it
 * calls.  An accessor fails with a `JSONException` when the element is
 * missing or cannot be read as the requested type; numbers are converted the
 * way `Number.intValue()`, `longValue()` and `doubleValue()` convert them,
 * and numeric text is parsed.
 */
module Json {
  import opened Errors
  import opened Ints
  import opened Doubles
  import Decimal

  datatype Json =
      /** `JSONObject.NULL`. */
    | JNull
    | JBool(b: bool)
      /** An `Integer`, `Long` or `BigInteger`. */
    | JNumber(n: int)
    | JDouble(d: Double)
    | JString(s: string)
    | JArray(items: seq<Json>)
    | JObject(fields: map<string, Json>)

  const NotFound := JsonException("not found")
  const WrongType := JsonException("wrong value type")

  /** `JSONArray.get(i)`. */
  function At(items: seq<Json>, i: int): (r: Result<Json>)
    ensures r.Ok? <==> 0 <= i < |items|
    ensures r.Ok? ==> r.value == items[i]
  {
    if 0 <= i < |items| then Ok(items[i]) else Err(NotFound)
  }

  /** `JSONObject.get(key)`. */
  function Field(fields: map<string, Json>, key: string): (r: Result<Json>)
    ensures r.Ok? <==> key in fields
    ensures r.Ok? ==> r.value == fields[key]
  {
    if key in fields then Ok(fields[key]) else Err(NotFound)
  }

  /** The text `toString()` gives for a value that is not a number. */
  function Text(j: Json): string
  {
    match j
    case JString(s) => s
    case JNull => "null"
    case JBool(b) => if b then "true" else "false"
    case _ => ""
  }

  /** `getInt`: a number narrowed as `intValue()` does, or decimal text in range. */
  function AsInt(j: Json): (r: Result<int>)
    ensures r.Ok? ==> IsInt(r.value)
    ensures j.JNumber? ==> r == Ok(ToInt(j.n))
    ensures j.JString? ==> (r.Ok? <==> Decimal.Parse(j.s).Some? && IsInt(Decimal.Parse(j.s).value))
    ensures j.JString? && r.Ok? ==> Decimal.Parse(j.s) == Some(r.value)
  {
    match j
    case JNumber(n) => Ok(ToInt(n))
    case JDouble(d) => Ok(ToIntegral(d, INT_MIN, INT_MAX))
    case _ =>
      match Decimal.Parse(Text(j))
      case Some(n) => if IsInt(n) then Ok(n) else Err(WrongType)
      case None => Err(WrongType)
  }

  /** `getLong`: a number narrowed as `longValue()` does, or decimal text in range. */
  function AsLong(j: Json): (r: Result<int>)
    ensures r.Ok? ==> IsLong(r.value)
    ensures j.JNumber? ==> r == Ok(ToLong(j.n))
    ensures j.JString? ==> (r.Ok? <==> Decimal.Parse(j.s).Some? && IsLong(Decimal.Parse(j.s).value))
    ensures j.JString? && r.Ok? ==> Decimal.Parse(j.s) == Some(r.value)
  {
    match j
    case JNumber(n) => Ok(ToLong(n))
    case JDouble(d) => Ok(ToIntegral(d, LONG_MIN, LONG_MAX))
    case _ =>
      match Decimal.Parse(Text(j))
      case Some(n) => if IsLong(n) then Ok(n) else Err(WrongType)
      case None => Err(WrongType)
  }

  /** A string of ARABIC-INDIC digits reads as its value, as `Integer.parseInt` reads it. */
  lemma AsIntOtherScript()
    ensures AsInt(JString("\U{0661}")) == Ok(1)
    ensures AsLong(JString("\U{0661}")) == Ok(1)
  {
    Decimal.ParseArabicIndic();
  }

  /** `getDouble`: a double, or an integer converted as `doubleValue()` does. */
  function AsDouble(j: Json): (r: Result<Double>)
    ensures j.JDouble? ==> r == Ok(j.d)
    ensures r.Ok? ==> j.JDouble? || j.JNumber?
  {
    match j
    case JDouble(d) => Ok(d)
    case JNumber(n) => Ok(IntToDouble(n))
    case _ => Err(WrongType)
  }

  /** `getString`: only a string is accepted. */
  function AsString(j: Json): (r: Result<string>)
    ensures r.Ok? <==> j.JString?
  {
    if j.JString? then Ok(j.s) else Err(WrongType)
  }

  /** `getJSONArray`. */
  function AsArray(j: Json): (r: Result<seq<Json>>)
    ensures r.Ok? <==> j.JArray?
  {
    if j.JArray? then Ok(j.items) else Err(WrongType)
  }

  /** `getJSONObject`. */
  function AsObject(j: Json): (r: Result<map<string, Json>>)
    ensures r.Ok? <==> j.JObject?
  {
    if j.JObject? then Ok(j.fields) else Err(WrongType)
  }
}

=== FILE: list_result_set.dfy ===
/**
 * `ListBasedResultSet`: a result set over rows held in memory, used for the
 * generated key of an insert and for the metadata queries.  A cursor starts
 * before the first row; the getters read a cell of the current row through
 * one handler per storage class.
 */
module ListResultSet {
  import opened Errors
  import opened Ints
  import opened Doubles
  import opened SQLiteValue

  /** The column names, the rows, and the index of the current row (-1 before the first). */
  datatype Lrs = Lrs(names: seq<string>, data: seq<seq<Value>>, current: int)

  /** A fresh result set: the cursor before the first row. */
  function Create(names: seq<string>, data: seq<seq<Value>>): Lrs
  {
    Lrs(names, data, -1)
  }

  /** The cursor is before the first row or on one of the rows. */
  predicate Valid(r: Lrs)
  {
    -1 <= r.current <= |r.data| - 1
  }

  const InvalidColumnIndex := SqlException("Invalid column index")
  const InvalidColumnType := SqlException("Invalid column type")

  /**
   * `next()`: moves to the following row while there is one.  On the last
   * row (or with no rows at all) it stays put and answers false.
   */
  function Next(r: Lrs): (x: (Lrs, bool))
    ensures Valid(r) ==> Valid(x.0)
    ensures x.0.names == r.names && x.0.data == r.data
    ensures x.1 ==> x.0.current == r.current + 1 && x.0.current < |r.data|
    ensures !x.1 ==> x.0 == r
  {
    if r.current < |r.data| - 1 then (r.(current := r.current + 1), true)
    else (r, false)
  }

  /** `next()` called `k` times: the result set afterwards and each call's answer. */
  function Walk(r: Lrs, k: nat): (x: (Lrs, seq<bool>))
    ensures |x.1| == k
    decreases k
  {
    if k == 0 then (r, [])
    else
      var (r1, b) := Next(r);
      var (r2, bs) := Walk(r1, k - 1);
      (r2, [b] + bs)
  }

  function Min(a: int, b: int): int { if a <= b then a else b }

  /**
   * From a valid cursor with `m` rows still ahead, `k` calls of `next()`
   * answer true exactly the first `m` times and then false for ever, and
   * leave the cursor `min(k, m)` rows further on.
   */
  lemma {:induction false} WalkVisitsEveryRow(r: Lrs, k: nat)
    requires Valid(r)
    ensures var m := |r.data| - 1 - r.current;
            var x := Walk(r, k);
            && x.0 == r.(current := r.current + Min(k, m))
            && forall i | 0 <= i < k :: x.1[i] == (i < m)
    decreases k
  {
    if k > 0 {
      var (r1, b) := Next(r);
      WalkVisitsEveryRow(r1, k - 1);
      var m := |r.data| - 1 - r.current;
      var x := Walk(r, k);
      var y := Walk(r1, k - 1);
      assert x.1 == [b] + y.1;
      forall i | 0 <= i < k
        ensures x.1[i] == (i < m)
      {
        if i > 0 {
          assert x.1[i] == y.1[i - 1];
        }
      }
    }
  }

  /**
   * A fresh result set over `n` rows: the `i`-th call of `next()`
   * (counting from 0) answers true exactly when `i < n`, and after a
   * successful `i`-th call the current row is row `i`.
   */
  lemma FreshWalk(names: seq<string>, data: seq<seq<Value>>, k: nat)
    ensures var x := Walk(Create(names, data), k);
            && (forall i | 0 <= i < k :: x.1[i] == (i < |data|))
            && (k <= |data| ==> x.0.current == k - 1)
            && (k > |data| ==> x.0.current == |data| - 1)
  {
    WalkVisitsEveryRow(Create(names, data), k);
  }

  /**
   * The cell a getter reads: the current row must exist, must not be
   * empty, and must have a column at the one-based `index`.  Reading
   * before the first row, or a column outside the row, is the list's
   * `IndexOutOfBoundsException`.
   */
  function Cell(r: Lrs, index: int32): (x: Result<Value>)
    ensures x.Ok? <==> 0 <= r.current < |r.data| && 1 <= index <= |r.data[r.current]|
    ensures x.Ok? ==> x.value == r.data[r.current][index - 1]
    ensures x == Err(InvalidColumnIndex) <==> 0 <= r.current < |r.data| && |r.data[r.current]| == 0
    ensures x.Err? && x != Err(InvalidColumnIndex) ==> x == Err(IndexOutOfBounds)
  {
    if !(0 <= r.current < |r.data|) then Err(IndexOutOfBounds)
    else
      var row := r.data[r.current];
      if |row| == 0 then Err(InvalidColumnIndex)
      else if !(0 <= index - 1 < |row|) then Err(IndexOutOfBounds)
      else Ok(row[index - 1])
  }

  /** The getters built on `getGeneric`, by the handlers they pass it. */
  datatype Reader = ReadString | ReadLong | ReadDouble | ReadBytes

  /** The JVM class a handler casts its cell to. */
  function CastTarget(c: Value): string
  {
    match c
    case Null => "com.erldb.SQLiteValue$Null"
    case Integer(_) => "com.erldb.SQLiteValue$Integer"
    case Real(_) => "com.erldb.SQLiteValue$Real"
    case Text(_) => "com.erldb.SQLiteValue$Text"
    case Blob(_) => "com.erldb.SQLiteValue$Blob"
  }

  /** Whether a value's storage class is the one a handler was chosen for. */
  predicate SameClass(a: Value, b: Value)
  {
    Tag(a) == Tag(b)
  }

  /**
   * The handler `g` supplies for the storage class of `kind`, applied to
   * `cell`.  A handler that reads a payload casts the cell to its own
   * storage class first: when `cell` is of another class the cast throws.
   */
  function Handle(g: Reader, kind: Value, cell: Value): (x: Result<HostValue>)
    ensures x.Ok? && g == ReadString ==> x.value.HNull? || x.value.HString?
    ensures x.Ok? && g == ReadLong ==> x.value.HLong?
    ensures x.Ok? && g == ReadDouble ==> x.value.HDouble?
    ensures x.Ok? && g == ReadBytes ==> x.value.HByteArray?
    ensures x.Err? ==> x.exc == InvalidColumnType || (x.exc.ClassCast? && !SameClass(kind, cell))
  {
    match (g, kind)
    case (ReadString, Null) => Ok(HNull)
    case (ReadString, Text(_)) =>
      if cell.Text? then Ok(HString(cell.s)) else Err(ClassCast(CastTarget(kind)))
    case (ReadLong, Null) => Ok(HLong(0))
    case (ReadLong, Integer(_)) =>
      if cell.Integer? then Ok(HLong(cell.i)) else Err(ClassCast(CastTarget(kind)))
    case (ReadDouble, Null) => Ok(HDouble(Double(0)))
    case (ReadDouble, Integer(_)) =>
      if cell.Integer? then Ok(HDouble(IntToDouble(cell.i))) else Err(ClassCast(CastTarget(kind)))
    case (ReadDouble, Real(_)) =>
      if cell.Real? then Ok(HDouble(cell.d)) else Err(ClassCast(CastTarget(kind)))
    case (ReadBytes, Blob(_)) =>
      if cell.Blob? then Ok(HByteArray(cell.bytes, false)) else Err(ClassCast(CastTarget(kind)))
    case _ => Err(InvalidColumnType)
  }

  /**
   * What a getter gives for a cell, read by the cell's own storage class:
   * `getString` reads text and `NULL` (as `null`), `getLong` integers and
   * `NULL` (as 0), `getDouble` integers, reals and `NULL` (as 0.0),
   * `getBytes` blobs only; anything else is "Invalid column type".
   */
  lemma {:induction false} HandleOwnClass(g: Reader, c: Value)
    ensures var x := Handle(g, c, c);
            && (g == ReadString ==>
                  (c.Null? ==> x == Ok(HNull)) && (c.Text? ==> x == Ok(HString(c.s)))
                  && (!c.Null? && !c.Text? ==> x == Err(InvalidColumnType)))
            && (g == ReadLong ==>
                  (c.Null? ==> x == Ok(HLong(0))) && (c.Integer? ==> x == Ok(HLong(c.i)))
                  && (!c.Null? && !c.Integer? ==> x == Err(InvalidColumnType)))
            && (g == ReadDouble ==>
                  (c.Null? ==> x == Ok(HDouble(Double(0)))) && (c.Integer? ==> x == Ok(HDouble(IntToDouble(c.i))))
                  && (c.Real? ==> x == Ok(HDouble(c.d)))
                  && (c.Blob? || c.Text? ==> x == Err(InvalidColumnType)))
            && (g == ReadBytes ==>
                  (c.Blob? ==> x == Ok(HByteArray(c.bytes, false)))
                  && (!c.Blob? ==> x == Err(InvalidColumnType)))
  {
    match c
    case Null =>
    case Integer(_) =>
    case Real(_) =>
    case Text(_) =>
    case Blob(_) =>
  }

  /**
   * `getGeneric(columnIndex, handlers)`, as written: the handler is
   * chosen by the storage class of the row's FIRST cell, and then applied
   * to the cell at `columnIndex`.
   */
  function GetGeneric(r: Lrs, index: int32, g: Reader): (x: Result<HostValue>)
    ensures Cell(r, index).Err? ==> x == Err(Cell(r, index).exc)
    ensures x.Err? && Cell(r, index).Ok? ==>
              x.exc == InvalidColumnType || (x.exc.ClassCast? && !SameClass(r.data[r.current][0], Cell(r, index).value))
  {
    var c :- Cell(r, index);
    Handle(g, r.data[r.current][0], c)
  }

  /**
   * `getGeneric` with the handler chosen by the storage class of the cell
   * it reads: the dispatch the handlers' casts assume.
   */
  function GetGenericFixed(r: Lrs, index: int32, g: Reader): (x: Result<HostValue>)
    ensures Cell(r, index).Err? ==> x == Err(Cell(r, index).exc)
    ensures x.Err? ==> !x.exc.ClassCast?
  {
    var c :- Cell(r, index);
    Handle(g, c, c)
  }

  /**
   * The two dispatches agree whenever the row's first cell has the same
   * storage class as the cell read, in particular on the first column.
   */
  lemma AgreesOnSameClass(r: Lrs, index: int32, g: Reader)
    requires Cell(r, index).Ok?
    requires SameClass(r.data[r.current][0], Cell(r, index).value) || index == 1
    ensures GetGeneric(r, index, g) == GetGenericFixed(r, index, g)
  {
    var c := Cell(r, index).value;
    var k := r.data[r.current][0];
    match k
    case Null =>
    case Integer(_) =>
    case Real(_) =>
    case Text(_) =>
    case Blob(_) =>
  }

  /** The result set of one row `[Integer(1), Text("a")]` on that row. */
  function MixedRow(): (r: Lrs)
    ensures Valid(r) && r.current == 0
  {
    Lrs(["n", "s"], [[Integer(1), Text("a")]], 0)
  }

  /**
   * On the row `[1, "a"]`, reading the text column as a string is refused
   * as the wrong column type, and reading it as a long casts the text to
   * an integer and throws; the fixed dispatch reads "a" and refuses the
   * long.
   */
  lemma MixedRowMisread()
    ensures GetGeneric(MixedRow(), 2, ReadString) == Err(InvalidColumnType)
    ensures GetGenericFixed(MixedRow(), 2, ReadString) == Ok(HString("a"))
    ensures GetGeneric(MixedRow(), 2, ReadLong) == Err(ClassCast("com.erldb.SQLiteValue$Integer"))
    ensures GetGenericFixed(MixedRow(), 2, ReadLong) == Err(InvalidColumnType)
  {
    assert Cell(MixedRow(), 2) == Ok(Text("a"));
  }

  /**
   * `getString(columnIndex)`, as written: when the row's first cell is
   * `NULL` the answer is `null` whatever the column holds; when it is
   * text, a text cell gives its text and any other cell fails the cast to
   * text; any other first cell is "Invalid column type".
   */
  function GetString(r: Lrs, index: int32): (x: Result<Option<string>>)
    ensures Cell(r, index).Err? ==> x == Err(Cell(r, index).exc)
    ensures Cell(r, index).Ok? ==>
              var k := r.data[r.current][0];
              var c := Cell(r, index).value;
              && (k.Null? ==> x == Ok(None))
              && (k.Text? && c.Text? ==> x == Ok(Some(c.s)))
              && (k.Text? && !c.Text? ==> x == Err(ClassCast("com.erldb.SQLiteValue$Text")))
              && (!k.Null? && !k.Text? ==> x == Err(InvalidColumnType))
  {
    var c :- Cell(r, index);
    var h :- GetGeneric(r, index, ReadString);
    if h.HString? then Ok(Some(h.s)) else Ok(None)
  }

  /**
   * `getLong(columnIndex)`, as written: 0 whatever the column holds when
   * the row's first cell is `NULL`; when it is an integer, an integer
   * cell's value, and a failed cast for any other cell; any other first
   * cell is "Invalid column type".
   */
  function GetLong(r: Lrs, index: int32): (x: Result<int64>)
    ensures Cell(r, index).Err? ==> x == Err(Cell(r, index).exc)
    ensures Cell(r, index).Ok? ==>
              var k := r.data[r.current][0];
              var c := Cell(r, index).value;
              && (k.Null? ==> x == Ok(0))
              && (k.Integer? && c.Integer? ==> x == Ok(c.i))
              && (k.Integer? && !c.Integer? ==> x == Err(ClassCast("com.erldb.SQLiteValue$Integer")))
              && (!k.Null? && !k.Integer? ==> x == Err(InvalidColumnType))
  {
    var c :- Cell(r, index);
    var h :- GetGeneric(r, index, ReadLong);
    if h.HLong? then Ok(h.n64) else assert false; Err(InvalidColumnType)
  }

  /** A long read, truncated to 32 bits; a failed read stays failed. */
  function Narrow(n: Result<int64>): (x: Result<int32>)
    ensures x.Ok? <==> n.Ok?
    ensures x.Err? ==> x.exc == n.exc
    ensures x.Ok? ==> (x.value - n.value) % 0x1_0000_0000 == 0
    ensures x.Ok? && IsInt(n.value) ==> x.value == n.value
  {
    var v :- n;
    Ok(ToInt(v))
  }

  /** `getInt(columnIndex)`: `getLong` truncated to 32 bits. */
  function GetInt(r: Lrs, index: int32): (x: Result<int32>)
    ensures x.Ok? <==> GetLong(r, index).Ok?
    ensures x.Err? ==> x.exc == GetLong(r, index).exc
    ensures x.Ok? ==> (x.value - GetLong(r, index).value) % 0x1_0000_0000 == 0
    ensures x.Ok? && IsInt(GetLong(r, index).value) ==> x.value == GetLong(r, index).value
  {
    Narrow(GetLong(r, index))
  }

  /**
   * `getBoolean(columnIndex)`: `getInt(columnIndex) != 0`.  A long whose
   * low 32 bits are zero reads as false.
   */
  function GetBoolean(r: Lrs, index: int32): (x: Result<bool>)
    ensures x.Ok? <==> GetLong(r, index).Ok?
    ensures x.Err? ==> x.exc == GetLong(r, index).exc
    ensures x.Ok? ==> (x.value <==> GetLong(r, index).value % 0x1_0000_0000 != 0)
  {
    var n :- GetInt(r, index);
    Ok(n != 0)
  }

  /**
   * `getDouble(columnIndex)`, as written: 0.0 whatever the column holds
   * when the row's first cell is `NULL`; when it is an integer, an
   * integer cell widened to double; when it is a real, a real cell as it
   * is; a cell of another class than the first fails the cast, and a
   * first cell of text or blob is "Invalid column type".
   */
  function GetDouble(r: Lrs, index: int32): (x: Result<Double>)
    ensures Cell(r, index).Err? ==> x == Err(Cell(r, index).exc)
    ensures Cell(r, index).Ok? ==>
              var k := r.data[r.current][0];
              var c := Cell(r, index).value;
              && (k.Null? ==> x == Ok(Double(0)))
              && (k.Integer? && c.Integer? ==> x == Ok(IntToDouble(c.i)))
              && (k.Integer? && !c.Integer? ==> x == Err(ClassCast("com.erldb.SQLiteValue$Integer")))
              && (k.Real? && c.Real? ==> x == Ok(c.d))
              && (k.Real? && !c.Real? ==> x == Err(ClassCast("com.erldb.SQLiteValue$Real")))
              && (k.Text? || k.Blob? ==> x == Err(InvalidColumnType))
  {
    var c :- Cell(r, index);
    var h :- GetGeneric(r, index, ReadDouble);
    if h.HDouble? then Ok(h.d) else assert false; Err(InvalidColumnType)
  }

  /**
   * `getBytes(columnIndex)`, as written: when the row's first cell is a
   * blob, a blob cell's bytes and a failed cast for any other cell; any
   * other first cell, `NULL` included, is "Invalid column type".
   */
  function GetBytes(r: Lrs, index: int32): (x: Result<seq<byte>>)
    ensures Cell(r, index).Err? ==> x == Err(Cell(r, index).exc)
    ensures Cell(r, index).Ok? ==>
              var k := r.data[r.current][0];
              var c := Cell(r, index).value;
              && (k.Blob? && c.Blob? ==> x == Ok(c.bytes))
              && (k.Blob? && !c.Blob? ==> x == Err(ClassCast("com.erldb.SQLiteValue$Blob")))
              && (!k.Blob? ==> x == Err(InvalidColumnType))
  {
    var c :- Cell(r, index);
    var h :- GetGeneric(r, index, ReadBytes);
    if h.HByteArray? then Ok(h.bytes) else assert false; Err(InvalidColumnType)
  }

  /**
   * `getString(columnIndex)` with the corrected dispatch: the text of a text
   * cell, `null` for `NULL`, and "Invalid column type" for the others.
   */
  function GetStringFixed(r: Lrs, index: int32): (x: Result<Option<string>>)
    ensures Cell(r, index).Err? ==> x == Err(Cell(r, index).exc)
    ensures Cell(r, index).Ok? ==>
              var c := Cell(r, index).value;
              && (c.Text? <==> x.Ok? && x.value.Some?)
              && (c.Text? ==> x == Ok(Some(c.s)))
              && (c.Null? <==> x == Ok(None))
              && (!c.Null? && !c.Text? ==> x == Err(InvalidColumnType))
  {
    var c :- Cell(r, index);
    HandleOwnClass(ReadString, c);
    var h :- GetGenericFixed(r, index, ReadString);
    if h.HString? then Ok(Some(h.s)) else Ok(None)
  }

  /**
   * `getLong(columnIndex)` with the corrected dispatch: an integer cell's
   * value, 0 for `NULL`, and "Invalid column type" for the others.
   */
  function GetLongFixed(r: Lrs, index: int32): (x: Result<int64>)
    ensures Cell(r, index).Err? ==> x == Err(Cell(r, index).exc)
    ensures Cell(r, index).Ok? ==>
              var c := Cell(r, index).value;
              && (c.Integer? ==> x == Ok(c.i))
              && (c.Null? ==> x == Ok(0))
              && (x.Ok? <==> c.Integer? || c.Null?)
              && (x.Err? ==> x.exc == InvalidColumnType)
  {
    var c :- Cell(r, index);
    HandleOwnClass(ReadLong, c);
    var h :- GetGenericFixed(r, index, ReadLong);
    if h.HLong? then Ok(h.n64) else assert false; Err(InvalidColumnType)
  }

  /** `getInt(columnIndex)` with the corrected dispatch. */
  function GetIntFixed(r: Lrs, index: int32): (x: Result<int32>)
    ensures x.Ok? <==> GetLongFixed(r, index).Ok?
    ensures x.Err? ==> x.exc == GetLongFixed(r, index).exc
    ensures x.Ok? ==> (x.value - GetLongFixed(r, index).value) % 0x1_0000_0000 == 0
    ensures x.Ok? && IsInt(GetLongFixed(r, index).value) ==> x.value == GetLongFixed(r, index).value
  {
    Narrow(GetLongFixed(r, index))
  }

  /**
   * `getBoolean(columnIndex)` with the corrected dispatch.
   */
  function GetBooleanFixed(r: Lrs, index: int32): (x: Result<bool>)
    ensures x.Ok? <==> GetLongFixed(r, index).Ok?
    ensures x.Ok? ==> (x.value <==> GetLongFixed(r, index).value % 0x1_0000_0000 != 0)
  {
    var n :- GetIntFixed(r, index);
    Ok(n != 0)
  }

  /**
   * `getDouble(columnIndex)` with the corrected dispatch: a real cell as it
   * is, an integer widened to double, 0.0 for `NULL`.
   */
  function GetDoubleFixed(r: Lrs, index: int32): (x: Result<Double>)
    ensures Cell(r, index).Err? ==> x == Err(Cell(r, index).exc)
    ensures Cell(r, index).Ok? ==>
              var c := Cell(r, index).value;
              && (c.Real? ==> x == Ok(c.d))
              && (c.Integer? ==> x == Ok(IntToDouble(c.i)))
              && (c.Null? ==> x == Ok(Double(0)))
              && (c.Text? || c.Blob? ==> x == Err(InvalidColumnType))
  {
    var c :- Cell(r, index);
    HandleOwnClass(ReadDouble, c);
    var h :- GetGenericFixed(r, index, ReadDouble);
    if h.HDouble? then Ok(h.d) else assert false; Err(InvalidColumnType)
  }

  /**
   * `getBytes(columnIndex)` with the corrected dispatch: a blob's bytes;
   * every other class, `NULL` included, is "Invalid column type".
   */
  function GetBytesFixed(r: Lrs, index: int32): (x: Result<seq<byte>>)
    ensures Cell(r, index).Err? ==> x == Err(Cell(r, index).exc)
    ensures Cell(r, index).Ok? ==>
              var c := Cell(r, index).value;
              && (c.Blob? <==> x.Ok?)
              && (c.Blob? ==> x.value == c.bytes)
              && (!c.Blob? ==> x == Err(InvalidColumnType))
  {
    var c :- Cell(r, index);
    HandleOwnClass(ReadBytes, c);
    var h :- GetGenericFixed(r, index, ReadBytes);
    if h.HByteArray? then Ok(h.bytes) else assert false; Err(InvalidColumnType)
  }

  /**
   * The getters as written and with the corrected dispatch give the same
   * answer whenever the row's first cell has the class of the cell read,
   * in particular on the first column.
   */
  lemma {:induction false} GettersAgreeOnSameClass(r: Lrs, index: int32)
    requires Cell(r, index).Ok?
    requires SameClass(r.data[r.current][0], Cell(r, index).value) || index == 1
    ensures GetString(r, index) == GetStringFixed(r, index)
    ensures GetLong(r, index) == GetLongFixed(r, index)
    ensures GetInt(r, index) == GetIntFixed(r, index)
    ensures GetBoolean(r, index) == GetBooleanFixed(r, index)
    ensures GetDouble(r, index) == GetDoubleFixed(r, index)
    ensures GetBytes(r, index) == GetBytesFixed(r, index)
  {
    AgreesOnSameClass(r, index, ReadString);
    AgreesOnSameClass(r, index, ReadLong);
    AgreesOnSameClass(r, index, ReadDouble);
    AgreesOnSameClass(r, index, ReadBytes);
  }

  /** The result set of one row `[NULL, 5]` on that row. */
  function NullFirstRow(): (r: Lrs)
    ensures Valid(r) && r.current == 0
  {
    Lrs(["a", "b"], [[Null, Integer(5)]], 0)
  }

  /**
   * On the row `[NULL, 5]`, `getLong(2)` answers 0 and `getString(2)`
   * answers null, since the first cell's handler ignores the cell read;
   * the corrected getters read 5 and refuse the string.
   */
  lemma NullFirstMisread()
    ensures GetLong(NullFirstRow(), 2) == Ok(0)
    ensures GetLongFixed(NullFirstRow(), 2) == Ok(5)
    ensures GetString(NullFirstRow(), 2) == Ok(None)
    ensures GetStringFixed(NullFirstRow(), 2) == Err(InvalidColumnType)
  {
    assert Cell(NullFirstRow(), 2) == Ok(Integer(5));
  }

  /**
   * `findColumn(label)`: the one-based position of the first column
   * whose name equals the label exactly, and -1 for a `null` label or no
   * match.
   */
  function FindColumn(names: seq<string>, name: Option<string>): (k: int)
    ensures k == -1 || 1 <= k <= |names|
    ensures k == -1 <==> name.None? || name.value !in names
    ensures k != -1 ==> names[k - 1] == name.value
    ensures k != -1 ==> forall j | 0 <= j < k - 1 :: names[j] != name.value
  {
    match name
    case None => -1
    case Some(s) =>
      if |names| == 0 then -1
      else if names[0] == s then 1
      else
        var k := FindColumn(names[1..], name);
        assert names == [names[0]] + names[1..];
        if k == -1 then -1 else k + 1
  }

  /**
   * A label read back: looking up a column's own name finds it when no
   * earlier column has the same name, and the metadata's name at the
   * found position is the label.
   */
  lemma {:induction false} FindOwnName(names: seq<string>, k: nat)
    requires k < |names|
    requires forall j | 0 <= j < k :: names[j] != names[k]
    ensures FindColumn(names, Some(names[k])) == k + 1
    ensures ColumnName(names, (k + 1) as int) == Ok(names[k])
  {
    assert names[k] in names;
  }

  /** The metadata's `getColumnCount()`: the number of names. */
  function ColumnCount(names: seq<string>): int { |names| }

  /** The metadata's `getColumnName(i)`: the `i`-th name, one-based. */
  function ColumnName(names: seq<string>, i: int): (x: Result<string>)
    ensures x.Ok? <==> 1 <= i <= |names|
    ensures x.Ok? ==> FindColumn(names, Some(x.value)) != -1
    ensures x.Ok? ==> FindColumn(names, Some(x.value)) <= i
  {
    if 1 <= i <= |names| then
      var s := names[i - 1];
      assert s in names;
      var f := FindColumn(names, Some(s));
      Ok(s)
    else Err(IndexOutOfBounds)
  }

  /** `java.sql.Types`: the codes the metadata reports. */
  const TYPE_NULL: int32 := 0
  const TYPE_INTEGER: int32 := 4
  const TYPE_REAL: int32 := 7
  const TYPE_VARCHAR: int32 := 12
  const TYPE_BLOB: int32 := 2004

  /**
   * The metadata's `getColumnType(index)`: the type of the first row's
   * cell at `index`, or `NULL` when there are no rows.  Rows after the
   * first are not looked at.
   */
  function ColumnType(data: seq<seq<Value>>, index: int32): (x: Result<int32>)
    ensures |data| == 0 ==> x == Ok(TYPE_NULL)
    ensures |data| > 0 ==> (x.Ok? <==> 1 <= index <= |data[0]|)
    ensures x.Err? ==> x.exc == IndexOutOfBounds
    ensures x.Ok? && |data| > 0 ==>
              var c := data[0][index - 1];
              && (x.value == TYPE_NULL <==> c.Null?)
              && (x.value == TYPE_INTEGER <==> c.Integer?)
              && (x.value == TYPE_REAL <==> c.Real?)
              && (x.value == TYPE_VARCHAR <==> c.Text?)
              && (x.value == TYPE_BLOB <==> c.Blob?)
  {
    if |data| == 0 then Ok(TYPE_NULL)
    else if !(0 <= index - 1 < |data[0]|) then Err(IndexOutOfBounds)
    else
      match data[0][index - 1]
      case Null => Ok(TYPE_NULL)
      case Blob(_) => Ok(TYPE_BLOB)
      case Integer(_) => Ok(TYPE_INTEGER)
      case Real(_) => Ok(TYPE_REAL)
      case Text(_) => Ok(TYPE_VARCHAR)
  }

  /**
   * A column's reported type and the first row's getters, as written: a
   * `VARCHAR` column is read by `getString` as a string exactly when the
   * row's first cell is text; an `INTEGER` column is read by `getLong`
   * exactly when the first cell is an integer or `NULL`, and as its own
   * value when the first cell is an integer; a `BLOB` column is read by
   * `getBytes` exactly when the first cell is a blob.
   */
  lemma ReportedTypeIsReadable(r: Lrs, index: int32)
    requires Valid(r) && r.current == 0 && |r.data[0]| > 0
    requires ColumnType(r.data, index).Ok?
    ensures ColumnType(r.data, index) == Ok(TYPE_VARCHAR) ==>
              (GetString(r, index).Ok? && GetString(r, index).value.Some? <==> r.data[0][0].Text?)
    ensures ColumnType(r.data, index) == Ok(TYPE_INTEGER) ==>
              && (GetLong(r, index).Ok? <==> r.data[0][0].Integer? || r.data[0][0].Null?)
              && (r.data[0][0].Integer? ==> GetLong(r, index) == Ok(r.data[0][index - 1].i))
    ensures ColumnType(r.data, index) == Ok(TYPE_BLOB) ==>
              (GetBytes(r, index).Ok? <==> r.data[0][0].Blob?)
  {
  }

  /**
   * With the corrected dispatch every reported type is readable: on the
   * first row `getString` reads a `VARCHAR` column as a string, `getLong`
   * an `INTEGER` one, `getBytes` a `BLOB` one.
   */
  lemma ReportedTypeIsReadableFixed(r: Lrs, index: int32)
    requires Valid(r) && r.current == 0 && |r.data[0]| > 0
    requires ColumnType(r.data, index).Ok?
    ensures ColumnType(r.data, index) == Ok(TYPE_VARCHAR) ==> GetStringFixed(r, index).Ok? && GetStringFixed(r, index).value.Some?
    ensures ColumnType(r.data, index) == Ok(TYPE_INTEGER) ==> GetLongFixed(r, index).Ok?
    ensures ColumnType(r.data, index) == Ok(TYPE_BLOB) ==> GetBytesFixed(r, index).Ok?
  {
  }

  /**
   * `getGeneratedKeys()`: a one-column result set named "key" holding
   * the last inserted row id.
   */
  function GeneratedKeys(id: int64): (r: Lrs)
    ensures Valid(r)
  {
    Create(["key"], [[Integer(id)]])
  }

  /**
   * The generated key reads back: one `next()` reaches it, `getLong(1)`
   * and `getLong` at the column `findColumn("key")` finds give the id, and
   * a second `next()` answers false.
   */
  lemma GeneratedKeyReadsBack(id: int64)
    ensures var (r1, b1) := Next(GeneratedKeys(id));
            && b1
            && GetLong(r1, 1) == Ok(id)
            && GetLong(r1, FindColumn(r1.names, Some("key")) as int32) == Ok(id)
            && !Next(r1).1
  {
    var (r1, b1) := Next(GeneratedKeys(id));
    assert Cell(r1, 1) == Ok(Integer(id));
  }
}

=== FILE: nif_codec.dfy ===
/**
 * The server's native codec for cells: how a SQLite value becomes an Erlang
 * term `{tag, payload}` and back, and how the server's errors become the
 * text the driver finally reports.
 */
module NifCodec {
  import opened Errors
  import opened Ints
  import opened Doubles
  import opened Json
  import opened SQLiteValue
  import Base64

  /**
   * The Erlang terms the codec produces or inspects.  A binary holding
   * UTF-8 text is kept as that text; any other term is an atom here.
   */
  datatype Term =
    | EInt(n: int)
    | EFloat(d: Double)
    | EBinary(s: string)
    | EAtom(name: string)
    | ETuple(items: seq<Term>)

  /**
   * Why a term was refused: a shape or range mismatch while destructuring
   * (`badarg`), blob text the URL-safe decoder rejects, or an unknown tag.
   */
  datatype NifError = BadArg | InvalidBase64 | InvalidTypeValue

  /** The reason text the decoder attaches to an unknown tag. */
  const InvalidTypeText := "invalid type value for SQLiteValue"

  datatype Decoded = Decoded(v: Value) | Refused(error: NifError)

  /**
   * Encoding: `{tag, payload}` with the tag as a 32-bit integer; a null's
   * payload is the binary "null", a blob's its URL-safe unpadded base64 text.
   * Non-finite reals are outside the model (Erlang has no such floats).
   */
  function Encode(v: Value): (t: Term)
    ensures t.ETuple? && |t.items| == 2 && t.items[0] == EInt(Tag(v))
    ensures v.Null? ==> t.items[1] == EBinary("null")
    ensures v.Blob? ==> t.items[1] == EBinary(Base64.EncodeUrlNoPad(v.bytes))
  {
    match v
    case Null => ETuple([EInt(0), EBinary("null")])
    case Integer(i) => ETuple([EInt(1), EInt(i)])
    case Real(d) => ETuple([EInt(2), EFloat(d)])
    case Text(s) => ETuple([EInt(3), EBinary(s)])
    case Blob(b) => ETuple([EInt(4), EBinary(Base64.EncodeUrlNoPad(b))])
  }

  /**
   * Decoding: the term must be a pair whose first element fits an `i32`;
   * the payload is then read as the tag demands (an `i64`, a float, a
   * binary, or a binary holding URL-safe unpadded base64), and a null's
   * payload is not looked at.
   */
  function Decode(t: Term): (r: Decoded)
    ensures r.Decoded? ==> t.ETuple? && |t.items| == 2 && t.items[0] == EInt(Tag(r.v))
    ensures !(t.ETuple? && |t.items| == 2 && t.items[0].EInt? && IsInt(t.items[0].n))
            ==> r == Refused(BadArg)
    ensures (t.ETuple? && |t.items| == 2 && t.items[0].EInt? && IsInt(t.items[0].n)
             && !(0 <= t.items[0].n < 5)) ==> r == Refused(InvalidTypeValue)
  {
    if !(t.ETuple? && |t.items| == 2) then Refused(BadArg)
    else
      var tag := t.items[0];
      var payload := t.items[1];
      if !(tag.EInt? && IsInt(tag.n)) then Refused(BadArg)
      else if tag.n == 0 then Decoded(Null)
      else if tag.n == 1 then
        (if payload.EInt? && IsLong(payload.n) then Decoded(Integer(payload.n)) else Refused(BadArg))
      else if tag.n == 2 then
        (if payload.EFloat? then Decoded(Real(payload.d)) else Refused(BadArg))
      else if tag.n == 3 then
        (if payload.EBinary? then Decoded(Text(payload.s)) else Refused(BadArg))
      else if tag.n == 4 then
        (if !payload.EBinary? then Refused(BadArg)
         else match Base64.DecodeUrlNoPad(payload.s)
              case Some(b) => Decoded(Blob(b))
              case None => Refused(InvalidBase64))
      else Refused(InvalidTypeValue)
  }

  /** Every value comes back from its own encoding. */
  lemma DecodeEncode(v: Value)
    ensures Decode(Encode(v)) == Decoded(v)
  {
    if v.Blob? {
      Base64.UrlNoPadBijection(v.bytes, Base64.EncodeUrlNoPad(v.bytes));
    }
  }

  /**
   * The encoding is canonical: any accepted term other than a null is
   * exactly the encoding of what it decodes to (the strict decoder admits
   * one text per blob); an accepted null only fixes the tag.
   */
  lemma EncodeDecode(t: Term)
    requires Decode(t).Decoded?
    ensures Decode(t).v.Null? ==> t.ETuple? && t.items[0] == EInt(0)
    ensures !Decode(t).v.Null? ==> Encode(Decode(t).v) == t
  {
    var v := Decode(t).v;
    if v.Blob? {
      Base64.UrlNoPadBijection(v.bytes, t.items[1].s);
    }
    if !v.Null? {
      assert t.items == [t.items[0], t.items[1]];
    }
  }

  /** The errors the server-side tasks report. */
  datatype ServerError =
      /** An error raised by SQLite, with its display text. */
    | SqliteFailure(detail: string)
      /** A channel between the tasks failed. */
    | Communication(message: string)
      /** A file-system error, with its display text. */
    | IoFailure(detail: string)
      /** A protocol misuse detected by the server itself. */
    | Custom(message: string)

  /** The three origins a reported error can be told apart by. */
  datatype Origin = FromSqlite | Internal | FromIo

  function OriginOf(e: ServerError): Origin
  {
    match e
    case SqliteFailure(_) => FromSqlite
    case Communication(_) => Internal
    case IoFailure(_) => FromIo
    case Custom(_) => Internal
  }

  function Prefix(o: Origin): string
  {
    match o
    case FromSqlite => "rusqlite: "
    case Internal => "internal: "
    case FromIo => "io: "
  }

  function Detail(e: ServerError): string
  {
    match e
    case SqliteFailure(d) => d
    case Communication(m) => m
    case IoFailure(d) => d
    case Custom(m) => m
  }

  /** The text an error is sent to Erlang as: a prefix naming its origin, then its display text. */
  function ErrorText(e: ServerError): (s: string)
    ensures |Prefix(OriginOf(e))| <= |s|
    ensures s[..|Prefix(OriginOf(e))|] == Prefix(OriginOf(e))
    ensures s[|Prefix(OriginOf(e))|..] == Detail(e)
  {
    Prefix(OriginOf(e)) + Detail(e)
  }

  /** A reader of error texts: the origin named by the prefix, and the rest. */
  function ParseErrorText(s: string): (r: Option<(Origin, string)>)
    ensures r.Some? ==> Prefix(r.value.0) + r.value.1 == s
  {
    if |s| >= 10 && s[..10] == "rusqlite: " then Some((FromSqlite, s[10..]))
    else if |s| >= 10 && s[..10] == "internal: " then Some((Internal, s[10..]))
    else if |s| >= 4 && s[..4] == "io: " then Some((FromIo, s[4..]))
    else None
  }

  /** The prefixes are unambiguous: every error text reads back as its origin and detail. */
  lemma ErrorTextParses(e: ServerError)
    ensures ParseErrorText(ErrorText(e)) == Some((OriginOf(e), Detail(e)))
  {
    var s := ErrorText(e);
    match OriginOf(e)
    case FromSqlite =>
      assert s[..10] == "rusqlite: ";
    case Internal =>
      assert s[..10] == "internal: ";
      assert s[..10] != "rusqlite: " by { assert s[0] != 'r'; }
    case FromIo =>
      assert s[..4] == "io: ";
      assert |s| < 10 || s[..10] != "rusqlite: " by { assert s[0] != 'r'; }
      assert |s| < 10 || s[..10] != "internal: " by { assert s[1] != 'n'; }
  }

  /** A channel failure and a custom error with the same text are reported identically. */
  lemma InternalErrorsIndistinguishable(m: string)
    ensures ErrorText(Communication(m)) == ErrorText(Custom(m))
  {
  }

  /**
   * The JSON-to-term mapping the Erlang side is assumed to apply between
   * driver and native code: numbers to integers or floats, strings to
   * binaries, a two-element array to a pair.  The Erlang code is not part
   * of this model.
   */
  function ToTerm(j: Json): Term
  {
    match j
    case JNumber(n) => EInt(n)
    case JDouble(d) => EFloat(d)
    case JString(s) => EBinary(s)
    case JArray(items) =>
      if |items| == 2 then ETuple([ToTerm(items[0]), ToTerm(items[1])]) else EAtom("badarg")
    case _ => EAtom("badarg")
  }

  /** The inverse mapping applied to what the native code returns. */
  function FromTerm(t: Term): Json
  {
    match t
    case EInt(n) => JNumber(n)
    case EFloat(d) => JDouble(d)
    case EBinary(s) => JString(s)
    case ETuple(items) =>
      if |items| == 2 then JArray([FromTerm(items[0]), FromTerm(items[1])]) else JNull
    case EAtom(_) => JNull
  }

  /**
   * As written, a blob whose length is not a multiple of three leaves the
   * driver padded with '=', which the server refuses.
   */
  lemma DriverBlobRejected(b: seq<byte>)
    requires |b| % 3 != 0
    ensures Decode(ToTerm(JArray(ToJson(AsWritten, Blob(b)).value))) == Refused(InvalidBase64)
  {
    Base64.PaddedRejectedByUrlNoPad(b);
  }

  /** Even a one-byte blob fails: the driver writes "AA==" for the byte 0. */
  lemma DriverBlobRejectedExample()
    ensures ToJson(AsWritten, Blob([0])).value[1] == JString("AA==")
    ensures Decode(ToTerm(JArray(ToJson(AsWritten, Blob([0])).value))) == Refused(InvalidBase64)
  {
    DriverBlobRejected([0]);
    Base64.PaddedZero();
    assert EncodeBlob(AsWritten, [0]) == "AA==";
  }

  /**
   * In the other direction, the server writes the byte 0xFB as "-w", which
   * the driver's standard-alphabet decoder rejects.
   */
  lemma ServerBlobRejectedByDriver()
    ensures Encode(Blob([0xFB])) == ETuple([EInt(4), EBinary("-w")])
    ensures FromJson(AsWritten, FromTerm(Encode(Blob([0xFB]))).items) == Err(BadBase64)
  {
    assert Base64.EncodeUrlNoPad([0xFB]) == "-w";
    assert !Base64.InAlphabet(Base64.Standard, '-');
    assert Base64.DecodeJava("-w") == None;
  }

  /**
   * With the intended codec, every cell the driver can write reaches the
   * server intact, and every cell the server returns reaches the driver
   * intact.
   */
  lemma CrossRoundTrip(v: Value)
    requires ToJson(Intended, v).Ok?
    ensures Decode(ToTerm(JArray(ToJson(Intended, v).value))) == Decoded(v)
    ensures FromJson(Intended, FromTerm(Encode(v)).items) == Ok(v)
  {
    DecodeEncode(v);
    JsonRoundTrip(Intended, v);
    var j := ToJson(Intended, v).value;
    assert ToTerm(JArray(j)) == Encode(v);
    assert FromTerm(Encode(v)).items == j;
  }
}

=== FILE: prepared_statement.dfy ===
/**
 * `ErldbPreparedStatement`: a statement prepared once on the server, the
 * parameters set since (kept in a `TreeMap`, so ordered by position), and
 * the executions that bind them positionally before stepping.
 *
 * The prepared statement inherits the statement's state and its `step`,
 * `getResultSet` and `close`; its own fields are the column names and
 * parameter count read at preparation and the parameters.
 */
module PreparedStatement {
  import opened Errors
  import opened Ints
  import opened SQLiteValue
  import opened Remote
  import opened ColumnIndex
  import opened Connection
  import opened Statement

  /** One parameter of the ordered map: its one-based position and its value. */
  datatype Entry = Entry(key: int32, value: Value)

  /** Positions strictly increase, as a `TreeMap` iterates them. */
  predicate Ascending(m: seq<Entry>)
  {
    forall i, j | 0 <= i < j < |m| :: m[i].key < m[j].key
  }

  /** The parameters: a `TreeMap<Int, SQLiteValue>`. */
  type Params = m: seq<Entry> | Ascending(m) witness []

  datatype Prep = Prep(
    stmt: Stmt,
    columnNames: seq<string>,
    paramCount: int32,
    resultsWaiting: bool,
    params: Params)

  /** A connection and a prepared statement after an operation, and the operation's outcome. */
  datatype Done<T> = Done(conn: Conn, prep: Prep, r: Result<T>)

  const QueryReturnsResults := SqlException("Query returns results")
  const ClearFailed := SqlException("Failed to clear parameters")
  const NegativeLength := SqlException("Error reading stream. Length should be non-negative")
  const StreamError := SqlException("Error reading stream")

  /** The value stored at a position, if any. */
  function Find(m: seq<Entry>, k: int32): (r: Option<Value>)
    ensures r.None? ==> forall i | 0 <= i < |m| :: m[i].key != k
    ensures r.Some? ==> exists i | 0 <= i < |m| :: m[i] == Entry(k, r.value)
  {
    if m == [] then None
    else if m[0].key == k then Some(m[0].value)
    else
      var r := Find(m[1..], k);
      assert forall i | 0 < i < |m| :: m[i] == m[1..][i - 1];
      r
  }

  /**
   * `parameters[k] = v`: the value at `k` replaced, or inserted in order;
   * every other position keeps its value.
   */
  function Put(m: Params, k: int32, v: Value): (r: Params)
    ensures |r| > 0 && (r[0].key == k || (|m| > 0 && r[0].key == m[0].key))
  {
    if m == [] || k < m[0].key then
      var r := [Entry(k, v)] + m;
      assert r[1..] == m;
      assert Ascending(r) by {
        forall i, j | 0 <= i < j < |r| ensures r[i].key < r[j].key {
          if i == 0 && j > 1 {
            assert m[0].key <= m[j - 1].key;
          }
        }
      }
      r
    else if m[0].key == k then
      var r := [Entry(k, v)] + m[1..];
      assert r[1..] == m[1..];
      assert Ascending(r) by {
        forall i, j | 0 <= i < j < |r| ensures r[i].key < r[j].key {
          assert m[i].key < m[j].key;
        }
      }
      r
    else
      var rest := Put(m[1..], k, v);
      assert rest[0].key > m[0].key;
      var r := [m[0]] + rest;
      assert r[1..] == rest;
      assert Ascending(r) by {
        forall i, j | 0 <= i < j < |r| ensures r[i].key < r[j].key {
          if i == 0 && j > 1 {
            assert rest[0].key < rest[j - 1].key;
          }
        }
      }
      r
  }

  /** After `parameters[k] = v`, position `k` holds `v` and every other position what it held. */
  lemma {:induction false} PutAt(m: Params, k: int32, v: Value, j: int32)
    ensures Find(Put(m, k, v), j) == if j == k then Some(v) else Find(m, j)
  {
    var r := Put(m, k, v);
    if m == [] || k < m[0].key {
      assert r[1..] == m;
    } else if m[0].key == k {
      assert r[1..] == m[1..];
    } else {
      PutAt(m[1..], k, v, j);
      assert r[1..] == Put(m[1..], k, v);
    }
  }

  /** `PutAt` for every position at once. */
  lemma PutFinds(m: Params, k: int32, v: Value)
    ensures Find(Put(m, k, v), k) == Some(v)
    ensures forall j | j != k :: Find(Put(m, k, v), j) == Find(m, j)
  {
    PutAt(m, k, v, k);
    forall j | j != k
      ensures Find(Put(m, k, v), j) == Find(m, j)
    {
      PutAt(m, k, v, j);
    }
  }

  /** A `TreeMap` holds each position at most once. */
  lemma {:induction false} FindFirst(m: Params, i: nat)
    requires i < |m|
    ensures Find(m, m[i].key) == Some(m[i].value)
  {
    if i > 0 {
      FindFirst(m[1..], i - 1);
    }
  }

  /** The array `getParams` fills: `n` slots, each the value at its position or `Null`. */
  function Dense(m: Params, n: int32): (vs: seq<Value>)
    requires n >= 0
    ensures |vs| == n as int
  {
    seq(n, i requires 0 <= i < n as int => match Find(m, (i + 1) as int32) case Some(v) => v case None => Null)
  }

  /**
   * `getParams()`: the parameters as an array as long as the largest
   * position.  An empty map gives an empty array; a negative largest
   * position cannot size the array; a position below one cannot index it.
   */
  function GetParams(p: Prep): (r: Result<seq<Value>>)
    ensures !p.stmt.open ==> r == Err(NotExecuting)
    ensures p.stmt.open && p.params == [] ==> r == Ok([])
    ensures p.stmt.open ==> (r.Err? <==> exists i | 0 <= i < |p.params| :: p.params[i].key < 1)
    ensures r.Err? && p.stmt.open ==> r.exc == NegativeArraySize || r.exc == IndexOutOfBounds
    ensures r.Ok? ==> |r.value| <= INT_MAX
  {
    if !p.stmt.open then Err(NotExecuting)
    else if p.params == [] then Ok([])
    else
      var m := p.params;
      var last := m[|m| - 1].key;
      if last < 0 then Err(NegativeArraySize)
      else if m[0].key < 1 then Err(IndexOutOfBounds)
      else Ok(Dense(m, last))
  }

  /** In a `TreeMap` every position lies between the first and the last. */
  lemma KeyBetween(m: Params, i: nat)
    requires i < |m|
    ensures m[0].key <= m[i].key <= m[|m| - 1].key
  {
  }

  /** Each parameter lands in the slot before its position. */
  lemma {:induction false} DenseAt(m: Params, n: int32, i: nat)
    requires n >= 0 && i < |m| && 1 <= m[i].key <= n
    ensures Dense(m, n)[m[i].key - 1] == m[i].value
  {
    FindFirst(m, i);
  }

  /** Every parameter of a map whose positions start at one lands in its slot of the dense array. */
  lemma {:induction false} DensePlaces(m: Params)
    requires m != [] && m[0].key >= 1
    ensures forall i | 0 <= i < |m| ::
              1 <= m[i].key <= m[|m| - 1].key && Dense(m, m[|m| - 1].key)[m[i].key - 1] == m[i].value
  {
    forall i | 0 <= i < |m|
      ensures 1 <= m[i].key <= m[|m| - 1].key && Dense(m, m[|m| - 1].key)[m[i].key - 1] == m[i].value
    {
      KeyBetween(m, i);
      DenseAt(m, m[|m| - 1].key, i);
    }
  }

  /**
   * What `getParams()` answers: every parameter at its position less one,
   * `Null` in the gaps, and as long as the largest position.
   */
  lemma {:induction false} GetParamsPlaces(p: Prep, vs: seq<Value>)
    requires GetParams(p) == Ok(vs)
    ensures forall i | 0 <= i < |p.params| :: 1 <= p.params[i].key <= |vs| && vs[p.params[i].key - 1] == p.params[i].value
    ensures forall i | 0 <= i < |vs| :: Find(p.params, (i + 1) as int32).None? ==> vs[i] == Null
    ensures |vs| > 0 ==> Find(p.params, |vs| as int32).Some?
  {
    var m := p.params;
    if m != [] {
      GetParamsIsDense(p, vs);
      DenseFacts(m, vs);
    }
  }

  /** A successful `getParams()` on a non-empty map is the dense array up to the largest position. */
  lemma GetParamsIsDense(p: Prep, vs: seq<Value>)
    requires GetParams(p) == Ok(vs) && p.params != []
    ensures p.params[0].key >= 1 && vs == Dense(p.params, p.params[|p.params| - 1].key)
  {
  }

  /** `GetParamsPlaces` for the dense array of a map whose positions start at one. */
  lemma DenseFacts(m: Params, vs: seq<Value>)
    requires m != [] && m[0].key >= 1 && vs == Dense(m, m[|m| - 1].key)
    ensures forall i | 0 <= i < |m| :: 1 <= m[i].key <= |vs| && vs[m[i].key - 1] == m[i].value
    ensures forall i | 0 <= i < |vs| :: Find(m, (i + 1) as int32).None? ==> vs[i] == Null
    ensures |vs| > 0 ==> Find(m, |vs| as int32).Some?
  {
    DensePlaces(m);
    DenseGaps(m, m[|m| - 1].key);
    FindFirst(m, |m| - 1);
  }

  /** The slots of positions without a parameter hold `Null`. */
  lemma DenseGaps(m: Params, n: int32)
    requires n >= 0
    ensures forall i | 0 <= i < n as int :: Find(m, (i + 1) as int32).None? ==> Dense(m, n)[i] == Null
  {
  }

  /** Parameters set at positions one to `|vs|`, in that order, from `m`. */
  function PutAll(m: Params, vs: seq<Value>): (r: Params)
    requires |vs| <= INT_MAX
    decreases |vs|
  {
    if vs == [] then m
    else Put(PutAll(m, vs[..|vs| - 1]), |vs| as int32, vs[|vs| - 1])
  }

  /** What `PutAll` from an empty map stores at `k`: the `k`th value, for `k` from one to `|vs|` only. */
  lemma {:induction false} PutAllAt(vs: seq<Value>, k: int32)
    requires |vs| <= INT_MAX
    ensures Find(PutAll([], vs), k) == if 1 <= k <= |vs| then Some(vs[k - 1]) else None
    decreases |vs|
  {
    if vs != [] {
      var w := vs[..|vs| - 1];
      var n := |vs| as int32;
      assert PutAll([], vs) == Put(PutAll([], w), n, vs[|vs| - 1]);
      PutAllAt(w, k);
      PutAt(PutAll([], w), n, vs[|vs| - 1], k);
      if 1 <= k < |vs| {
        assert w[k - 1] == vs[k - 1];
      }
    }
  }

  /** After `PutAll` from an empty map every position lies between one and `|vs|`. */
  lemma {:induction false} PutAllKeysInRange(vs: seq<Value>, i: nat)
    requires |vs| <= INT_MAX && i < |PutAll([], vs)|
    ensures 1 <= PutAll([], vs)[i].key <= |vs|
  {
    var m := PutAll([], vs);
    FindFirst(m, i);
    PutAllAt(vs, m[i].key);
  }

  /** After `PutAll` from an empty map the last position is `|vs|`. */
  lemma {:induction false} PutAllLastKey(vs: seq<Value>)
    requires 0 < |vs| <= INT_MAX
    ensures var m := PutAll([], vs); m != [] && m[|m| - 1].key == |vs|
  {
    var m := PutAll([], vs);
    PutAllAt(vs, |vs| as int32);
    var j :| 0 <= j < |m| && m[j] == Entry(|vs| as int32, vs[|vs| - 1]);
    KeyBetween(m, j);
    PutAllKeysInRange(vs, |m| - 1);
  }

  /** A slot whose position holds a value is that value. */
  lemma DenseFound(m: Params, n: int32, i: nat, v: Value)
    requires i < n as int && Find(m, (i + 1) as int32) == Some(v)
    ensures Dense(m, n)[i] == v
  {
  }

  /** Filling `|vs|` slots from `PutAll([], vs)` gives back `vs`. */
  lemma {:induction false} DenseOfPutAll(vs: seq<Value>)
    requires |vs| <= INT_MAX
    ensures Dense(PutAll([], vs), |vs| as int32) == vs
  {
    var m := PutAll([], vs);
    var d := Dense(m, |vs| as int32);
    forall i | 0 <= i < |vs|
      ensures d[i] == vs[i]
    {
      PutAllAt(vs, (i + 1) as int32);
      DenseFound(m, |vs| as int32, i, vs[i]);
    }
    assert d == vs;
  }

  /**
   * Setting every position from one to `n` in turn and reading the
   * parameters back gives the values set, in order.
   */
  lemma {:induction false} PutAllRoundTrip(p: Prep, vs: seq<Value>)
    requires p.stmt.open && p.params == [] && |vs| <= INT_MAX
    ensures GetParams(p.(params := PutAll([], vs))) == Ok(vs)
  {
    var m := PutAll([], vs);
    if vs != [] {
      PutAllKeysInRange(vs, 0);
      PutAllLastKey(vs);
    }
    DenseOfPutAll(vs);
  }

  /**
   * The guarded setters (`setNull`, `setInt`, `setDouble`, `setString`,
   * `setBytes`): the value is stored at its position on an open statement.
   */
  function Set(p: Prep, index: int32, v: Value): (r: Result<Prep>)
    ensures r.Ok? <==> p.stmt.open
    ensures !p.stmt.open ==> r == Err(NotExecuting)
    ensures r.Ok? ==> r.value == p.(params := r.value.params)
    ensures r.Ok? ==> Find(r.value.params, index) == Some(v)
    ensures r.Ok? ==> forall k | k != index :: Find(r.value.params, k) == Find(p.params, k)
  {
    if p.stmt.open then
      PutFinds(p.params, index, v);
      Ok(p.(params := Put(p.params, index, v)))
    else Err(NotExecuting)
  }

  /** A value set at a position is the value the execution binds there. */
  lemma SetThenGetParams(p: Prep, index: int32, v: Value)
    requires p.stmt.open && index >= 1
    requires forall i | 0 <= i < |p.params| :: p.params[i].key >= 1
    ensures var q := Set(p, index, v).value;
            && GetParams(q).Ok? && index <= |GetParams(q).value| && GetParams(q).value[index - 1] == v
  {
    var q := Set(p, index, v).value;
    var m := q.params;
    PutKeepsPositive(p.params, index, v);
    FindInRange(m, index);
    DenseSlot(m, m[|m| - 1].key, index);
    assert GetParams(q) == Ok(Dense(m, m[|m| - 1].key));
  }

  /** The slot of position `k` holds the value there, if any. */
  lemma DenseSlot(m: Params, n: int32, k: int32)
    requires 1 <= k <= n
    ensures Find(m, k).Some? ==> Dense(m, n)[k - 1] == Find(m, k).value
  {
    assert ((k - 1) as int + 1) as int32 == k;
  }

  /** A position that holds a value lies between the first and the last. */
  lemma FindInRange(m: Params, k: int32)
    requires Find(m, k).Some?
    ensures m != [] && m[0].key <= k <= m[|m| - 1].key
  {
    var i :| 0 <= i < |m| && m[i] == Entry(k, Find(m, k).value);
    KeyBetween(m, i);
  }

  /** Setting a positive position keeps every position positive. */
  lemma {:induction false} PutKeepsPositive(m: Params, index: int32, v: Value)
    requires index >= 1 && forall i | 0 <= i < |m| :: m[i].key >= 1
    ensures forall i | 0 <= i < |Put(m, index, v)| :: Put(m, index, v)[i].key >= 1
  {
    var r := Put(m, index, v);
    forall i | 0 <= i < |r|
      ensures r[i].key >= 1
    {
      FindFirst(r, i);
      PutAt(m, index, v, r[i].key);
    }
  }

  /** `setBoolean`: through `setInt`, one or zero. */
  function SetBoolean(p: Prep, index: int32, b: bool): (r: Result<Prep>)
    ensures r.Ok? <==> p.stmt.open
    ensures r.Ok? ==> Find(r.value.params, index) == Some(From(HBoolean(b)).value)
  {
    Set(p, index, Integer(if b then 1 else 0))
  }

  /** `setLong` as written: the only setter without the open check. */
  function SetLong(p: Prep, index: int32, n: int64): (r: Prep)
    ensures r == p.(params := r.params)
    ensures Find(r.params, index) == Some(Integer(n))
    ensures forall k | k != index :: Find(r.params, k) == Find(p.params, k)
  {
    PutFinds(p.params, index, Integer(n));
    p.(params := Put(p.params, index, Integer(n)))
  }

  /** On a closed statement `setLong` still stores its value, where every other setter throws. */
  lemma SetLongIgnoresClose(p: Prep, index: int32, n: int64)
    requires !p.stmt.open
    ensures Find(SetLong(p, index, n).params, index) == Some(Integer(n))
    ensures Set(p, index, Integer(n)) == Err(NotExecuting)
  {
  }

  /** `setLong` with the open check its sibling setters have. */
  function SetLongFixed(p: Prep, index: int32, n: int64): (r: Result<Prep>)
    ensures r.Ok? <==> p.stmt.open
    ensures !p.stmt.open ==> r == Err(NotExecuting)
    ensures r.Ok? ==> Find(r.value.params, index) == Some(Integer(n))
    ensures r.Ok? ==> forall k | k != index :: Find(r.value.params, k) == Find(p.params, k)
  {
    if p.stmt.open then Ok(SetLong(p, index, n)) else Err(NotExecuting)
  }

  /**
   * The classes `setObject` hands to a setter this model leaves out: the
   * `java.sql` date, time and timestamp, `BigDecimal`, and the stream,
   * `Blob` and `Clob` interfaces.
   */
  predicate Delegated(name: string)
  {
    name in {"java.sql.Date", "java.sql.Time", "java.sql.Timestamp", "java.math.BigDecimal",
             "java.io.InputStream", "java.sql.Blob", "java.sql.Clob"}
  }

  function Unsupported(name: string): Exception
  {
    SqlException("Unsupported parameter type: " + name)
  }

  /**
   * `setObject(index, v)`: on an open statement, `null` and each host type
   * go to their setter; an `Array<Byte>`, a character array and a
   * `LocalDateTime` are not among them.
   */
  function SetObject(p: Prep, index: int32, h: HostValue): (r: Result<Prep>)
    requires !(h.HOther? && Delegated(h.className))
    ensures !p.stmt.open ==> r == Err(NotExecuting)
    ensures r.Ok? ==> r.value == p.(params := r.value.params)
    ensures h.HCharArray? && p.stmt.open ==> r == Err(Unsupported(ClassName(h)))
    ensures h.HLocalDateTime? && p.stmt.open ==> r == Err(Unsupported("java.time.LocalDateTime"))
  {
    if !p.stmt.open then Err(NotExecuting)
    else
      match h
      case HNull => Set(p, index, Null)
      case HString(s) => Set(p, index, Text(s))
      case HByte(n) => Set(p, index, Integer(n))
      case HShort(n) => Set(p, index, Integer(n))
      case HInt(n) => Set(p, index, Integer(n))
      case HLong(n) => Ok(SetLong(p, index, n))
      case HFloat(f) => Set(p, index, Real(f))
      case HDouble(d) => Set(p, index, Real(d))
      case HBoolean(b) => SetBoolean(p, index, b)
      case HByteArray(b, boxed) => if boxed then Err(Unsupported(ClassName(h))) else Set(p, index, Blob(b))
      case HCharArray(_, _) => Err(Unsupported(ClassName(h)))
      case HLocalDateTime(_) => Err(Unsupported("java.time.LocalDateTime"))
      case HOther(name) => Err(Unsupported(name))
  }

  /**
   * `setObject` stores what `SQLiteValue.from` converts the value to, and
   * refuses what `from` refuses — except a `LocalDateTime`, which `from`
   * writes as text and `setObject` refuses.
   */
  lemma SetObjectAgreesWithFrom(p: Prep, index: int32, h: HostValue)
    requires p.stmt.open && !h.HLocalDateTime? && !(h.HOther? && Delegated(h.className))
    ensures From(h).Ok? ==> SetObject(p, index, h) == Set(p, index, From(h).value)
    ensures From(h).Err? <==> SetObject(p, index, h).Err?
  {
  }

  /**
   * `readBytes(stream, length)`: read until `length` bytes have arrived.
   * The stream is its remaining content; `chunk(n)` is how many bytes the
   * `n`th read delivers (at least one, at most what was asked and what is
   * left), and a read at the end of the content reports the end.
   */
  method ReadBytes(content: seq<byte>, length: int32, chunk: nat -> nat) returns (r: Result<seq<byte>>)
    ensures length < 0 ==> r == Err(NegativeLength)
    ensures r.Ok? <==> 0 <= length <= |content|
    ensures r.Ok? ==> r.value == content[..length]
    ensures 0 <= length && r.Err? ==> r.exc == StreamError
  {
    if length < 0 {
      return Err(NegativeLength);
    }
    var bytes: seq<byte> := seq(length, _ => 0);
    var total := 0;
    var n := 0;
    while total < length
      invariant 0 <= total <= length && total <= |content|
      invariant |bytes| == length as int
      invariant bytes[..total] == content[..total]
      decreases length - total
    {
      if total == |content| {
        return Err(StreamError);
      }
      var got := chunk(n);
      var want := if length as int - total < |content| - total then length as int - total else |content| - total;
      got := if got < 1 then 1 else if got > want then want else got;
      bytes := bytes[..total] + content[total..total + got] + bytes[total + got..];
      total := total + got;
      n := n + 1;
    }
    return Ok(bytes);
  }

  /**
   * `setBinaryStream(index, stream, length)` as written: a length of zero
   * stores `null`, and then the bytes read — none — replace it.
   */
  method SetBinaryStream(p: Prep, index: int32, content: seq<byte>, length: int32, chunk: nat -> nat) returns (r: Result<Prep>)
    ensures !p.stmt.open ==> r == Err(NotExecuting)
    ensures r.Ok? <==> p.stmt.open && 0 <= length <= |content|
    ensures r.Ok? ==> r.value == p.(params := r.value.params)
    ensures r.Ok? ==> Find(r.value.params, index) == Some(Blob(content[..length]))
    ensures p.stmt.open && length == 0 ==> r.Ok? && Find(r.value.params, index) == Some(Blob([]))
  {
    if !p.stmt.open {
      return Err(NotExecuting);
    }
    var q := p;
    if length == 0 {
      q := Set(p, index, Null).value;
    }
    var bytes := ReadBytes(content, length, chunk);
    if bytes.Err? {
      return Err(bytes.exc);
    }
    r := Set(q, index, Blob(bytes.value));
  }

  /** `setBinaryStream` as evidently intended: a length of zero leaves `null` stored. */
  method SetBinaryStreamFixed(p: Prep, index: int32, content: seq<byte>, length: int32, chunk: nat -> nat) returns (r: Result<Prep>)
    ensures !p.stmt.open ==> r == Err(NotExecuting)
    ensures r.Ok? <==> p.stmt.open && 0 <= length <= |content|
    ensures r.Ok? ==> r.value == p.(params := r.value.params)
    ensures r.Ok? && length > 0 ==> Find(r.value.params, index) == Some(Blob(content[..length]))
    ensures p.stmt.open && length == 0 ==> r.Ok? && Find(r.value.params, index) == Some(Null)
  {
    if !p.stmt.open {
      return Err(NotExecuting);
    }
    if length == 0 {
      return Set(p, index, Null);
    }
    var bytes := ReadBytes(content, length, chunk);
    if bytes.Err? {
      return Err(bytes.exc);
    }
    r := Set(p, index, Blob(bytes.value));
  }

  /**
   * `setUnicodeStream` (and `setAsciiStream`) as written: the bytes read
   * are decoded and stored as text; a length of zero stores `null` and
   * then the decoding of nothing.
   */
  method SetUnicodeStream(p: Prep, index: int32, content: seq<byte>, length: int32, chunk: nat -> nat, decode: seq<byte> -> string)
    returns (r: Result<Prep>)
    ensures !p.stmt.open ==> r == Err(NotExecuting)
    ensures r.Ok? <==> p.stmt.open && 0 <= length <= |content|
    ensures r.Ok? ==> Find(r.value.params, index) == Some(Text(decode(content[..length])))
    ensures p.stmt.open && length == 0 ==> r.Ok? && Find(r.value.params, index) == Some(Text(decode([])))
  {
    if !p.stmt.open {
      return Err(NotExecuting);
    }
    var q := p;
    if length == 0 {
      q := Set(p, index, Null).value;
    }
    var bytes := ReadBytes(content, length, chunk);
    if bytes.Err? {
      return Err(bytes.exc);
    }
    r := Set(q, index, Text(decode(bytes.value)));
  }

  /** `setUnicodeStream` as evidently intended: a length of zero leaves `null` stored. */
  method SetUnicodeStreamFixed(p: Prep, index: int32, content: seq<byte>, length: int32, chunk: nat -> nat, decode: seq<byte> -> string)
    returns (r: Result<Prep>)
    ensures !p.stmt.open ==> r == Err(NotExecuting)
    ensures r.Ok? <==> p.stmt.open && 0 <= length <= |content|
    ensures r.Ok? && length > 0 ==> Find(r.value.params, index) == Some(Text(decode(content[..length])))
    ensures p.stmt.open && length == 0 ==> r.Ok? && Find(r.value.params, index) == Some(Null)
  {
    if !p.stmt.open {
      return Err(NotExecuting);
    }
    if length == 0 {
      return Set(p, index, Null);
    }
    var bytes := ReadBytes(content, length, chunk);
    if bytes.Err? {
      return Err(bytes.exc);
    }
    r := Set(p, index, Text(decode(bytes.value)));
  }

  /** Each of the first `n` values has a JSON form under the codec (no real is infinite or not a number). */
  predicate Encodable(codec: BlobCodec, vs: seq<Value>, n: nat)
    requires n <= |vs|
  {
    forall k | 0 <= k < n :: ToJson(codec, vs[k]).Ok?
  }

  /**
   * The bind requests for the first `n` values of `vs`, in order, the
   * `k`-th at position `k + 1` of server statement `id`.
   */
  function Binds(codec: BlobCodec, id: int64, vs: seq<Value>, n: nat): (calls: seq<Call>)
    requires n <= |vs| && Encodable(codec, vs, n)
    ensures |calls| == n
  {
    if n == 0 then []
    else Binds(codec, id, vs, n - 1) + [Bind(id, n, ToJson(codec, vs[n - 1]).value)]
  }

  /** The `k`-th bind request sets position `k + 1` to the `k`-th value's JSON form. */
  lemma {:induction false} BindsAt(codec: BlobCodec, id: int64, vs: seq<Value>, n: nat, k: nat)
    requires n <= |vs| && Encodable(codec, vs, n) && k < n
    ensures Binds(codec, id, vs, n)[k] == Bind(id, k + 1, ToJson(codec, vs[k]).value)
  {
    if k < n - 1 {
      BindsAt(codec, id, vs, n - 1, k);
    }
  }

  /** The server statement a handle stands for depends only on the handles. */
  lemma TargetOfHandles(a: Session, b: Session, h: nat)
    requires ValidHandle(a, h) && a.handles == b.handles
    ensures ValidHandle(b, h) && Target(a, h) == Target(b, h)
  {
  }

  /**
   * After binding the first `i` values starting from `c0`: `ss` is a later
   * session with the same handles whose log has grown by exactly their
   * bind requests.
   */
  predicate BoundPrefix(c0: Session, ss: Session, h: nat, vs: seq<Value>, i: nat)
    requires ValidHandle(c0, h) && i <= |vs|
  {
    && Later(c0, ss) && ss.handles == c0.handles
    && (i == 0 ==> ss == c0)
    && (i > 0 ==>
          && !IsClosed(c0, h) && Encodable(c0.codec, vs, i)
          && ss.server.log == c0.server.log + Binds(c0.codec, Target(c0, h).value, vs, i))
  }

  /** One more value bound: either the call throws, or one more bind request joins the log. */
  lemma BindStep(c0: Session, ss: Session, h: nat, vs: seq<Value>, i: nat)
    requires ValidHandle(c0, h) && i < |vs| <= INT_MAX && BoundPrefix(c0, ss, h, vs, i)
    ensures ValidHandle(ss, h)
    ensures var a := BindHandle(ss, h, One(i + 1), vs[i]);
            && Later(c0, a.session) && a.session.handles == c0.handles
            && (a.r.Ok? ==> BoundPrefix(c0, a.session, h, vs, i + 1))
            && (IsClosed(c0, h) ==> a == Answer(ss, Err(Target(c0, h).exc)))
  {
    TargetOfHandles(c0, ss, h);
    var a := BindHandle(ss, h, One(i + 1), vs[i]);
    LaterTransitive(c0, ss, a.session);
  }

  /**
   * `getParams().forEachIndexed { i, v -> bind(OneColumnIndex(i + 1), v) }`:
   * each value bound in turn at its position; a failed `Result` is
   * ignored, a throw (a closed handle, a value with no JSON form, no node
   * answering) stops the loop.
   */
  method BindAll(c: Conn, s: Stmt, vs: seq<Value>) returns (o: After<()>)
    requires ValidHandle(c.session, s.handle) && |vs| <= INT_MAX
    ensures Follows(c, o.conn) && o.stmt == s && o.conn.session.handles == c.session.handles
    ensures vs == [] ==> o == After(c, s, Ok(()))
    ensures vs != [] && IsClosed(c.session, s.handle) ==> o == After(c, s, Err(Target(c.session, s.handle).exc))
    ensures o.r.Ok? && vs != [] ==>
              && !IsClosed(c.session, s.handle) && Encodable(c.session.codec, vs, |vs|)
              && Issued(c.session, o.conn.session) == Binds(c.session.codec, Target(c.session, s.handle).value, vs, |vs|)
  {
    var ss := c.session;
    LaterRefl(ss);
    var i := 0;
    while i < |vs|
      invariant i <= |vs| && BoundPrefix(c.session, ss, s.handle, vs, i)
    {
      BindStep(c.session, ss, s.handle, vs, i);
      var a := BindHandle(ss, s.handle, One(i + 1), vs[i]);
      if a.r.Err? {
        return After(c.(session := a.session), s, Err(a.r.exc));
      }
      ss := a.session;
      i := i + 1;
    }
    o := After(c.(session := ss), s, Ok(()));
  }

  /**
   * `reset()` on an open statement whose result set is already released,
   * then the flags: not exhausted when `clear`, leftover rows dropped
   * when `drop`.
   */
  method ResetOpen(c: Conn, s: Stmt, strict: bool, clear: bool, drop: bool) returns (o: After<()>)
    requires Attached(c, s) && s.open
    ensures Attached(o.conn, o.stmt) && Follows(c, o.conn) && o.conn.session.handles == c.session.handles
    ensures o.r.Err? ==> o.stmt == s
    ensures o.r.Ok? ==>
              && o.stmt == s.(exhausted := o.stmt.exhausted, buffer := o.stmt.buffer, stepReturnedNull := o.stmt.stepReturnedNull)
              && !IsClosed(c.session, s.handle)
              && o.stmt.exhausted == (s.exhausted && !clear)
              && o.stmt.buffer == (if drop then [] else s.buffer)
              && (drop ==> !o.stmt.stepReturnedNull)
              && Issued(c.session, o.conn.session) == [Reset(Target(c.session, s.handle).value)]
  {
    var x := ResetHandle(c.session, s.handle);
    var conn := c.(session := x.session);
    if x.r.Err? {
      return After(conn, s, Err(x.r.exc));
    }
    if strict && x.r.value.Err? {
      return After(conn, s, Err(x.r.value.exc));
    }
    var st := s;
    if clear {
      st := st.(exhausted := false);
    }
    if drop {
      st := st.(buffer := [], stepReturnedNull := false);
    }
    o := After(conn, st, Ok(()));
  }

  /**
   * The first half of every execution: `rs?.close()`, then `ResetOpen`.
   * Closing the result set may close the statement, and the reset then
   * throws.
   */
  method ReleaseAndReset(c: Conn, s: Stmt, strict: bool, clear: bool, drop: bool) returns (o: After<()>)
    requires Attached(c, s) && s.open
    ensures Attached(o.conn, o.stmt) && Follows(c, o.conn)
    ensures o.r.Ok? ==>
              && o.stmt == s.(rs := o.stmt.rs, exhausted := o.stmt.exhausted, buffer := o.stmt.buffer,
                              stepReturnedNull := o.stmt.stepReturnedNull)
              && !IsClosed(c.session, s.handle)
              && o.stmt.exhausted == (s.exhausted && !clear)
              && o.stmt.buffer == (if drop then [] else s.buffer)
              && (drop ==> !o.stmt.stepReturnedNull)
              && o.conn.session.handles == c.session.handles
              && Issued(c.session, o.conn.session) == [Reset(Target(c.session, s.handle).value)]
  {
    var rel := ReleaseResultSet(c, s);
    if rel.r.Err? {
      return rel;
    }
    if !rel.stmt.open {
      var x := ResetHandle(rel.conn.session, rel.stmt.handle);
      LaterTransitive(c.session, rel.conn.session, x.session);
      return After(rel.conn.(session := x.session), rel.stmt, Err(x.r.exc));
    }
    o := ResetOpen(c, rel.stmt, strict, clear, drop);
  }

  /** `getParams()` reads only whether the statement is open and the parameter map. */
  lemma GetParamsOfParams(p: Prep, q: Prep)
    requires p.stmt.open == q.stmt.open && p.params == q.params
    ensures GetParams(p) == GetParams(q)
  {
  }

  /** `getParams()`, then each value bound in turn. */
  method BindParams(c: Conn, p: Prep) returns (o: After<()>)
    requires Attached(c, p.stmt) && p.stmt.open
    ensures Follows(c, o.conn) && o.stmt == p.stmt && o.conn.session.handles == c.session.handles
    ensures o.r.Ok? ==>
              && GetParams(p).Ok?
              && var vs := GetParams(p).value;
              && Encodable(c.session.codec, vs, |vs|)
              && (vs == [] ==> o.conn == c)
              && (vs != [] ==>
                    && !IsClosed(c.session, p.stmt.handle)
                    && Issued(c.session, o.conn.session) == Binds(c.session.codec, Target(c.session, p.stmt.handle).value, vs, |vs|))
  {
    var vs := GetParams(p);
    if vs.Err? {
      LaterRefl(c.session);
      return After(c, p.stmt, Err(vs.exc));
    }
    o := BindAll(c, p.stmt, vs.value);
    if vs.value == [] {
      LaterRefl(c.session);
    }
  }

  /**
   * The start every execution shares: `ReleaseAndReset`, then the parameters
   * bound one by one at positions one onwards.
   */
  method Rewind(c: Conn, p: Prep, strict: bool, clear: bool, drop: bool) returns (o: Done<()>)
    requires Attached(c, p.stmt) && p.stmt.open
    ensures Attached(o.conn, o.prep.stmt) && Follows(c, o.conn)
    ensures o.prep == p.(stmt := o.prep.stmt)
    ensures o.r.Ok? ==>
              && o.prep.stmt.open && o.prep.stmt.handle == p.stmt.handle && o.prep.stmt.sql == p.stmt.sql
              && !IsClosed(c.session, p.stmt.handle) && GetParams(p).Ok?
              && o.prep.stmt.exhausted == (p.stmt.exhausted && !clear)
              && o.prep.stmt.buffer == (if drop then [] else p.stmt.buffer)
              && (drop ==> !o.prep.stmt.stepReturnedNull)
              && o.conn.session.handles == c.session.handles
    ensures o.r.Ok? ==>
              var id := Target(c.session, p.stmt.handle).value;
              var vs := GetParams(p).value;
              && Encodable(c.session.codec, vs, |vs|)
              && Issued(c.session, o.conn.session) == [Reset(id)] + Binds(c.session.codec, id, vs, |vs|)
  {
    var x := ReleaseAndReset(c, p.stmt, strict, clear, drop);
    var q := p.(stmt := x.stmt);
    if x.r.Err? {
      return Done(x.conn, q, Err(x.r.exc));
    }
    GetParamsOfParams(p, q);
    TargetOfHandles(c.session, x.conn.session, p.stmt.handle);
    var b := BindParams(x.conn, q);
    IssuedJoin(c.session, x.conn.session, b.conn.session);
    o := Done(b.conn, q, b.r);
  }

  /**
   * `catch (ex: Exception) { close(); throw ex }`: an exception closes the
   * statement and is thrown again — unless closing throws first; an error
   * that is not an exception passes through untouched.
   */
  method Abandon<T>(c: Conn, s: Stmt, e: Exception) returns (o: After<T>)
    requires Attached(c, s)
    ensures Attached(o.conn, o.stmt) && Follows(c, o.conn) && o.r.Err? && o.stmt.sql == s.sql
    ensures !Catchable(e) ==> o == After(c, s, Err(e))
    ensures Catchable(e) && s.open ==> IsClosed(o.conn.session, o.stmt.handle)
    ensures Catchable(e) && !s.open ==> o == After(c, s, Err(e))
    ensures o.stmt.open ==> o.stmt == s
  {
    if !Catchable(e) {
      LaterRefl(c.session);
      return After(c, s, Err(e));
    }
    var cl := Statement.Close(c, s);
    o := After(cl.conn, cl.stmt, Err(if cl.r.Err? then cl.r.exc else e));
  }

  /** A prepared statement as its constructor leaves it, before any parameter is set. */
  function Initial(s: Stmt, columnNames: seq<string>, paramCount: int32): (p: Prep)
    ensures p.stmt == s && p.params == [] && !p.resultsWaiting
    ensures p.columnNames == columnNames && p.paramCount == paramCount
  {
    Prep(s, columnNames, paramCount, false, [])
  }

  /**
   * `getOrThrow()` inside the constructor's `try`: a throw or a failed
   * `Result` closes the statement and is thrown; a success is the value.
   */
  method GetOrAbandon<T>(c: Conn, s: Stmt, a: Answer<T>) returns (o: After<T>)
    requires Attached(c, s) && Later(c.session, a.session) && a.session.handles == c.session.handles
    ensures Attached(o.conn, o.stmt) && Follows(c, o.conn)
    ensures o.r.Ok? <==> a.r.Ok? && a.r.value.Ok?
    ensures o.r.Ok? ==> o == After(c.(session := a.session), s, Ok(a.r.value.value))
    ensures o.r.Err? ==> o.stmt.sql == s.sql && (!Catchable(o.r.exc) || (s.open ==> IsClosed(o.conn.session, o.stmt.handle)))
  {
    var c1 := c.(session := a.session);
    if a.r.Ok? && a.r.value.Ok? {
      return After(c1, s, Ok(a.r.value.value));
    }
    o := Abandon<T>(c1, s, if a.r.Err? then a.r.exc else a.r.value.exc);
    LaterTransitive(c.session, c1.session, o.conn.session);
  }

  /**
   * The column names and the parameter count of a freshly prepared
   * handle; a throw or a failed `Result` closes the statement and is
   * thrown.
   */
  method Describe(c: Conn, s: Stmt) returns (o: After<(seq<string>, int32)>)
    requires Attached(c, s) && s.open && !IsClosed(c.session, s.handle)
    ensures Attached(o.conn, o.stmt) && Follows(c, o.conn) && o.stmt.sql == s.sql
    ensures o.r.Ok? ==>
              && o.stmt == s && o.conn.session.handles == c.session.handles
              && var id := Target(c.session, s.handle).value;
              Issued(c.session, o.conn.session) == [ColumnNames(id), BindParameterCount(id)]
    ensures o.r.Err? ==> !Catchable(o.r.exc) || IsClosed(o.conn.session, o.stmt.handle)
  {
    var names := GetOrAbandon(c, s, ColumnNamesHandle(c.session, s.handle));
    if names.r.Err? {
      return After(names.conn, names.stmt, Err(names.r.exc));
    }
    TargetOfHandles(c.session, names.conn.session, s.handle);
    var count := GetOrAbandon(names.conn, s, BindParameterCountHandle(names.conn.session, s.handle));
    IssuedJoin(c.session, names.conn.session, count.conn.session);
    if count.r.Err? {
      return After(count.conn, count.stmt, Err(count.r.exc));
    }
    o := After(count.conn, s, Ok((names.r.value, count.r.value)));
  }

  /**
   * `dbAccess.prepare(sql).getOrThrow()` in the constructor: the new
   * handle replaces the placeholder; a throw or a failed `Result` closes
   * the statement and is thrown.
   */
  method PrepareHandle(c: Conn, s: Stmt) returns (o: After<()>)
    requires Attached(c, s) && s.open
    ensures Attached(o.conn, o.stmt) && Follows(c, o.conn) && o.stmt.sql == s.sql
    ensures StartsWith(Issued(c.session, o.conn.session), Prepare(s.sql))
    ensures o.r.Ok? ==>
              && o.stmt == s.(handle := Fresh(c.session)) && !IsClosed(o.conn.session, o.stmt.handle)
              && Issued(c.session, o.conn.session) == [Prepare(s.sql)]
    ensures o.r.Err? ==> !Catchable(o.r.exc) || IsClosed(o.conn.session, o.stmt.handle)
  {
    var x := DbPrepare(c.session, s.sql);
    var c1 := c.(session := x.session);
    assert Issued(c.session, c1.session) == [Prepare(s.sql)];
    if x.r.Ok? && x.r.value.Ok? {
      return After(c1, s.(handle := x.r.value.value), Ok(()));
    }
    o := Abandon<()>(c1, s, if x.r.Err? then x.r.exc else x.r.value.exc);
    IssuedJoin(c.session, c1.session, o.conn.session);
  }

  /**
   * The constructor `ErldbPreparedStatement(connection, sql)`: a new
   * statement, then `dbAccess.prepare(sql)` straight on the connection's
   * database access — so the handle is not registered with the
   * connection — then the column names and the parameter count.  Any
   * exception closes the statement and is thrown again.
   */
  method Create(c: Conn, sql: string) returns (o: Done<()>)
    requires Connection.Valid(c)
    ensures Attached(o.conn, o.prep.stmt) && Follows(c, o.conn)
    ensures o.prep.stmt.sql == sql
    ensures StartsWith(Issued(c.session, o.conn.session), Prepare(sql))
    ensures o.r.Ok? ==>
              && o.prep.stmt.open && o.prep.params == [] && !o.prep.resultsWaiting
              && o.prep.stmt.handle == Fresh(c.session) + 1
              && o.conn.session.handles[o.prep.stmt.handle].LiveHandle?
              && var id := o.conn.session.handles[o.prep.stmt.handle].stmt;
              Issued(c.session, o.conn.session) == [Prepare(sql), ColumnNames(id), BindParameterCount(id)]
    ensures o.r.Err? ==> !Catchable(o.r.exc) || IsClosed(o.conn.session, o.prep.stmt.handle)
  {
    var (c1, s) := NewStatement(c, sql);
    var p := PrepareHandle(c1, s);
    LaterTransitive(c.session, c1.session, p.conn.session);
    assert Issued(c.session, p.conn.session) == Issued(c1.session, p.conn.session);
    if p.r.Err? {
      return Done(p.conn, Initial(p.stmt, [], 0), Err(p.r.exc));
    }
    var d := Describe(p.conn, p.stmt);
    IssuedJoin(c.session, p.conn.session, d.conn.session);
    var (names, count) := if d.r.Ok? then d.r.value else ([], 0);
    o := Done(d.conn, Initial(d.stmt, names, count), if d.r.Ok? then Ok(()) else Err(d.r.exc));
  }

  /**
   * `prepareStatement(sql, rst, rsc, rsh)` on the connection: the open
   * check and the cursor check, then the constructor; its statement only
   * when it completes.
   */
  method PrepareStatement(c: Conn, sql: string, rst: int32, rsc: int32, rsh: int32) returns (d: Conn, r: Result<Prep>)
    requires Connection.Valid(c)
    ensures Connection.Valid(d) && Follows(c, d)
    ensures CheckCursor(c, rst, rsc, rsh).Err? ==> d == c && r == Err(CheckCursor(c, rst, rsc, rsh).exc)
    ensures CheckCursor(c, rst, rsc, rsh).Ok? ==> c.open && StartsWith(Issued(c.session, d.session), Prepare(sql))
    ensures r.Ok? ==>
              && c.open && Attached(d, r.value.stmt)
              && r.value.stmt.open && r.value.stmt.sql == sql && r.value.params == []
  {
    var ok := CheckCursor(c, rst, rsc, rsh);
    if ok.Err? {
      LaterRefl(c.session);
      return c, Err(ok.exc);
    }
    var o := Create(c, sql);
    d := o.conn;
    r := if o.r.Ok? then Ok(o.prep) else Err(o.r.exc);
  }

  /**
   * `step()` as the executions use it: the first buffered row, or the
   * next rows polled from the server, or `null` at the end of the rows.
   */
  method Fetch(c: Conn, s: Stmt) returns (o: After<Option<seq<Value>>>)
    requires Attached(c, s) && s.open
    ensures Attached(o.conn, o.stmt) && Follows(c, o.conn)
    ensures !IsClosed(c.session, s.handle) && s.buffer != [] ==> o == After(c, s, Ok(Some(s.buffer[0])))
    ensures o.r.Ok? ==> o.stmt.open && FetchedOnly(s, o.stmt)
    ensures o.r.Ok? && o.r.value.Some? ==> o.stmt.buffer != [] && o.r.value.value == o.stmt.buffer[0]
    ensures o.r.Ok? && o.r.value.None? ==> o.stmt.buffer == [] && o.stmt.stepReturnedNull
    ensures o.r.Ok? && s.buffer == [] ==>
              !IsClosed(c.session, s.handle) && StartsWithPoll(Issued(c.session, o.conn.session), Target(c.session, s.handle).value)
  {
    o := Step(c, s);
  }

  /** `changes().getOrThrow()` once the rows are exhausted. */
  method ChangeCount(c: Conn, s: Stmt) returns (o: After<int64>)
    requires Attached(c, s)
    ensures Attached(o.conn, o.stmt) && Follows(c, o.conn) && o.stmt == s
    ensures Issued(c.session, o.conn.session) == [Changes]
  {
    var ch := DbChanges(c.session);
    var c1 := c.(session := ch.session);
    assert Issued(c.session, c1.session) == [Changes];
    if ch.r.Err? || ch.r.value.Err? {
      return After(c1, s, Err(if ch.r.Err? then ch.r.exc else ch.r.value.exc));
    }
    o := After(c1, s, Ok(ch.r.value.value));
  }

  /**
   * The part of `executeLargeUpdate()` after the binds: step once (a row
   * means the text was a query), mark the results exhausted, then the
   * change count, whose failed `Result` is thrown.
   */
  method CountChanges(c: Conn, s: Stmt) returns (o: After<int64>)
    requires Attached(c, s) && s.open
    ensures Attached(o.conn, o.stmt) && Follows(c, o.conn)
    ensures s.buffer != [] && !IsClosed(c.session, s.handle) ==> o == After(c, s, Err(QueryReturnsResults))
    ensures o.r.Ok? ==>
              && o.stmt.open && o.stmt.exhausted && o.stmt.handle == s.handle
              && o.stmt.buffer == [] && o.stmt.stepReturnedNull
              && EndsWith(Issued(c.session, o.conn.session), Changes)
  {
    var st := Fetch(c, s);
    if st.r.Err? {
      return After(st.conn, st.stmt, Err(st.r.exc));
    }
    if st.r.value.Some? {
      return After(st.conn, st.stmt, Err(QueryReturnsResults));
    }
    var ch := ChangeCount(st.conn, st.stmt.(exhausted := true));
    FollowsJoin(c, st.conn, ch.conn);
    EndsWithAfter(Issued(c.session, st.conn.session), Issued(st.conn.session, ch.conn.session), Changes);
    o := ch;
  }


  /**
   * The `try` block of `executeLargeUpdate()`: `rs?.close()`, `reset()`
   * with its failure thrown, not exhausted, the binds, then one step and
   * the change count.
   */
  method UpdateRun(c: Conn, p: Prep) returns (o: Done<int64>)
    requires Attached(c, p.stmt) && p.stmt.open
    ensures Attached(o.conn, o.prep.stmt) && Follows(c, o.conn)
    ensures o.prep == p.(stmt := o.prep.stmt)
    ensures o.r.Ok? ==>
              && o.prep.stmt.open && o.prep.stmt.exhausted && o.prep.stmt.handle == p.stmt.handle
              && !IsClosed(c.session, p.stmt.handle)
              && StartsWith(Issued(c.session, o.conn.session), Reset(Target(c.session, p.stmt.handle).value))
              && EndsWith(Issued(c.session, o.conn.session), Changes)
  {
    var r := Rewind(c, p, true, true, false);
    if r.r.Err? {
      return Done(r.conn, r.prep, Err(r.r.exc));
    }
    var n := CountChanges(r.conn, r.prep.stmt);
    FollowsJoin(c, r.conn, n.conn);
    o := Done(n.conn, p.(stmt := n.stmt), n.r);
  }

  /**
   * `executeLargeUpdate()`: a statement with result columns throws
   * before anything is sent; otherwise the `try` block, and any exception
   * it throws closes the statement and is thrown again.
   */
  method ExecuteLargeUpdate(c: Conn, p: Prep) returns (o: Done<int64>)
    requires Attached(c, p.stmt)
    ensures Attached(o.conn, o.prep.stmt) && Follows(c, o.conn)
    ensures o.prep == p.(stmt := o.prep.stmt)
    ensures !p.stmt.open ==> o == Done(c, p, Err(NotExecuting))
    ensures p.stmt.open && p.columnNames != [] ==> o == Done(c, p, Err(QueryReturnsResults))
    ensures o.r.Ok? ==>
              && o.prep.stmt.open && o.prep.stmt.exhausted && o.prep.stmt.handle == p.stmt.handle
              && !IsClosed(c.session, p.stmt.handle)
              && StartsWith(Issued(c.session, o.conn.session), Reset(Target(c.session, p.stmt.handle).value))
              && EndsWith(Issued(c.session, o.conn.session), Changes)
    ensures o.r.Err? && Catchable(o.r.exc) && p.stmt.open && p.columnNames == [] ==>
              !o.prep.stmt.open || IsClosed(o.conn.session, o.prep.stmt.handle)
  {
    if !p.stmt.open || p.columnNames != [] {
      LaterRefl(c.session);
      return Done(c, p, Err(if !p.stmt.open then NotExecuting else QueryReturnsResults));
    }
    var u := UpdateRun(c, p);
    if u.r.Ok? {
      return u;
    }
    var a := Abandon<int64>(u.conn, u.prep.stmt, u.r.exc);
    FollowsJoin(c, u.conn, a.conn);
    o := Done(a.conn, p.(stmt := a.stmt), a.r);
  }

  /** `executeUpdate()`: the count of `executeLargeUpdate()` narrowed to an `Int`, wrapping. */
  method ExecuteUpdate(c: Conn, p: Prep) returns (o: Done<int32>)
    requires Attached(c, p.stmt)
    ensures Attached(o.conn, o.prep.stmt) && Follows(c, o.conn)
    ensures !p.stmt.open ==> o == Done(c, p, Err(NotExecuting))
    ensures p.stmt.open && p.columnNames != [] ==> o == Done(c, p, Err(QueryReturnsResults))
    ensures o.r.Ok? ==> o.prep.stmt.open && o.prep.stmt.exhausted && EndsWith(Issued(c.session, o.conn.session), Changes)
  {
    if !p.stmt.open {
      LaterRefl(c.session);
      return Done(c, p, Err(NotExecuting));
    }
    var u := ExecuteLargeUpdate(c, p);
    o := Done(u.conn, u.prep, if u.r.Ok? then Ok(ToInt(u.r.value) as int32) else Err(u.r.exc));
  }

  /**
   * The end of `executeQuery()`: step; no row exhausts the results and
   * gives `null`; a row gives a new result set, handed out as
   * `getResultSet()` hands it out.  `found` says whether a row was there.
   */
  method QueryTail(c: Conn, s: Stmt) returns (o: After<bool>, found: bool)
    requires Attached(c, s) && s.open && !s.exhausted
    ensures Attached(o.conn, o.stmt) && Follows(c, o.conn)
    ensures o.r == Ok(true) ==> found && o.stmt.open && !o.stmt.exhausted && o.stmt.rs.Some? && o.stmt.buffer != []
    ensures o.r == Ok(false) ==> !found && o.stmt.exhausted && o.stmt.buffer == []
    ensures o.r.Ok? && o.stmt.open ==> o.stmt.handle == s.handle && o.stmt.sql == s.sql
    ensures !IsClosed(c.session, s.handle) && s.buffer != [] && o.r.Ok? ==> o.r.value && o.stmt.buffer == s.buffer
    ensures s.buffer == [] && o.r == Ok(true) ==>
              !IsClosed(c.session, s.handle) && StartsWithPoll(Issued(c.session, o.conn.session), Target(c.session, s.handle).value)
  {
    var st := Fetch(c, s);
    if st.r.Err? {
      return After(st.conn, st.stmt, Err(st.r.exc)), false;
    }
    if st.r.value.None? {
      return After(st.conn, st.stmt.(exhausted := true), Ok(false)), false;
    }
    var s1 := st.stmt.(rs := Some(FreshRs()));
    assert s1.open && !s1.exhausted && s1.rs.Some? && s1.buffer != [];
    assert s1.handle == s.handle && s1.sql == s.sql;
    o := GetResultSet(st.conn, s1);
    assert o.r != Ok(false);
    if o.r.Ok? {
      assert o.r.value;
      assert o.r == Ok(true);
      assert o.stmt.handle == s1.handle && o.stmt.sql == s1.sql;
    }
    FollowsJoin(c, st.conn, o.conn);
    found := true;
  }

  /**
   * The `try` block of `executeQuery()`: `rs?.close()`, `reset()` with
   * its `Result` ignored, not exhausted, the binds, then `QueryTail`.
   * `drop` also discards rows buffered by an earlier execution.
   */
  method QueryRun(c: Conn, p: Prep, drop: bool) returns (o: Done<bool>)
    requires Attached(c, p.stmt) && p.stmt.open
    ensures Attached(o.conn, o.prep.stmt) && Follows(c, o.conn)
    ensures o.prep == p.(stmt := o.prep.stmt, resultsWaiting := o.prep.resultsWaiting)
    ensures o.r == Ok(true) ==>
              && o.prep.resultsWaiting && o.prep.stmt.open && !o.prep.stmt.exhausted
              && o.prep.stmt.rs.Some? && o.prep.stmt.buffer != [] && o.prep.stmt.handle == p.stmt.handle
    ensures !drop && o.r == Ok(true) && p.stmt.buffer != [] ==> o.prep.stmt.buffer == p.stmt.buffer
    ensures drop && o.r == Ok(true) ==>
              && !IsClosed(c.session, p.stmt.handle) && GetParams(p).Ok?
              && var n := |GetParams(p).value|;
              var calls := Issued(c.session, o.conn.session);
              |calls| > n + 1 && calls[n + 1] == StepBy(Target(c.session, p.stmt.handle).value, BATCH)
  {
    var r := Rewind(c, p, false, true, drop);
    if r.r.Err? {
      return Done(r.conn, r.prep, Err(r.r.exc));
    }
    TargetOfHandles(c.session, r.conn.session, p.stmt.handle);
    var t, found := QueryTail(r.conn, r.prep.stmt);
    FollowsJoin(c, r.conn, t.conn);
    o := Done(t.conn, r.prep.(stmt := t.stmt, resultsWaiting := r.prep.resultsWaiting || found), t.r);
  }

  /**
   * `executeQuery()` as written: any exception inside the block gives
   * `null`, leaving the statement as the exception found it; only an
   * error that is not an exception escapes.  Rows buffered by an earlier
   * execution and not yet read are answered again.
   */
  method ExecuteQuery(c: Conn, p: Prep) returns (o: Done<bool>)
    requires Attached(c, p.stmt)
    ensures Attached(o.conn, o.prep.stmt) && Follows(c, o.conn)
    ensures !p.stmt.open ==> o == Done(c, p, Err(NotExecuting))
    ensures o.r.Err? ==> !p.stmt.open || !Catchable(o.r.exc)
    ensures o.r == Ok(true) ==>
              && o.prep.resultsWaiting && o.prep.stmt.open && !o.prep.stmt.exhausted
              && o.prep.stmt.rs.Some? && o.prep.stmt.buffer != []
    ensures o.r == Ok(true) && p.stmt.buffer != [] ==> o.prep.stmt.buffer == p.stmt.buffer
  {
    if !p.stmt.open {
      LaterRefl(c.session);
      return Done(c, p, Err(NotExecuting));
    }
    o := QueryRun(c, p, false);
    if o.r.Err? && Catchable(o.r.exc) {
      o := o.(r := Ok(false));
    }
  }

  /**
   * `executeQuery()` as evidently intended: rows left over from an
   * earlier execution are dropped, so a row answered comes from a poll
   * sent right after the binds.
   */
  method ExecuteQueryFixed(c: Conn, p: Prep) returns (o: Done<bool>)
    requires Attached(c, p.stmt)
    ensures Attached(o.conn, o.prep.stmt) && Follows(c, o.conn)
    ensures !p.stmt.open ==> o == Done(c, p, Err(NotExecuting))
    ensures o.r.Err? ==> !p.stmt.open || !Catchable(o.r.exc)
    ensures o.r == Ok(true) ==>
              && o.prep.resultsWaiting && o.prep.stmt.open && !o.prep.stmt.exhausted
              && o.prep.stmt.rs.Some? && o.prep.stmt.buffer != []
    ensures o.r == Ok(true) ==>
              && !IsClosed(c.session, p.stmt.handle) && GetParams(p).Ok?
              && var n := |GetParams(p).value|;
              var calls := Issued(c.session, o.conn.session);
              |calls| > n + 1 && calls[n + 1] == StepBy(Target(c.session, p.stmt.handle).value, BATCH)
  {
    if !p.stmt.open {
      LaterRefl(c.session);
      return Done(c, p, Err(NotExecuting));
    }
    o := QueryRun(c, p, true);
    if o.r.Err? && Catchable(o.r.exc) {
      o := o.(r := Ok(false));
    }
  }

  /**
   * A first row was found by `execute()`: a new result set with the row
   * as its current row, then the statement's auto-commit round; only a
   * throw escapes.
   */
  method Present(c: Conn, s: Stmt, row: seq<Value>) returns (o: After<bool>)
    requires Attached(c, s)
    ensures Attached(o.conn, o.stmt) && Follows(c, o.conn)
    ensures o.stmt == s.(rs := Some(FreshRs().(current := Some(row))))
    ensures o.r.Ok? ==> o.r.value && Issued(c.session, o.conn.session) == AUTO_COMMIT_ROUND
  {
    var e := EnsureAutoCommit(c.session, STATEMENT_AUTO_COMMIT);
    o := After(c.(session := e.0), s.(rs := Some(FreshRs().(current := Some(row)))), if e.1.Err? then Err(e.1.exc) else Ok(true));
  }

  /** A poll right after the reset and `n` binds is request `n + 1`. */
  lemma PollAt(a: seq<Call>, b: seq<Call>, n: nat, id: int64)
    requires |a| == n + 1 && StartsWithPoll(b, id)
    ensures |a + b| > n + 1 && (a + b)[n + 1] == StepBy(id, BATCH)
  {
  }

  /**
   * The end of `execute()`: step; no row exhausts the results and gives
   * `false`; a row becomes the current row of a new result set, the
   * statement's auto-commit round is sent and the answer is `true`.  The
   * exhausted flag is left as the row found it.
   */
  method ExecTail(c: Conn, s: Stmt) returns (o: After<bool>)
    requires Attached(c, s) && s.open
    ensures Attached(o.conn, o.stmt) && Follows(c, o.conn)
    ensures o.r.Ok? ==> o.stmt.open && o.stmt.handle == s.handle && o.stmt.sql == s.sql
    ensures o.r == Ok(false) ==> o.stmt.exhausted && o.stmt.buffer == []
    ensures o.r == Ok(true) ==>
              && o.stmt.exhausted == s.exhausted && o.stmt.buffer != []
              && o.stmt.rs == Some(FreshRs().(current := Some(o.stmt.buffer[0])))
              && EndsWith(Issued(c.session, o.conn.session), Call.Execute("COMMIT;"))
    ensures !IsClosed(c.session, s.handle) && s.buffer != [] && o.r.Ok? ==> o.r.value && o.stmt.buffer == s.buffer
    ensures s.buffer == [] && o.r == Ok(true) ==>
              !IsClosed(c.session, s.handle) && StartsWithPoll(Issued(c.session, o.conn.session), Target(c.session, s.handle).value)
  {
    var st := Fetch(c, s);
    if st.r.Err? {
      return After(st.conn, st.stmt, Err(st.r.exc));
    }
    if st.r.value.None? {
      return After(st.conn, st.stmt.(exhausted := true), Ok(false));
    }
    o := Present(st.conn, st.stmt, st.r.value.value);
    FollowsJoin(c, st.conn, o.conn);
    if o.r.Ok? {
      EndsWithAfter(Issued(c.session, st.conn.session), Issued(st.conn.session, o.conn.session), Call.Execute("COMMIT;"));
    }
  }

  /**
   * `execute()` from `rs?.close()` on: the non-throwing `reset()`, the
   * binds, then the step above.  `clear` says whether the exhausted flag
   * is cleared first and `drop` whether leftover rows are dropped; as
   * written, neither happens.
   */
  method ExecRun(c: Conn, p: Prep, clear: bool, drop: bool) returns (o: Done<bool>)
    requires Attached(c, p.stmt) && p.stmt.open
    ensures Attached(o.conn, o.prep.stmt) && Follows(c, o.conn)
    ensures o.prep == p.(stmt := o.prep.stmt)
    ensures o.r.Ok? ==> o.prep.stmt.open && o.prep.stmt.handle == p.stmt.handle && o.prep.stmt.sql == p.stmt.sql
    ensures o.r == Ok(false) ==> o.prep.stmt.exhausted && o.prep.stmt.buffer == []
    ensures o.r == Ok(true) ==>
              && o.prep.stmt.exhausted == (p.stmt.exhausted && !clear) && o.prep.stmt.buffer != []
              && o.prep.stmt.rs == Some(FreshRs().(current := Some(o.prep.stmt.buffer[0])))
    ensures !drop && o.r.Ok? && p.stmt.buffer != [] ==> o.r.value && o.prep.stmt.buffer == p.stmt.buffer
    ensures drop && o.r == Ok(true) ==>
              && !IsClosed(c.session, p.stmt.handle) && GetParams(p).Ok?
              && var n := |GetParams(p).value|;
              var calls := Issued(c.session, o.conn.session);
              |calls| > n + 1 && calls[n + 1] == StepBy(Target(c.session, p.stmt.handle).value, BATCH)
  {
    var r := Rewind(c, p, false, clear, drop);
    if r.r.Err? {
      return Done(r.conn, r.prep, Err(r.r.exc));
    }
    TargetOfHandles(c.session, r.conn.session, p.stmt.handle);
    var t := ExecTail(r.conn, r.prep.stmt);
    FollowsJoin(c, r.conn, t.conn);
    if drop && t.r == Ok(true) {
      PollAt(Issued(c.session, r.conn.session), Issued(r.conn.session, t.conn.session),
             |GetParams(p).value|, Target(c.session, p.stmt.handle).value);
    }
    o := Done(t.conn, r.prep.(stmt := t.stmt), t.r);
  }

  /**
   * `execute()` as written: nothing is caught.  The exhausted flag is
   * never cleared, so once an execution has found no row, a later one
   * that finds a row still leaves the results exhausted; and rows left
   * over from an earlier execution answer for the new one.
   */
  method Execute(c: Conn, p: Prep) returns (o: Done<bool>)
    requires Attached(c, p.stmt)
    ensures Attached(o.conn, o.prep.stmt) && Follows(c, o.conn)
    ensures o.prep == p.(stmt := o.prep.stmt)
    ensures !p.stmt.open ==> o == Done(c, p, Err(NotExecuting))
    ensures o.r.Ok? ==> o.prep.stmt.open && o.prep.stmt.handle == p.stmt.handle
    ensures o.r == Ok(false) ==> o.prep.stmt.exhausted && o.prep.stmt.buffer == []
    ensures o.r == Ok(true) ==> o.prep.stmt.exhausted == p.stmt.exhausted && o.prep.stmt.buffer != []
    ensures o.r.Ok? && p.stmt.buffer != [] ==> o.r.value && o.prep.stmt.buffer == p.stmt.buffer
  {
    if !p.stmt.open {
      LaterRefl(c.session);
      return Done(c, p, Err(NotExecuting));
    }
    o := ExecRun(c, p, false, false);
  }

  /**
   * `execute()` as evidently intended, like `executeQuery()`: the
   * exhausted flag is cleared and leftover rows are dropped, so a `true`
   * answer leaves results to read, and its row comes from a poll sent
   * right after the binds.
   */
  method ExecuteFixed(c: Conn, p: Prep) returns (o: Done<bool>)
    requires Attached(c, p.stmt)
    ensures Attached(o.conn, o.prep.stmt) && Follows(c, o.conn)
    ensures o.prep == p.(stmt := o.prep.stmt)
    ensures !p.stmt.open ==> o == Done(c, p, Err(NotExecuting))
    ensures o.r.Ok? ==> o.prep.stmt.open && o.prep.stmt.handle == p.stmt.handle
    ensures o.r.Ok? ==> o.prep.stmt.exhausted == !o.r.value
    ensures o.r == Ok(true) ==> o.prep.stmt.rs.Some? && o.prep.stmt.buffer != []
    ensures o.r == Ok(true) ==>
              && !IsClosed(c.session, p.stmt.handle) && GetParams(p).Ok?
              && var n := |GetParams(p).value|;
              var calls := Issued(c.session, o.conn.session);
              |calls| > n + 1 && calls[n + 1] == StepBy(Target(c.session, p.stmt.handle).value, BATCH)
  {
    if !p.stmt.open {
      LaterRefl(c.session);
      return Done(c, p, Err(NotExecuting));
    }
    o := ExecRun(c, p, true, true);
  }

  /**
   * `execute()` followed by `getResultSet()`, as written: on a statement
   * whose results are exhausted, `getResultSet()` gives `null` even when
   * `execute()` has just answered that there is a result set.
   */
  method ExecuteThenGetResultSet(c: Conn, p: Prep) returns (o: Done<(bool, bool)>)
    requires Attached(c, p.stmt)
    ensures Attached(o.conn, o.prep.stmt) && Follows(c, o.conn)
    ensures !p.stmt.open ==> o.r == Err(NotExecuting)
    ensures o.r.Ok? && p.stmt.exhausted ==> !o.r.value.1
    ensures o.r.Ok? && !o.r.value.0 ==> !o.r.value.1
  {
    var e := Execute(c, p);
    if e.r.Err? {
      return Done(e.conn, e.prep, Err(e.r.exc));
    }
    if e.r.value {
      assert e.r == Ok(true);
    } else {
      assert e.r == Ok(false);
    }
    var g := GetResultSet(e.conn, e.prep.stmt);
    FollowsJoin(c, e.conn, g.conn);
    o := Done(g.conn, e.prep.(stmt := g.stmt), if g.r.Err? then Err(g.r.exc) else Ok((e.r.value, g.r.value)));
  }

  /**
   * The same pair with the corrected `execute()`: `getResultSet()` hands
   * out a result set exactly when `execute()` said there is one.
   */
  method ExecuteFixedThenGetResultSet(c: Conn, p: Prep) returns (o: Done<(bool, bool)>)
    requires Attached(c, p.stmt)
    ensures Attached(o.conn, o.prep.stmt) && Follows(c, o.conn)
    ensures !p.stmt.open ==> o.r == Err(NotExecuting)
    ensures o.r.Ok? ==> o.r.value.1 == o.r.value.0
  {
    var e := ExecuteFixed(c, p);
    if e.r.Err? {
      return Done(e.conn, e.prep, Err(e.r.exc));
    }
    var g := GetResultSet(e.conn, e.prep.stmt);
    FollowsJoin(c, e.conn, g.conn);
    o := Done(g.conn, e.prep.(stmt := g.stmt), if g.r.Err? then Err(g.r.exc) else Ok((e.r.value, g.r.value)));
  }

  /**
   * The `try` of `clearParameters()` up to the catch: nothing to catch
   * exactly when `clearBindings()` succeeded with `true`; otherwise the
   * throw, the failed `Result`, or the "failed to clear" exception.
   */
  function Cleared(r: Result<Result<bool>>): (e: Result<()>)
    ensures e.Ok? <==> r == Ok(Ok(true))
    ensures r.Err? ==> e == Err(r.exc)
    ensures r.Ok? && r.value.Err? ==> e == Err(r.value.exc)
  {
    match r
    case Err(x) => Err(x)
    case Ok(Err(x)) => Err(x)
    case Ok(Ok(b)) => if b then Ok(()) else Err(ClearFailed)
  }

  /**
   * `catch (ex: Exception) { close() }`: an exception closes the statement
   * and is swallowed, unless closing throws; an error that is not an
   * exception escapes untouched.
   */
  method CloseQuietly(c: Conn, s: Stmt, e: Exception) returns (o: After<()>)
    requires Attached(c, s) && s.open
    ensures Attached(o.conn, o.stmt) && Follows(c, o.conn)
    ensures !Catchable(e) ==> o == After(c, s, Err(e))
    ensures o.r.Ok? ==> !o.stmt.open && IsClosed(o.conn.session, o.stmt.handle)
    ensures o.r.Err? ==> o.stmt == s
  {
    if !Catchable(e) {
      LaterRefl(c.session);
      return After(c, s, Err(e));
    }
    o := Statement.Close(c, s);
  }

  /**
   * The `try` of `clearParameters()` on an open statement: `true` when the
   * server's bindings were cleared; `false` when an exception closed the
   * statement instead.  An error that is not an exception, and the close's
   * own exception, escape with the statement untouched.
   */
  method ClearOrClose(c: Conn, s: Stmt) returns (o: After<bool>)
    requires Attached(c, s) && s.open
    ensures Attached(o.conn, o.stmt) && Follows(c, o.conn)
    ensures o.r.Ok? && o.r.value ==> o.stmt == s
    ensures o.r.Ok? && !o.r.value ==> !o.stmt.open && IsClosed(o.conn.session, o.stmt.handle)
    ensures o.r.Err? ==> o.stmt == s
    ensures c.session.handles[s.handle].NotReadyHandle? ==> o == After(c, s, Err(NotImplemented))
    ensures !IsClosed(c.session, s.handle) ==>
              StartsWith(Issued(c.session, o.conn.session), ClearBindings(Target(c.session, s.handle).value))
  {
    var a := ClearBindingsHandle(c.session, s.handle);
    var c1 := c.(session := a.session);
    var e := Cleared(a.r);
    if e.Ok? {
      return After(c1, s, Ok(true));
    }
    var q := CloseQuietly(c1, s, e.exc);
    FollowsJoin(c, c1, q.conn);
    o := After(q.conn, q.stmt, if q.r.Err? then Err(q.r.exc) else Ok(false));
  }

  /**
   * `clearParameters()`: the parameters are emptied when the server's
   * bindings were cleared; otherwise the statement is closed and the
   * exception swallowed.
   */
  method ClearParameters(c: Conn, p: Prep) returns (o: Done<()>)
    requires Attached(c, p.stmt)
    ensures Attached(o.conn, o.prep.stmt) && Follows(c, o.conn)
    ensures !p.stmt.open ==> o == Done(c, p, Err(NotExecuting))
    ensures o.prep == p.(stmt := o.prep.stmt, params := o.prep.params)
    ensures o.prep.params == p.params || o.prep.params == []
    ensures o.r.Ok? && o.prep.stmt.open ==> o.prep.stmt == p.stmt && GetParams(o.prep) == Ok([])
    ensures o.r.Ok? && p.stmt.open && !o.prep.stmt.open ==> IsClosed(o.conn.session, o.prep.stmt.handle)
    ensures p.stmt.open && c.session.handles[p.stmt.handle].NotReadyHandle? ==> o == Done(c, p, Err(NotImplemented))
    ensures p.stmt.open && !IsClosed(c.session, p.stmt.handle) ==>
              StartsWith(Issued(c.session, o.conn.session), ClearBindings(Target(c.session, p.stmt.handle).value))
  {
    if !p.stmt.open {
      LaterRefl(c.session);
      return Done(c, p, Err(NotExecuting));
    }
    var x := ClearOrClose(c, p.stmt);
    if x.r.Err? {
      return Done(x.conn, p.(stmt := x.stmt), Err(x.r.exc));
    }
    o := Done(x.conn, p.(stmt := x.stmt, params := if x.r.value then [] else p.params), Ok(()));
  }
}

=== FILE: remote.dfy ===
/**
 * The driver's view of the server: the requests it posts (`IDatabaseAccess`
 * and `IStatementAccess`) and what comes back.  The network is a parameter:
 * a queue of replies, one per request, each either a body or a transport
 * failure.  Every request made is appended to a log, so that what an
 * operation sends can be stated about the log.
 *
 * A statement handle is an object with identity; handles live in a table
 * indexed by their identity, and are either the placeholder
 * `NotReadyStatementAccess` or a remote statement with its open flag.
 *
 * Every call has three outcomes, as in the source: it throws (the outer
 * `Err`), it returns a failed Kotlin `Result` (the inner `Err`), or it
 * succeeds.
 */
module Remote {
  import opened Errors
  import opened Ints
  import opened Json
  import J = Json
  import opened SQLiteValue
  import opened HttpAccess
  import opened ColumnIndex

  /** A request: its endpoint and the parameters that matter here. */
  datatype Call =
    | CreateConnection(bucket: string, file: string)
    | Prepare(sql: string)
    | Execute(sql: string)
    | Changes
    | CloseDatabase
    | Finalize(stmt: int)
    | Bind(stmt: int, pos: int, value: seq<Json>)
    | ColumnNames(stmt: int)
    | StepBy(stmt: int, n: int)
    | Reset(stmt: int)
    | BindParameterCount(stmt: int)
    | ClearBindings(stmt: int)
    | ColumnCount(stmt: int)
    | ColumnName(stmt: int, index: int)

  /** How one request ended: the body the server sent (possibly none), or a thrown transport failure. */
  datatype Reply = Delivered(body: Option<Json>) | Unreachable(exc: Exception)

  /** The replies still to come and every request posted so far. */
  datatype Server = Server(replies: seq<Reply>, log: seq<Call>)

  /** A statement handle: the placeholder, or a server statement and whether it is open. */
  datatype Handle = NotReadyHandle | LiveHandle(stmt: int64, open: bool)

  /**
   * The driver's side of one connection: the server, the blob codec the
   * driver's cells use, and every handle object ever created.
   */
  datatype Session = Session(server: Server, codec: BlobCodec, handles: seq<Handle>)

  /** A session after a call, and the call's three-way outcome. */
  datatype Answer<T> = Answer(session: Session, r: Result<Result<T>>)

  const NotReadyYet := Runtime("not ready yet")

  /** The reply the next request gets; once the queue is empty no node answers. */
  function NextReply(s: Server): Reply
  {
    if |s.replies| == 0 then Unreachable(ConnectFailed) else s.replies[0]
  }

  /** The server after one more request. */
  function Consume(s: Server, call: Call): (s': Server)
    ensures s'.log == s.log + [call]
    ensures |s'.replies| == if |s.replies| == 0 then 0 else |s.replies| - 1
  {
    Server(if |s.replies| == 0 then [] else s.replies[1..], s.log + [call])
  }

  /** A body in which the server answers `ok` with a value. */
  function OkBody(j: Json): Reply
  {
    Delivered(Some(JObject(OkReply(j))))
  }

  /** A body in which the server reports an error. */
  function ErrorBody(msg: string): Reply
  {
    Delivered(Some(JObject(ErrorReply(msg))))
  }

  /** No closed handle reopens, and a handle keeps its server statement. */
  predicate Successor(x: Handle, y: Handle)
  {
    x == y || (x.LiveHandle? && y == LiveHandle(x.stmt, false))
  }

  /**
   * `b` is `a` after further calls: the log and the handle table only grow,
   * and existing handles at most close.
   */
  predicate Later(a: Session, b: Session)
  {
    && a.codec == b.codec
    && |a.server.log| <= |b.server.log|
    && b.server.log[..|a.server.log|] == a.server.log
    && |a.handles| <= |b.handles|
    && (forall h | 0 <= h < |a.handles| :: Successor(a.handles[h], b.handles[h]))
    && |b.server.replies| <= |a.server.replies|
  }

  lemma LaterTransitive(a: Session, b: Session, c: Session)
    requires Later(a, b) && Later(b, c)
    ensures Later(a, c)
  {
    assert c.server.log[..|a.server.log|] == c.server.log[..|b.server.log|][..|a.server.log|];
  }

  /**
   * `doRequest<R>`: the call is posted; a transport failure or a body that
   * is not a JSON object is thrown; otherwise the envelope is decoded.
   */
  function Request(ss: Session, call: Call, want: Want, nullable: bool): (a: Answer<Payload>)
    ensures a.session == ss.(server := Consume(ss.server, call))
    ensures NextReply(ss.server).Unreachable? ==> a.r == Err(NextReply(ss.server).exc)
    ensures a.r.Ok? ==> 0 < |ss.server.replies| && NextReply(ss.server).Delivered?
    ensures a.r.Ok? && a.r.value.Ok? ==> Fits(want, nullable, a.r.value.value)
  {
    var s' := ss.(server := Consume(ss.server, call));
    match NextReply(ss.server)
    case Unreachable(e) => Answer(s', Err(e))
    case Delivered(body) =>
      match ParseResponse(body)
      case Err(e) => Answer(s', Err(e))
      case Ok(fields) =>
        match DoRequest(want, nullable, fields)
        case Success(p) => Answer(s', Ok(Ok(p)))
        case Failure(e) => Answer(s', Ok(Err(e)))
  }

  /** The server's `ok` reply is read back as the value written. */
  lemma RequestOk(ss: Session, call: Call, p: Payload, nullable: bool)
    requires p.PNull? ==> nullable
    requires NextReply(ss.server) == OkBody(Written(p))
    ensures Request(ss, call, WantOf(p), nullable).r == Ok(Ok(p))
  {
    OkReplyRoundTrip(p, nullable);
  }

  /** The server's error reply is read back as its message, for any call. */
  lemma RequestError(ss: Session, call: Call, want: Want, nullable: bool, msg: string)
    requires NextReply(ss.server) == ErrorBody(msg)
    ensures Request(ss, call, want, nullable).r == Ok(Err(ServerError(msg)))
  {
    ErrorReplyReported(want, nullable, msg);
  }

  function RequestUnit(ss: Session, call: Call): (a: Answer<()>)
    ensures a.session == ss.(server := Consume(ss.server, call))
  {
    var x := Request(ss, call, WantUnit, false);
    match x.r
    case Err(e) => Answer(x.session, Err(e))
    case Ok(Err(e)) => Answer(x.session, Ok(Err(e)))
    case Ok(Ok(_)) => Answer(x.session, Ok(Ok(())))
  }

  function RequestInt(ss: Session, call: Call): (a: Answer<int32>)
    ensures a.session == ss.(server := Consume(ss.server, call))
  {
    var x := Request(ss, call, WantInt, false);
    match x.r
    case Err(e) => Answer(x.session, Err(e))
    case Ok(Err(e)) => Answer(x.session, Ok(Err(e)))
    case Ok(Ok(p)) => Answer(x.session, Ok(Ok(p.i)))
  }

  function RequestLong(ss: Session, call: Call): (a: Answer<int64>)
    ensures a.session == ss.(server := Consume(ss.server, call))
    ensures a.r.Ok? ==> 0 < |ss.server.replies|
  {
    var x := Request(ss, call, WantLong, false);
    match x.r
    case Err(e) => Answer(x.session, Err(e))
    case Ok(Err(e)) => Answer(x.session, Ok(Err(e)))
    case Ok(Ok(p)) => Answer(x.session, Ok(Ok(p.l)))
  }

  function RequestString(ss: Session, call: Call): (a: Answer<string>)
    ensures a.session == ss.(server := Consume(ss.server, call))
  {
    var x := Request(ss, call, WantString, false);
    match x.r
    case Err(e) => Answer(x.session, Err(e))
    case Ok(Err(e)) => Answer(x.session, Ok(Err(e)))
    case Ok(Ok(p)) => Answer(x.session, Ok(Ok(p.s)))
  }

  /** The identity a new handle object gets. */
  function Fresh(ss: Session): nat
  {
    |ss.handles|
  }

  predicate ValidHandle(ss: Session, h: nat)
  {
    h < |ss.handles|
  }

  /** `isClosed()`: the placeholder always counts as closed. */
  function IsClosed(ss: Session, h: nat): bool
    requires ValidHandle(ss, h)
  {
    match ss.handles[h]
    case NotReadyHandle => true
    case LiveHandle(_, open) => !open
  }

  /** A new placeholder handle. */
  function NewNotReady(ss: Session): (r: (Session, nat))
    ensures Later(ss, r.0) && r.1 == Fresh(ss) && ValidHandle(r.0, r.1)
    ensures r.0.handles[r.1] == NotReadyHandle && r.0.server == ss.server
  {
    (ss.(handles := ss.handles + [NotReadyHandle]), |ss.handles|)
  }

  /**
   * `close()`: the placeholder closes silently; a closed remote handle
   * throws "Not open"; an open one is marked closed before `finalize` is
   * posted, so it ends closed whatever the server answers.
   */
  function CloseHandle(ss: Session, h: nat): (a: Answer<()>)
    requires ValidHandle(ss, h)
    ensures Later(ss, a.session) && ValidHandle(a.session, h)
    ensures IsClosed(a.session, h)
    ensures ss.handles[h].NotReadyHandle? ==> a == Answer(ss, Ok(Ok(())))
    ensures ss.handles[h].LiveHandle? && !ss.handles[h].open ==> a == Answer(ss, Err(NotOpen))
    ensures ss.handles[h].LiveHandle? && ss.handles[h].open ==>
              a.session.server.log == ss.server.log + [Finalize(ss.handles[h].stmt)]
    ensures forall k | 0 <= k < |ss.handles| && k != h :: a.session.handles[k] == ss.handles[k]
    ensures |a.session.handles| == |ss.handles|
  {
    match ss.handles[h]
    case NotReadyHandle => Answer(ss, Ok(Ok(())))
    case LiveHandle(id, open) =>
      if !open then Answer(ss, Err(NotOpen))
      else RequestUnit(ss.(handles := ss.handles[h := LiveHandle(id, false)]), Finalize(id))
  }

  /** The prologue of every other handle operation: the placeholder and closed handles throw. */
  function Target(ss: Session, h: nat): (r: Result<int64>)
    requires ValidHandle(ss, h)
    ensures r.Ok? <==> !IsClosed(ss, h)
    ensures r.Ok? ==> ss.handles[h] == LiveHandle(r.value, true)
    ensures ss.handles[h].NotReadyHandle? ==> r == Err(NotReadyYet)
    ensures ss.handles[h].LiveHandle? && !ss.handles[h].open ==> r == Err(NotOpen)
  {
    match ss.handles[h]
    case NotReadyHandle => Err(NotReadyYet)
    case LiveHandle(id, open) => if open then Ok(id) else Err(NotOpen)
  }

  /** A cell of a `step_by` answer: a JSON array that `fromJSON` reads as `v`. */
  predicate CellReads(c: BlobCodec, cell: Json, v: Value)
  {
    cell.JArray? && FromJson(c, cell.items) == Ok(v)
  }

  /** One row of a `step_by` answer: each cell is a JSON array read by `fromJSON`, left to right. */
  function DecodeRow(c: BlobCodec, cells: seq<Json>): (r: Result<seq<Value>>)
    ensures r.Ok? ==> |r.value| == |cells|
    ensures r.Ok? ==> forall j | 0 <= j < |cells| :: CellReads(c, cells[j], r.value[j])
    decreases |cells|
  {
    if |cells| == 0 then Ok([])
    else
      var items :- AsArray(cells[0]);
      var v :- FromJson(c, items);
      var rest :- DecodeRow(c, cells[1..]);
      Ok([v] + rest)
  }

  /** The rows of a `step_by` answer, each a JSON array of cells. */
  function DecodeRows(c: BlobCodec, rows: seq<Json>): (r: Result<seq<seq<Value>>>)
    ensures r.Ok? ==> |r.value| == |rows|
    ensures r.Ok? ==> forall i | 0 <= i < |rows| ::
                        rows[i].JArray? && DecodeRow(c, rows[i].items) == Ok(r.value[i])
    decreases |rows|
  {
    if |rows| == 0 then Ok([])
    else
      var cells :- AsArray(rows[0]);
      var row :- DecodeRow(c, cells);
      var rest :- DecodeRows(c, rows[1..]);
      Ok([row] + rest)
  }

  predicate RowEncodable(c: BlobCodec, row: seq<Value>)
  {
    forall j | 0 <= j < |row| :: ToJson(c, row[j]).Ok?
  }

  /** How the server writes one row. */
  function EncodeRow(c: BlobCodec, row: seq<Value>): (cells: seq<Json>)
    requires RowEncodable(c, row)
    ensures |cells| == |row|
  {
    seq(|row|, j requires 0 <= j < |row| => JArray(ToJson(c, row[j]).value))
  }

  /** How the server writes a batch of rows. */
  function EncodeRows(c: BlobCodec, rows: seq<seq<Value>>): (j: seq<Json>)
    requires forall i | 0 <= i < |rows| :: RowEncodable(c, rows[i])
    ensures |j| == |rows|
  {
    seq(|rows|, i requires 0 <= i < |rows| => JArray(EncodeRow(c, rows[i])))
  }

  /** Every row written with the same codec is read back unchanged. */
  lemma {:induction false} DecodeEncodeRow(c: BlobCodec, row: seq<Value>)
    requires RowEncodable(c, row)
    ensures DecodeRow(c, EncodeRow(c, row)) == Ok(row)
    decreases |row|
  {
    if |row| > 0 {
      var e := EncodeRow(c, row);
      JsonRoundTrip(c, row[0]);
      assert e[0] == JArray(ToJson(c, row[0]).value);
      assert e[1..] == EncodeRow(c, row[1..]);
      DecodeEncodeRow(c, row[1..]);
      DecodeRowCons(c, e, row[0], row[1..]);
      assert row == [row[0]] + row[1..];
    }
  }

  /** A row whose first cell reads as `v` and whose other cells read as `rest` reads as both. */
  lemma DecodeRowCons(c: BlobCodec, cells: seq<Json>, v: Value, rest: seq<Value>)
    requires |cells| > 0 && CellReads(c, cells[0], v) && DecodeRow(c, cells[1..]) == Ok(rest)
    ensures DecodeRow(c, cells) == Ok([v] + rest)
  {
  }

  /** Every batch written with the same codec is read back unchanged. */
  lemma {:induction false} DecodeEncodeRows(c: BlobCodec, rows: seq<seq<Value>>)
    requires forall i | 0 <= i < |rows| :: RowEncodable(c, rows[i])
    ensures DecodeRows(c, EncodeRows(c, rows)) == Ok(rows)
    decreases |rows|
  {
    if |rows| > 0 {
      var e := EncodeRows(c, rows);
      DecodeEncodeRow(c, rows[0]);
      assert e[0] == JArray(EncodeRow(c, rows[0]));
      assert e[1..] == EncodeRows(c, rows[1..]);
      DecodeEncodeRows(c, rows[1..]);
      assert DecodeRows(c, e) == Ok([rows[0]] + rows[1..]);
      assert rows == [rows[0]] + rows[1..];
    }
  }

  /**
   * `stepBy(n)`: `null` means the statement is done; otherwise each row is
   * decoded, and a cell that does not decode throws.
   */
  function StepByHandle(ss: Session, h: nat, n: int32): (a: Answer<Option<seq<seq<Value>>>>)
    requires ValidHandle(ss, h)
    ensures Later(ss, a.session) && a.session.handles == ss.handles
    ensures Target(ss, h).Err? ==> a == Answer(ss, Err(Target(ss, h).exc))
    ensures Target(ss, h).Ok? ==>
              a.session.server.log == ss.server.log + [StepBy(Target(ss, h).value, n)]
    ensures Target(ss, h).Ok? && NextReply(ss.server) == OkBody(JNull) ==> a.r == Ok(Ok(None))
    ensures Target(ss, h).Ok? && 0 < |ss.server.replies| ==> a.session.server.replies == ss.server.replies[1..]
    ensures a.r.Ok? ==> |a.session.server.replies| < |ss.server.replies|
  {
    match Target(ss, h)
    case Err(e) => Answer(ss, Err(e))
    case Ok(id) =>
      var x := Request(ss, StepBy(id, n), WantArray, true);
      match x.r
      case Err(e) => Answer(x.session, Err(e))
      case Ok(Err(e)) => Answer(x.session, Ok(Err(e)))
      case Ok(Ok(p)) =>
        if p.PNull? then Answer(x.session, Ok(Ok(None)))
        else
          match DecodeRows(ss.codec, p.items)
          case Err(e) => Answer(x.session, Err(e))
          case Ok(rows) => Answer(x.session, Ok(Ok(Some(rows))))
  }

  /** A batch the server writes reaches the caller of `stepBy` unchanged. */
  lemma StepByReadsBatch(ss: Session, h: nat, n: int32, rows: seq<seq<Value>>)
    requires ValidHandle(ss, h) && !IsClosed(ss, h)
    requires forall i | 0 <= i < |rows| :: RowEncodable(ss.codec, rows[i])
    requires NextReply(ss.server) == OkBody(JArray(EncodeRows(ss.codec, rows)))
    ensures StepByHandle(ss, h, n).r == Ok(Ok(Some(rows)))
  {
    DecodeEncodeRows(ss.codec, rows);
    RequestOk(ss, StepBy(Target(ss, h).value, n), PArray(EncodeRows(ss.codec, rows)), true);
  }

  /** The value of a reply that is exactly the server's `ok` answer, and nothing for any other reply. */
  function OkPayload(r: Reply): (j: Option<Json>)
    ensures j.Some? ==> r == OkBody(j.value)
  {
    if r.Delivered? && r.body.Some? && r.body.value.JObject?
       && "ok" in r.body.value.fields && r.body.value.fields == OkReply(r.body.value.fields["ok"])
    then Some(r.body.value.fields["ok"])
    else None
  }

  /** Every `ok` answer is read back as its value. */
  lemma OkPayloadOf(j: Json)
    ensures OkPayload(OkBody(j)) == Some(j)
  {
    assert "ok" in OkReply(j);
  }

  /** The rows of a reply that is an `ok` answer holding rows that decode with the codec `c`. */
  function BatchIn(c: BlobCodec, r: Reply): (b: Option<seq<seq<Value>>>)
    ensures b.Some? ==> OkPayload(r).Some? && OkPayload(r).value.JArray?
                        && DecodeRows(c, OkPayload(r).value.items) == Ok(b.value)
  {
    match OkPayload(r)
    case Some(JArray(items)) =>
      (match DecodeRows(c, items)
       case Ok(rows) => Some(rows)
       case Err(_) => None)
    case _ => None
  }

  /** The count of a reply that is an `ok` answer holding a `Long`. */
  function ChangesIn(r: Reply): (n: Option<int64>)
    ensures n.Some? ==> r == OkBody(JNumber(n.value))
  {
    match OkPayload(r)
    case Some(JNumber(n)) => if IsLong(n) then Some(n) else None
    case _ => None
  }

  /** The batch a reply holds reaches the caller of `stepBy`. */
  lemma StepByReadsReply(ss: Session, h: nat, n: int32)
    requires ValidHandle(ss, h) && !IsClosed(ss, h)
    requires BatchIn(ss.codec, NextReply(ss.server)).Some?
    ensures StepByHandle(ss, h, n).r == Ok(Ok(BatchIn(ss.codec, NextReply(ss.server))))
  {
    var items := OkPayload(NextReply(ss.server)).value.items;
    RequestOk(ss, StepBy(Target(ss, h).value, n), PArray(items), true);
  }

  /** The server writes a batch so that it is read back as that batch. */
  lemma BatchInWritten(c: BlobCodec, rows: seq<seq<Value>>)
    requires forall i | 0 <= i < |rows| :: RowEncodable(c, rows[i])
    ensures BatchIn(c, OkBody(JArray(EncodeRows(c, rows)))) == Some(rows)
  {
    OkPayloadOf(JArray(EncodeRows(c, rows)));
    DecodeEncodeRows(c, rows);
  }

  /** The server writes a count so that it is read back as that count. */
  lemma ChangesInWritten(n: int64)
    ensures ChangesIn(OkBody(JNumber(n))) == Some(n)
  {
    OkPayloadOf(JNumber(n));
  }

  /** An operation of a handle that posts one request once the handle is checked. */
  function OnTarget<T>(ss: Session, h: nat, call: int64 -> Call, read: (Session, Call) -> Answer<T>): (a: Answer<T>)
    requires ValidHandle(ss, h)
    ensures Target(ss, h).Err? ==> a == Answer(ss, Err(Target(ss, h).exc))
    ensures Target(ss, h).Ok? ==> a == read(ss, call(Target(ss, h).value))
  {
    match Target(ss, h)
    case Err(e) => Answer(ss, Err(e))
    case Ok(id) => read(ss, call(id))
  }

  /** `reset()`. */
  function ResetHandle(ss: Session, h: nat): (a: Answer<()>)
    requires ValidHandle(ss, h)
    ensures Later(ss, a.session) && a.session.handles == ss.handles
    ensures Target(ss, h).Err? ==> a == Answer(ss, Err(Target(ss, h).exc))
    ensures Target(ss, h).Ok? ==> a.session.server.log == ss.server.log + [Reset(Target(ss, h).value)]
  {
    OnTarget(ss, h, id => Reset(id), RequestUnit)
  }

  /**
   * `bind(pos, v)`: the value's JSON form is built before the request, so a
   * non-finite real throws without anything being posted.
   */
  function BindHandle(ss: Session, h: nat, pos: One, v: Value): (a: Answer<()>)
    requires ValidHandle(ss, h)
    ensures Later(ss, a.session) && a.session.handles == ss.handles
    ensures Target(ss, h).Err? ==> a == Answer(ss, Err(Target(ss, h).exc))
    ensures Target(ss, h).Ok? && ToJson(ss.codec, v).Err? ==> a == Answer(ss, Err(NonFinite))
    ensures Target(ss, h).Ok? && ToJson(ss.codec, v).Ok? ==>
              a.session.server.log ==
              ss.server.log + [Bind(Target(ss, h).value, pos.value, ToJson(ss.codec, v).value)]
  {
    match Target(ss, h)
    case Err(e) => Answer(ss, Err(e))
    case Ok(id) =>
      match ToJson(ss.codec, v)
      case Err(e) => Answer(ss, Err(e))
      case Ok(j) => RequestUnit(ss, Bind(id, pos.value, j))
  }

  /** `columnNames()`: each element of the array as text. */
  function ColumnNamesHandle(ss: Session, h: nat): (a: Answer<seq<string>>)
    requires ValidHandle(ss, h)
    ensures Later(ss, a.session) && a.session.handles == ss.handles
    ensures Target(ss, h).Err? ==> a == Answer(ss, Err(Target(ss, h).exc))
    ensures Target(ss, h).Ok? ==> a.session.server.log == ss.server.log + [ColumnNames(Target(ss, h).value)]
  {
    match Target(ss, h)
    case Err(e) => Answer(ss, Err(e))
    case Ok(id) =>
      var x := Request(ss, ColumnNames(id), WantArray, false);
      match x.r
      case Err(e) => Answer(x.session, Err(e))
      case Ok(Err(e)) => Answer(x.session, Ok(Err(e)))
      case Ok(Ok(p)) => Answer(x.session, Ok(Ok(seq(|p.items|, i requires 0 <= i < |p.items| => J.Text(p.items[i])))))
  }

  /** How the server writes a list of names. */
  function Strings(names: seq<string>): (j: seq<Json>)
    ensures |j| == |names|
  {
    seq(|names|, i requires 0 <= i < |names| => JString(names[i]))
  }

  /** The names the server lists are the names the caller gets. */
  lemma ColumnNamesRead(ss: Session, h: nat, names: seq<string>)
    requires ValidHandle(ss, h) && !IsClosed(ss, h)
    requires NextReply(ss.server) == OkBody(JArray(Strings(names)))
    ensures ColumnNamesHandle(ss, h).r == Ok(Ok(names))
  {
    RequestOk(ss, ColumnNames(Target(ss, h).value), PArray(Strings(names)), false);
    var items := Strings(names);
    assert seq(|items|, i requires 0 <= i < |items| => J.Text(items[i])) == names;
  }

  /** `bindParameterCount()`. */
  function BindParameterCountHandle(ss: Session, h: nat): (a: Answer<int32>)
    requires ValidHandle(ss, h)
    ensures Later(ss, a.session) && a.session.handles == ss.handles
    ensures Target(ss, h).Err? ==> a == Answer(ss, Err(Target(ss, h).exc))
    ensures Target(ss, h).Ok? ==>
              a.session.server.log == ss.server.log + [BindParameterCount(Target(ss, h).value)]
  {
    OnTarget(ss, h, id => BindParameterCount(id), RequestInt)
  }

  /** `columnCount()`. */
  function ColumnCountHandle(ss: Session, h: nat): (a: Answer<int32>)
    requires ValidHandle(ss, h)
    ensures Later(ss, a.session) && a.session.handles == ss.handles
    ensures Target(ss, h).Err? ==> a == Answer(ss, Err(Target(ss, h).exc))
    ensures Target(ss, h).Ok? ==> a.session.server.log == ss.server.log + [ColumnCount(Target(ss, h).value)]
  {
    OnTarget(ss, h, id => ColumnCount(id), RequestInt)
  }

  /** `columnName(col)`. */
  function ColumnNameHandle(ss: Session, h: nat, col: Zero): (a: Answer<string>)
    requires ValidHandle(ss, h)
    ensures Later(ss, a.session) && a.session.handles == ss.handles
    ensures Target(ss, h).Err? ==> a == Answer(ss, Err(Target(ss, h).exc))
    ensures Target(ss, h).Ok? ==>
              a.session.server.log == ss.server.log + [ColumnName(Target(ss, h).value, col.value)]
  {
    OnTarget(ss, h, id => ColumnName(id, col.value), RequestString)
  }

  /**
   * `clearBindings()`: the placeholder's version is an unimplemented stub,
   * which raises an `Error` rather than an `Exception`.
   */
  function ClearBindingsHandle(ss: Session, h: nat): (a: Answer<bool>)
    requires ValidHandle(ss, h)
    ensures Later(ss, a.session) && a.session.handles == ss.handles
    ensures ss.handles[h].NotReadyHandle? ==> a == Answer(ss, Err(NotImplemented))
    ensures ss.handles[h].LiveHandle? && !ss.handles[h].open ==> a == Answer(ss, Err(NotOpen))
    ensures !IsClosed(ss, h) ==> a.session.server.log == ss.server.log + [ClearBindings(Target(ss, h).value)]
  {
    match ss.handles[h]
    case NotReadyHandle => Answer(ss, Err(NotImplemented))
    case LiveHandle(id, open) =>
      if !open then Answer(ss, Err(NotOpen))
      else
        var x := Request(ss, ClearBindings(id), WantBoolean, false);
        match x.r
        case Err(e) => Answer(x.session, Err(e))
        case Ok(Err(e)) => Answer(x.session, Ok(Err(e)))
        case Ok(Ok(p)) => Answer(x.session, Ok(Ok(p.b)))
  }

  /** `db()`: the placeholder and closed handles throw; otherwise nothing happens. */
  function DbOf(ss: Session, h: nat): (r: Result<()>)
    requires ValidHandle(ss, h)
    ensures r.Ok? <==> !IsClosed(ss, h)
  {
    var _ :- Target(ss, h);
    Ok(())
  }

  /** `prepare(sql)` on the connection: a new open handle for the statement id the server returns. */
  function DbPrepare(ss: Session, sql: string): (a: Answer<nat>)
    ensures Later(ss, a.session)
    ensures a.session.server.log == ss.server.log + [Prepare(sql)]
    ensures a.r.Ok? && a.r.value.Ok? ==>
              a.r.value.value == Fresh(ss) && |a.session.handles| == |ss.handles| + 1
              && a.session.handles[Fresh(ss)].LiveHandle? && a.session.handles[Fresh(ss)].open
    ensures !(a.r.Ok? && a.r.value.Ok?) ==> a.session.handles == ss.handles
  {
    var x := RequestLong(ss, Prepare(sql));
    match x.r
    case Err(e) => Answer(x.session, Err(e))
    case Ok(Err(e)) => Answer(x.session, Ok(Err(e)))
    case Ok(Ok(id)) =>
      Answer(x.session.(handles := x.session.handles + [LiveHandle(id, true)]), Ok(Ok(|ss.handles|)))
  }

  /** The statement id the server returns becomes a new open handle. */
  lemma DbPrepareOk(ss: Session, sql: string, id: int64)
    requires NextReply(ss.server) == OkBody(JNumber(id))
    ensures DbPrepare(ss, sql).r == Ok(Ok(Fresh(ss)))
    ensures DbPrepare(ss, sql).session.handles == ss.handles + [LiveHandle(id, true)]
  {
    RequestOk(ss, Prepare(sql), PLong(id), false);
  }

  /** `execute(sql)` on the connection, without parameters. */
  function DbExecute(ss: Session, sql: string): (a: Answer<int32>)
    ensures Later(ss, a.session) && a.session.handles == ss.handles
    ensures a.session.server.log == ss.server.log + [Execute(sql)]
  {
    RequestInt(ss, Execute(sql))
  }

  /** `changes()`. */
  function DbChanges(ss: Session): (a: Answer<int64>)
    ensures Later(ss, a.session) && a.session.handles == ss.handles
    ensures a.session.server.log == ss.server.log + [Changes]
    ensures 0 < |ss.server.replies| ==> a.session.server.replies == ss.server.replies[1..]
  {
    RequestLong(ss, Changes)
  }

  /** The count the server returns is the count the caller gets. */
  lemma DbChangesOk(ss: Session, n: int64)
    requires NextReply(ss.server) == OkBody(JNumber(n))
    ensures DbChanges(ss).r == Ok(Ok(n))
  {
    RequestOk(ss, Changes, PLong(n), false);
  }

  /** `close()` on the connection. */
  function DbClose(ss: Session): (a: Answer<()>)
    ensures Later(ss, a.session) && a.session.handles == ss.handles
    ensures a.session.server.log == ss.server.log + [CloseDatabase]
  {
    RequestUnit(ss, CloseDatabase)
  }

  /**
   * `ensureAutoCommit(autoCommit, db)`: in auto-commit mode, "BEGIN;" then
   * "COMMIT;" are executed and their results ignored; only a throw
   * escapes.  Otherwise nothing is sent.
   */
  function EnsureAutoCommit(ss: Session, autoCommit: bool): (a: (Session, Result<()>))
    ensures Later(ss, a.0) && a.0.handles == ss.handles
    ensures !autoCommit ==> a == (ss, Ok(()))
    ensures autoCommit && a.1.Ok? ==> a.0.server.log == ss.server.log + [Execute("BEGIN;"), Execute("COMMIT;")]
    ensures autoCommit && a.1.Err? ==>
              a.0.server.log == ss.server.log + [Execute("BEGIN;")]
              || a.0.server.log == ss.server.log + [Execute("BEGIN;"), Execute("COMMIT;")]
  {
    if !autoCommit then (ss, Ok(()))
    else
      var b := DbExecute(ss, "BEGIN;");
      if b.r.Err? then (b.session, Err(b.r.exc))
      else
        var c := DbExecute(b.session, "COMMIT;");
        LaterTransitive(ss, b.session, c.session);
        if c.r.Err? then (c.session, Err(c.r.exc)) else (c.session, Ok(()))
  }

  /**
   * What the refill loop of a statement meets on a queue of replies: the first batch that
   * holds rows and how many replies it takes to reach it (empty batches are
   * skipped), or the end of the rows — a `null` batch, then the change
   * count — and how many replies that takes; anything else is `FoundOther`.
   */
  datatype Found =
    | FoundRows(batch: seq<seq<Value>>, used: nat)
    | FoundEnd(changes: int64, used: nat)
    | FoundOther

  function Scan(c: BlobCodec, replies: seq<Reply>): (f: Found)
    ensures f.FoundRows? ==> 0 < f.used <= |replies| && |f.batch| > 0
    ensures f.FoundEnd? ==> 2 <= f.used <= |replies|
    decreases |replies|
  {
    if |replies| == 0 then FoundOther
    else match BatchIn(c, replies[0])
      case Some(b) =>
        if |b| > 0 then FoundRows(b, 1)
        else (match Scan(c, replies[1..])
              case FoundRows(b', k) => FoundRows(b', k + 1)
              case FoundEnd(n, k) => FoundEnd(n, k + 1)
              case FoundOther => FoundOther)
      case None =>
        if replies[0] == OkBody(JNull) && 1 < |replies| && ChangesIn(replies[1]).Some? then
          FoundEnd(ChangesIn(replies[1]).value, 2)
        else FoundOther
  }

  /**
   * What the scan finds is in the queue: a batch with rows as the last
   * reply it reads, or a `null` batch followed by the change count, and
   * every reply it skips is an empty batch.
   */
  lemma {:induction false} ScanFinds(c: BlobCodec, replies: seq<Reply>)
    ensures var f := Scan(c, replies);
            f.FoundRows? ==> BatchIn(c, replies[f.used - 1]) == Some(f.batch)
    ensures var f := Scan(c, replies);
            f.FoundEnd? ==>
              && replies[f.used - 2] == OkBody(JNull)
              && ChangesIn(replies[f.used - 1]) == Some(f.changes)
    ensures var f := Scan(c, replies);
            !f.FoundOther? ==>
              forall i | 0 <= i < f.used - (if f.FoundRows? then 1 else 2) :: BatchIn(c, replies[i]) == Some([])
    decreases |replies|
  {
    if 0 < |replies| && BatchIn(c, replies[0]) == Some([]) {
      ScanFinds(c, replies[1..]);
    }
  }

  /** The first reply decides: a batch with rows is found at once, and only a batch or a `null` leads anywhere. */
  lemma ScanHead(c: BlobCodec, replies: seq<Reply>)
    ensures var f := Scan(c, replies);
            !f.FoundOther? ==>
              && 0 < |replies|
              && (|| BatchIn(c, replies[0]).Some?
                  || (&& 1 < |replies| && replies[0] == OkBody(JNull) && ChangesIn(replies[1]).Some?
                      && f == FoundEnd(ChangesIn(replies[1]).value, 2)))
    ensures 0 < |replies| && BatchIn(c, replies[0]).Some? && BatchIn(c, replies[0]).value != [] ==>
              Scan(c, replies) == FoundRows(BatchIn(c, replies[0]).value, 1)
  {
  }

  /** An empty batch at the head of the queue is skipped: what follows it is found one reply later. */
  lemma ScanSkips(c: BlobCodec, replies: seq<Reply>)
    requires 0 < |replies| && BatchIn(c, replies[0]) == Some([])
    ensures var f := Scan(c, replies[1..]);
            && (f.FoundRows? ==> Scan(c, replies) == FoundRows(f.batch, f.used + 1))
            && (f.FoundEnd? ==> Scan(c, replies) == FoundEnd(f.changes, f.used + 1))
            && (f.FoundOther? ==> Scan(c, replies).FoundOther?)
            && (!f.FoundOther? ==> replies[f.used + 1..] == replies[1..][f.used..])
  {
  }

  /** Every row of every batch in `bs` can be written by the server with the codec `c`. */
  predicate Writable(c: BlobCodec, bs: seq<seq<seq<Value>>>)
  {
    forall i, j | 0 <= i < |bs| && 0 <= j < |bs[i]| :: RowEncodable(c, bs[i][j])
  }

  /** What is left of writable batches is writable. */
  lemma WritableSuffix(c: BlobCodec, bs: seq<seq<seq<Value>>>, k: nat)
    requires Writable(c, bs) && k <= |bs|
    ensures Writable(c, bs[k..])
  {
    forall i, j | 0 <= i < |bs[k..]| && 0 <= j < |bs[k..][i]| ensures RowEncodable(c, bs[k..][i][j]) {
      assert bs[k..][i] == bs[k + i];
    }
  }

  /** Concatenation regroups. */
  lemma Assoc<T>(a: seq<T>, b: seq<T>, c: seq<T>)
    ensures (a + b) + c == a + (b + c)
  {
  }

  /**
   * A server that answers the refill requests with the batches `bs`, then
   * with `null`, and then the change count request with `n`.
   */
  function Script(c: BlobCodec, bs: seq<seq<seq<Value>>>, n: int64): (rs: seq<Reply>)
    requires Writable(c, bs)
    ensures |rs| == |bs| + 2
    decreases |bs|
  {
    if |bs| == 0 then [OkBody(JNull), OkBody(JNumber(n))]
    else
      WritableSuffix(c, bs, 1);
      [OkBody(JArray(EncodeRows(c, bs[0])))] + Script(c, bs[1..], n)
  }

  /** The rows of the batches `bs`, one batch after the other. */
  function Flatten(bs: seq<seq<seq<Value>>>): (rows: seq<seq<Value>>)
    decreases |bs|
  {
    if |bs| == 0 then [] else bs[0] + Flatten(bs[1..])
  }

  /** A script with no batches: the end of the rows, then the change count. */
  lemma ScriptEnd(c: BlobCodec, n: int64, rest: seq<Reply>)
    ensures Scan(c, Script(c, [], n) + rest) == FoundEnd(n, 2)
  {
    OkPayloadOf(JNull);
    ChangesInWritten(n);
  }

  /** A script opens with its first batch, and the rest is the script of the other batches. */
  lemma ScriptHead(c: BlobCodec, bs: seq<seq<seq<Value>>>, n: int64, rest: seq<Reply>)
    requires Writable(c, bs) && 0 < |bs|
    ensures Writable(c, bs[1..])
    ensures forall j | 0 <= j < |bs[0]| :: RowEncodable(c, bs[0][j])
    ensures (Script(c, bs, n) + rest)[0] == OkBody(JArray(EncodeRows(c, bs[0])))
    ensures (Script(c, bs, n) + rest)[1..] == Script(c, bs[1..], n) + rest
  {
    WritableSuffix(c, bs, 1);
  }

  /**
   * The refill loop over a scripted server: when the batches hold rows it
   * finds the first batch with rows, and what is left of the script is the
   * script of the remaining batches; when they hold none it finds the end
   * of the rows with the change count `n`, after the whole script.
   */
  lemma {:induction false} ScanScript(c: BlobCodec, bs: seq<seq<seq<Value>>>, n: int64, rest: seq<Reply>)
    requires Writable(c, bs)
    ensures var f := Scan(c, Script(c, bs, n) + rest);
            && (Flatten(bs) == [] ==> f == FoundEnd(n, |bs| + 2))
            && (Flatten(bs) != [] ==>
                  && f.FoundRows? && f.used <= |bs|
                  && f.batch + Flatten(bs[f.used..]) == Flatten(bs)
                  && (Script(c, bs, n) + rest)[f.used..] == Script(c, bs[f.used..], n) + rest)
    decreases |bs|
  {
    var rs := Script(c, bs, n) + rest;
    if |bs| == 0 {
      ScriptEnd(c, n, rest);
    } else {
      ScriptHead(c, bs, n, rest);
      BatchInWritten(c, bs[0]);
      if |bs[0]| > 0 {
        ScanHead(c, rs);
        assert Flatten(bs) == bs[0] + Flatten(bs[1..]);
      } else {
        WritableSuffix(c, bs, 1);
        ScanScript(c, bs[1..], n, rest);
        ScanSkips(c, rs);
        assert Flatten(bs) == Flatten(bs[1..]);
        if Flatten(bs) != [] {
          var g := Scan(c, rs[1..]);
          assert bs[g.used + 1..] == bs[1..][g.used..];
        }
      }
    }
  }
}

=== FILE: result_set.dfy ===
/**
 * `ErldbResultSet`: the forward-only cursor over the rows of a statement's
 * query, and the rejections `AbstractErldbResultSet` gives every
 * operation a forward-only, read-only cursor does not support.
 *
 * The cursor lives inside its statement (`Stmt.rs`), so the operations
 * that move it take the statement and its connection; the ones that only
 * read it take the cursor alone.
 */
module ResultSet {
  import opened Errors
  import opened Ints
  import opened SQLiteValue
  import opened ColumnIndex
  import opened Remote
  import opened Chars
  import opened Connection
  import opened Statement
  import Decimal

  const Inconsistent := SqlException("SQLite JDBC: inconsistent internal state")
  const NoColumnSelected := SqlException("No column selected")
  const UnexpectedValueType := SqlException("Unexpected value type")
  const ForwardOnly := SqlException("ResultSet is TYPE_FORWARD_ONLY")
  const NotSupportedBySqlite := FeatureNotSupported("not supported by sqlite")
  const NotImplementedYet := FeatureNotSupported("not implemented")
  const OnlyForward := SqlException("only FETCH_FORWARD direction supported")

  /** `java.sql.ResultSet.FETCH_FORWARD`. */
  const FETCH_FORWARD: int32 := 1000

  /** The message of an index outside `[1, n]`. */
  function OutOfBounds(i: int, n: nat): (e: Exception)
    ensures e.SqlException?
  {
    SqlException("column " + Decimal.ShowInt(i) + " out of bounds [1," + Decimal.ShowInt(n) + "]")
  }

  /** `checkOpen()`. */
  function CheckOpen(r: Rs): (x: Result<()>)
    ensures x.Ok? <==> r.open
    ensures x.Err? ==> x.exc == ResultSetClosed
  {
    if r.open then Ok(()) else Err(ResultSetClosed)
  }

  /** The one-based indices of the result set's columns. */
  predicate InColumns(r: Rs, i: int)
  {
    1 <= i <= |r.cols|
  }

  /**
   * `checkCol(index)`: an open result set with its column names known,
   * and an index among them, gives the zero-based index.
   */
  function CheckCol(r: Rs, i: One): (x: Result<Zero>)
    ensures x.Ok? <==> r.open && r.cols != [] && InColumns(r, i.value)
    ensures x.Ok? ==> x.value.value == i.value - 1 && x.value == ToZero(i)
    ensures !r.open ==> x == Err(ResultSetClosed)
    ensures r.open && r.cols == [] ==> x == Err(Inconsistent)
    ensures r.open && r.cols != [] && !InColumns(r, i.value) ==> x == Err(OutOfBounds(i.value, |r.cols|))
  {
    if !r.open then Err(ResultSetClosed)
    else if r.cols == [] then Err(Inconsistent)
    else if !(1 <= i.value <= |r.cols|) then Err(OutOfBounds(i.value, |r.cols|))
    else Ok(ToZero(i))
  }

  /** `markCol(index)`: the index becomes the last column read only once it has passed the check. */
  function MarkCol(r: Rs, i: One): (x: Result<(Rs, Zero)>)
    ensures x.Ok? <==> CheckCol(r, i).Ok?
    ensures x.Err? ==> x.exc == CheckCol(r, i).exc
    ensures x.Ok? ==> x.value == (r.(lastCol := Some(i)), CheckCol(r, i).value)
  {
    var z :- CheckCol(r, i);
    Ok((r.(lastCol := Some(i)), z))
  }

  /** Cell `k` (zero-based) of a row: a row shorter than its columns gives an index error. */
  function Cell(row: seq<Value>, k: nat): (x: Result<Value>)
    ensures x.Ok? <==> k < |row|
    ensures x.Ok? ==> x.value == row[k]
    ensures x.Err? ==> x.exc == IndexOutOfBounds
  {
    if k < |row| then Ok(row[k]) else Err(IndexOutOfBounds)
  }

  /**
   * `getColumn(index)` on the current row: `null` when there is no
   * current row.
   */
  function Column(r: Rs, i: One): (x: Result<Option<Value>>)
    ensures r.current.None? ==> x == Ok(None)
    ensures r.current.Some? ==>
              && (x.Ok? <==> i.value <= |r.current.value|)
              && (x.Ok? ==> x.value == Some(r.current.value[i.value - 1]))
  {
    match r.current
    case None => Ok(None)
    case Some(row) =>
      var v :- Cell(row, ToZero(i).value);
      Ok(Some(v))
  }

  /**
   * A getter's outcome: the cursor after the call and the value read or the
   * exception thrown.  The cursor is returned on failure too, because the
   * last column read is remembered before the cell is fetched and
   * converted, and a read that throws after that point leaves it moved.
   */
  datatype Read<T> = Read(rs: Rs, r: Result<T>)

  /** `markCol(index)` passes its checks, and so moves the last column read. */
  predicate Marks(r: Rs, index: int)
  {
    r.open && r.cols != [] && InColumns(r, index)
  }

  /**
   * `retrieveAndMarkColumn(index)`: the open check, the index checked and
   * remembered as the last column read, and that column of the current
   * row.  Once the index is remembered it stays so, even when the current
   * row turns out too short to hold it.
   */
  function Retrieve(r: Rs, index: int32): (x: Read<Option<Value>>)
    ensures x.r.Ok? <==> Marks(r, index) && (r.current.None? || index <= |r.current.value|)
    ensures Marks(r, index) ==> x.rs == r.(lastCol := Some(One(index)))
    ensures !Marks(r, index) ==> x.rs == r
    ensures x.r.Ok? && r.current.None? ==> x.r.value.None?
    ensures x.r.Ok? && r.current.Some? ==> x.r.value == Some(r.current.value[index - 1])
    ensures Marks(r, index) && r.current.Some? && index > |r.current.value| ==> x.r == Err(IndexOutOfBounds)
    ensures !r.open ==> x.r == Err(ResultSetClosed)
    ensures r.open && index < 1 ==> x.r == Err(OneTooSmall)
  {
    if !r.open then Read(r, Err(ResultSetClosed))
    else
      match NewOne(index)
      case Err(e) => Read(r, Err(e))
      case Ok(i) =>
        match MarkCol(r, i)
        case Err(e) => Read(r, Err(e))
        case Ok(m) => Read(m.0, Column(m.0, i))
  }

  /** `getLastColumn()`: the last column read, in the current row; `null` without either. */
  function LastColumn(r: Rs): (x: Result<Option<Value>>)
    ensures r.lastCol.None? || r.current.None? ==> x == Ok(None)
    ensures r.lastCol.Some? && r.current.Some? ==> x == Column(r, r.lastCol.value)
  {
    match r.lastCol
    case None => Ok(None)
    case Some(i) => Column(r, i)
  }

  /**
   * `wasNull()`: whether the last column read holds SQL `NULL`; without a
   * column read on a current row it throws.
   */
  function WasNull(r: Rs): (x: Result<bool>)
    ensures !r.open ==> x == Err(ResultSetClosed)
    ensures r.open && (r.lastCol.None? || r.current.None?) ==> x == Err(NoColumnSelected)
    ensures x.Ok? ==>
              && r.open && r.lastCol.Some? && r.current.Some?
              && r.lastCol.value.value <= |r.current.value|
              && (x.value <==> r.current.value[r.lastCol.value.value - 1].Null?)
  {
    var _ :- CheckOpen(r);
    var last :- LastColumn(r);
    match last
    case None => Err(NoColumnSelected)
    case Some(v) => Ok(v.Null?)
  }

  /**
   * Reading a cell and then asking `wasNull()` answers whether that cell
   * was `NULL`; with no current row, `wasNull()` throws.
   */
  lemma {:induction false} WasNullAfterRetrieve(r: Rs, index: int32)
    requires Retrieve(r, index).r.Ok?
    ensures var x := Retrieve(r, index);
            && (x.r.value.Some? ==> WasNull(x.rs) == Ok(x.r.value.value.Null?))
            && (x.r.value.None? ==> WasNull(x.rs) == Err(NoColumnSelected))
  {
    var x := Retrieve(r, index);
    assert x.rs.lastCol == Some(One(index as int64));
    if r.current.Some? {
      assert LastColumn(x.rs) == Column(x.rs, One(index as int64));
    }
  }

  /**
   * `wasNull()` after any read that got past `markCol`, whatever the read
   * itself returned or threw: it answers about the column just marked.
   */
  lemma {:induction false} WasNullAfterMark(r: Rs, index: int32)
    requires Marks(r, index)
    ensures r.current.None? ==> WasNull(Retrieve(r, index).rs) == Err(NoColumnSelected)
    ensures r.current.Some? && index <= |r.current.value| ==>
              WasNull(Retrieve(r, index).rs) == Ok(r.current.value[index - 1].Null?)
    ensures r.current.Some? && index > |r.current.value| ==>
              WasNull(Retrieve(r, index).rs) == Err(IndexOutOfBounds)
  {
    var rs := Retrieve(r, index).rs;
    assert rs.lastCol == Some(One(index as int64));
    if r.current.Some? {
      assert LastColumn(rs) == Column(rs, One(index as int64));
    }
  }

  /**
   * The nullable getters (`getString`, `getBytes`, and the other
   * reference-typed ones): the cell read as the host type, `null` for a
   * `NULL` cell or no current row.  A conversion that fails leaves the
   * column marked.
   */
  function Get(r: Rs, index: int32, t: HostType): (x: Read<Option<HostValue>>)
    ensures x.rs == Retrieve(r, index).rs
    ensures Retrieve(r, index).r.Err? ==> x.r == Err(Retrieve(r, index).r.exc)
    ensures Retrieve(r, index).r.Ok? && Retrieve(r, index).r.value.Some? ==>
              x.r == Into(Retrieve(r, index).r.value.value, t)
    ensures Retrieve(r, index).r.Ok? && Retrieve(r, index).r.value.None? ==> x.r == Ok(None)
  {
    var g := Retrieve(r, index);
    match g.r
    case Err(e) => Read(g.rs, Err(e))
    case Ok(None) => Read(g.rs, Ok(None))
    case Ok(Some(v)) => Read(g.rs, Into(v, t))
  }

  /**
   * The primitive getters (`getInt`, `getLong`, `getDouble`, and through
   * them `getByte`, `getShort`, `getFloat`): a `NULL` cell, or no current
   * row, is an error rather than `null`, thrown after the column is marked.
   */
  function Require(r: Rs, index: int32, t: HostType): (x: Read<HostValue>)
    ensures x.rs == Retrieve(r, index).rs
    ensures Get(r, index, t).r.Err? ==> x.r == Err(Get(r, index, t).r.exc)
    ensures Get(r, index, t).r == Ok(None) ==> x.r == Err(UnexpectedValueType)
    ensures x.r.Ok? <==> Get(r, index, t).r.Ok? && Get(r, index, t).r.value.Some?
    ensures x.r.Ok? ==> x.r.value == Get(r, index, t).r.value.value
  {
    var g := Get(r, index, t);
    match g.r
    case Err(e) => Read(g.rs, Err(e))
    case Ok(None) => Read(g.rs, Err(UnexpectedValueType))
    case Ok(Some(h)) => Read(g.rs, Ok(h))
  }

  /**
   * `getInt(index)` reads an `INTEGER` cell truncated to 32 bits; a cell
   * of any other storage class is refused.
   */
  lemma GetIntOfInteger(r: Rs, index: int32)
    requires Retrieve(r, index).r.Ok? && Retrieve(r, index).r.value.Some?
    ensures var v := Retrieve(r, index).r.value.value;
            && (Require(r, index, TInt).r.Ok? <==> v.Integer?)
            && (v.Integer? ==> Require(r, index, TInt).r.value == HInt(ToInt(v.i)))
  {
  }

  /** `getBoolean(index)`: `getInt(index) != 0`. */
  function GetBoolean(r: Rs, index: int32): (x: Read<bool>)
    ensures x.rs == Retrieve(r, index).rs
    ensures x.r.Ok? <==> Require(r, index, TInt).r.Ok?
    ensures x.r.Ok? ==> (x.r.value <==> Require(r, index, TInt).r.value.n32 != 0)
    ensures x.r.Err? ==> x.r.exc == Require(r, index, TInt).r.exc
  {
    var g := Require(r, index, TInt);
    match g.r
    case Err(e) => Read(g.rs, Err(e))
    case Ok(h) => if h.HInt? then Read(g.rs, Ok(h.n32 != 0)) else assert false; Read(g.rs, Err(UnexpectedValueType))
  }

  /** `getObject(index)`: the cell as the JVM value its storage class maps to. */
  function GetObject(r: Rs, index: int32): (x: Read<Option<HostValue>>)
    ensures x.rs == Retrieve(r, index).rs
    ensures x.r.Ok? <==> Retrieve(r, index).r.Ok?
    ensures x.r.Err? ==> x.r.exc == Retrieve(r, index).r.exc
    ensures x.r.Ok? && Retrieve(r, index).r.value.Some? ==>
              x.r.value == Some(ToAny(Retrieve(r, index).r.value.value))
    ensures x.r.Ok? && Retrieve(r, index).r.value.None? ==> x.r.value.None?
  {
    var g := Retrieve(r, index);
    match g.r
    case Err(e) => Read(g.rs, Err(e))
    case Ok(None) => Read(g.rs, Ok(None))
    case Ok(Some(v)) => Read(g.rs, Ok(Some(ToAny(v))))
  }

  /**
   * `getString(2)` and then `getInt(1)` on a row `['a', NULL]`: `getInt`
   * refuses the text cell, but only after marking column 1, so `wasNull()`
   * answers about the text cell and no longer about the `NULL` one.
   */
  lemma WasNullAfterFailedGetInt()
    ensures var r := Rs(false, true, ["x", "y"], 1, Some([Text("a"), Null]), None);
            var s := Get(r, 2, TString).rs;
            && WasNull(s) == Ok(true)
            && Require(s, 1, TInt).r == Err(SqlException("Unsupported type: java.lang.Integer"))
            && WasNull(Require(s, 1, TInt).rs) == Ok(false)
  {
    var r := Rs(false, true, ["x", "y"], 1, Some([Text("a"), Null]), None);
    WasNullAfterMark(r, 2);
    var s := Get(r, 2, TString).rs;
    WasNullAfterMark(s, 1);
    IntoTextAsInt("a");
  }

  /** `getInt` on a `NULL` cell throws, and `wasNull()` then answers that the cell was `NULL`. */
  lemma WasNullAfterNullGetInt()
    ensures var r := Rs(false, true, ["x", "y"], 1, Some([Text("a"), Null]), None);
            && Require(r, 2, TInt).r == Err(UnexpectedValueType)
            && WasNull(Require(r, 2, TInt).rs) == Ok(true)
  {
    var r := Rs(false, true, ["x", "y"], 1, Some([Text("a"), Null]), None);
    WasNullAfterMark(r, 2);
  }

  /**
   * The first position in `cols` whose name equals `name` ignoring case,
   * under the case tables `m`.
   */
  function FirstMatch(m: CaseMap, cols: seq<string>, name: string): (k: Option<nat>)
    ensures k.Some? ==> k.value < |cols| && EqualsIgnoreCase(m, cols[k.value], name)
    ensures k.Some? ==> forall j | 0 <= j < k.value :: !EqualsIgnoreCase(m, cols[j], name)
    ensures k.None? ==> forall j | 0 <= j < |cols| :: !EqualsIgnoreCase(m, cols[j], name)
  {
    if |cols| == 0 then None
    else if EqualsIgnoreCase(m, cols[0], name) then Some(0)
    else
      match FirstMatch(m, cols[1..], name)
      case None => None
      case Some(k) => Some(k + 1)
  }

  /**
   * `findColumn(name)`: the one-based index of the first column whose
   * name matches the name ignoring case; no match throws.
   */
  function FindColumn(m: CaseMap, r: Rs, name: string): (x: Result<int32>)
    ensures !r.open ==> x == Err(ResultSetClosed)
    ensures r.open && FirstMatch(m, r.cols, name).None? ==> x == Err(SqlException("Column " + name + " not found"))
    ensures x.Ok? ==> r.open && FirstMatch(m, r.cols, name).Some? && x.value == ToInt(FirstMatch(m, r.cols, name).value + 1)
  {
    var _ :- CheckOpen(r);
    match FirstMatch(m, r.cols, name)
    case None => Err(SqlException("Column " + name + " not found"))
    case Some(k) => Ok(ToInt(k + 1))
  }

  /**
   * Looking a column up by its own name finds it, unless an earlier
   * column has the same name ignoring case.
   */
  lemma {:induction false} FindOwnColumn(m: CaseMap, r: Rs, k: nat)
    requires r.open && k < |r.cols| < INT_MAX
    requires forall j | 0 <= j < k :: !EqualsIgnoreCase(m, r.cols[j], r.cols[k])
    ensures FindColumn(m, r, r.cols[k]) == Ok(k + 1)
  {
    assert EqualsIgnoreCase(m, r.cols[k], r.cols[k]);
  }

  /**
   * The label getters: `findColumn(label)`, then the index getter.  A
   * label that matches reads the first matching column; one that matches
   * none throws before anything is marked.
   */
  function GetByLabel(m: CaseMap, r: Rs, name: string, t: HostType): (x: Read<Option<HostValue>>)
    ensures FindColumn(m, r, name).Err? ==> x == Read(r, Err(FindColumn(m, r, name).exc))
    ensures FindColumn(m, r, name).Ok? ==> x == Get(r, FindColumn(m, r, name).value, t)
  {
    match FindColumn(m, r, name)
    case Err(e) => Read(r, Err(e))
    case Ok(index) => Get(r, index, t)
  }

  /** Reading by a column's own name reads that column, and remembers it as the last column read. */
  lemma ByLabelReadsColumn(m: CaseMap, r: Rs, k: nat, t: HostType)
    requires r.open && k < |r.cols| < INT_MAX
    requires forall j | 0 <= j < k :: !EqualsIgnoreCase(m, r.cols[j], r.cols[k])
    requires r.current.Some? && k < |r.current.value|
    ensures GetByLabel(m, r, r.cols[k], t).rs.lastCol == Some(One(k + 1))
    ensures GetByLabel(m, r, r.cols[k], t).r == Into(r.current.value[k], t)
  {
    FindOwnColumn(m, r, k);
  }

  /** `isBeforeFirst()`. */
  function IsBeforeFirst(r: Rs): (x: Result<bool>)
    ensures x.Ok? <==> r.open
    ensures x.Ok? ==> (x.value <==> r.currentRow == 0)
  {
    var _ :- CheckOpen(r);
    Ok(r.currentRow == 0)
  }

  /** `isAfterLast()`. */
  function IsAfterLast(r: Rs): (x: Result<bool>)
    ensures x.Ok? <==> r.open
    ensures x.Ok? ==> (x.value <==> r.pastLastRow)
  {
    var _ :- CheckOpen(r);
    Ok(r.pastLastRow)
  }

  /** `isFirst()`. */
  function IsFirst(r: Rs): (x: Result<bool>)
    ensures x.Ok? <==> r.open
    ensures x.Ok? ==> (x.value <==> r.currentRow == 1)
  {
    var _ :- CheckOpen(r);
    Ok(r.currentRow == 1)
  }

  /** `getRow()`: the row number, truncated to an `Int`. */
  function GetRow(r: Rs): (x: Result<int32>)
    ensures x.Ok? <==> r.open
    ensures x.Ok? && IsInt(r.currentRow) ==> x.value == r.currentRow
  {
    var _ :- CheckOpen(r);
    Ok(ToInt(r.currentRow))
  }

  /** `isClosed()`. */
  function IsClosed(r: Rs): (b: bool)
    ensures b <==> CheckOpen(r).Err?
  {
    !r.open
  }

  /** A cursor that stays within the statement's row limit, when it has one. */
  predicate WithinLimit(r: Rs, maxRows: int64)
  {
    maxRows == 0 || 0 <= r.currentRow <= maxRows
  }

  /**
   * `after` is `before` moved one row on: still open, on a row, with no
   * column read yet and the row number one higher.
   */
  predicate Moved(before: Rs, after: Rs)
  {
    && after.open && !after.pastLastRow && after.lastCol.None? && after.current.Some?
    && after.currentRow == ToLong(before.currentRow + 1)
  }

  /**
   * The move of `next()` once the row limit allows it: the last column
   * read is forgotten and the statement's next row becomes the current
   * row; no row left puts the cursor past the end.
   */
  method Advance(c: Conn, s: Stmt) returns (o: After<bool>)
    requires Attached(c, s) && s.rs.Some? && s.rs.value.open && !s.rs.value.pastLastRow
    ensures Attached(o.conn, o.stmt) && Follows(c, o.conn)
    ensures o.r.Ok? ==> o.stmt.rs.Some?
    ensures o.r == Ok(true) ==> Moved(s.rs.value, o.stmt.rs.value)
    ensures o.r == Ok(true) && |s.buffer| > 0 ==>
              o.conn == c && [o.stmt.rs.value.current.value] + o.stmt.buffer == s.buffer
    ensures o.r == Ok(false) ==>
              o.stmt.rs == Some(s.rs.value.(lastCol := None, pastLastRow := true, current := None)) && o.stmt.exhausted
    ensures o.r.Ok? && WithinLimit(s.rs.value, s.maxRows) && (s.maxRows == 0 || s.rs.value.currentRow != s.maxRows) ==>
              WithinLimit(o.stmt.rs.value, s.maxRows)
  {
    var r := s.rs.value.(lastCol := None);
    var p := ConsumeRow(c, s.(rs := Some(r)));
    if p.r.Err? {
      return After(p.conn, p.stmt, Err(p.r.exc));
    }
    if p.r.value.None? {
      return After(p.conn, p.stmt.(rs := Some(r.(pastLastRow := true, current := None))), Ok(false));
    }
    o := After(p.conn, p.stmt.(rs := Some(r.(currentRow := ToLong(r.currentRow + 1), current := p.r.value))), Ok(true));
  }

  /**
   * `next()` on an open cursor not yet past the end: the last column read
   * is forgotten, and the cursor moves unless it has reached the
   * statement's row limit.
   */
  method Forward(c: Conn, s: Stmt) returns (o: After<bool>)
    requires Attached(c, s) && s.rs.Some? && s.rs.value.open && !s.rs.value.pastLastRow
    ensures Attached(o.conn, o.stmt) && Follows(c, o.conn)
    ensures s.maxRows != 0 && s.rs.value.currentRow == s.maxRows ==>
              o == After(c, s.(rs := Some(s.rs.value.(lastCol := None))), Ok(false))
    ensures o.r.Ok? ==> o.stmt.rs.Some?
    ensures o.r == Ok(true) ==> Moved(s.rs.value, o.stmt.rs.value)
    ensures o.r == Ok(true) && |s.buffer| > 0 ==>
              o.conn == c && [o.stmt.rs.value.current.value] + o.stmt.buffer == s.buffer
    ensures o.r.Ok? && WithinLimit(s.rs.value, s.maxRows) ==> WithinLimit(o.stmt.rs.value, s.maxRows)
  {
    if s.maxRows != 0 && s.rs.value.currentRow == s.maxRows {
      LaterRefl(c.session);
      return After(c, s.(rs := Some(s.rs.value.(lastCol := None))), Ok(false));
    }
    o := Advance(c, s);
  }

  /**
   * `next()`: a closed cursor throws; a cursor past the end stays there
   * and answers `false` without touching anything; otherwise it moves.
   */
  method Next(c: Conn, s: Stmt) returns (o: After<bool>)
    requires Attached(c, s) && s.rs.Some?
    ensures Attached(o.conn, o.stmt) && Follows(c, o.conn)
    ensures !s.rs.value.open ==> o == After(c, s, Err(ResultSetClosed))
    ensures s.rs.value.open && s.rs.value.pastLastRow ==> o == After(c, s, Ok(false))
    ensures s.rs.value.open && !s.rs.value.pastLastRow && s.maxRows != 0 && s.rs.value.currentRow == s.maxRows ==>
              o == After(c, s.(rs := Some(s.rs.value.(lastCol := None))), Ok(false))
    ensures o.r.Ok? ==> o.stmt.rs.Some?
    ensures o.r == Ok(true) ==> Moved(s.rs.value, o.stmt.rs.value)
    ensures o.r == Ok(true) && |s.buffer| > 0 ==>
              o.conn == c && [o.stmt.rs.value.current.value] + o.stmt.buffer == s.buffer
    ensures o.r.Ok? && WithinLimit(s.rs.value, s.maxRows) ==> WithinLimit(o.stmt.rs.value, s.maxRows)
  {
    if !s.rs.value.open {
      LaterRefl(c.session);
      return After(c, s, Err(ResultSetClosed));
    }
    if s.rs.value.pastLastRow {
      LaterRefl(c.session);
      return After(c, s, Ok(false));
    }
    o := Forward(c, s);
  }

  /**
   * Every step of the cursor keeps it within the statement's row limit:
   * `next()` answers `true` at most `maxRows` times from the first row.
   */
  lemma {:induction false} LimitStops(r: Rs, maxRows: int64)
    requires WithinLimit(r, maxRows) && maxRows != 0 && r.currentRow == maxRows
    ensures !WithinLimit(r.(currentRow := ToLong(r.currentRow + 1)), maxRows)
  {
  }

  /** The repositioning calls a forward-only cursor refuses. */
  datatype Move =
    | BeforeFirst | AfterLast | First | Last
    | Absolute(row: int32) | Relative(rows: int32) | Previous
    | InsertRow | MoveToInsertRow | MoveToCurrentRow

  /** `beforeFirst()`, `first()`, `absolute(n)` and the others: always refused. */
  function Reposition(m: Move): (x: Result<bool>)
    ensures x == Err(ForwardOnly)
  {
    Err(ForwardOnly)
  }

  /** `isLast()`: not supported. */
  function IsLast(r: Rs): (x: Result<bool>)
    ensures x == Err(NotSupportedBySqlite)
  {
    Err(NotSupportedBySqlite)
  }

  /** The `update*` calls, `updateRow`, `deleteRow`, `refreshRow` and `cancelRowUpdates`: not implemented. */
  function UpdateCall(r: Rs): (x: Result<()>)
    ensures x == Err(NotImplementedYet)
  {
    Err(NotImplementedYet)
  }

  /** `setFetchDirection(d)`: only forward fetching is accepted. */
  function SetFetchDirection(d: int32): (x: Result<()>)
    ensures x.Ok? <==> d == FETCH_FORWARD
    ensures x.Err? ==> x.exc == OnlyForward
  {
    if d != FETCH_FORWARD then Err(OnlyForward) else Ok(())
  }

  /** `getFetchDirection()`. */
  function GetFetchDirection(): (d: int32)
    ensures SetFetchDirection(d).Ok?
  {
    FETCH_FORWARD
  }

  /** The direction read back is the only one that can be set. */
  lemma FetchDirectionRoundTrip(d: int32)
    ensures SetFetchDirection(d).Ok? <==> d == GetFetchDirection()
  {
  }

  /** `setFetchSize(n)` and `getFetchSize()`: not implemented. */
  function FetchSize(): (x: Result<int32>)
    ensures x == Err(NotImplementedYet)
  {
    Err(NotImplementedYet)
  }
}

=== FILE: server_files.dfy ===
/**
 * Where the server keeps its databases: a bucket is a directory under the
 * server's home and a file a database inside it, each named by the
 * URL-safe, unpadded base64 of the name the client chose (a file's with
 * ".db" after it).  Listing reads the names back from the directory
 * entries.  A name is modelled as its UTF-8 bytes; `from_utf8_lossy` gives
 * back a string's own bytes unchanged, so it does not appear.
 */
module ServerFiles {
  import opened Errors
  import opened Base64

  const DB_SUFFIX := ".db"

  /** `mangle_bucket`: the directory name of a bucket. */
  function MangleBucket(name: seq<byte>): (d: string)
    ensures AllInAlphabet(UrlSafe, d)
  {
    EncodeUrlNoPad(name)
  }

  /** `mangle_filename`: the file name of a database. */
  function MangleFilename(name: seq<byte>): (f: string)
    ensures |f| >= |DB_SUFFIX| && f[|f| - |DB_SUFFIX|..] == DB_SUFFIX
    ensures AllInAlphabet(UrlSafe, f[..|f| - |DB_SUFFIX|])
  {
    var e := EncodeUrlNoPad(name);
    assert (e + DB_SUFFIX)[..|e|] == e;
    e + DB_SUFFIX
  }

  /** No symbol of either base64 alphabet is a dot. */
  lemma NoDotInAlphabet(a: Alphabet, s: string)
    requires AllInAlphabet(a, s)
    ensures '.' !in s
  {
    forall i | 0 <= i < |s|
      ensures s[i] != '.'
    {
      assert InAlphabet(a, s[i]);
    }
  }

  /** The position of the last '.' of a name, if it has one. */
  function LastDot(f: string): (k: Option<nat>)
    ensures k.Some? ==> k.value < |f| && f[k.value] == '.' && '.' !in f[k.value + 1..]
    ensures k.None? ==> '.' !in f
  {
    if |f| == 0 then None
    else if f[|f| - 1] == '.' then Some(|f| - 1)
    else
      var k := LastDot(f[..|f| - 1]);
      if k.None? then
        assert f == f[..|f| - 1] + [f[|f| - 1]];
        None
      else
        assert f[k.value + 1..] == f[..|f| - 1][k.value + 1..] + [f[|f| - 1]];
        k
  }

  /**
   * Rust's `Path::file_stem` on a directory entry's name: the name up to
   * its last dot, except that a name with no dot, or whose only dot is
   * its first character (".db"), is its own stem.
   */
  function FileStem(f: string): (s: string)
    ensures |s| <= |f| && s == f[..|s|]
    ensures s != f ==> 0 < |s| && f[|s|] == '.' && '.' !in f[|s| + 1..]
    ensures '.' !in f ==> s == f
  {
    match LastDot(f)
    case None => f
    case Some(k) => if k == 0 then f else f[..k]
  }

  /**
   * `get_filename`: the name a listed entry stands for, the decoded stem
   * of the entry's name; an entry whose stem is not URL-safe base64 is
   * skipped.
   */
  function GetFilename(f: string): (n: Option<seq<byte>>)
    ensures n.Some? ==> AllInAlphabet(UrlSafe, FileStem(f))
  {
    var d := DecodeUrlNoPad(FileStem(f));
    if d.None? then None
    else
      DecodedInAlphabet(UrlSafe, FileStem(f), true);
      d
  }

  /**
   * Every non-empty database name is listed back as itself, and so is
   * every non-empty bucket name.
   */
  lemma {:induction false} FilenameRoundTrip(name: seq<byte>)
    requires |name| > 0
    ensures GetFilename(MangleFilename(name)) == Some(name)
    ensures GetFilename(MangleBucket(name)) == Some(name)
  {
    var e := EncodeUrlNoPad(name);
    var f := MangleFilename(name);
    assert |e| > 0;
    NoDotInAlphabet(UrlSafe, e);
    assert f[|e|] == '.' && f[|e| + 1..] == "db";
    assert LastDot(f) == Some(|e|) by {
      assert f[..|f| - 1] == e + ".d";
      assert f[..|f| - 1][..|f| - 2] == e + ".";
    }
    assert FileStem(f) == e;
    UrlNoPadBijection(name, e);
  }

  /**
   * The empty name is stored as ".db", which is its own stem and not
   * base64: a database created under the empty name is never listed.
   */
  lemma EmptyFilenameNotListed()
    ensures MangleFilename([]) == DB_SUFFIX
    ensures GetFilename(MangleFilename([])) == None
  {
    assert EncodeUrlNoPad([]) == "";
    assert LastDot(DB_SUFFIX) == Some(0) by {
      assert LastDot(".d") == Some(0) by {
        assert LastDot(".") == Some(0);
      }
    }
    assert FileStem(DB_SUFFIX) == DB_SUFFIX;
    assert !InAlphabet(UrlSafe, DB_SUFFIX[0]);
  }

  /**
   * The name a database file stands for, read by dropping the ".db"
   * suffix it was stored with, as `database_list` does, rather than
   * taking the stem.
   */
  function GetFilenameFixed(f: string): (n: Option<seq<byte>>)
    ensures n.Some? ==> |f| >= |DB_SUFFIX| && f[|f| - |DB_SUFFIX|..] == DB_SUFFIX
  {
    if |f| >= |DB_SUFFIX| && f[|f| - |DB_SUFFIX|..] == DB_SUFFIX then
      DecodeUrlNoPad(f[..|f| - |DB_SUFFIX|])
    else None
  }

  /**
   * With the suffix dropped, listing is the exact inverse of naming: every
   * database name, the empty one included, is listed back as itself, and a
   * listed entry is the file of the name it is listed as.
   */
  lemma FixedFilenameRoundTrip(name: seq<byte>, f: string)
    ensures GetFilenameFixed(MangleFilename(name)) == Some(name)
    ensures GetFilenameFixed(f) == Some(name) ==> f == MangleFilename(name)
  {
    var e := EncodeUrlNoPad(name);
    assert MangleFilename(name)[..|e|] == e;
    UrlNoPadBijection(name, e);
    if GetFilenameFixed(f) == Some(name) {
      UrlNoPadBijection(name, f[..|f| - |DB_SUFFIX|]);
      assert f == f[..|f| - |DB_SUFFIX|] + f[|f| - |DB_SUFFIX|..];
    }
  }
}

=== FILE: sqlite_value.dfy ===
/**
 * `SQLiteValue`: the driver's representation of one cell, its conversions to
 * and from JVM values, and its JSON form `[tag, payload]` on the wire.
 */
module SQLiteValue {
  import opened Errors
  import opened Ints
  import opened Doubles
  import opened Json
  import Base64

  type byte = Base64.byte

  /**
   * One of SQLite's five storage classes.  Kotlin's `Null` carries an
   * arbitrary payload that nothing reads; the model drops it.  Blobs compare
   * by content, as the Kotlin class overrides `equals` to do.
   */
  datatype Value =
    | Null
    | Integer(i: int64)
    | Real(d: Double)
    | Text(s: string)
    | Blob(bytes: seq<byte>)

  /** The wire tag of each storage class. */
  function Tag(v: Value): (t: nat)
    ensures t < 5
  {
    match v
    case Null => 0
    case Integer(_) => 1
    case Real(_) => 2
    case Text(_) => 3
    case Blob(_) => 4
  }

  /**
   * A JVM value handed to or returned by the driver.  A `Float` is kept as
   * a double bit pattern, without the rounding to single precision that
   * `toFloat()` applies; a `LocalDateTime` as its `toString()` text.
   */
  datatype HostValue =
    | HNull
    | HBoolean(b: bool)
    | HByte(n8: int8)
    | HShort(n16: int16)
    | HInt(n32: int32)
    | HLong(n64: int64)
    | HFloat(f: Double)
    | HDouble(d: Double)
    | HString(s: string)
      /** A `CharArray`, or an `Array<Char>` when `boxed`. */
    | HCharArray(chars: string, boxedChars: bool)
      /** A `ByteArray`, or an `Array<Byte>` when `boxed`. */
    | HByteArray(bytes: seq<byte>, boxed: bool)
    | HLocalDateTime(iso: string)
    | HOther(className: string)

  /** The type arguments `into<T>()` is instantiated with. */
  datatype HostType =
    | TByte | TShort | TInt | TLong
    | TFloat | TDouble
    | TString | TCharArray | TBoxedCharArray
    | TByteArray | TBoxedByteArray
    | TOther(name: string)

  /**
   * `T::class.java.name` for the reified type argument of `into`: a
   * reified type argument is always the boxed class, so `Int` names
   * `java.lang.Integer`, not the primitive `int`.
   */
  function TypeName(t: HostType): string
  {
    match t
    case TByte => "java.lang.Byte"
    case TShort => "java.lang.Short"
    case TInt => "java.lang.Integer"
    case TLong => "java.lang.Long"
    case TFloat => "java.lang.Float"
    case TDouble => "java.lang.Double"
    case TString => "java.lang.String"
    case TCharArray => "[C"
    case TBoxedCharArray => "[Ljava.lang.Character;"
    case TByteArray => "[B"
    case TBoxedByteArray => "[Ljava.lang.Byte;"
    case TOther(name) => name
  }

  /** The storage class whose cells can be read as a host type, if any. */
  function SourceTag(t: HostType): Option<nat>
  {
    match t
    case TByte => Some(1)
    case TShort => Some(1)
    case TInt => Some(1)
    case TLong => Some(1)
    case TFloat => Some(2)
    case TDouble => Some(2)
    case TString => Some(3)
    case TCharArray => Some(3)
    case TBoxedCharArray => Some(3)
    case TByteArray => Some(4)
    case TBoxedByteArray => Some(4)
    case TOther(_) => None
  }

  /** `toAny()`: the value the JDBC `getObject` hands out. */
  function ToAny(v: Value): (h: HostValue)
    ensures h.HNull? <==> v.Null?
  {
    match v
    case Null => HNull
    case Integer(i) => HLong(i)
    case Real(d) => HDouble(d)
    case Text(s) => HString(s)
    case Blob(b) => HByteArray(b, false)
  }

  /** The class name `from` reports for a value it cannot store. */
  function ClassName(h: HostValue): string
  {
    match h
    case HCharArray(_, boxed) => if boxed then "[Ljava.lang.Character;" else "[C"
    case HByteArray(_, _) => "[Ljava.lang.Byte;"
    case HOther(name) => name
    case _ => ""
  }

  /** The host values `from` accepts. */
  predicate Storable(h: HostValue)
  {
    !(h.HCharArray? || (h.HByteArray? && h.boxed) || h.HOther?)
  }

  /**
   * `SQLiteValue.from`: booleans become 1 or 0, every integral type an
   * `Integer`, both floating types a `Real`, a date-time its ISO text.
   */
  function From(h: HostValue): (r: Result<Value>)
    ensures r.Ok? <==> Storable(h)
    ensures r.Err? ==> r.exc == SqlException("Unsupported type: " + ClassName(h))
    ensures h.HBoolean? ==> r == Ok(Integer(if h.b then 1 else 0))
    ensures h.HLocalDateTime? ==> r == Ok(Text(h.iso))
  {
    match h
    case HNull => Ok(Null)
    case HBoolean(b) => Ok(Integer(if b then 1 else 0))
    case HByte(n) => Ok(Integer(n))
    case HShort(n) => Ok(Integer(n))
    case HInt(n) => Ok(Integer(n))
    case HLong(n) => Ok(Integer(n))
    case HFloat(f) => Ok(Real(f))
    case HDouble(d) => Ok(Real(d))
    case HString(s) => Ok(Text(s))
    case HByteArray(b, boxed) =>
      if boxed then Err(SqlException("Unsupported type: " + ClassName(h))) else Ok(Blob(b))
    case HLocalDateTime(iso) => Ok(Text(iso))
    case _ => Err(SqlException("Unsupported type: " + ClassName(h)))
  }

  /**
   * The cast `value.toCharArray() as T` with `T` reified as `Array<Char>`:
   * a `char[]` is not a `Character[]`, so the cast always fails.  The
   * exception carries the target class's name, not the JDK's full message.
   */
  const BoxedCharCast := ClassCast("[Ljava.lang.Character;")

  /**
   * `into<T>()`: a null cell reads as null whatever the type; otherwise the
   * cell must be of the storage class the type reads, integers being
   * narrowed with JVM truncation.  A text cell asked for as `Array<Char>`
   * passes the class test but fails the cast that follows it.
   */
  function Into(v: Value, t: HostType): (r: Result<Option<HostValue>>)
    ensures r == Ok(None) <==> v.Null?
    ensures r.Err? <==> !v.Null? && (SourceTag(t) != Some(Tag(v)) || (v.Text? && t == TBoxedCharArray))
    ensures !v.Null? && SourceTag(t) != Some(Tag(v)) ==> r == Err(SqlException("Unsupported type: " + TypeName(t)))
    ensures v.Text? && t == TBoxedCharArray ==> r == Err(BoxedCharCast)
  {
    var unsupported := Err(SqlException("Unsupported type: " + TypeName(t)));
    match v
    case Null => Ok(None)
    case Integer(i) =>
      (match t
       case TByte => Ok(Some(HByte(ToByte(i))))
       case TShort => Ok(Some(HShort(ToShort(i))))
       case TInt => Ok(Some(HInt(ToInt(i))))
       case TLong => Ok(Some(HLong(i)))
       case _ => unsupported)
    case Real(d) =>
      (match t
       case TFloat => Ok(Some(HFloat(d)))
       case TDouble => Ok(Some(HDouble(d)))
       case _ => unsupported)
    case Text(s) =>
      (match t
       case TString => Ok(Some(HString(s)))
       case TCharArray => Ok(Some(HCharArray(s, false)))
       case TBoxedCharArray => Err(BoxedCharCast)
       case _ => unsupported)
    case Blob(b) =>
      (match t
       case TByteArray => Ok(Some(HByteArray(b, false)))
       case TBoxedByteArray => Ok(Some(HByteArray(b, true)))
       case _ => unsupported)
  }

  /** `getInt` on a text cell names the boxed class in its message. */
  lemma IntoTextAsInt(s: string)
    ensures Into(Text(s), TInt) == Err(SqlException("Unsupported type: java.lang.Integer"))
  {
    assert SourceTag(TInt) != Some(Tag(Text(s)));
    assert "Unsupported type: " + TypeName(TInt) == "Unsupported type: java.lang.Integer";
  }

  /**
   * Reading a text cell as `Array<Char>` always throws, whatever the text,
   * while reading it as `CharArray` gives its characters.
   */
  lemma IntoTextAsBoxedChars(s: string)
    ensures Into(Text(s), TBoxedCharArray) == Err(ClassCast("[Ljava.lang.Character;"))
    ensures Into(Text(s), TCharArray) == Ok(Some(HCharArray(s, false)))
  {
  }

  /** The value `getInt` yields agrees with the cell modulo 2^32, and equals it when it fits. */
  lemma IntoIntTruncates(i: int64)
    ensures Into(Integer(i), TInt).Ok?
    ensures var n := Into(Integer(i), TInt).value.value.n32;
            (i - n) % 0x1_0000_0000 == 0 && (IsInt(i) ==> n == i)
  {
  }

  /** `from` undoes `toAny`: handing back what `getObject` returned stores the same cell. */
  lemma FromToAny(v: Value)
    ensures From(ToAny(v)) == Ok(v)
  {
  }

  /** The host values that `toAny` can return. */
  predicate Canonical(h: HostValue)
  {
    h.HNull? || h.HLong? || h.HDouble? || h.HString? || (h.HByteArray? && !h.boxed)
  }

  /** `toAny` undoes `from` exactly on the values `toAny` can return. */
  lemma ToAnyFrom(h: HostValue)
    requires Storable(h)
    ensures ToAny(From(h).value) == h <==> Canonical(h)
  {
  }

  /** The host type each storage class is read as by `getObject`. */
  function NaturalType(v: Value): HostType
  {
    match v
    case Null => TOther("java.lang.Object")
    case Integer(_) => TLong
    case Real(_) => TDouble
    case Text(_) => TString
    case Blob(_) => TByteArray
  }

  /** Reading a cell as its natural type gives what `toAny` gives. */
  lemma IntoNaturalType(v: Value)
    requires !v.Null?
    ensures Into(v, NaturalType(v)) == Ok(Some(ToAny(v)))
  {
  }

  /** The payload a non-finite double cannot be written as. */
  const NonFinite := JsonException("JSON does not allow non-finite numbers.")

  /**
   * How a blob payload is written as text: the driver as written uses Java's
   * basic encoder (padded, standard alphabet); the server speaks URL-safe
   * base64 without padding.
   */
  datatype BlobCodec = JavaBasic | UrlSafeNoPad

  /** The codec the driver's source uses. */
  const AsWritten := JavaBasic

  /** The codec the server expects, and the one the rest of the model uses. */
  const Intended := UrlSafeNoPad

  function EncodeBlob(c: BlobCodec, b: seq<byte>): string
  {
    match c
    case JavaBasic => Base64.EncodePadded(b)
    case UrlSafeNoPad => Base64.EncodeUrlNoPad(b)
  }

  function DecodeBlob(c: BlobCodec, s: string): Option<seq<byte>>
  {
    match c
    case JavaBasic => Base64.DecodeJava(s)
    case UrlSafeNoPad => Base64.DecodeUrlNoPad(s)
  }

  /** Each codec reads back every blob it writes. */
  lemma BlobRoundTrip(c: BlobCodec, b: seq<byte>)
    ensures DecodeBlob(c, EncodeBlob(c, b)) == Some(b)
  {
    match c
    case JavaBasic => Base64.JavaRoundTrip(b);
    case UrlSafeNoPad => Base64.UrlNoPadBijection(b, Base64.EncodeUrlNoPad(b));
  }

  /**
   * `toJSON()`: `[tag, payload]`, where a null's payload is the string
   * "null" and a blob's is its base64 text.  The JSON writer refuses NaN
   * and the infinities.
   */
  function ToJson(c: BlobCodec, v: Value): (r: Result<seq<Json>>)
    ensures r.Err? <==> v.Real? && !IsFinite(v.d)
    ensures r.Err? ==> r.exc == NonFinite
    ensures r.Ok? ==> |r.value| == 2 && r.value[0] == JNumber(Tag(v))
    ensures v.Null? ==> r == Ok([JNumber(0), JString("null")])
  {
    match v
    case Null => Ok([JNumber(0), JString("null")])
    case Integer(i) => Ok([JNumber(1), JNumber(i)])
    case Real(d) => if IsFinite(d) then Ok([JNumber(2), JDouble(d)]) else Err(NonFinite)
    case Text(s) => Ok([JNumber(3), JString(s)])
    case Blob(b) => Ok([JNumber(4), JString(EncodeBlob(c, b))])
  }

  const UnknownType := JsonException("Unknown type for SQLiteValue")

  /**
   * What Java's base64 decoder throws on text it rejects: an
   * `IllegalArgumentException`.  Its message depends on the text (the
   * offending character, or which final unit is malformed); the model
   * keeps the kind and one fixed message, not the JDK's wording.
   */
  const BadBase64 := IllegalArgument("Illegal base64 character")

  /**
   * `fromJSON`: reads the tag with `getInt(0)` and the payload with the
   * accessor for that tag; a null's payload is not read at all.
   */
  function FromJson(c: BlobCodec, items: seq<Json>): (r: Result<Value>)
    ensures r.Ok? ==> 0 < |items| && AsInt(items[0]) == Ok(Tag(r.value))
    ensures (0 < |items| && AsInt(items[0]).Ok? && !(0 <= AsInt(items[0]).value < 5))
            ==> r == Err(UnknownType)
  {
    var tag :- At(items, 0);
    var t :- AsInt(tag);
    if t == 0 then Ok(Null)
    else if t == 1 then
      var p :- At(items, 1);
      var n :- AsLong(p);
      Ok(Integer(n))
    else if t == 2 then
      var p :- At(items, 1);
      var d :- AsDouble(p);
      Ok(Real(d))
    else if t == 3 then
      var p :- At(items, 1);
      var s :- AsString(p);
      Ok(Text(s))
    else if t == 4 then
      var p :- At(items, 1);
      var s :- AsString(p);
      match DecodeBlob(c, s)
      case Some(b) => Ok(Blob(b))
      case None => Err(BadBase64)
    else Err(UnknownType)
  }

  /** Every cell the driver can write, it reads back unchanged, with either codec. */
  lemma JsonRoundTrip(c: BlobCodec, v: Value)
    requires ToJson(c, v).Ok?
    ensures FromJson(c, ToJson(c, v).value) == Ok(v)
  {
    var j := ToJson(c, v).value;
    assert AsInt(j[0]) == Ok(Tag(v));
    match v
    case Null =>
    case Integer(i) =>
      assert AsLong(j[1]) == Ok(i);
    case Real(d) =>
      assert AsDouble(j[1]) == Ok(d);
    case Text(s) =>
      assert AsString(j[1]) == Ok(s);
    case Blob(b) =>
      assert AsString(j[1]) == Ok(EncodeBlob(c, b));
      BlobRoundTrip(c, b);
  }

  /** A null's payload is never inspected: `[0]` alone reads as null. */
  lemma NullPayloadIgnored(c: BlobCodec, rest: seq<Json>)
    ensures FromJson(c, [JNumber(0)] + rest) == Ok(Null)
  {
  }
}

=== FILE: sqlite_value_dto.dfy ===
/**
 * `SQLiteValueDTO`, the admin service's copy of `SQLiteValue`.  Its storage
 * classes, `from`, `into`, `toAny`, `toJSON` and `fromJSON` are line for line
 * those of the driver, so the model reuses `SQLiteValue` for them; what is
 * its own is the array form `[tag, payload]` that the admin REST API writes
 * with `asArray` and reads with `fromArray`, through Jackson.
 */
module SQLiteValueDTO {
  import opened Errors
  import opened Ints
  import opened Doubles
  import opened SQLiteValue
  import Base64

  /**
   * A boxed JVM object as it sits in an `Array<Any?>`: what `asArray`
   * produces, and what Jackson produces when it reads a JSON array into
   * `Array<Any?>` (an integer becomes an `Int` when it fits in 32 bits and a
   * `Long` otherwise).
   */
  datatype Boxed =
    | BNull
    | BInt(n32: int32)
    | BLong(n64: int64)
    | BDouble(d: Double)
    | BString(s: string)
    | BBytes(bytes: seq<byte>)

  /** `asArray`. */
  function AsArray(v: Value): (a: seq<Boxed>)
    ensures |a| == 2 && a[0] == BInt(Tag(v))
  {
    match v
    case Null => [BInt(0), BNull]
    case Integer(i) => [BInt(1), BLong(i)]
    case Real(d) => [BInt(2), BDouble(d)]
    case Text(s) => [BInt(3), BString(s)]
    case Blob(b) => [BInt(4), BBytes(b)]
  }

  /**
   * What Jackson hands back after writing one element of the array as JSON
   * and reading it again: a byte array travels as padded standard base64
   * text, an integer comes back as the narrowest box it fits in, and a
   * non-finite double is written as the string naming it.
   */
  function ThroughJson(b: Boxed): (r: Boxed)
    ensures b.BLong? ==> r == (if IsInt(b.n64) then BInt(b.n64) else b)
  {
    match b
    case BLong(n) => if IsInt(n) then BInt(n) else BLong(n)
    case BBytes(bytes) => BString(Base64.EncodePadded(bytes))
    case BDouble(d) =>
      if IsFinite(d) then BDouble(d)
      else BString(if IsNaN(d) then "NaN" else if Sign(d) == 1 then "-Infinity" else "Infinity")
    case _ => b
  }

  function MapThroughJson(a: seq<Boxed>): (r: seq<Boxed>)
    ensures |r| == |a|
    ensures forall i | 0 <= i < |a| :: r[i] == ThroughJson(a[i])
  {
    if |a| == 0 then [] else [ThroughJson(a[0])] + MapThroughJson(a[1..])
  }

  const UnknownTag := ClassCast("Unknown type for SQLiteValue")

  /** The cast `arr[1] as T` of a value that is not a `T`. */
  function CastFailure(b: Boxed): Exception
  {
    if b.BNull? then NullPointer else ClassCast("cannot cast")
  }

  /** The payload of a real: any boxed number, widened to double. */
  function PayloadDouble(b: Boxed): Result<Double>
  {
    match b
    case BInt(n) => Ok(IntToDouble(n))
    case BLong(n) => Ok(IntToDouble(n))
    case BDouble(d) => Ok(d)
    case _ => Err(ClassCast("Cannot cast to Double"))
  }

  /**
   * `fromArray` as written: the tag must be a boxed `Int`, and an integer's
   * payload is cast to `Int` before being widened to `Long`.
   */
  function FromArray(arr: seq<Boxed>): (r: Result<Value>)
    ensures r.Ok? ==> |arr| >= 2 && arr[0] == BInt(Tag(r.value))
    ensures r.Ok? && r.value.Integer? ==> arr[1].BInt?
  {
    if |arr| == 0 then Err(IndexOutOfBounds)
    else if !(arr[0].BInt? && 0 <= arr[0].n32 < 5) then Err(UnknownTag)
    else if |arr| == 1 then Err(IndexOutOfBounds)
    else
      var p := arr[1];
      match arr[0].n32
      case 0 => Ok(Null)
      case 1 => if p.BInt? then Ok(Integer(p.n32)) else Err(CastFailure(p))
      case 2 =>
        var d :- PayloadDouble(p);
        Ok(Real(d))
      case 3 => if p.BString? then Ok(Text(p.s)) else Err(CastFailure(p))
      case 4 =>
        if !p.BString? then Err(CastFailure(p))
        else
          (match Base64.DecodeJava(p.s)
           case Some(b) => Ok(Blob(b))
           case None => Err(BadBase64))
  }

  /**
   * `fromArray` as evidently intended: an integer's payload may be an `Int`
   * or a `Long`, as the real case already allows.
   */
  function FromArrayCorrected(arr: seq<Boxed>): (r: Result<Value>)
    ensures r.Ok? ==> |arr| >= 2 && arr[0] == BInt(Tag(r.value))
  {
    if |arr| >= 2 && arr[0] == BInt(1) && arr[1].BLong? then Ok(Integer(arr[1].n64))
    else FromArray(arr)
  }

  /** A cell the API can send and receive: JSON has no non-finite numbers. */
  predicate Transmissible(v: Value)
  {
    v.Real? ==> IsFinite(v.d)
  }

  /**
   * The corrected reader reads back every transmissible cell the writer
   * wrote, after the trip through JSON.
   */
  lemma ArrayRoundTrip(v: Value)
    requires Transmissible(v)
    ensures FromArrayCorrected(MapThroughJson(AsArray(v))) == Ok(v)
  {
    var a := MapThroughJson(AsArray(v));
    if v.Blob? {
      Base64.JavaRoundTrip(v.bytes);
    }
  }

  /**
   * As written, `fromArray` rejects an integer parameter outside the 32-bit
   * range, although the cell holds a 64-bit value: Jackson boxes it as a
   * `Long` and the cast to `Int` fails.
   */
  lemma WideIntegerRejected(i: int64)
    requires !IsInt(i)
    ensures FromArray(MapThroughJson(AsArray(Integer(i)))).Err?
  {
  }

  /** Outside the wide-integer case the two readers agree. */
  lemma CorrectedAgrees(arr: seq<Boxed>)
    requires !(|arr| >= 2 && arr[0] == BInt(1) && arr[1].BLong?)
    ensures FromArrayCorrected(arr) == FromArray(arr)
  {
  }

  /**
   * `toDto` and `fromDto` convert between the driver's and the admin
   * service's identical classes by writing JSON and reading it back: the
   * identity on every cell the JSON writer accepts.
   */
  function ConvertViaJson(v: Value): (r: Result<Value>)
    ensures r.Ok? ==> r.value == v
    ensures r.Ok? <==> Transmissible(v)
  {
    var j :- ToJson(AsWritten, v);
    JsonRoundTrip(AsWritten, v);
    FromJson(AsWritten, j)
  }
}

=== FILE: statement.dfy ===
/**
 * `ErldbStatement`: one statement of a connection, its handle on the
 * server, the rows fetched but not yet read (a first-in first-out buffer
 * refilled by `stepBy(100)`), and the result set it currently owns.
 *
 * A statement and its connection change together (executing registers
 * handles with the connection and talks to the server through its
 * session), so every operation takes both and returns both.  The result
 * set lives inside its statement.
 */
module Statement {
  import opened Errors
  import opened Ints
  import opened SQLiteValue
  import Json
  import opened Remote
  import opened HttpAccess
  import opened ColumnIndex
  import opened Connection

  /** `ErldbResultSet`: the cursor over the rows of the statement's last query. */
  datatype Rs = Rs(
    pastLastRow: bool,
    open: bool,
    cols: seq<string>,
    currentRow: int64,
    current: Option<seq<Value>>,
    lastCol: Option<One>)

  datatype Stmt = Stmt(
    handle: nat,
    rs: Option<Rs>,
    sql: string,
    buffer: seq<seq<Value>>,
    queryTimeout: int32,
    updateCount: int64,
    exhausted: bool,
    open: bool,
    closeOnCompletion: bool,
    maxRows: int64,
    stepReturnedNull: bool)

  /** A connection and one of its statements after an operation, and the operation's outcome. */
  datatype After<T> = After(conn: Conn, stmt: Stmt, r: Result<T>)

  const ResultSetClosed := SqlException("ResultSet closed")
  const ReturnsResultSet := SqlException("query returns ResultSet")
  const NegativeMaxRows := SqlException("max row count must be >= 0")
  const NegativeTimeout := SqlException("query timeout must be >= 0")
  const KeepOrCloseAll := FeatureNotSupported("Argument not supported: Statement.KEEP_CURRENT_RESULT or Statement.CLOSE_ALL_RESULTS")
  const InvalidArgument := SqlException("Invalid argument")
  const AlreadyRequested := SqlException("ResultSet already requested")

  /** The `java.sql.Statement` constants `getMoreResults` understands. */
  const CLOSE_CURRENT_RESULT: int32 := 1
  const KEEP_CURRENT_RESULT: int32 := 2
  const CLOSE_ALL_RESULTS: int32 := 3

  /** How many rows one refill asks the server for. */
  const BATCH: int32 := 100

  /** The statement's `autoCommit` field: set to true and never changed. */
  const STATEMENT_AUTO_COMMIT := true

  /** What `ensureAutoCommit` sends in auto-commit mode. */
  const AUTO_COMMIT_ROUND: seq<Call> := [Call.Execute("BEGIN;"), Call.Execute("COMMIT;")]

  /** A statement whose handle exists in its connection's session. */
  predicate Attached(c: Conn, s: Stmt)
  {
    Connection.Valid(c) && ValidHandle(c.session, s.handle)
  }

  /** `d` is `c` after further calls, with only its session changed. */
  predicate Follows(c: Conn, d: Conn)
  {
    Later(c.session, d.session) && SameBut(c, d)
  }

  /** Two stretches of calls on a connection make one, and their requests add up. */
  lemma FollowsJoin(a: Conn, b: Conn, c: Conn)
    requires Follows(a, b) && Follows(b, c)
    ensures Follows(a, c)
    ensures Issued(a.session, c.session) == Issued(a.session, b.session) + Issued(b.session, c.session)
  {
    IssuedJoin(a.session, b.session, c.session);
  }

  /** A new result set: open, before the first row, no column read. */
  function FreshRs(): (r: Rs)
    ensures r.open && !r.pastLastRow && r.cols == [] && r.currentRow == 0
    ensures r.current.None? && r.lastCol.None?
  {
    Rs(false, true, [], 0, None, None)
  }

  /**
   * `ErldbStatement(c, sql)`: open, not exhausted, no buffered rows, a
   * fresh result set, and a placeholder handle.
   */
  function NewStatement(c: Conn, sql: string): (a: (Conn, Stmt))
    requires Connection.Valid(c)
    ensures Attached(a.0, a.1) && Follows(c, a.0)
    ensures a.0.session.server == c.session.server
    ensures a.1.open && !a.1.exhausted && a.1.buffer == [] && a.1.sql == sql
    ensures a.0.session.handles[a.1.handle] == NotReadyHandle && a.1.handle == Fresh(c.session)
    ensures a.1.rs == Some(FreshRs()) && a.1.queryTimeout == 0 && a.1.updateCount == 0
    ensures !a.1.closeOnCompletion && a.1.maxRows == 0 && !a.1.stepReturnedNull
  {
    var x := NewNotReady(c.session);
    (c.(session := x.0), Stmt(x.1, Some(FreshRs()), sql, [], 0, 0, false, true, false, 0, false))
  }

  /** `withGuard()`: the open check of every statement operation. */
  function Guard(s: Stmt): (r: Result<()>)
    ensures r.Ok? <==> s.open
    ensures r.Err? ==> r.exc == NotExecuting
  {
    if s.open then Ok(()) else Err(NotExecuting)
  }

  /**
   * The body `close()` and `closeNoResultSet()` share: close the handle
   * (its `Result` is ignored, a throw escapes and leaves the statement as
   * it was), then a placeholder handle, no result set, and closed.
   */
  method Shut(c: Conn, s: Stmt) returns (o: After<()>)
    requires Attached(c, s)
    ensures Attached(o.conn, o.stmt) && Follows(c, o.conn)
    ensures ValidHandle(o.conn.session, s.handle) && IsClosed(o.conn.session, s.handle)
    ensures o.r.Ok? ==>
              && o.stmt == s.(handle := o.stmt.handle, rs := None, open := false)
              && o.conn.session.handles[o.stmt.handle] == NotReadyHandle
    ensures o.r.Err? ==> o.stmt == s
    ensures c.session.handles[s.handle].NotReadyHandle? ==> o.r.Ok?
    ensures Stale(c.session, s.handle) ==> o == After(c, s, Err(NotOpen))
  {
    var x := CloseHandle(c.session, s.handle);
    if x.r.Err? {
      return After(c.(session := x.session), s, Err(x.r.exc));
    }
    var y := NewNotReady(x.session);
    LaterTransitive(c.session, x.session, y.0);
    o := After(c.(session := y.0), s.(handle := y.1, rs := None, open := false), Ok(()));
  }

  /**
   * `close()`: nothing on a closed statement; otherwise the shared
   * closing body.  A handle that was already closed makes it throw, and
   * the statement stays open.
   */
  method Close(c: Conn, s: Stmt) returns (o: After<()>)
    requires Attached(c, s)
    ensures Attached(o.conn, o.stmt) && Follows(c, o.conn)
    ensures !s.open ==> o == After(c, s, Ok(()))
    ensures s.open && o.r.Ok? ==>
              && o.stmt == s.(handle := o.stmt.handle, rs := None, open := false)
              && o.conn.session.handles[o.stmt.handle] == NotReadyHandle
              && IsClosed(o.conn.session, s.handle)
    ensures o.r.Err? ==> o.stmt == s && s.open
    ensures s.open ==> IsClosed(o.conn.session, o.stmt.handle)
    ensures s.open && c.session.handles[s.handle].NotReadyHandle? ==> o.r.Ok?
    ensures s.open && Stale(c.session, s.handle) ==> o == After(c, s, Err(NotOpen))
  {
    if !s.open {
      LaterRefl(c.session);
      return After(c, s, Ok(()));
    }
    o := Shut(c, s);
  }

  /** `closeNoResultSet()`: the guarded closing body, used when a result set closes its statement. */
  method CloseNoResultSet(c: Conn, s: Stmt) returns (o: After<()>)
    requires Attached(c, s)
    ensures Attached(o.conn, o.stmt) && Follows(c, o.conn)
    ensures !s.open ==> o == After(c, s, Err(NotExecuting))
    ensures s.open && o.r.Ok? ==> !o.stmt.open && o.stmt.rs.None? && IsClosed(o.conn.session, s.handle)
    ensures s.open && o.r.Ok? ==> IsClosed(o.conn.session, o.stmt.handle)
    ensures o.r.Err? ==> o.stmt == s
  {
    if !s.open {
      LaterRefl(c.session);
      return After(c, s, Err(NotExecuting));
    }
    o := Shut(c, s);
  }

  /** `closeNoStatement()` on the result set: everything reset, and closed. */
  function CloseNoStatement(r: Rs): (d: Rs)
    ensures !d.open && !d.pastLastRow && d.cols == [] && d.currentRow == 0
    ensures d.current.None? && d.lastCol.None?
  {
    Rs(false, false, [], 0, None, None)
  }

  /**
   * `close()` on the statement's result set: a closed one throws;
   * otherwise it is reset and closed, and then the statement too when it
   * closes on completion.
   */
  method CloseResultSet(c: Conn, s: Stmt) returns (o: After<()>)
    requires Attached(c, s) && s.rs.Some?
    ensures Attached(o.conn, o.stmt) && Follows(c, o.conn)
    ensures !s.rs.value.open ==> o == After(c, s, Err(ResultSetClosed))
    ensures s.rs.value.open && !s.closeOnCompletion ==>
              o == After(c, s.(rs := Some(CloseNoStatement(s.rs.value))), Ok(()))
    ensures s.rs.value.open && s.closeOnCompletion && o.r.Ok? ==> !o.stmt.open && o.stmt.rs.None?
    ensures s.open && o.r.Ok? && !o.stmt.open ==> IsClosed(o.conn.session, o.stmt.handle)
    ensures s.rs.value.open && s.closeOnCompletion && o.r.Err? ==>
              o.stmt == s.(rs := Some(CloseNoStatement(s.rs.value)))
  {
    LaterRefl(c.session);
    if !s.rs.value.open {
      return After(c, s, Err(ResultSetClosed));
    }
    var s1 := s.(rs := Some(CloseNoStatement(s.rs.value)));
    if !s.closeOnCompletion {
      return After(c, s1, Ok(()));
    }
    o := CloseNoResultSet(c, s1);
  }

  /** `t` is `s` with only the fetch state (buffer, update count, end flag) changed. */
  predicate FetchedOnly(s: Stmt, t: Stmt)
  {
    t == s.(buffer := t.buffer, updateCount := t.updateCount, stepReturnedNull := t.stepReturnedNull)
  }

  /** Requests that only ask for the next rows of one server statement. */
  predicate Polls(calls: seq<Call>, id: int64)
  {
    forall i | 0 <= i < |calls| :: calls[i] == StepBy(id, BATCH)
  }

  /**
   * The requests of a refill: polls for the next rows, and when the rows
   * ran out, a final request for the change count.
   */
  predicate Refilled(calls: seq<Call>, id: int64, drained: bool)
  {
    if drained then |calls| >= 2 && Polls(calls[..|calls| - 1], id) && calls[|calls| - 1] == Changes
    else |calls| >= 1 && Polls(calls, id)
  }

  /** A poll before a refill is part of the refill. */
  lemma RefilledAfterPoll(calls: seq<Call>, id: int64, drained: bool)
    requires Refilled(calls, id, drained)
    ensures Refilled([StepBy(id, BATCH)] + calls, id, drained)
  {
    if drained {
      assert ([StepBy(id, BATCH)] + calls)[..|calls|] == [StepBy(id, BATCH)] + calls[..|calls| - 1];
    }
  }

  /**
   * A failure the server reported (a failed `Result`): the statement is
   * closed, then the failure is thrown — unless closing throws first.
   */
  method CloseAndThrow<T>(c: Conn, s: Stmt, e: Exception) returns (o: After<T>)
    requires Attached(c, s) && s.open
    ensures Attached(o.conn, o.stmt) && Follows(c, o.conn) && o.r.Err?
    ensures o.stmt.open ==> o.stmt == s
    ensures !o.stmt.open ==> o.r == Err(e) && o.stmt.rs.None?
  {
    var cl := Shut(c, s);
    o := After(cl.conn, cl.stmt, Err(if cl.r.Err? then cl.r.exc else e));
  }

  /** The end of the rows: `stepReturnedNull` is set and the change count becomes the update count. */
  method Drained(c: Conn, s: Stmt) returns (o: After<Option<seq<Value>>>)
    requires Attached(c, s) && s.open
    ensures Attached(o.conn, o.stmt) && Follows(c, o.conn)
    ensures o.r.Ok? ==> o.r.value.None? && o.stmt == s.(stepReturnedNull := true, updateCount := o.stmt.updateCount)
    ensures o.r.Ok? ==> Issued(c.session, o.conn.session) == [Changes]
    ensures o.r.Err? && o.stmt.open ==> o.stmt.handle == s.handle && o.stmt.rs == s.rs
    ensures ChangesIn(NextReply(c.session.server)).Some? ==>
              && o.r == Ok(None) && o.stmt.updateCount == ChangesIn(NextReply(c.session.server)).value
              && o.conn.session.server.replies == c.session.server.replies[1..]
  {
    if ChangesIn(NextReply(c.session.server)).Some? {
      DbChangesOk(c.session, ChangesIn(NextReply(c.session.server)).value);
    }
    var st := s.(stepReturnedNull := true);
    var ch := DbChanges(c.session);
    if ch.r.Err? {
      return After(c.(session := ch.session), st, Err(ch.r.exc));
    }
    if ch.r.value.Err? {
      o := CloseAndThrow(c.(session := ch.session), st, ch.r.value.exc);
      LaterTransitive(c.session, ch.session, o.conn.session);
      return;
    }
    o := After(c.(session := ch.session), st.(updateCount := ch.r.value.value), Ok(None));
  }

  /** `stepBy(BATCH)` on the statement's handle, as the refill loop sees it. */
  method Fetch(ss: Session, h: nat, id: int64) returns (a: Answer<Option<seq<seq<Value>>>>)
    requires ValidHandle(ss, h) && Target(ss, h) == Ok(id)
    ensures Later(ss, a.session) && a.session.handles == ss.handles
    ensures a.session.server.log == ss.server.log + [StepBy(id, BATCH)]
    ensures a.r.Ok? ==> |a.session.server.replies| < |ss.server.replies|
    ensures 0 < |ss.server.replies| ==> a.session.server.replies == ss.server.replies[1..]
    ensures BatchIn(ss.codec, NextReply(ss.server)).Some? ==> a.r == Ok(Ok(BatchIn(ss.codec, NextReply(ss.server))))
    ensures NextReply(ss.server) == OkBody(Json.JNull) ==> a.r == Ok(Ok(None))
  {
    a := StepByHandle(ss, h, BATCH);
    if BatchIn(ss.codec, NextReply(ss.server)).Some? {
      StepByReadsReply(ss, h, BATCH);
    }
  }

  /**
   * A batch request that did not deliver rows: a throw is passed on, a
   * failure the server reported closes the statement and is thrown, and
   * the end of the rows is recorded (outcome `true`).
   */
  method Settle(c: Conn, s: Stmt, r: Result<Result<Option<seq<seq<Value>>>>>) returns (o: After<bool>)
    requires Attached(c, s) && s.open
    requires !(r.Ok? && r.value.Ok? && r.value.value.Some?)
    ensures Attached(o.conn, o.stmt) && Follows(c, o.conn)
    ensures o.r.Ok? ==>
              && o.r.value
              && o.stmt == s.(stepReturnedNull := true, updateCount := o.stmt.updateCount)
              && Issued(c.session, o.conn.session) == [Changes]
    ensures o.r.Err? && o.stmt.open ==> o.stmt.handle == s.handle && o.stmt.rs == s.rs
    ensures r == Ok(Ok(None)) && ChangesIn(NextReply(c.session.server)).Some? ==>
              && o.r == Ok(true) && o.stmt.updateCount == ChangesIn(NextReply(c.session.server)).value
              && o.conn.session.server.replies == c.session.server.replies[1..]
  {
    if r.Err? {
      LaterRefl(c.session);
      return After(c, s, Err(r.exc));
    }
    if r.value.Err? {
      o := CloseAndThrow(c, s, r.value.exc);
      return;
    }
    var d := Drained(c, s);
    return After(d.conn, d.stmt, if d.r.Err? then Err(d.r.exc) else Ok(true));
  }

  /**
   * One round of the refill loop: ask for the next batch.  The outcome is
   * `true` when the rows ran out (the update count is then recorded) and
   * `false` when the batch, possibly empty, is now the buffer.
   */
  method Poll(c: Conn, s: Stmt, id: int64) returns (o: After<bool>)
    requires Attached(c, s) && s.open && Target(c.session, s.handle) == Ok(id)
    ensures Attached(o.conn, o.stmt) && Follows(c, o.conn)
    ensures o.r.Ok? && !o.r.value ==>
              && o.stmt == s.(stepReturnedNull := false, updateCount := 0, buffer := o.stmt.buffer)
              && o.conn.session.handles == c.session.handles
              && |o.conn.session.server.replies| < |c.session.server.replies|
              && Issued(c.session, o.conn.session) == [StepBy(id, BATCH)]
    ensures o.r.Ok? && o.r.value ==>
              && o.stmt == s.(stepReturnedNull := true, updateCount := o.stmt.updateCount)
              && Issued(c.session, o.conn.session) == [StepBy(id, BATCH), Changes]
    ensures o.r.Err? && o.stmt.open ==> o.stmt.handle == s.handle && o.stmt.rs == s.rs
    ensures BatchIn(c.session.codec, NextReply(c.session.server)).Some? ==>
              && o.r == Ok(false) && o.stmt.buffer == BatchIn(c.session.codec, NextReply(c.session.server)).value
              && o.conn.session.server.replies == c.session.server.replies[1..]
    ensures var rs := c.session.server.replies;
            1 < |rs| && rs[0] == OkBody(Json.JNull) && ChangesIn(rs[1]).Some? ==>
              && o.r == Ok(true) && o.stmt.updateCount == ChangesIn(rs[1]).value
              && o.conn.session.server.replies == rs[2..]
  {
    var a := Fetch(c.session, s.handle, id);
    if a.r.Ok? && a.r.value.Ok? && a.r.value.value.Some? {
      return After(c.(session := a.session), s.(stepReturnedNull := false, updateCount := 0, buffer := a.r.value.value.value), Ok(false));
    }
    ghost var rs := c.session.server.replies;
    if 1 < |rs| && rs[0] == OkBody(Json.JNull) {
      assert NextReply(a.session.server) == rs[1];
      assert a.session.server.replies[1..] == rs[2..];
    }
    o := Unfetched(c, s, id, a);
  }

  /**
   * The rest of a round whose batch request brought no rows: `Settle`,
   * with the requests of the whole round.
   */
  method Unfetched(c: Conn, s: Stmt, id: int64, a: Answer<Option<seq<seq<Value>>>>) returns (o: After<bool>)
    requires Attached(c, s) && s.open
    requires Later(c.session, a.session) && a.session.handles == c.session.handles
    requires a.session.server.log == c.session.server.log + [StepBy(id, BATCH)]
    requires !(a.r.Ok? && a.r.value.Ok? && a.r.value.value.Some?)
    ensures Attached(o.conn, o.stmt) && Follows(c, o.conn)
    ensures o.r.Ok? ==>
              && o.r.value
              && o.stmt == s.(stepReturnedNull := true, updateCount := o.stmt.updateCount)
              && Issued(c.session, o.conn.session) == [StepBy(id, BATCH), Changes]
    ensures o.r.Err? && o.stmt.open ==> o.stmt.handle == s.handle && o.stmt.rs == s.rs
    ensures a.r == Ok(Ok(None)) && ChangesIn(NextReply(a.session.server)).Some? ==>
              && o.r == Ok(true) && o.stmt.updateCount == ChangesIn(NextReply(a.session.server)).value
              && o.conn.session.server.replies == a.session.server.replies[1..]
  {
    o := Settle(c.(session := a.session), s, a.r);
    IssuedJoin(c.session, a.session, o.conn.session);
  }

  /**
   * The refill loop of `step()` on an empty buffer: poll until a batch
   * brings rows or the rows run out.
   */
  method Refill(c: Conn, s: Stmt, id: int64) returns (o: After<Option<seq<Value>>>)
    requires Attached(c, s) && s.open && Target(c.session, s.handle) == Ok(id) && s.buffer == []
    ensures Attached(o.conn, o.stmt) && Follows(c, o.conn)
    ensures o.r.Ok? ==> o.stmt.open && FetchedOnly(s, o.stmt)
    ensures o.r.Ok? && o.r.value.Some? ==>
              && |o.stmt.buffer| > 0 && o.r.value.value == o.stmt.buffer[0]
              && !o.stmt.stepReturnedNull && o.stmt.updateCount == 0
    ensures o.r.Ok? && o.r.value.None? ==> o.stmt.buffer == [] && o.stmt.stepReturnedNull
    ensures o.r.Ok? && o.r.value.Some? ==> o.conn.session.handles == c.session.handles
    ensures o.r.Ok? ==> Refilled(Issued(c.session, o.conn.session), id, o.r.value.None?)
    ensures o.r.Err? && o.stmt.open ==> o.stmt.handle == s.handle && o.stmt.rs == s.rs
    ensures var f := Scan(c.session.codec, c.session.server.replies);
            f.FoundRows? ==>
              && o.r == Ok(Some(f.batch[0])) && o.stmt.buffer == f.batch
              && o.conn.session.server.replies == c.session.server.replies[f.used..]
    ensures var f := Scan(c.session.codec, c.session.server.replies);
            f.FoundEnd? ==>
              && o.r == Ok(None) && o.stmt.updateCount == f.changes
              && o.conn.session.server.replies == c.session.server.replies[f.used..]
    decreases |c.session.server.replies|
  {
    ghost var f := Scan(c.session.codec, c.session.server.replies);
    ScanHead(c.session.codec, c.session.server.replies);
    var p := Poll(c, s, id);
    if p.r.Err? {
      assert f.FoundOther?;
      return After(p.conn, p.stmt, Err(p.r.exc));
    }
    if p.r.value {
      assert !f.FoundRows?;
      assert Issued(c.session, p.conn.session)[..1] == [StepBy(id, BATCH)];
      return After(p.conn, p.stmt, Ok(None));
    }
    if |p.stmt.buffer| > 0 {
      assert !f.FoundEnd?;
      return After(p.conn, p.stmt, Ok(Some(p.stmt.buffer[0])));
    }
    if BatchIn(c.session.codec, NextReply(c.session.server)).Some? {
      ScanSkips(c.session.codec, c.session.server.replies);
    } else {
      assert f.FoundOther?;
    }
    o := Refill(p.conn, p.stmt, id);
    IssuedJoin(c.session, p.conn.session, o.conn.session);
    if o.r.Ok? {
      RefilledAfterPoll(Issued(p.conn.session, o.conn.session), id, o.r.value.None?);
    }
  }

  /**
   * `step()`: the handle must be usable; while no row is buffered, ask the
   * server for the next batch — an empty batch asks again, the end of the
   * rows records the change count and answers `null` — and answer the
   * first buffered row without removing it.  A failure the server reports
   * closes the statement before it is thrown.
   */
  method Step(c: Conn, s: Stmt) returns (o: After<Option<seq<Value>>>)
    requires Attached(c, s)
    ensures Attached(o.conn, o.stmt) && Follows(c, o.conn)
    ensures !s.open ==> o == After(c, s, Err(NotExecuting))
    ensures s.open && IsClosed(c.session, s.handle) ==> o == After(c, s, Err(Target(c.session, s.handle).exc))
    ensures s.open && !IsClosed(c.session, s.handle) && |s.buffer| > 0 ==> o == After(c, s, Ok(Some(s.buffer[0])))
    ensures o.r.Ok? ==> o.stmt.open && FetchedOnly(s, o.stmt)
    ensures o.r.Ok? && o.r.value.Some? ==> |o.stmt.buffer| > 0 && o.r.value.value == o.stmt.buffer[0]
    ensures o.r.Ok? && o.r.value.None? ==> o.stmt.buffer == [] && o.stmt.stepReturnedNull
    ensures o.r.Ok? && o.r.value.Some? ==> o.conn.session.handles == c.session.handles
    ensures o.r.Ok? && |s.buffer| == 0 ==>
              Refilled(Issued(c.session, o.conn.session), Target(c.session, s.handle).value, o.r.value.None?)
    ensures o.r.Ok? && |s.buffer| == 0 && o.r.value.Some? ==> !o.stmt.stepReturnedNull && o.stmt.updateCount == 0
    ensures o.r.Err? && o.stmt.open ==> o.stmt.handle == s.handle && o.stmt.rs == s.rs
    ensures var f := Scan(c.session.codec, c.session.server.replies);
            s.open && !IsClosed(c.session, s.handle) && s.buffer == [] && f.FoundRows? ==>
              && o.r == Ok(Some(f.batch[0])) && o.stmt.buffer == f.batch
              && o.conn.session.server.replies == c.session.server.replies[f.used..]
    ensures var f := Scan(c.session.codec, c.session.server.replies);
            s.open && !IsClosed(c.session, s.handle) && s.buffer == [] && f.FoundEnd? ==>
              && o.r == Ok(None) && o.stmt.updateCount == f.changes
              && o.conn.session.server.replies == c.session.server.replies[f.used..]
  {
    LaterRefl(c.session);
    if !s.open {
      return After(c, s, Err(NotExecuting));
    }
    var db := DbOf(c.session, s.handle);
    if db.Err? {
      return After(c, s, Err(Target(c.session, s.handle).exc));
    }
    if |s.buffer| > 0 {
      return After(c, s, Ok(Some(s.buffer[0])));
    }
    o := Refill(c, s, Target(c.session, s.handle).value);
  }

  /**
   * `consumeRow()`: take the first buffered row off the buffer; an empty
   * buffer is refilled by `step()` first, and when it stays empty the
   * statement's results are exhausted and the answer is `null`.
   */
  method ConsumeRow(c: Conn, s: Stmt) returns (o: After<Option<seq<Value>>>)
    requires Attached(c, s)
    ensures Attached(o.conn, o.stmt) && Follows(c, o.conn)
    ensures !s.open ==> o == After(c, s, Err(NotExecuting))
    ensures s.open && |s.buffer| > 0 ==>
              && o.conn == c && o.r.Ok? && o.r.value.Some?
              && [o.r.value.value] + o.stmt.buffer == s.buffer
              && o.stmt == s.(buffer := o.stmt.buffer)
    ensures o.r.Ok? && o.r.value.None? ==> o.stmt.exhausted && o.stmt.buffer == [] && o.stmt.stepReturnedNull
    ensures o.r.Ok? ==> o.stmt.open && o.stmt.handle == s.handle && o.stmt.rs == s.rs
    ensures o.r.Ok? && |s.buffer| == 0 ==>
              && Target(c.session, s.handle).Ok?
              && Refilled(Issued(c.session, o.conn.session), Target(c.session, s.handle).value, o.r.value.None?)
    ensures o.r.Ok? && o.r.value.Some? ==> o.conn.session.handles == c.session.handles
    ensures var f := Scan(c.session.codec, c.session.server.replies);
            s.open && !IsClosed(c.session, s.handle) && s.buffer == [] && f.FoundRows? ==>
              && o.r == Ok(Some(f.batch[0])) && o.stmt.buffer == f.batch[1..]
              && o.conn.session.server.replies == c.session.server.replies[f.used..]
    ensures var f := Scan(c.session.codec, c.session.server.replies);
            s.open && !IsClosed(c.session, s.handle) && s.buffer == [] && f.FoundEnd? ==>
              && o.r == Ok(None) && o.stmt.exhausted && o.stmt.updateCount == f.changes
              && o.conn.session.server.replies == c.session.server.replies[f.used..]
  {
    if !s.open {
      LaterRefl(c.session);
      return After(c, s, Err(NotExecuting));
    }
    if |s.buffer| > 0 {
      LaterRefl(c.session);
      assert [s.buffer[0]] + s.buffer[1..] == s.buffer;
      return After(c, s.(buffer := s.buffer[1..]), Ok(Some(s.buffer[0])));
    }
    var p := Step(c, s);
    if p.r.Err? {
      return After(p.conn, p.stmt, Err(p.r.exc));
    }
    if p.r.value.None? {
      return After(p.conn, p.stmt.(exhausted := true), Ok(None));
    }
    o := After(p.conn, p.stmt.(buffer := p.stmt.buffer[1..]), Ok(Some(p.stmt.buffer[0])));
  }

  /** Closing the statement's result set, if it has one, leaves the statement open and its handle alone. */
  predicate KeepsStatement(s: Stmt)
  {
    s.rs.None? || (s.rs.value.open && !s.closeOnCompletion)
  }

  /**
   * `rs?.close()` at the start of `execute(sql)`: a result set the caller
   * has already closed makes it throw "ResultSet closed".
   */
  method ReleaseResultSet(c: Conn, s: Stmt) returns (o: After<()>)
    requires Attached(c, s)
    ensures Attached(o.conn, o.stmt) && Follows(c, o.conn)
    ensures s.rs.Some? && !s.rs.value.open ==> o == After(c, s, Err(ResultSetClosed))
    ensures KeepsStatement(s) ==> o.r.Ok? && o.conn == c && o.stmt == s.(rs := o.stmt.rs)
    ensures o.r.Ok? && o.stmt.open ==> o.conn == c && o.stmt == s.(rs := o.stmt.rs)
    ensures s.open && o.r.Ok? && !o.stmt.open ==> IsClosed(o.conn.session, o.stmt.handle)
  {
    if s.rs.None? {
      LaterRefl(c.session);
      return After(c, s, Ok(()));
    }
    o := CloseResultSet(c, s);
  }

  /** The evident intent of `rs?.close()`: a result set that is already closed is skipped. */
  method ReleaseResultSetFixed(c: Conn, s: Stmt) returns (o: After<()>)
    requires Attached(c, s)
    ensures Attached(o.conn, o.stmt) && Follows(c, o.conn)
    ensures o.r.Err? ==> s.rs.Some? && s.rs.value.open && s.closeOnCompletion
    ensures KeepsStatement(s) || !s.rs.value.open ==> o.r.Ok? && o.conn == c && o.stmt == s.(rs := o.stmt.rs)
    ensures o.r.Ok? && o.stmt.open ==> o.stmt.handle == s.handle
  {
    if s.rs.None? || !s.rs.value.open {
      LaterRefl(c.session);
      return After(c, s, Ok(()));
    }
    o := CloseResultSet(c, s);
  }

  /**
   * The middle of `execute(sql)`: the handle is closed (its `Result`
   * ignored, a throw escapes), then the new text and a fresh result set.
   * The handle is closed afterwards whatever happened.
   */
  method Restart(c: Conn, s: Stmt, sql: string) returns (o: After<()>)
    requires Attached(c, s)
    ensures Attached(o.conn, o.stmt) && Follows(c, o.conn)
    ensures o.stmt.handle == s.handle && IsClosed(o.conn.session, s.handle)
    ensures o.r.Ok? ==> o.stmt == s.(sql := sql, rs := Some(FreshRs()))
    ensures o.r.Err? ==> o.stmt == s
    ensures Stale(c.session, s.handle) ==> o == After(c, s, Err(NotOpen))
    ensures c.session.handles[s.handle].NotReadyHandle? ==> o == After(c, s.(sql := sql, rs := Some(FreshRs())), Ok(()))
    ensures c.session.handles[s.handle].LiveHandle? ==> Stale(o.conn.session, s.handle)
    ensures !IsClosed(c.session, s.handle) ==> Issued(c.session, o.conn.session) == [Finalize(c.session.handles[s.handle].stmt)]
  {
    var x := CloseHandle(c.session, s.handle);
    if x.r.Err? {
      return After(c.(session := x.session), s, Err(x.r.exc));
    }
    o := After(c.(session := x.session), s.(sql := sql, rs := Some(FreshRs())), Ok(()));
  }

  /**
   * `statementAccess = conn.prepare(this)`, then the connection marks a
   * statement as executed.  When the prepare throws, the statement keeps
   * the handle it had, which `execute` has just closed.
   */
  method Prepared(c: Conn, s: Stmt) returns (o: After<()>)
    requires Attached(c, s)
    ensures Connection.Valid(o.conn) && ValidHandle(o.conn.session, o.stmt.handle) && Later(c.session, o.conn.session)
    ensures o.conn == c.(session := o.conn.session, stmts := o.conn.stmts, firstStatementExecuted := o.conn.firstStatementExecuted)
    ensures c.open ==> Issued(c.session, o.conn.session) == [Prepare(s.sql)]
    ensures o.r.Err? ==> o.stmt == s && o.conn.firstStatementExecuted == c.firstStatementExecuted
    ensures o.r.Ok? ==>
              && o.conn.firstStatementExecuted
              && o.conn.stmts == c.stmts + [s.handle]
              && o.stmt == s.(handle := o.stmt.handle)
              && o.stmt.handle == Fresh(c.session) && !IsClosed(o.conn.session, o.stmt.handle)
              && o.stmt.handle !in o.conn.stmts
  {
    var p := PrepareFor(c, s.handle, s.sql);
    if p.r.Err? {
      return After(p.conn, s, Err(p.r.exc));
    }
    o := After(p.conn.(firstStatementExecuted := true), s.(handle := p.r.value), Ok(()));
  }

  /**
   * The evident intent of the prepare step: when it throws, the statement
   * gets a placeholder handle, so that a later `execute` or `close` does
   * not meet the handle closed just before.
   */
  method PreparedFixed(c: Conn, s: Stmt) returns (o: After<()>)
    requires Attached(c, s)
    ensures Connection.Valid(o.conn) && ValidHandle(o.conn.session, o.stmt.handle) && Later(c.session, o.conn.session)
    ensures o.conn == c.(session := o.conn.session, stmts := o.conn.stmts, firstStatementExecuted := o.conn.firstStatementExecuted)
    ensures c.open ==> Issued(c.session, o.conn.session) == [Prepare(s.sql)]
    ensures o.r.Err? ==>
              && o.stmt == s.(handle := o.stmt.handle)
              && o.conn.session.handles[o.stmt.handle] == NotReadyHandle
              && o.conn.firstStatementExecuted == c.firstStatementExecuted
    ensures o.r.Ok? ==>
              && o.conn.firstStatementExecuted
              && o.conn.stmts == c.stmts + [s.handle]
              && o.stmt == s.(handle := o.stmt.handle)
              && o.stmt.handle == Fresh(c.session) && !IsClosed(o.conn.session, o.stmt.handle)
              && o.stmt.handle !in o.conn.stmts
  {
    var p := PrepareFor(c, s.handle, s.sql);
    if p.r.Err? {
      var y := NewNotReady(p.conn.session);
      LaterTransitive(c.session, p.conn.session, y.0);
      return After(p.conn.(session := y.0), s.(handle := y.1), Err(p.r.exc));
    }
    o := After(p.conn.(firstStatementExecuted := true), s.(handle := p.r.value), Ok(()));
  }

  /** The requests end with `call`. */
  predicate EndsWith(calls: seq<Call>, call: Call)
  {
    |calls| >= 1 && calls[|calls| - 1] == call
  }

  lemma EndsWithAfter(a: seq<Call>, b: seq<Call>, call: Call)
    requires EndsWith(b, call)
    ensures EndsWith(a + b, call)
  {
  }

  /** The requests start with a poll of server statement `id`. */
  predicate StartsWithPoll(calls: seq<Call>, id: int64)
  {
    |calls| >= 1 && calls[0] == StepBy(id, BATCH)
  }

  /** The result set, if any, with `row` as its current row. */
  function WithCurrent(rs: Option<Rs>, row: seq<Value>): (r: Option<Rs>)
    ensures r.Some? <==> rs.Some?
    ensures r.Some? ==> r.value.current == Some(row) && r.value == rs.value.(current := r.value.current)
  {
    if rs.Some? then Some(rs.value.(current := Some(row))) else None
  }

  /**
   * A first row was found: it becomes the result set's current row, and
   * the statement's auto-commit round is sent; only a throw escapes.
   */
  method Deliver(c: Conn, s: Stmt, row: seq<Value>) returns (o: After<bool>)
    requires Attached(c, s)
    ensures Attached(o.conn, o.stmt) && Follows(c, o.conn)
    ensures o.stmt == s.(exhausted := false, rs := WithCurrent(s.rs, row))
    ensures o.conn.session.handles == c.session.handles
    ensures o.r.Ok? ==> o.r.value && Issued(c.session, o.conn.session) == AUTO_COMMIT_ROUND
  {
    var st := s.(exhausted := false, rs := WithCurrent(s.rs, row));
    var e := EnsureAutoCommit(c.session, STATEMENT_AUTO_COMMIT);
    if e.1.Err? {
      return After(c.(session := e.0), st, Err(e.1.exc));
    }
    o := After(c.(session := e.0), st, Ok(true));
  }

  /**
   * The end of `execute(sql)`: step to the first row; none means the
   * results are exhausted and the answer is `false`; otherwise the row is
   * delivered and the answer is `true`.
   */
  method Finish(c: Conn, s: Stmt) returns (o: After<bool>)
    requires Attached(c, s)
    ensures Attached(o.conn, o.stmt) && Follows(c, o.conn)
    ensures !s.open ==> o == After(c, s, Err(NotExecuting))
    ensures o.r.Ok? ==>
              && o.stmt.open && o.stmt.handle == s.handle && o.stmt.sql == s.sql
              && o.stmt.exhausted == !o.r.value
    ensures o.r.Ok? && o.r.value ==>
              && |o.stmt.buffer| > 0 && o.stmt.rs == WithCurrent(s.rs, o.stmt.buffer[0])
              && o.conn.session.handles == c.session.handles
    ensures o.r.Ok? && !o.r.value ==>
              o.stmt.buffer == [] && o.stmt.stepReturnedNull && EndsWith(Issued(c.session, o.conn.session), Changes)
    ensures s.open && !IsClosed(c.session, s.handle) && |s.buffer| > 0 && o.r.Ok? ==>
              o.r.value && o.stmt.buffer == s.buffer
    ensures s.open && !IsClosed(c.session, s.handle) && s.buffer == [] && o.r.Ok? && o.r.value ==>
              StartsWithPoll(Issued(c.session, o.conn.session), Target(c.session, s.handle).value)
  {
    var p := Step(c, s);
    if p.r.Err? {
      return After(p.conn, p.stmt, Err(p.r.exc));
    }
    if p.r.value.None? {
      return After(p.conn, p.stmt.(exhausted := true), Ok(false));
    }
    o := Deliver(p.conn, p.stmt, p.r.value.value);
    IssuedJoin(c.session, p.conn.session, o.conn.session);
  }

  /**
   * A connection after `execute`: only its session, its registered
   * handles and its executed flag have changed.
   */
  predicate Registers(c: Conn, d: Conn)
  {
    && Later(c.session, d.session)
    && d == c.(session := d.session, stmts := d.stmts, firstStatementExecuted := d.firstStatementExecuted)
  }

  /** A handle closed after the first stretch stays closed, and one stale stays stale. */
  lemma Keeps(a: Session, b: Session, d: Session, h: nat)
    requires Later(a, b) && Later(b, d) && ValidHandle(a, h)
    ensures ValidHandle(b, h) && ValidHandle(d, h)
    ensures IsClosed(b, h) ==> IsClosed(d, h)
    ensures Stale(b, h) ==> Stale(d, h)
  {
    if IsClosed(b, h) {
      StaysClosed(b, d, h);
    }
    if Stale(b, h) {
      StaysStale(b, d, h);
    }
  }

  /** Further calls that only register handles, after calls that change nothing else, only register handles. */
  lemma RegistersAfter(c: Conn, b: Conn, d: Conn)
    requires Follows(c, b)
    requires Later(b.session, d.session)
    requires d == b.(session := d.session, stmts := d.stmts, firstStatementExecuted := d.firstStatementExecuted)
    ensures Registers(c, d)
    ensures Issued(c.session, d.session) == Issued(c.session, b.session) + Issued(b.session, d.session)
  {
    IssuedJoin(c.session, b.session, d.session);
  }

  /**
   * The start of `execute(sql)` as written: close the result set, close
   * the handle, take the new text and a fresh result set.
   */
  method Clear(c: Conn, s: Stmt, sql: string) returns (o: After<()>)
    requires Attached(c, s)
    ensures Attached(o.conn, o.stmt) && Follows(c, o.conn)
    ensures s.rs.Some? && !s.rs.value.open ==> o == After(c, s, Err(ResultSetClosed))
    ensures o.r.Ok? ==> o.stmt.sql == sql && o.stmt.rs == Some(FreshRs())
    ensures KeepsStatement(s) ==> o.stmt.handle == s.handle && IsClosed(o.conn.session, s.handle)
    ensures KeepsStatement(s) && o.r.Ok? ==> o.stmt == s.(sql := sql, rs := Some(FreshRs()))
    ensures KeepsStatement(s) && o.r.Err? ==> o.stmt.open == s.open
    ensures KeepsStatement(s) && Stale(c.session, s.handle) ==> o == After(c, s.(rs := o.stmt.rs), Err(NotOpen))
    ensures KeepsStatement(s) && !IsClosed(c.session, s.handle) ==>
              && Issued(c.session, o.conn.session) == [Finalize(c.session.handles[s.handle].stmt)]
              && Stale(o.conn.session, s.handle)
  {
    var a := ReleaseResultSet(c, s);
    if a.r.Err? {
      return After(a.conn, a.stmt, Err(a.r.exc));
    }
    o := Restart(a.conn, a.stmt, sql);
    LaterTransitive(c.session, a.conn.session, o.conn.session);
  }

  /**
   * The part of `execute(sql)` before the first step, as written: the
   * start above, then the prepare.  The connection registers the handle
   * just closed, and when the prepare fails the statement keeps it.
   */
  method Setup(c: Conn, s: Stmt, sql: string) returns (o: After<()>)
    requires Attached(c, s)
    ensures Connection.Valid(o.conn) && ValidHandle(o.conn.session, o.stmt.handle) && Registers(c, o.conn)
    ensures s.rs.Some? && !s.rs.value.open ==> o == After(c, s, Err(ResultSetClosed))
    ensures KeepsStatement(s) && Stale(c.session, s.handle) ==> o == After(c, s.(rs := o.stmt.rs), Err(NotOpen))
    ensures o.r.Ok? ==>
              && o.stmt.sql == sql && o.stmt.rs == Some(FreshRs()) && o.conn.firstStatementExecuted
              && !IsClosed(o.conn.session, o.stmt.handle)
    ensures o.r.Ok? && KeepsStatement(s) ==>
              && o.stmt == s.(sql := sql, rs := Some(FreshRs()), handle := o.stmt.handle)
              && o.conn.stmts == c.stmts + [s.handle]
              && IsClosed(o.conn.session, s.handle)
              && o.stmt.handle != s.handle && o.stmt.handle !in o.conn.stmts
    ensures o.r.Err? && s.open && KeepsStatement(s) && !IsClosed(c.session, s.handle)
            && Issued(c.session, o.conn.session) == [Finalize(c.session.handles[s.handle].stmt), Prepare(sql)] ==>
              o.stmt.open && o.stmt.handle == s.handle && Stale(o.conn.session, s.handle)
  {
    var b := Clear(c, s, sql);
    if b.r.Err? {
      return After(b.conn, b.stmt, Err(b.r.exc));
    }
    o := Prepared(b.conn, b.stmt);
    RegistersAfter(c, b.conn, o.conn);
    Keeps(c.session, b.conn.session, o.conn.session, s.handle);
  }

  /**
   * `execute(sql)` as written: the preparation above, then a step to the
   * first row, answering whether there is one.  Rows still buffered from
   * the previous query are not discarded, so the first of them is
   * answered as the new query's first row; the handle registered with the
   * connection is the old, closed one; and a statement whose handle is
   * stale can never execute again.
   */
  method Execute(c: Conn, s: Stmt, sql: string) returns (o: After<bool>)
    requires Attached(c, s)
    ensures Connection.Valid(o.conn) && ValidHandle(o.conn.session, o.stmt.handle) && Registers(c, o.conn)
    ensures !s.open ==> o == After(c, s, Err(NotExecuting))
    ensures s.open && s.rs.Some? && !s.rs.value.open ==> o == After(c, s, Err(ResultSetClosed))
    ensures s.open && KeepsStatement(s) && Stale(c.session, s.handle) ==>
              o == After(c, s.(rs := o.stmt.rs), Err(NotOpen))
    ensures o.r.Ok? ==> o.stmt.open && o.stmt.sql == sql && o.stmt.exhausted == !o.r.value && o.conn.firstStatementExecuted
    ensures o.r.Ok? && o.r.value ==> |o.stmt.buffer| > 0
    ensures o.r.Ok? && !o.r.value ==>
              o.stmt.buffer == [] && o.stmt.stepReturnedNull && EndsWith(Issued(c.session, o.conn.session), Changes)
    ensures o.r.Ok? && KeepsStatement(s) ==>
              && o.conn.stmts == c.stmts + [s.handle]
              && IsClosed(o.conn.session, s.handle)
              && o.stmt.handle != s.handle && o.stmt.handle !in o.conn.stmts
    ensures s.open && KeepsStatement(s) && |s.buffer| > 0 && o.r.Ok? ==>
              o.r.value && o.stmt.rs == Some(FreshRs().(current := Some(s.buffer[0])))
  {
    if !s.open {
      LaterRefl(c.session);
      return After(c, s, Err(NotExecuting));
    }
    var d := Setup(c, s, sql);
    if d.r.Err? {
      return After(d.conn, d.stmt, Err(d.r.exc));
    }
    o := Finish(d.conn, d.stmt);
    IssuedJoin(c.session, d.conn.session, o.conn.session);
    if o.r.Ok? && !o.r.value {
      EndsWithAfter(Issued(c.session, d.conn.session), Issued(d.conn.session, o.conn.session), Changes);
    }
    if o.r.Ok? && KeepsStatement(s) {
      StaysClosed(d.conn.session, o.conn.session, s.handle);
    }
  }

  /**
   * The evident intent of the start of `execute(sql)`: an already closed
   * result set is skipped, and the rows of the previous query are
   * discarded with it.
   */
  method ClearFixed(c: Conn, s: Stmt, sql: string) returns (o: After<()>)
    requires Attached(c, s)
    ensures Attached(o.conn, o.stmt) && Follows(c, o.conn)
    ensures o.r.Ok? ==> o.stmt.sql == sql && o.stmt.rs == Some(FreshRs()) && o.stmt.buffer == [] && !o.stmt.stepReturnedNull
    ensures KeepsStatement(s) || !s.rs.value.open ==> o.stmt.handle == s.handle && o.stmt.open == s.open
    ensures (KeepsStatement(s) || !s.rs.value.open) && c.session.handles[s.handle].NotReadyHandle? ==>
              o.r.Ok? && o.conn == c
    ensures KeepsStatement(s) && !IsClosed(c.session, s.handle) ==>
              Issued(c.session, o.conn.session) == [Finalize(c.session.handles[s.handle].stmt)]
  {
    var a := ReleaseResultSetFixed(c, s);
    if a.r.Err? {
      return After(a.conn, a.stmt, Err(a.r.exc));
    }
    var b := Restart(a.conn, a.stmt, sql);
    LaterTransitive(c.session, a.conn.session, b.conn.session);
    if b.r.Err? {
      return After(b.conn, b.stmt, Err(b.r.exc));
    }
    o := After(b.conn, b.stmt.(buffer := [], stepReturnedNull := false), Ok(()));
  }

  /**
   * The evident intent of the part before the first step: the corrected
   * start, then a prepare whose failure leaves a placeholder handle.
   */
  method SetupFixed(c: Conn, s: Stmt, sql: string) returns (o: After<()>)
    requires Attached(c, s)
    ensures Connection.Valid(o.conn) && ValidHandle(o.conn.session, o.stmt.handle) && Registers(c, o.conn)
    ensures o.r.Ok? ==>
              && o.stmt.sql == sql && o.stmt.rs == Some(FreshRs()) && o.conn.firstStatementExecuted
              && o.stmt.buffer == [] && !o.stmt.stepReturnedNull
              && !IsClosed(o.conn.session, o.stmt.handle)
    ensures c.open && (KeepsStatement(s) || !s.rs.value.open) && c.session.handles[s.handle].NotReadyHandle? ==>
              StartsWith(Issued(c.session, o.conn.session), Prepare(sql))
    ensures o.r.Err? && s.open && KeepsStatement(s) && !IsClosed(c.session, s.handle)
            && Issued(c.session, o.conn.session) == [Finalize(c.session.handles[s.handle].stmt), Prepare(sql)] ==>
              o.stmt.open && o.conn.session.handles[o.stmt.handle] == NotReadyHandle
  {
    var b := ClearFixed(c, s, sql);
    if b.r.Err? {
      return After(b.conn, b.stmt, Err(b.r.exc));
    }
    o := PreparedFixed(b.conn, b.stmt);
    IssuedJoin(c.session, b.conn.session, o.conn.session);
  }

  /** The requests start with `call`. */
  predicate StartsWith(calls: seq<Call>, call: Call)
  {
    |calls| >= 1 && calls[0] == call
  }

  /**
   * `execute(sql)` as evidently intended: the first row answered always
   * comes from a poll of the statement's new server statement, and a
   * statement with a placeholder handle always reaches the prepare.
   */
  method ExecuteFixed(c: Conn, s: Stmt, sql: string) returns (o: After<bool>)
    requires Attached(c, s)
    ensures Connection.Valid(o.conn) && ValidHandle(o.conn.session, o.stmt.handle) && Registers(c, o.conn)
    ensures !s.open ==> o == After(c, s, Err(NotExecuting))
    ensures o.r.Ok? ==> o.stmt.sql == sql && o.stmt.exhausted == !o.r.value && o.conn.firstStatementExecuted
    ensures o.r.Ok? && o.r.value ==>
              && !IsClosed(o.conn.session, o.stmt.handle)
              && StepBy(Target(o.conn.session, o.stmt.handle).value, BATCH) in Issued(c.session, o.conn.session)
    ensures s.open && c.open && (KeepsStatement(s) || !s.rs.value.open) && c.session.handles[s.handle].NotReadyHandle? ==>
              StartsWith(Issued(c.session, o.conn.session), Prepare(sql))
  {
    if !s.open {
      LaterRefl(c.session);
      return After(c, s, Err(NotExecuting));
    }
    var d := SetupFixed(c, s, sql);
    if d.r.Err? {
      return After(d.conn, d.stmt, Err(d.r.exc));
    }
    o := Finish(d.conn, d.stmt);
    IssuedJoin(c.session, d.conn.session, o.conn.session);
    if o.r.Ok? && o.r.value {
      var before := Issued(c.session, d.conn.session);
      assert Issued(c.session, o.conn.session)[|before|] == Issued(d.conn.session, o.conn.session)[0];
    }
  }

  /**
   * `executeLargeUpdate(sql)`: execute, and a first row is an error;
   * otherwise the answer is the update count, which the end of the rows
   * has just taken from the server's change count.
   */
  method ExecuteLargeUpdate(c: Conn, s: Stmt, sql: string) returns (o: After<int64>)
    requires Attached(c, s)
    ensures Connection.Valid(o.conn) && ValidHandle(o.conn.session, o.stmt.handle) && Registers(c, o.conn)
    ensures !s.open ==> o == After(c, s, Err(NotExecuting))
    ensures o.r.Ok? ==>
              && o.r.value == o.stmt.updateCount
              && o.stmt.exhausted && o.stmt.buffer == [] && o.stmt.stepReturnedNull
              && EndsWith(Issued(c.session, o.conn.session), Changes)
  {
    var e := Execute(c, s, sql);
    if e.r.Err? {
      return After(e.conn, e.stmt, Err(e.r.exc));
    }
    if e.r.value {
      return After(e.conn, e.stmt, Err(ReturnsResultSet));
    }
    o := After(e.conn, e.stmt, Ok(e.stmt.updateCount));
  }

  /**
   * `getResultSet()`: `null` once the results are exhausted or when no
   * row is waiting (which exhausts them); otherwise the statement's
   * result set, its column names fetched if it has none yet (a failed
   * fetch is ignored), positioned past the end exactly when the rows ran
   * out.  A statement whose result set was let go throws.
   */
  method GetResultSet(c: Conn, s: Stmt) returns (o: After<bool>)
    requires Attached(c, s)
    ensures Attached(o.conn, o.stmt) && Follows(c, o.conn)
    ensures !s.open ==> o == After(c, s, Err(NotExecuting))
    ensures s.open && s.exhausted ==> o == After(c, s, Ok(false))
    ensures s.open && !s.exhausted && s.rs.None? ==> o == After(c, s, Err(AlreadyRequested))
    ensures s.open && !s.exhausted && s.rs.Some? && s.buffer == [] ==> o == After(c, s.(exhausted := true), Ok(false))
    ensures o.r == Ok(true) ==>
              && s.open && !s.exhausted && s.buffer != []
              && o.stmt == s.(rs := o.stmt.rs) && o.stmt.rs.Some?
              && o.stmt.rs.value == s.rs.value.(cols := o.stmt.rs.value.cols, pastLastRow := s.stepReturnedNull)
    ensures o.r == Ok(true) && s.rs.value.cols != [] ==> o.conn == c && o.stmt.rs.value.cols == s.rs.value.cols
    ensures o.r == Ok(false) ==> o.stmt.exhausted
    ensures s.open && !s.exhausted && s.rs.Some? && s.buffer != [] ==> o.r != Ok(false)
    ensures o.r.Err? ==> o.stmt == s
  {
    LaterRefl(c.session);
    if !s.open {
      return After(c, s, Err(NotExecuting));
    }
    if s.exhausted {
      return After(c, s, Ok(false));
    }
    if s.rs.None? {
      return After(c, s, Err(AlreadyRequested));
    }
    if s.buffer == [] {
      return After(c, s.(exhausted := true), Ok(false));
    }
    var rs := s.rs.value;
    var conn := c;
    if rs.cols == [] {
      var x := ColumnNamesHandle(c.session, s.handle);
      if x.r.Err? {
        return After(c.(session := x.session), s, Err(x.r.exc));
      }
      if x.r.value.Ok? {
        rs := rs.(cols := rs.cols + x.r.value.value);
      }
      conn := c.(session := x.session);
    }
    o := After(conn, s.(rs := Some(rs.(pastLastRow := s.stepReturnedNull))), Ok(true));
  }

  /**
   * `executeQuery(sql)`: execute; no first row gives `null`; otherwise the
   * statement's result set as `getResultSet()` hands it out.
   */
  method ExecuteQuery(c: Conn, s: Stmt, sql: string) returns (o: After<bool>)
    requires Attached(c, s)
    ensures Connection.Valid(o.conn) && ValidHandle(o.conn.session, o.stmt.handle) && Registers(c, o.conn)
    ensures !s.open ==> o == After(c, s, Err(NotExecuting))
    ensures o.r == Ok(true) ==> o.stmt.open && o.stmt.sql == sql && !o.stmt.exhausted && |o.stmt.buffer| > 0 && o.stmt.rs.Some?
    ensures o.r == Ok(false) ==> o.stmt.rs.None? || o.stmt.exhausted
  {
    if !s.open {
      LaterRefl(c.session);
      return After(c, s, Err(NotExecuting));
    }
    var e := Execute(c, s, sql);
    if e.r.Err? || !e.r.value {
      return e;
    }
    if e.stmt.rs.None? {
      return After(e.conn, e.stmt, Ok(false));
    }
    o := GetResultSet(e.conn, e.stmt);
    LaterTransitive(c.session, e.conn.session, o.conn.session);
  }

  /** `getLargeMaxRows()`. */
  function GetLargeMaxRows(s: Stmt): (r: Result<int64>)
    ensures r.Ok? <==> s.open
    ensures r.Err? ==> r.exc == NotExecuting
  {
    if s.open then Ok(s.maxRows) else Err(NotExecuting)
  }

  /** `setLargeMaxRows(max)`: a negative bound is refused. */
  function SetLargeMaxRows(s: Stmt, max: int64): (r: Result<Stmt>)
    ensures !s.open ==> r == Err(NotExecuting)
    ensures s.open && max < 0 ==> r == Err(NegativeMaxRows)
    ensures r.Ok? <==> s.open && max >= 0
  {
    if !s.open then Err(NotExecuting)
    else if max < 0 then Err(NegativeMaxRows)
    else Ok(s.(maxRows := max))
  }

  /** `getQueryTimeout()`. */
  function GetQueryTimeout(s: Stmt): (r: Result<int32>)
    ensures r.Ok? <==> s.open
    ensures r.Err? ==> r.exc == NotExecuting
  {
    if s.open then Ok(s.queryTimeout) else Err(NotExecuting)
  }

  /** `setQueryTimeout(seconds)`: a negative timeout is refused. */
  function SetQueryTimeout(s: Stmt, seconds: int32): (r: Result<Stmt>)
    ensures !s.open ==> r == Err(NotExecuting)
    ensures s.open && seconds < 0 ==> r == Err(NegativeTimeout)
    ensures r.Ok? <==> s.open && seconds >= 0
  {
    if !s.open then Err(NotExecuting)
    else if seconds < 0 then Err(NegativeTimeout)
    else Ok(s.(queryTimeout := seconds))
  }

  /** The bounds a statement keeps: neither the row limit nor the timeout is negative. */
  predicate Bounded(s: Stmt)
  {
    s.maxRows >= 0 && s.queryTimeout >= 0
  }

  /**
   * A bound that was accepted is the one read back, nothing else about
   * the statement changes, and the bounds stay non-negative.
   */
  lemma MaxRowsRoundTrip(s: Stmt, max: int64)
    requires s.open && max >= 0 && Bounded(s)
    ensures GetLargeMaxRows(SetLargeMaxRows(s, max).value) == Ok(max)
    ensures SetLargeMaxRows(s, max).value == s.(maxRows := max)
    ensures Bounded(SetLargeMaxRows(s, max).value)
  {
  }

  lemma QueryTimeoutRoundTrip(s: Stmt, seconds: int32)
    requires s.open && seconds >= 0 && Bounded(s)
    ensures GetQueryTimeout(SetQueryTimeout(s, seconds).value) == Ok(seconds)
    ensures SetQueryTimeout(s, seconds).value == s.(queryTimeout := seconds)
    ensures Bounded(SetQueryTimeout(s, seconds).value)
  {
  }

  /** A new statement is within its bounds. */
  lemma NewStatementBounded(c: Conn, sql: string)
    requires Connection.Valid(c)
    ensures Bounded(NewStatement(c, sql).1)
  {
  }

  /** `closeOnCompletion()`. */
  function CloseOnCompletion(s: Stmt): (r: Result<Stmt>)
    ensures r.Ok? <==> s.open
    ensures r.Ok? ==> r.value.closeOnCompletion && r.value == s.(closeOnCompletion := true)
  {
    if s.open then Ok(s.(closeOnCompletion := true)) else Err(NotExecuting)
  }

  /**
   * `getMoreResults(current)`: closing the current result is the only
   * request understood — the result set is closed and let go, the update
   * count becomes -1, the results are exhausted, and the answer is always
   * `false`.  The other two constants are refused without the open check;
   * anything else is an invalid argument.
   */
  method GetMoreResults(c: Conn, s: Stmt, current: int32) returns (o: After<bool>)
    requires Attached(c, s)
    ensures Attached(o.conn, o.stmt) && Follows(c, o.conn)
    ensures current == KEEP_CURRENT_RESULT || current == CLOSE_ALL_RESULTS ==> o == After(c, s, Err(KeepOrCloseAll))
    ensures current !in {CLOSE_CURRENT_RESULT, KEEP_CURRENT_RESULT, CLOSE_ALL_RESULTS} ==> o == After(c, s, Err(InvalidArgument))
    ensures current == CLOSE_CURRENT_RESULT && !s.open ==> o == After(c, s, Err(NotExecuting))
    ensures o.r.Ok? ==>
              && current == CLOSE_CURRENT_RESULT && !o.r.value
              && o.stmt.rs.None? && o.stmt.updateCount == -1 && o.stmt.exhausted
    ensures current == CLOSE_CURRENT_RESULT && s.open && KeepsStatement(s) ==>
              o == After(c, s.(rs := None, updateCount := -1, exhausted := true), Ok(false))
  {
    LaterRefl(c.session);
    if current == KEEP_CURRENT_RESULT || current == CLOSE_ALL_RESULTS {
      return After(c, s, Err(KeepOrCloseAll));
    }
    if current != CLOSE_CURRENT_RESULT {
      return After(c, s, Err(InvalidArgument));
    }
    if !s.open {
      return After(c, s, Err(NotExecuting));
    }
    var conn, st := c, s;
    if s.rs.Some? {
      var x := CloseResultSet(c, s);
      if x.r.Err? {
        return After(x.conn, x.stmt, Err(x.r.exc));
      }
      conn, st := x.conn, x.stmt;
    }
    o := After(conn, st.(rs := None, updateCount := -1, exhausted := true), Ok(false));
  }

  /**
   * `getLargeUpdateCount()` as written: the expression computed in
   * `onSuccess` is thrown away, so the answer is the column count the
   * server reports.  A failed column count closes the statement and is
   * thrown; there is no open check.
   */
  method GetLargeUpdateCount(c: Conn, s: Stmt) returns (o: After<int64>)
    requires Attached(c, s)
    ensures Attached(o.conn, o.stmt) && Follows(c, o.conn)
    ensures o.r.Ok? ==>
              && o.stmt == s
              && ColumnCountHandle(c.session, s.handle).r.Ok?
              && ColumnCountHandle(c.session, s.handle).r.value.Ok?
              && o.r.value == ColumnCountHandle(c.session, s.handle).r.value.value as int64
  {
    var x := ColumnCountHandle(c.session, s.handle);
    if x.r.Err? {
      return After(c.(session := x.session), s, Err(x.r.exc));
    }
    if x.r.value.Err? {
      var cl := Close(c.(session := x.session), s);
      LaterTransitive(c.session, x.session, cl.conn.session);
      return After(cl.conn, cl.stmt, Err(if cl.r.Err? then cl.r.exc else x.r.value.exc));
    }
    o := After(c.(session := x.session), s, Ok(x.r.value.value as int64));
  }

  /**
   * The update count `getLargeUpdateCount()` evidently means: the
   * statement's update count while its handle is open, no result set is
   * open, a row is waiting and the query has no columns; -1 otherwise.
   */
  function UpdateCountOf(c: Conn, s: Stmt, columns: int32): (n: int64)
    requires Attached(c, s)
    ensures n == s.updateCount || n == -1
    ensures n != -1 ==> columns == 0 && !IsClosed(c.session, s.handle)
  {
    if !IsClosed(c.session, s.handle) && (s.rs.None? || !s.rs.value.open) && s.buffer != [] && columns == 0
    then s.updateCount else -1
  }

  /** The evident intent: the value computed from the column count is the answer. */
  method GetLargeUpdateCountFixed(c: Conn, s: Stmt) returns (o: After<int64>)
    requires Attached(c, s)
    ensures Attached(o.conn, o.stmt) && Follows(c, o.conn)
    ensures o.r.Ok? ==>
              && o.stmt == s
              && ColumnCountHandle(c.session, s.handle).r.Ok?
              && ColumnCountHandle(c.session, s.handle).r.value.Ok?
              && o.r.value == UpdateCountOf(c, s, ColumnCountHandle(c.session, s.handle).r.value.value)
  {
    var x := ColumnCountHandle(c.session, s.handle);
    if x.r.Err? {
      return After(c.(session := x.session), s, Err(x.r.exc));
    }
    if x.r.value.Err? {
      var cl := Close(c.(session := x.session), s);
      LaterTransitive(c.session, x.session, cl.conn.session);
      return After(cl.conn, cl.stmt, Err(if cl.r.Err? then cl.r.exc else x.r.value.exc));
    }
    o := After(c.(session := x.session), s, Ok(UpdateCountOf(c, s, x.r.value.value)));
  }

  /** `addBatch`, `clearBatch`, `executeBatch` and `executeLargeBatch`: the open check, then not implemented. */
  function Batch(s: Stmt): (r: Result<()>)
    ensures r.Err?
    ensures r.exc == (if s.open then NotImplemented else NotExecuting)
  {
    if s.open then Err(NotImplemented) else Err(NotExecuting)
  }
}

=== FILE: statement_task.dfy ===
/**
 * The server's statement task: each prepared statement is served by a
 * task that takes one request at a time from a channel and sends one
 * reply.  Stepping hands the query's rows out in batches of at most the
 * size asked for; while a batch is outstanding the statement task is "inside a
 * step" and answers the metadata requests but refuses to bind.  The
 * client side checks that the handles it is given belong together before
 * it sends anything.
 *
 * The rows a query yields are a parameter of the statement and do not
 * depend on the bound values.  The original task and a corrected one
 * differ in two places, selected by `fixed`: what clearing the bindings
 * records for a later clone, and whether an error from SQLite while
 * stepping is reported.
 */
module StatementTask {
  import Errors
  import opened SQLiteValue

  type Row = seq<Value>

  /** `RusqliteError`, as far as the statement task's replies tell them apart. */
  datatype TaskError =
    | Custom(msg: string)
      /** SQLite's `SQLITE_RANGE`: a bind to a parameter the statement does not have. */
    | OutOfRange
      /** An error SQLite reports while stepping. */
    | StepFailed
      /** The statement task is gone and the channel closed. */
    | Disconnected

  datatype Reply<T> = Ok(value: T) | Err(error: TaskError)

  /** `StmtInput`: the requests. */
  datatype Input =
    | StepBy(n: nat)
    | ClearBindings
    | CloneAndReset
    | Bind(index: nat, v: Value)
    | BindParameterCount
    | ColumnNames
    | ColumnName(col: nat)
    | ColumnCount
    | Close

  /** What stepping the query yields: its rows, then the end or, when `fails`, an error. */
  datatype Query = Query(rows: seq<Row>, fails: bool)

  /**
   * `StatementMeta` and the statement itself: the column names, the
   * number of parameters, the values bound in SQLite, and the values the
   * task records for a clone (`bound_values`).
   */
  datatype Meta = Meta(names: seq<string>, paramCount: nat, bound: map<nat, Value>, recorded: map<nat, Value>, query: Query)

  /** Waiting for a request; inside a step with row `pos` next; or finished. */
  datatype Mode = Idle | Stepping(pos: nat) | Ended

  datatype Task = Task(meta: Meta, mode: Mode)

  /** `StmtOutput`: the replies. */
  datatype Output =
    | Rows(batch: seq<Row>)
      /** The corrected task's report of a failed step. */
    | RowsFailed(e: TaskError)
    | Cleared(cleared: bool)
    | Cloned(clone: Task)
    | Bound(r: Reply<()>)
    | ParamCount(count: nat)
    | Names(names: seq<string>)
    | Name(name: string)
    | Count(count: nat)
    | Done
    | Error(e: TaskError)

  const ZeroStep := Custom("Cannot step by 0")
  const BindWhileStepping := Custom("Cannot bind when stepping")

  /** A state the statement task can be in: inside a step, the next row is at most one past the last. */
  predicate Valid(t: Task)
  {
    t.mode.Stepping? ==> t.mode.pos <= |t.meta.query.rows|
  }

  /** The row the next step starts from: the first after `Idle`, since stepping restarts the query. */
  function Start(t: Task): nat
  {
    if t.mode.Stepping? then t.mode.pos else 0
  }

  function Min(a: int, b: int): int { if a <= b then a else b }

  /** The reply once no row is left: the end, or the corrected task's report of a query that fails. */
  function EndOfRows(q: Query, fixed: bool): Output
  {
    if fixed && q.fails then RowsFailed(StepFailed) else Done
  }

  /**
   * One step request of `n > 0` rows from row `pos`: the next rows, at
   * most `n`, and the statement task stays inside the step; with no row left, the
   * end (`Done`) and the statement task is idle again.  The corrected task reports
   * a query that fails where the original reports the end.
   */
  function Advance(m: Meta, pos: nat, n: nat, fixed: bool): (x: (Task, Output))
    requires pos <= |m.query.rows| && n > 0
    ensures Valid(x.0) && x.0.meta == m
    ensures x.1.Rows? ==>
              && 0 < |x.1.batch| <= n
              && pos + |x.1.batch| <= |m.query.rows|
              && x.1.batch == m.query.rows[pos..pos + |x.1.batch|]
              && x.0.mode == Stepping(pos + |x.1.batch|)
              && (|x.1.batch| < n ==> pos + |x.1.batch| == |m.query.rows|)
    ensures x.1.Rows? <==> pos < |m.query.rows|
    ensures !x.1.Rows? ==> x.0.mode == Idle && (x.1 == Done <==> !(fixed && m.query.fails))
    ensures !x.1.Rows? ==> x.1 == Done || x.1 == RowsFailed(StepFailed)
  {
    if pos == |m.query.rows| then
      (Task(m, Idle), EndOfRows(m.query, fixed))
    else
      var k := Min(n, |m.query.rows| - pos);
      (Task(m, Stepping(pos + k)), Rows(m.query.rows[pos..pos + k]))
  }

  /** The answers to the metadata requests, the same inside a step and out. */
  function Describe(m: Meta, i: Input): (o: Output)
    requires i.BindParameterCount? || i.ColumnNames? || i.ColumnName? || i.ColumnCount?
    ensures i.ColumnName? ==> o == Name(if i.col < |m.names| then m.names[i.col] else "")
  {
    match i
    case BindParameterCount => ParamCount(m.paramCount)
    case ColumnNames => Names(m.names)
    case ColumnName(k) => Name(if k < |m.names| then m.names[k] else "")
    case ColumnCount => Count(|m.names|)
  }

  /**
   * `CloneAndReset`: a new task on the same query, prepared afresh and
   * given the values the statement task recorded.
   */
  function CloneOf(m: Meta): (c: Task)
    ensures c.mode == Idle && c.meta.bound == m.recorded && c.meta.query == m.query
  {
    Task(m.(bound := m.recorded), Idle)
  }

  /**
   * A request out of a step (`handle_statement`): a step starts the query
   * afresh; a bind to a parameter the statement has is recorded for
   * clones, one outside ends the statement task with an error, as a step by 0 does;
   * clearing unbinds every parameter; `Close` ends the statement task.
   */
  function StepIdle(m: Meta, i: Input, fixed: bool): (x: (Task, Output))
    ensures Valid(x.0)
    ensures i == StepBy(0) ==> x == (Task(m, Ended), Error(ZeroStep))
    ensures i.StepBy? && i.n > 0 ==> x == Advance(m, 0, i.n, fixed)
    ensures i == Close ==> x == (Task(m, Ended), Done)
    ensures i.Bind? && 1 <= i.index <= m.paramCount ==>
              x == (Task(m.(bound := m.bound[i.index := i.v], recorded := m.recorded[i.index := i.v]), Idle), Bound(Ok(())))
    ensures i.Bind? && !(1 <= i.index <= m.paramCount) ==> x == (Task(m, Ended), Error(OutOfRange))
    ensures i.ClearBindings? ==>
              x == (Task(m.(bound := map[], recorded := if fixed then map[] else m.recorded), Idle), Cleared(true))
    ensures i.CloneAndReset? ==> x == (Task(m, Idle), Cloned(CloneOf(m)))
    ensures x.1.Error? ==> x.0.mode.Ended?
    ensures x.0.meta.query == m.query && x.0.meta.names == m.names
  {
    match i
    case StepBy(n) => if n == 0 then (Task(m, Ended), Error(ZeroStep)) else Advance(m, 0, n, fixed)
    case Bind(k, v) =>
      if 1 <= k <= m.paramCount then
        (Task(m.(bound := m.bound[k := v], recorded := m.recorded[k := v]), Idle), Bound(Ok(())))
      else (Task(m, Ended), Error(OutOfRange))
    case ClearBindings =>
      (Task(m.(bound := map[], recorded := if fixed then map[] else m.recorded), Idle), Cleared(true))
    case CloneAndReset => (Task(m, Idle), Cloned(CloneOf(m)))
    case Close => (Task(m, Ended), Done)
    case _ => (Task(m, Idle), Describe(m, i))
  }

  /**
   * A request inside a step (`handle_stmt_inside_step`): a step hands out
   * the next batch; binds are refused and clearing does nothing, both
   * leaving the statement task as it was; a step by 0 ends the statement task with an error
   * and `Close` ends it.
   */
  function StepInside(m: Meta, pos: nat, i: Input, fixed: bool): (x: (Task, Output))
    requires pos <= |m.query.rows|
    ensures Valid(x.0)
    ensures i == StepBy(0) ==> x == (Task(m, Ended), Error(ZeroStep))
    ensures i.StepBy? && i.n > 0 ==> x == Advance(m, pos, i.n, fixed)
    ensures i == Close ==> x == (Task(m, Ended), Done)
    ensures i.Bind? ==> x == (Task(m, Stepping(pos)), Bound(Err(BindWhileStepping)))
    ensures i.ClearBindings? ==> x == (Task(m, Stepping(pos)), Cleared(false))
    ensures i.CloneAndReset? ==> x == (Task(m, Stepping(pos)), Cloned(CloneOf(m)))
    ensures x.1.Error? ==> x.0.mode.Ended?
    ensures x.0.meta == m
  {
    match i
    case StepBy(n) => if n == 0 then (Task(m, Ended), Error(ZeroStep)) else Advance(m, pos, n, fixed)
    case Bind(_, _) => (Task(m, Stepping(pos)), Bound(Err(BindWhileStepping)))
    case ClearBindings => (Task(m, Stepping(pos)), Cleared(false))
    case CloneAndReset => (Task(m, Stepping(pos)), Cloned(CloneOf(m)))
    case Close => (Task(m, Ended), Done)
    case _ => (Task(m, Stepping(pos)), Describe(m, i))
  }

  /**
   * One request and its reply; a finished task no longer answers, and the
   * client reads the closed channel as an error.
   */
  function Step(t: Task, i: Input, fixed: bool): (x: (Task, Output))
    requires Valid(t)
    ensures Valid(x.0)
    ensures t.mode.Ended? ==> x == (t, Error(Disconnected))
    ensures !t.mode.Ended? && i.StepBy? && i.n > 0 ==> x == Advance(t.meta, Start(t), i.n, fixed)
    ensures x.1.Error? ==> x.0.mode.Ended?
    ensures x.0.meta.query == t.meta.query
  {
    match t.mode
    case Ended => (t, Error(Disconnected))
    case Idle => StepIdle(t.meta, i, fixed)
    case Stepping(pos) => StepInside(t.meta, pos, i, fixed)
  }

  /** A run of requests: the statement task afterwards and the replies in order. */
  function Feed(t: Task, ins: seq<Input>, fixed: bool): (x: (Task, seq<Output>))
    requires Valid(t)
    ensures Valid(x.0) && |x.1| == |ins|
    ensures x.0.meta.query == t.meta.query
    decreases |ins|
  {
    if |ins| == 0 then (t, [])
    else
      var (t1, o) := Step(t, ins[0], fixed);
      var (t2, os) := Feed(t1, ins[1..], fixed);
      (t2, [o] + os)
  }

  /** Step requests for each size in `ns`. */
  function StepBys(ns: seq<nat>): (ins: seq<Input>)
    ensures |ins| == |ns| && forall j | 0 <= j < |ns| :: ins[j] == StepBy(ns[j])
  {
    if |ns| == 0 then [] else [StepBy(ns[0])] + StepBys(ns[1..])
  }

  /** The rows handed out by a run of replies, up to the first reply that is not a batch. */
  function Collected(os: seq<Output>): seq<Row>
  {
    if |os| == 0 || !os[0].Rows? then [] else os[0].batch + Collected(os[1..])
  }

  function Sum(ns: seq<nat>): nat
  {
    if |ns| == 0 then 0 else ns[0] + Sum(ns[1..])
  }

  predicate AllPositive(ns: seq<nat>)
  {
    forall j | 0 <= j < |ns| :: ns[j] > 0
  }

  /**
   * The replies to a run of step requests of the sizes `ns`, from row `s`
   * on: the next rows, as many as asked for or all that remain; at the
   * end, the end of the rows, after which the query starts again.
   */
  function Batches(m: Meta, s: nat, ns: seq<nat>, fixed: bool): (os: seq<Output>)
    requires s <= |m.query.rows|
    ensures |os| == |ns|
    decreases |ns|
  {
    if |ns| == 0 then []
    else if s == |m.query.rows| then [EndOfRows(m.query, fixed)] + Batches(m, 0, ns[1..], fixed)
    else
      var k := Min(ns[0], |m.query.rows| - s);
      [Rows(m.query.rows[s..s + k])] + Batches(m, s + k, ns[1..], fixed)
  }

  /** Feeding a task step requests is answered batch by batch. */
  lemma {:induction false} FeedIsBatches(t: Task, ns: seq<nat>, fixed: bool)
    requires Valid(t) && !t.mode.Ended? && AllPositive(ns)
    ensures Feed(t, StepBys(ns), fixed).1 == Batches(t.meta, Start(t), ns, fixed)
    decreases |ns|
  {
    if |ns| == 0 {
      assert StepBys(ns) == [];
    } else {
      var a := Advance(t.meta, Start(t), ns[0], fixed);
      FeedStepBys(t, ns, fixed);
      PositiveTail(ns);
      FeedIsBatches(a.0, ns[1..], fixed);
      assert Batches(t.meta, Start(t), ns, fixed) == [a.1] + Batches(t.meta, Start(a.0), ns[1..], fixed);
    }
  }

  /** The rows the batches from row `s` hand out before the end. */
  lemma {:induction false} BatchesFrom(m: Meta, s: nat, ns: seq<nat>, fixed: bool)
    requires s <= |m.query.rows| && AllPositive(ns)
    ensures Collected(Batches(m, s, ns, fixed)) == m.query.rows[s..s + Min(Sum(ns), |m.query.rows| - s)]
    decreases |ns|
  {
    if |ns| > 0 {
      PositiveTail(ns);
      if s < |m.query.rows| {
        var k := Min(ns[0], |m.query.rows| - s);
        BatchesFrom(m, s + k, ns[1..], fixed);
        FirstBatch(m, s, ns, fixed, k);
      } else {
        var os1 := Batches(m, 0, ns[1..], fixed);
        assert Batches(m, s, ns, fixed) == [EndOfRows(m.query, fixed)] + os1;
        CollectedCons(EndOfRows(m.query, fixed), os1);
      }
    }
  }

  /** The step of `BatchesFrom` for a first batch of `k` rows. */
  lemma FirstBatch(m: Meta, s: nat, ns: seq<nat>, fixed: bool, k: nat)
    requires s < |m.query.rows| && |ns| > 0 && ns[0] > 0
    requires k == Min(ns[0], |m.query.rows| - s)
    requires Collected(Batches(m, s + k, ns[1..], fixed)) == m.query.rows[s + k..s + k + Min(Sum(ns[1..]), |m.query.rows| - (s + k))]
    ensures Collected(Batches(m, s, ns, fixed)) == m.query.rows[s..s + Min(Sum(ns), |m.query.rows| - s)]
  {
    var rows := m.query.rows;
    var o := Rows(rows[s..s + k]);
    var os1 := Batches(m, s + k, ns[1..], fixed);
    assert Batches(m, s, ns, fixed) == [o] + os1;
    CollectedCons(o, os1);
    JoinBatch(rows, s, k, Collected(os1), ns[0], Sum(ns[1..]), Sum(ns));
  }

  /**
   * Batching loses and repeats nothing: whatever the batch sizes asked
   * for, the batches handed out before the end are the query's rows from
   * the starting row on, in order, as many as were asked for or all that
   * remain.
   */
  lemma BatchesConcatenate(t: Task, ns: seq<nat>, fixed: bool)
    requires Valid(t) && !t.mode.Ended? && AllPositive(ns)
    ensures var rows := t.meta.query.rows;
            Collected(Feed(t, StepBys(ns), fixed).1) == rows[Start(t)..Start(t) + Min(Sum(ns), |rows| - Start(t))]
  {
    FeedIsBatches(t, ns, fixed);
    BatchesFrom(t.meta, Start(t), ns, fixed);
  }

  /** The first step request of a run is answered by `Advance`, and the rest run on from there. */
  lemma FeedStepBys(t: Task, ns: seq<nat>, fixed: bool)
    requires Valid(t) && !t.mode.Ended? && |ns| > 0 && ns[0] > 0
    ensures var a := Advance(t.meta, Start(t), ns[0], fixed);
            Feed(t, StepBys(ns), fixed).1 == [a.1] + Feed(a.0, StepBys(ns[1..]), fixed).1
  {
    var ins := StepBys(ns);
    assert ins[0] == StepBy(ns[0]) && ins[1..] == StepBys(ns[1..]);
  }

  /**
   * As written, a query whose stepping fails is answered exactly as the
   * same rows followed by a normal end: whatever steps the client asks
   * for, it cannot tell the failure from the end of the rows.
   */
  lemma {:induction false} FailureLooksLikeEnd(m: Meta, s: nat, ns: seq<nat>)
    requires s <= |m.query.rows|
    ensures Batches(m, s, ns, false) == Batches(m.(query := Query(m.query.rows, !m.query.fails)), s, ns, false)
    decreases |ns|
  {
    var m' := m.(query := Query(m.query.rows, !m.query.fails));
    if |ns| > 0 {
      if s == |m.query.rows| {
        FailureLooksLikeEnd(m, 0, ns[1..]);
        assert EndOfRows(m.query, false) == EndOfRows(m'.query, false);
      } else {
        var k := Min(ns[0], |m.query.rows| - s);
        FailureLooksLikeEnd(m, s + k, ns[1..]);
      }
    }
  }

  /** The values a statement binds are the ones it records for its clones. */
  predicate RecordsBindings(m: Meta)
  {
    m.recorded == m.bound
  }

  /**
   * As written, a value bound and then cleared comes back in a clone:
   * clearing unbinds it in the statement but leaves it recorded.
   */
  lemma ClearedValueComesBack(m: Meta, v: Value)
    requires m.paramCount >= 1
    ensures var bound := StepIdle(m, Bind(1, v), false).0.meta;
            var cleared := StepIdle(bound, ClearBindings, false).0.meta;
            var cloned := StepIdle(cleared, CloneAndReset, false).1;
            && cleared.bound == map[]
            && cloned.Cloned? && cloned.clone.meta.bound == m.recorded[1 := v]
  {
  }

  /** With clearing corrected, one request keeps the record equal to the bindings, and a clone binds what the statement binds. */
  lemma StepRecordsBindings(t: Task, i: Input)
    requires Valid(t) && RecordsBindings(t.meta)
    ensures var x := Step(t, i, true);
            && RecordsBindings(x.0.meta)
            && (x.1.Cloned? ==> x.1.clone.meta.bound == t.meta.bound && RecordsBindings(x.1.clone.meta))
  {
  }

  /**
   * With clearing corrected, the record for clones stays equal to the
   * bindings whatever requests the statement is sent, so a clone never
   * binds a value the statement has cleared.
   */
  lemma {:induction false} FeedRecordsBindings(t: Task, ins: seq<Input>)
    requires Valid(t) && RecordsBindings(t.meta)
    ensures RecordsBindings(Feed(t, ins, true).0.meta)
    ensures forall j | 0 <= j < |ins| && Feed(t, ins, true).1[j].Cloned? :: RecordsBindings(Feed(t, ins, true).1[j].clone.meta)
    decreases |ins|
  {
    if |ins| > 0 {
      var x := Step(t, ins[0], true);
      StepRecordsBindings(t, ins[0]);
      FeedRecordsBindings(x.0, ins[1..]);
      var os := Feed(t, ins, true).1;
      assert os == [x.1] + Feed(x.0, ins[1..], true).1;
      forall j | 0 <= j < |ins| && os[j].Cloned?
        ensures RecordsBindings(os[j].clone.meta)
      {
        if j > 0 {
          assert os[j] == Feed(x.0, ins[1..], true).1[j - 1];
        }
      }
    }
  }

  lemma CollectedCons(o: Output, os: seq<Output>)
    ensures Collected([o] + os) == if o.Rows? then o.batch + Collected(os) else []
  {
    assert ([o] + os)[1..] == os;
  }

  /** A batch of `k` rows followed by the rows handed out after it is the longer run of rows. */
  lemma JoinBatch<T>(rows: seq<T>, s: nat, k: nat, tail: seq<T>, n: nat, rest: nat, total: nat)
    requires 0 < k <= n && s + k <= |rows|
    requires k < n ==> s + k == |rows|
    requires tail == rows[s + k..s + k + Min(rest, |rows| - (s + k))]
    requires total == n + rest
    ensures rows[s..s + k] + tail == rows[s..s + Min(total, |rows| - s)]
  {
    assert Min(total, |rows| - s) == k + Min(rest, |rows| - (s + k));
  }

  lemma PositiveTail(ns: seq<nat>)
    requires |ns| > 0 && AllPositive(ns)
    ensures AllPositive(ns[1..])
  {
    assert forall j | 0 <= j < |ns| - 1 :: ns[1..][j] == ns[j + 1];
  }

  /** The identity of a context, a connection and a statement handle (their uuids). */
  datatype ConnHandle = ConnHandle(uuid: nat, context: nat)
  datatype StmtHandle = StmtHandle(connection: nat, context: nat)

  const BadConnectionContext := Custom("Connection's context isn't consistent")
  const BadStatementConnection := Custom("Statement's connection isn't consistent")
  const BadStatementContext := Custom("Statement's context isn't consistent")

  /** `check_connection_consistency`: the connection was made in this context. */
  function CheckConnection(ctx: nat, c: ConnHandle): (r: Reply<()>)
    ensures r.Ok? <==> c.context == ctx
    ensures r.Err? ==> r.error == BadConnectionContext
  {
    if c.context != ctx then Err(BadConnectionContext) else Ok(())
  }

  /**
   * `check_statement_consistency`: the connection belongs to the context,
   * and the statement to both; the first mismatch is the one reported.
   */
  function CheckStatement(ctx: nat, c: ConnHandle, s: StmtHandle): (r: Reply<()>)
    ensures r.Ok? <==> c.context == ctx && s.connection == c.uuid && s.context == ctx
    ensures c.context != ctx ==> r == Err(BadConnectionContext)
    ensures c.context == ctx && s.connection != c.uuid ==> r == Err(BadStatementConnection)
    ensures c.context == ctx && s.connection == c.uuid && s.context != ctx ==> r == Err(BadStatementContext)
  {
    if CheckConnection(ctx, c).Err? then CheckConnection(ctx, c)
    else if c.uuid != s.connection then Err(BadStatementConnection)
    else if ctx != s.context then Err(BadStatementContext)
    else Ok(())
  }

  /** The handle `prepare` and `clone_and_reset` make for a statement of `c` in context `ctx`. */
  function Issue(ctx: nat, c: ConnHandle): StmtHandle
  {
    StmtHandle(c.uuid, ctx)
  }

  /**
   * A statement handle made for a connection passes the check exactly
   * with that connection in the context both were made in; used with a
   * connection of another context, or another connection, it is refused.
   */
  lemma IssuedHandlesAgree(ctx: nat, c: ConnHandle, ctx2: nat, c2: ConnHandle)
    requires c.context == ctx
    ensures CheckStatement(ctx, c, Issue(ctx, c)) == Ok(())
    ensures CheckStatement(ctx2, c2, Issue(ctx, c)).Ok? <==> ctx2 == ctx && c2.uuid == c.uuid && c2.context == ctx
  {
  }

  /**
   * `do_stmt`: check the handles, send the request, take the reply; an
   * `Error` reply is the error.  A refused check sends nothing.
   */
  function Exchange(ctx: nat, c: ConnHandle, s: StmtHandle, t: Task, i: Input, fixed: bool): (x: (Task, Reply<Output>))
    requires Valid(t)
    ensures Valid(x.0)
    ensures CheckStatement(ctx, c, s).Err? ==> x == (t, Err(CheckStatement(ctx, c, s).error))
    ensures CheckStatement(ctx, c, s).Ok? ==> x.0 == Step(t, i, fixed).0
    ensures x.1.Ok? ==> CheckStatement(ctx, c, s).Ok? && x.1.value == Step(t, i, fixed).1 && !x.1.value.Error?
  {
    match CheckStatement(ctx, c, s)
    case Err(e) => (t, Err(e))
    case Ok(_) =>
      var (t', o) := Step(t, i, fixed);
      (t', if o.Error? then Err(o.e) else Ok(o))
  }

  /** What `step_by` gives back: a batch of rows, or nothing more. */
  datatype Stepped = Batch(rows: seq<Row>) | Finished

  /**
   * `step_by(n)`: the next rows, at most `n` and at least one, while
   * there are any; then `Finished`, or the corrected task's report of a
   * query that fails.  The first step of an idle statement restarts its
   * query.
   */
  method StepByClient(ctx: nat, c: ConnHandle, s: StmtHandle, t: Task, n: nat, fixed: bool)
    returns (t': Task, r: Reply<Stepped>)
    requires Valid(t)
    ensures Valid(t') && t'.meta == t.meta
    ensures CheckStatement(ctx, c, s).Err? ==> t' == t && r == Err(CheckStatement(ctx, c, s).error)
    ensures CheckStatement(ctx, c, s).Ok? && t.mode.Ended? ==> t' == t && r == Err(Disconnected)
    ensures CheckStatement(ctx, c, s).Ok? && !t.mode.Ended? && n == 0 ==> t' == t.(mode := Ended) && r == Err(ZeroStep)
    ensures CheckStatement(ctx, c, s).Ok? && !t.mode.Ended? && n > 0 ==>
              var rows := t.meta.query.rows;
              && (Start(t) < |rows| <==> r.Ok? && r.value.Batch?)
              && (r.Ok? && r.value.Batch? ==>
                    && 0 < |r.value.rows| <= n && Start(t) + |r.value.rows| <= |rows|
                    && r.value.rows == rows[Start(t)..Start(t) + |r.value.rows|]
                    && t'.mode == Stepping(Start(t) + |r.value.rows|)
                    && (|r.value.rows| < n ==> Start(t) + |r.value.rows| == |rows|))
              && (Start(t) == |rows| ==>
                    && t'.mode == Idle
                    && r == if fixed && t.meta.query.fails then Err(StepFailed) else Ok(Finished))
  {
    var x := Exchange(ctx, c, s, t, StepBy(n), fixed);
    t' := x.0;
    if x.1.Err? {
      r := Err(x.1.error);
    } else {
      match x.1.value
      case Rows(b) => r := Ok(Batch(b));
      case RowsFailed(e) => r := Err(e);
      case _ => r := Ok(Finished);
    }
  }

  /**
   * `step_all`: steps by 100 until the end and returns every row from
   * where the statement stood, or nothing when there were none.  The
   * original task reports a query that fails as if it had ended; the
   * corrected one reports the failure.
   */
  method StepAll(ctx: nat, c: ConnHandle, s: StmtHandle, t0: Task, fixed: bool)
    returns (t: Task, r: Reply<Errors.Option<seq<Row>>>)
    requires Valid(t0)
    ensures Valid(t) && t.meta == t0.meta
    ensures CheckStatement(ctx, c, s).Err? ==> t == t0 && r == Err(CheckStatement(ctx, c, s).error)
    ensures CheckStatement(ctx, c, s).Ok? && t0.mode.Ended? ==> t == t0 && r == Err(Disconnected)
    ensures CheckStatement(ctx, c, s).Ok? && !t0.mode.Ended? ==>
              var rest := t0.meta.query.rows[Start(t0)..];
              && t.mode == Idle
              && (fixed && t0.meta.query.fails ==> r == Err(StepFailed))
              && (!(fixed && t0.meta.query.fails) ==> r == (if rest == [] then Ok(Errors.None) else Ok(Errors.Some(rest))))
  {
    t := t0;
    var acc: seq<Row> := [];
    var rows := t0.meta.query.rows;
    if CheckStatement(ctx, c, s).Err? || t0.mode.Ended? {
      var _, p := StepByClient(ctx, c, s, t0, 100, fixed);
      r := Err(p.error);
      return;
    }
    while true
      invariant Valid(t) && t.meta == t0.meta
      invariant t.mode.Idle? ==> t == t0 && acc == []
      invariant t.mode.Stepping? ==> Start(t0) <= t.mode.pos && acc == rows[Start(t0)..t.mode.pos]
      invariant !t.mode.Ended?
      decreases if t.mode.Stepping? then |rows| - t.mode.pos else |rows| + 1
    {
      var t1, p := StepByClient(ctx, c, s, t, 100, fixed);
      if p.Err? {
        t := t1;
        r := Err(p.error);
        return;
      }
      if p.value.Finished? {
        assert acc == rows[Start(t0)..] by {
          if t.mode.Idle? {
            assert Start(t0) == 0 == |rows|;
          }
        }
        t := t1;
        break;
      }
      Slices(rows, Start(t0), Start(t), Start(t) + |p.value.rows|);
      acc := acc + p.value.rows;
      t := t1;
    }
    r := if acc == [] then Ok(Errors.None) else Ok(Errors.Some(acc));
  }

  lemma Slices<T>(s: seq<T>, i: nat, j: nat, k: nat)
    requires i <= j <= k <= |s|
    ensures s[i..j] + s[j..k] == s[i..k]
  {
  }
}

=== FILE: statement_walk.dfy ===
/**
 * Calls on one statement in sequence: reading every row over a server
 * whose replies are scripted (the batches it sends, then the end of the
 * rows), and what is left after asking for more results.
 */
module StatementWalk {
  import opened Errors
  import opened Ints
  import opened SQLiteValue
  import opened Remote
  import opened Connection
  import opened Statement

  /**
   * One `consumeRow()` over a scripted server: with no row buffered and no
   * row left in the batches `bs`, it answers `null` and exhausts the
   * statement with the change count `n`, reading the whole script;
   * otherwise it answers the next row in order, and what is left of the
   * server's script is the script of the remaining batches `left`.
   */
  method ConsumeScripted(c: Conn, s: Stmt, ghost bs: seq<seq<seq<Value>>>, n: int64, rest: seq<Reply>)
    returns (o: After<Option<seq<Value>>>, ghost left: seq<seq<seq<Value>>>)
    requires Attached(c, s) && s.open && !IsClosed(c.session, s.handle)
    requires Writable(c.session.codec, bs)
    requires c.session.server.replies == Script(c.session.codec, bs, n) + rest
    ensures Attached(o.conn, o.stmt) && Follows(c, o.conn)
    ensures s.buffer == [] && Flatten(bs) == [] ==>
              && o.r == Ok(None) && o.stmt.exhausted && o.stmt.buffer == [] && o.stmt.updateCount == n
              && o.conn.session.server.replies == rest
    ensures s.buffer != [] || Flatten(bs) != [] ==>
              && o.r.Ok? && o.r.value.Some?
              && [o.r.value.value] + (o.stmt.buffer + Flatten(left)) == s.buffer + Flatten(bs)
              && o.stmt.open && o.stmt.handle == s.handle && !IsClosed(o.conn.session, s.handle)
              && Writable(c.session.codec, left)
              && o.conn.session.server.replies == Script(c.session.codec, left, n) + rest
              && (|o.conn.session.server.replies| < |c.session.server.replies|
                  || (o.conn == c && |o.stmt.buffer| < |s.buffer|))
  {
    ScanScript(c.session.codec, bs, n, rest);
    ghost var f := Scan(c.session.codec, c.session.server.replies);
    o := ConsumeRow(c, s);
    left := bs;
    if s.buffer != [] {
      Assoc([o.r.value.value], o.stmt.buffer, Flatten(bs));
    } else if Flatten(bs) != [] {
      left := bs[f.used..];
      WritableSuffix(c.session.codec, bs, f.used);
      assert [o.r.value.value] + o.stmt.buffer == f.batch by {
        assert [f.batch[0]] + f.batch[1..] == f.batch;
      }
      Assoc([o.r.value.value], o.stmt.buffer, Flatten(left));
      assert s.buffer + Flatten(bs) == Flatten(bs);
    }
  }

  /**
   * Reading every row: over a server that answers the refill requests with
   * the batches `bs`, then with the end of the rows and the change count
   * `n`, repeated `consumeRow()` calls answer the rows already buffered,
   * then the rows of `bs` in order, and then `null`.  The statement is then
   * exhausted with `n` as its update count, and the replies after the
   * script are left unread.
   */
  method ConsumeAll(c: Conn, s: Stmt, bs: seq<seq<seq<Value>>>, n: int64, rest: seq<Reply>)
    returns (rows: seq<seq<Value>>, o: After<Option<seq<Value>>>)
    requires Attached(c, s) && s.open && !IsClosed(c.session, s.handle)
    requires Writable(c.session.codec, bs)
    requires c.session.server.replies == Script(c.session.codec, bs, n) + rest
    ensures rows == s.buffer + Flatten(bs)
    ensures o.r == Ok(None) && o.stmt.exhausted && o.stmt.buffer == [] && o.stmt.updateCount == n
    ensures o.conn.session.server.replies == rest
    ensures Attached(o.conn, o.stmt) && Follows(c, o.conn)
  {
    rows := [];
    var cur, st := c, s;
    ghost var left := bs;
    var done := false;
    LaterRefl(c.session);
    o := After(c, s, Ok(None));
    while !done
      invariant Attached(cur, st) && Follows(c, cur)
      invariant cur.session.codec == c.session.codec
      invariant !done ==>
                  && st.open && st.handle == s.handle && !IsClosed(cur.session, s.handle)
                  && Writable(c.session.codec, left)
                  && cur.session.server.replies == Script(c.session.codec, left, n) + rest
                  && rows + (st.buffer + Flatten(left)) == s.buffer + Flatten(bs)
      invariant done ==>
                  && rows == s.buffer + Flatten(bs)
                  && o.r == Ok(None) && o.stmt.exhausted && o.stmt.buffer == [] && o.stmt.updateCount == n
                  && o.conn.session.server.replies == rest
                  && o.conn == cur && o.stmt == st
      decreases if done then 0 else 1, |cur.session.server.replies|, |st.buffer|
    {
      var p;
      ghost var l;
      p, l := ConsumeScripted(cur, st, left, n, rest);
      FollowsJoin(c, cur, p.conn);
      if p.r.Ok? && p.r.value.Some? {
        Assoc(rows, [p.r.value.value], p.stmt.buffer + Flatten(l));
        rows := rows + [p.r.value.value];
        left := l;
      } else {
        done := true;
        o := p;
      }
      cur, st := p.conn, p.stmt;
    }
  }

  /**
   * `getMoreResults(CLOSE_CURRENT_RESULT)` and then the two calls that
   * look at the results: once it has succeeded there is no result set to
   * hand out, and asking for more results again answers `false` and
   * changes nothing.  Closing the result set may have closed the
   * statement with it, and then both calls throw.
   */
  method MoreResultsThen(c: Conn, s: Stmt) returns (m: After<bool>, g: After<bool>, again: After<bool>)
    requires Attached(c, s)
    ensures s.open && KeepsStatement(s) ==> m.r.Ok? && m.stmt.open
    ensures m.r.Ok? && m.stmt.open ==> g == After(m.conn, m.stmt, Ok(false)) && again == g
    ensures m.r.Ok? && !m.stmt.open ==>
              g == After(m.conn, m.stmt, Err(NotExecuting)) && again == g
    ensures m.r.Err? ==> g == m && again == m
  {
    m := GetMoreResults(c, s, CLOSE_CURRENT_RESULT);
    if m.r.Err? {
      return m, m, m;
    }
    g := GetResultSet(m.conn, m.stmt);
    again := GetMoreResults(m.conn, m.stmt, CLOSE_CURRENT_RESULT);
  }
}
